=== FILE: README.md ===
# A verified model of the tf-mcp-server core

tf-mcp-server is an MCP server. It gives an assistant tools for Terraform on Azure. It looks up AzureRM, AzAPI and Azure Verified Module documentation, runs `terraform`, `tflint` and `conftest`, and checks static security rules. It also audits how much of an Azure subscription or resource group a Terraform workspace covers.

This project models in Dafny the parts of the server that decide something, and proves what they promise. It leaves out process, network and file handling around them.

**Coverage audit** (`coverage_auditor.dfy`, modules `ResourceMatcher` and `CoverageAuditor`). This is the centre of the model.
- The state-detail index keeps only managed resources. It builds `type.name`, `type.name[n]` or `type.name["k"]` per instance and keeps only requested addresses.
- The matcher has an identifier index (lower-cased, trailing `/` trimmed, last write wins) and a name index (normalized local name to ordered candidates).
- Each Azure resource is matched by identifier (confidence high) or by name (`name`, `name_with_type_hint`, `name_ambiguous`, confidence medium), or else it is missing.
- Requested addresses that nothing matched are orphaned.
- The report computes coverage exactly, adds four recommendation rules in a fixed order, and gives every missing resource an `export_command` that names its resource id.
- The audit stops at the first failing step. A cleared include flag empties its list and zeroes that list's count, which can change the recommendations. It leaves the totals, the coverage and the matched list alone.
- The matcher is modelled both ways: as methods with the loops and dictionaries of the source, and as specification functions. Each method is proved to compute its function, and the properties are proved about the functions. These include a partition of the Azure resources into matched and missing, identifier priority, tie-breaks, and exact orphans. The code has no double-claim guard: the lemma `ResourceMatcher.SameAddressClaimedTwice` shows two Azure resources claiming one address.

**Other modules**, one per source file:
- `SupportChecker`: API-path canonicalization, case-insensitive entry lookup, AzureRM mappings without duplicates, and property support.
- `Utils`: ANSI escape removal (the ESC Fe and control-sequence forms of ECMA-48, sections 5.3 and 5.4), fenced-HCL extraction, diagnostics, Azure name validation, HCL block, variable and output rendering, and safe file names.
- `ConftestRunner` and `TflintRunner`: their configurations, command lines, output parsers and summary counts.
- `AzapiSchema`: the Bicep-type schema generator. It covers the `@` split, parent ids, HCL key order, the `parsing_stack` cycle guard, read-only properties, latest-version selection and schema lookup.
- `TerraformExecutor` and `TerraformValidator`: output cleaning, the Terraform error parser, argument lists, result dictionaries, and `execute_with_hcl_content`.
- `AzurermDocLines` and `AzurermDocsProvider`: the line-scanning state machines that read AzureRM documentation pages (summary, arguments, nested blocks, attributes, examples) and the URL fallback.
- `TerraformSchemaProvider`: provider inference, the probe configuration, schema extraction, item lists and the schema path walk.
- `GolangSourceProvider`: input validation, namespace resolution, and Go symbol and block index paths.
- `AvmDocsProvider`: module sources, the module table, version lists newest first, and version messages.
- `SecurityRules`, `BestPractices` and `AzapiDocsProvider`: the security checks, best-practice selection and formatting, and the AzAPI schema search.

Helper modules:
- `Text`: Python's `strip`, `split`, `lower`, `in` and `join` on strings.
- `Json`: a parsed JSON value.
- `Assoc`: insertion-ordered dictionaries, where the last write wins.
- `Order`: Python string order.
- `Wrappers`: `Option` and `Result`.

Subprocess runs, HTTP fetches and file reads are function-typed parameters, such as a `Runner` from files and arguments to a process outcome. A JSON decoder that can fail is a parameter returning `Option`.

## Model

| member | source | states |
|---|---|---|
| Utils.SkipParameters | src/tf_mcp_server/core/utils.py:27 | the `[0-?]*` part of the escape pattern: it stops at the first character outside `0`..`?` and everything it skips is in that range |
| Utils.SkipIntermediates | src/tf_mcp_server/core/utils.py:27 | the `[ -/]*` part of the escape pattern: it stops at the first character outside space..`/` and everything it skips is in that range |
| Utils.EscapeLength | src/tf_mcp_server/core/utils.py:27 | a match of the escape pattern starts with ESC, is at least two characters long and lies within the text |
| Utils.StripAnsi | src/tf_mcp_server/core/utils.py:27-28 | removing escape sequences never lengthens the text, and text without ESC is returned unchanged |
| Utils.StripAnsiEscapeSequences | src/tf_mcp_server/core/utils.py:13-28 | `None` comes back as `None`; a string comes back no longer than it was, and unchanged when it holds no ESC |
| Utils.AnsiKeepsPlainText | src/tf_mcp_server/core/utils.py:27-28 | an ESC-free prefix is kept verbatim in front of whatever the rest becomes |
| Utils.AnsiRemovesFe | src/tf_mcp_server/core/utils.py:27 | ESC followed by one character from `@` to `Z`, a backslash, `-` or `_` is deleted |
| Utils.AnsiRemovesControlSequence | src/tf_mcp_server/core/utils.py:27 | a whole control sequence (ESC `[`, parameter bytes, intermediate bytes, one final byte) is deleted |
| Utils.AnsiNotIdempotent | src/tf_mcp_server/core/utils.py:27-28 | one substitution pass is not a fixpoint: ESC ESC A B loses ESC A and leaves ESC B, which a second pass removes |
| Utils.ExtractHclFromMarkdown | src/tf_mcp_server/core/utils.py:39-67 | the line loop computes the fence scan of the split lines joined with newlines ("" for empty content) |
| Utils.HclScanSound | src/tf_mcp_server/core/utils.py:56-65 | every collected line is an input line that neither opens an `hcl`/`terraform` fence nor closes one; without an opening fence nothing is collected |
| Utils.HclScanBody | src/tf_mcp_server/core/utils.py:56-65 | after an opening hcl fence line, every body line is collected in order and the scan is still inside the block |
| Utils.HclRoundTrip | src/tf_mcp_server/core/utils.py:39-67 | a block wrapped in an opening hcl fence and a closing fence is extracted exactly, for body lines free of newlines and fence markers |
| Utils.DiagnosticMessage | src/tf_mcp_server/core/utils.py:88-103 | every diagnostic message starts with `Error: ` |
| Utils.DiagnosticMessagesExact | src/tf_mcp_server/core/utils.py:86-103 | one message per error diagnostic and none for the others: each starts with `Error: `, there are no more than diagnostics, and the list is empty iff no diagnostic is an error |
| Utils.ErrorMessagesOf | src/tf_mcp_server/core/utils.py:80-109 | a result that is not a dictionary gives no messages; a dictionary without `diagnostics` but with `error` gives the single `Validation error: ...` message |
| Utils.ExtractErrorMessages | src/tf_mcp_server/core/utils.py:70-109 | the diagnostics loop computes the message list of the result |
| Utils.NormalizeResourceType | src/tf_mcp_server/core/utils.py:112-126 | the normalized type holds no `_` and no upper-case letter |
| Utils.NormalizeResourceTypeIdempotent | src/tf_mcp_server/core/utils.py:112-126 | normalizing twice gives the same as normalizing once |
| Utils.ValidateAzureNameAsWritten | src/tf_mcp_server/core/utils.py:129-170 | the check as written, with Python's `$` (which also matches before a final newline): the empty name gives exactly the empty-name error |
| Utils.TrailingNewlineAccepted | src/tf_mcp_server/core/utils.py:154-162 | as written, `web\n` passes for a resource group and `data\n` for a storage account, although a newline is not a name character |
| Utils.ValidateAzureName | src/tf_mcp_server/core/utils.py:129-170 | the check with whole-string matching: the empty name gives exactly the empty-name error |
| Utils.ValidNames | src/tf_mcp_server/core/utils.py:140-170 | a name passes iff it has 1 to 80 letters, digits, `-` or `_`, and for a storage account at most 24 lower-case letters or digits, for a Key Vault at most 24 letters, digits or `-` |
| Utils.MatchesAgree | src/tf_mcp_server/core/utils.py:154 | on text without a newline, a match anchored by `$` and a whole-string match agree |
| Utils.ValidationAgreesWithoutNewline | src/tf_mcp_server/core/utils.py:140-170 | on names without a newline the as-written and the corrected checks give the same errors |
| Utils.Repeat | src/tf_mcp_server/core/utils.py:187 | `"  " * indent` has `indent` times the length of the unit |
| Utils.AttributeLines | src/tf_mcp_server/core/utils.py:190-212 | each attribute starts with `<indent>  key = `; a non-dictionary value takes one line; a boolean is written `true`/`false` |
| Utils.BlockShape | src/tf_mcp_server/core/utils.py:187-215 | the block text starts with its `resource "<type>" "<name>" {` header and ends with `}`, both at the indent |
| Utils.FormatTerraformBlock | src/tf_mcp_server/core/utils.py:173-215 | the attribute loop computes the block's lines joined with newlines |
| Utils.RuleLines | src/tf_mcp_server/core/utils.py:248-250 | each validation rule contributes two lines |
| Utils.VariableLines | src/tf_mcp_server/core/utils.py:230-254 | a variable block opens with `variable "<name>" {`, ends with `}` and a blank line, and has one line per present key (two plus two per rule for `validation`) |
| Utils.GenerateTerraformVariables | src/tf_mcp_server/core/utils.py:218-256 | the loop computes the variables' lines joined with newlines |
| Utils.OutputLines | src/tf_mcp_server/core/utils.py:271-284 | an output block opens with `output "<name>" {`, ends with `}` and a blank line, and has one line per present key |
| Utils.RenderedLineCounts | src/tf_mcp_server/core/utils.py:228-286 | each variable and each output contributes at least three lines |
| Utils.GenerateTerraformOutputs | src/tf_mcp_server/core/utils.py:259-286 | the loop computes the outputs' lines joined with newlines |
| Utils.ReplaceUnsafe | src/tf_mcp_server/core/utils.py:300 | the substitution keeps the length, leaves none of the nine unsafe characters behind, and changes nothing in a safe name |
| Utils.SafeFilename | src/tf_mcp_server/core/utils.py:289-306 | the result is never empty, holds no unsafe character and does not end in `.` or a space |
| Utils.SafeFilenameIdempotent | src/tf_mcp_server/core/utils.py:289-306 | making a safe name safe again changes nothing |
| ConftestRunner.ExceptionBodyShape | src/tf_mcp_server/tools/conftest_avm_runner.py:420-446 | each exception body is a Rego file of package `avmsec` ending in `rules = rules_below_<level>` and `}` |
| ConftestRunner.SeverityException | src/tf_mcp_server/tools/conftest_avm_runner.py:410-448 | the exception is non-empty exactly for `high`, `medium` and `low`, and then keeps only the rules below that level |
| ConftestRunner.Violations | src/tf_mcp_server/tools/conftest_avm_runner.py:466-483 | one violation per listed failure or warning |
| ConftestRunner.Iterated | src/tf_mcp_server/tools/conftest_avm_runner.py:462-466 | `for` over a decoded value: a list yields its items, a dict its keys and a string its characters (as strings); `None`, booleans and numbers raise `'<type>' object is not iterable` |
| ConftestRunner.DictItems | src/tf_mcp_server/tools/conftest_avm_runner.py:466-472 | iterating and calling `get` succeeds exactly for a list of dicts, an empty dict or an empty string, and then yields only dicts; non-iterables raise their message |
| ConftestRunner.ListedItems | src/tf_mcp_server/tools/conftest_avm_runner.py:466 | a missing key iterates the default `[]`; a present one iterates its value |
| ConftestRunner.ResultViolations | src/tf_mcp_server/tools/conftest_avm_runner.py:462-483 | a result that is not a dict raises `'<type>' object has no attribute 'get'`; otherwise it parses exactly when its failures and warnings do, one violation per item, and a failing `failures` raises first |
| ConftestRunner.ConftestViolationsOk | src/tf_mcp_server/tools/conftest_avm_runner.py:462-483 | the parse succeeds exactly when every result parses |
| ConftestRunner.ConftestErrorPersists | src/tf_mcp_server/tools/conftest_avm_runner.py:462-483 | the exception of a prefix of the results is the exception of the whole parse |
| ConftestRunner.CollectViolations | src/tf_mcp_server/tools/conftest_avm_runner.py:466-483 | the inner loop appends exactly the violations of the listed items, in order |
| ConftestRunner.ResultViolationsOf | src/tf_mcp_server/tools/conftest_avm_runner.py:462-483 | the loop body for one result computes its violations or the exception it raises, failures before warnings |
| ConftestRunner.ParseConftestOutput | src/tf_mcp_server/tools/conftest_avm_runner.py:450-485 | the outer loop concatenates every result's violations in order, or stops with the first exception raised |
| ConftestRunner.CountLevel | src/tf_mcp_server/tools/conftest_avm_runner.py:360-361 | a level count never exceeds the number of violations |
| ConftestRunner.CountLevelConcat | src/tf_mcp_server/tools/conftest_avm_runner.py:360-361 | level counts add up over concatenated violation lists |
| ConftestRunner.CountLevelsAdd | src/tf_mcp_server/tools/conftest_avm_runner.py:359-361 | failures plus warnings is the total, since every violation has one of the two levels |
| ConftestRunner.CountViolations | src/tf_mcp_server/tools/conftest_avm_runner.py:466-483 | the violations built for one level all count under that level and none under the other |
| ConftestRunner.ConftestCounts | src/tf_mcp_server/tools/conftest_avm_runner.py:359-361 | when parsing succeeds, the summary counts exactly the listed failures and warnings |
| ConftestRunner.ParseConftestTextOutput | src/tf_mcp_server/tools/conftest_avm_runner.py:487-511 | the line loop computes the text violations of the split output |
| ConftestRunner.TextViolationsSound | src/tf_mcp_server/tools/conftest_avm_runner.py:500-509 | at most one violation per line; each message is a non-blank stripped line mentioning FAIL or WARN, and it is a failure exactly when the line mentions FAIL |
| ConftestRunner.SummaryOf | src/tf_mcp_server/tools/conftest_avm_runner.py:359-361 | failures plus warnings equals the total, which is the number of violations |
| ConftestRunner.ConftestCommand | src/tf_mcp_server/tools/conftest_avm_runner.py:292-340 | the command starts with `test --all-namespaces -p <policy path>`, ends with `--output json <plan file>`, and has two more words per custom policy and for the exception file |
| ConftestRunner.PolicyFlags | src/tf_mcp_server/tools/conftest_avm_runner.py:324-326 | every custom policy becomes a `-p <policy>` pair, in order |
| ConftestRunner.ExceptionContent | src/tf_mcp_server/tools/conftest_avm_runner.py:319-321 | an exception is written only for the `avmsec` set with a severity filter |
| ConftestRunner.BuildCommand | src/tf_mcp_server/tools/conftest_avm_runner.py:292-340 | the `extend` calls build exactly the command described above |
| ConftestRunner.ValidateWithAvmPolicies | src/tf_mcp_server/tools/conftest_avm_runner.py:252-397 | blank plan JSON is refused with its message; every summary adds up to its violations; exactly the reports without an error echo the policy set (also as `policy_set_used`), the severity filter and the total; a parse that raises becomes `Error running conftest: ` and the ANSI-stripped message |
| ConftestRunner.RunOutcome | src/tf_mcp_server/tools/conftest_avm_runner.py:343-383 | once output parses, success means exit code 0, there is no error, the violations are the parsed ones, JSON output is summarised by its failure and warning totals, `command_output` is the cleaned stdout exactly for a failed run with output, and `command_error` is the cleaned stderr when anything is left of it |
| ConftestRunner.ParseErrorReported | src/tf_mcp_server/tools/conftest_avm_runner.py:392-397 | a parse that raises a message without escape sequences is reported as `Error running conftest: ` and that message, with no violations |
| ConftestRunner.NonIterableOutputRejected | src/tf_mcp_server/tools/conftest_avm_runner.py:352-355 | a document that decodes to `null`, a boolean or a number is reported as `Error running conftest: '<type>' object is not iterable` |
| ConftestRunner.NullFailuresRejected | src/tf_mcp_server/tools/conftest_avm_runner.py:462-466 | a result with `"failures": null` turns the whole run into `Error running conftest: 'NoneType' object is not iterable`, whatever later results hold |
| TflintRunner.TflintConfig | src/tf_mcp_server/tools/tflint_runner.py:38-63 | the configuration always enables the `terraform` plugin and holds the `azurerm` plugin block exactly when the Azure plugin is enabled |
| TflintRunner.RuleFlags | src/tf_mcp_server/tools/tflint_runner.py:144-150 | every rule becomes a flag and rule pair, in order |
| TflintRunner.TflintCommand | src/tf_mcp_server/tools/tflint_runner.py:141-154 | the command is `tflint --format <format>`, then one `--enable-rule` pair per enabled rule, one `--disable-rule` pair per disabled rule, then the tail |
| TflintRunner.BuildTflintCommand | src/tf_mcp_server/tools/tflint_runner.py:433-446 | the `extend` calls of both lint operations build exactly that command |
| TflintRunner.SummaryOf | src/tf_mcp_server/tools/tflint_runner.py:273-281 | every issue is counted once in the total and once under exactly one severity |
| TflintRunner.SummaryCounts | src/tf_mcp_server/tools/tflint_runner.py:273-281 | the error and warning counters count the issues of that severity; every other issue is a notice |
| TflintRunner.ParseTflintOutput | src/tf_mcp_server/tools/tflint_runner.py:229-295 | the method computes the report of the run: a failure for exit codes other than 0 and 2, otherwise the decoded issues and their summary |
| TflintRunner.CountIssues | src/tf_mcp_server/tools/tflint_runner.py:273-281 | the counting loop computes the summary of the issues |
| TflintRunner.LintOutcome | src/tf_mcp_server/tools/tflint_runner.py:240-295 | a run succeeds exactly on exit codes 0 and 2; a failed run has a non-empty error, no issues and a zero summary; the total always equals the number of issues |
| TflintRunner.LintContentGuard | src/tf_mcp_server/tools/tflint_runner.py:88-99 | blank content is refused with `No HCL content provided`, and only blank content is |
| TflintRunner.LintWorkspaceGuard | src/tf_mcp_server/tools/tflint_runner.py:321-333 | a blank folder is refused with `No workspace folder provided`, and only a blank folder is |
| TerraformExecutor.RemoveControls | src/tf_mcp_server/core/terraform_executor.py:690-691 | only characters of the text survive, none of them a C0/C1 control other than TAB, LF and CR, and text without controls is unchanged |
| TerraformExecutor.ReplaceAllChars | src/tf_mcp_server/core/terraform_executor.py:694-701 | after the entity replacements every character comes from the text or from a replacement |
| TerraformExecutor.MapChars | src/tf_mcp_server/core/terraform_executor.py:704-724 | the one-character replacements keep the length, and every character comes from the text or is a stand-in |
| TerraformExecutor.CleanOutput | src/tf_mcp_server/core/terraform_executor.py:672-726 | the method's four passes (escapes, controls, entities, box drawing) compute the cleaned text |
| TerraformExecutor.MapCharsRemoves | src/tf_mcp_server/core/terraform_executor.py:723-724 | when every stand-in lies below the replaced characters, none of the replaced characters is left |
| TerraformExecutor.CleanOutputIsPlain | src/tf_mcp_server/core/terraform_executor.py:682-726 | cleaned output holds no control character other than TAB, LF and CR, and none of the seventeen box-drawing characters |
| TerraformExecutor.BoxDrawingIsAboveAscii | src/tf_mcp_server/core/terraform_executor.py:704-722 | every box-drawing character is outside ASCII and every stand-in inside it |
| TerraformExecutor.EntitiesReplacedOnce | src/tf_mcp_server/core/terraform_executor.py:694-701 | the entities are replaced in one pass in a fixed order, so `&amp;lt;` ends as `&lt;`, not `<` |
| TerraformExecutor.JsonPass | src/tf_mcp_server/core/terraform_executor.py:797-803 | at most one message per line, and the pass fails exactly when some line starting with `{` does not decode |
| TerraformExecutor.JsonPassPlainText | src/tf_mcp_server/core/terraform_executor.py:798-803 | lines that do not start with `{` add nothing to the JSON pass |
| TerraformExecutor.TextPass | src/tf_mcp_server/core/terraform_executor.py:806-825 | the text pass, with the corrected branch order (see Findings), keeps every collected block well formed |
| TerraformExecutor.TextBlocks | src/tf_mcp_server/core/terraform_executor.py:806-825 | every error block of the corrected text pass opens with `Error:` and holds no closing marker |
| TerraformExecutor.ErrorLineOpensBlock | src/tf_mcp_server/core/terraform_executor.py:811-816 | a lone `Error:` line opens a block holding just that line, as written and corrected |
| TerraformExecutor.CloseMarkerLine | src/tf_mcp_server/core/terraform_executor.py:811-822 | the closing marker line survives stripping, is not blank and does not open a block |
| TerraformExecutor.ClosingMarkerKeptAsWritten | src/tf_mcp_server/core/terraform_executor.py:817-822 | as written, the `elif line and current_error` branch catches the closing marker first, so it ends up as the last line of its error block |
| TerraformExecutor.ClosingMarkerEndsBlock | src/tf_mcp_server/core/terraform_executor.py:819-821 | with the closing branch tested first, the marker ends the block and is not part of it |
| TerraformExecutor.JoinBlocks | src/tf_mcp_server/core/terraform_executor.py:813-825 | one message per error block |
| TerraformExecutor.TerraformErrors | src/tf_mcp_server/core/terraform_executor.py:780-831 | empty stderr gives no errors, and stderr that is not blank always gives at least one; text blocks end at the closing marker, per the corrected order. The validator's `_parse_terraform_errors` (src/core/terraform_validator.py:243-294) is the same code. |
| TerraformExecutor.PlainStderrIsOneError | src/tf_mcp_server/core/terraform_executor.py:797-829 | with no line starting with `{` the JSON pass finds nothing and the text pass never runs, so the only error is the stripped stderr. This holds for the validator's copy too. |
| TerraformExecutor.DecodedLinesGiveMessages | src/tf_mcp_server/core/terraform_executor.py:796-829 | when every `{` line decodes, the text pass never runs: the errors are the error records' messages, or the stripped stderr when there are none |
| TerraformExecutor.ScanJsonLines | src/tf_mcp_server/core/terraform_executor.py:797-804 | the loop, left at the first decoding failure, computes the JSON pass |
| TerraformExecutor.JsonPassStaysFailed | src/tf_mcp_server/core/terraform_executor.py:800-804 | once a line has failed to decode, the remaining lines change nothing |
| TerraformExecutor.ParseTerraformErrors | src/tf_mcp_server/core/terraform_executor.py:780-831 | the method computes `TerraformErrors` of the stderr |
| TerraformExecutor.AppendJoined | src/tf_mcp_server/core/terraform_executor.py:812-825 | each collected block is appended as its lines joined with newlines |
| TerraformExecutor.ParseTextBlocks | src/tf_mcp_server/core/terraform_executor.py:807-825 | the `current_error` loop, with the closing branch tested first, computes the blocks of the text pass |
| TerraformExecutor.PlanArgs | src/tf_mcp_server/core/terraform_executor.py:187-190 | `plan -no-color -detailed-exitcode`, followed by the `-var-file` pair exactly when a file is given. The validator's plan (src/core/terraform_validator.py:185-190) builds the same list. |
| TerraformExecutor.InitArgs | src/tf_mcp_server/core/terraform_executor.py:206-208 | `init -no-color`, with `-upgrade` present exactly when requested. The validator's init (src/core/terraform_validator.py:202) is this list without `-upgrade`. |
| TerraformExecutor.ApprovingArgs | src/tf_mcp_server/core/terraform_executor.py:224-253 | `apply`/`destroy -no-color`; the third word is `-auto-approve` exactly when requested; the `-var-file` pair comes last when a file is given |
| TerraformExecutor.RefreshArgs | src/tf_mcp_server/core/terraform_executor.py:269-272 | `refresh -no-color`, then the `-var-file` pair exactly when a file is given |
| TerraformExecutor.ShowArgs | src/tf_mcp_server/core/terraform_executor.py:288-291 | `show -no-color`, then the state file when one is given |
| TerraformExecutor.OutputArgs | src/tf_mcp_server/core/terraform_executor.py:308-314 | `output -no-color`, then `-json` when asked for, then the output's name when given |
| TerraformExecutor.BuildPlanArgs | src/tf_mcp_server/core/terraform_executor.py:187-190 | the list built by `extend` is the plan arguments |
| TerraformExecutor.BuildInitArgs | src/tf_mcp_server/core/terraform_executor.py:206-208 | the list built by `append` is the init arguments |
| TerraformExecutor.BuildApprovingArgs | src/tf_mcp_server/core/terraform_executor.py:224-253 | the lists built by `apply_terraform` and `destroy_terraform` are the approving arguments |
| TerraformExecutor.BuildRefreshArgs | src/tf_mcp_server/core/terraform_executor.py:269-272 | the list built is the refresh arguments |
| TerraformExecutor.BuildShowArgs | src/tf_mcp_server/core/terraform_executor.py:288-291 | the list built is the show arguments |
| TerraformExecutor.BuildOutputArgs | src/tf_mcp_server/core/terraform_executor.py:308-314 | the list built is the output arguments |
| TerraformExecutor.RunResult | src/tf_mcp_server/core/terraform_executor.py:728-778 | the status is `success` exactly for exit code 0; the command is `terraform` and the arguments joined by spaces; a raised exception gives exit code -1, empty stdout and the message as stderr |
| TerraformExecutor.CleanedResultIsPlain | src/tf_mcp_server/core/terraform_executor.py:756-760 | with cleaning on, neither stream of a finished process holds a control or box-drawing character |
| TerraformExecutor.RunTerraformCommand | src/tf_mcp_server/core/terraform_executor.py:728-778 | the method returns the result of the runner's outcome |
| TerraformExecutor.UnwrapOutput | src/tf_mcp_server/core/terraform_executor.py:327-330 | an entry that is a dictionary with `value` becomes that value; anything else stays as it is |
| TerraformExecutor.UnwrapAllPointwise | src/tf_mcp_server/core/terraform_executor.py:322-330 | the outputs keep their names and order, each value unwrapped on its own |
| TerraformExecutor.UnwrapOutputs | src/tf_mcp_server/core/terraform_executor.py:324-330 | the loop over `raw_outputs.items()` unwraps every output |
| TerraformExecutor.WithOutputs | src/tf_mcp_server/core/terraform_executor.py:318-338 | only `outputs` may change, and only for a successful `-json` run with output: the unwrapped outputs, or `None` when the output does not decode |
| TerraformExecutor.OutputTerraform | src/tf_mcp_server/core/terraform_executor.py:295-338 | the method returns the run of the output arguments with the outputs entry added |
| TerraformExecutor.HclToWrite | src/tf_mcp_server/core/terraform_executor.py:422-425 | the HCL written is the content or its fenced HCL, and the content itself when there is no fenced HCL |
| TerraformExecutor.WorkFiles | src/tf_mcp_server/core/terraform_executor.py:431-440 | `main.tf` holds the HCL to write, and `terraform.tfvars` exists exactly when variables were given |
| TerraformExecutor.ExecuteResult | src/tf_mcp_server/core/terraform_executor.py:408-480 | the status agrees with the exit code, and an unsupported command gives the `Unsupported command` error result |
| TerraformExecutor.ValidateInitsFirst | src/tf_mcp_server/core/terraform_executor.py:451-456 | `validate` runs `init` first and returns its result when it fails, and otherwise the result of `terraform validate` |
| TerraformExecutor.VarFileIffVariables | src/tf_mcp_server/core/terraform_executor.py:436-450 | `plan`, `apply` and `destroy` run with `-var-file terraform.tfvars` at the end exactly when variables were given |
| TerraformExecutor.ExecuteWithHclContent | src/tf_mcp_server/core/terraform_executor.py:408-480 | the method's dispatch computes the result of the specification |
| TerraformExecutor.Validation | src/tf_mcp_server/core/terraform_executor.py:81-136 | blank HCL is refused without running Terraform; otherwise the result is valid exactly when `terraform validate` exits with 0, names the file in the temporary directory, and a failure carries the parsed stderr |
| TerraformExecutor.BlankHclNeverRuns | src/tf_mcp_server/core/terraform_executor.py:92-97 | for blank HCL the result does not depend on what Terraform would do, and is never valid |
| TerraformValidator.RunOutputOf | src/core/terraform_validator.py:204-241 | the runner's dictionary is the executor's run result with cleaning switched off: exit code, raw stdout and stderr, and the joined `terraform ...` command; a process that raised gives exit code -1 and its message as stderr |
| TerraformValidator.ValidateHcl | src/core/terraform_validator.py:80-127 | blank content is refused with the single error `Empty HCL content provided` and the given file name; otherwise the result is valid exactly when `terraform validate` exits 0, names the file inside the temporary directory, and a failure carries the errors parsed from the raw stderr |
| TerraformValidator.FailureWithStderrHasErrors | src/core/terraform_validator.py:243-294 | a failed validation whose stderr is not blank reports at least one error, because the parser falls back to the stripped stderr |
| SecurityRules.RuleIdsDistinct | src/tools/security_rules.py:55-94 | the six rules `AZURE_001` to `AZURE_006` carry pairwise distinct identifiers |
| SecurityRules.BlobEncryptionMentionsEncryption | src/tools/security_rules.py:102 | a configuration that mentions `enable_blob_encryption` mentions `encryption`, so the first half of the encryption test adds nothing |
| SecurityRules.CheckEncryption | src/tools/security_rules.py:96-111 | at most one `AZURE_001` finding, reported exactly when a storage account occurs and `encryption` does not |
| SecurityRules.CheckNetworkSecurity | src/tools/security_rules.py:113-128 | at most one `AZURE_002` finding, reported exactly when a security rule, a quoted `*` and a source or destination address prefix all occur |
| SecurityRules.CheckAccessControl | src/tools/security_rules.py:130-145 | at most one `AZURE_003` finding, reported exactly when a Key Vault occurs without `access_policy` |
| SecurityRules.CheckStorageSecurity | src/tools/security_rules.py:147-162 | at most one `AZURE_004` finding, reported exactly when a storage container occurs with access type `blob` or `container` |
| SecurityRules.FirstPresent | src/tools/security_rules.py:176-177 | the index of the first listed resource that occurs in the text, or -1 when none does |
| SecurityRules.MonitoringFindings | src/tools/security_rules.py:164-187 | at most one `AZURE_006` finding, reported exactly when no diagnostic setting occurs and some monitored resource does; it names the first monitored resource, in list order, that occurs |
| SecurityRules.CheckMonitoring | src/tools/security_rules.py:164-187 | the loop over the monitored resources, which stops at the first report, yields exactly the monitoring findings |
| SecurityRules.AppendRule | src/tools/security_rules.py:34-38 | appending a rule's findings after findings of lower rules keeps the rules in increasing order |
| SecurityRules.JoinedInRuleOrder | src/tools/security_rules.py:34-38 | five lists of at most one finding each, joined in rule order, give at most five findings in increasing rule order and never the tagging rule |
| SecurityRules.AllFindingsOrdered | src/tools/security_rules.py:34-38 | the scan reports at most five findings, in rule order, never `AZURE_005` |
| SecurityRules.ValidateSecurity | src/tools/security_rules.py:16-53 | six checks in total, none skipped; failed checks are the findings, passed checks the rest; the findings are those of the extracted HCL, and the summary states the two counts |
| SecurityRules.ScanBounds | src/tools/security_rules.py:40-43 | at least one check always passes (between one and six), at most five fail, and no finding carries `AZURE_005` |
| AzapiDocsProvider.FirstMatch | src/tools/azapi_docs_provider.py:61-71 | the position of the first schema key that holds the query case-insensitively, or none when no key does |
| AzapiDocsProvider.SearchSchema | src/tools/azapi_docs_provider.py:55-71 | an empty schema gives `{}`; a loaded value that is not a dictionary raises the `items` attribute error; otherwise the first matching member's definition and key, or `{}` |
| AzapiDocsProvider.MatchIgnoresCase | src/tools/azapi_docs_provider.py:64-66 | two spellings of the query that lower-case alike find the same member |
| AzapiDocsProvider.EmptyQueryMatchesFirst | src/tools/azapi_docs_provider.py:64-66 | the empty query matches the first key of a non-empty schema |
| AzapiDocsProvider.KeyHoldingQueryMatches | src/tools/azapi_docs_provider.py:64-66 | a key that contains the query as written matches it |
| AzapiDocsProvider.VersionOrLatest | src/tools/azapi_docs_provider.py:40 | the reported version is never empty and is the given one whenever one is given |
| AzapiDocsProvider.OnlineDocs | src/tools/azapi_docs_provider.py:73-101 | a 200 answer gives the REST documentation entry; another status or a request that raised gives the fallback entry; both name the resource type and the version or `latest` |
| AzapiDocsProvider.SearchAzapiProviderDocs | src/tools/azapi_docs_provider.py:18-53 | a local hit is reported with its schema and the `azapi_schemas.json` source; no hit goes online; a search that raised becomes an error entry with the raw version |
| AzapiSchema.NameRoundTrip | src/tf_mcp_server/core/azapi_schema_generator.py:87-93 | a name without `@` is all resource type with an empty API version; `type@version` splits back into its type and version, and they rejoin to the name |
| AzapiSchema.ParentId | src/tf_mcp_server/core/azapi_schema_generator.py:95-104 | a top-level type scoped to a resource group or a subscription has the resource-group type as parent; one of any other scope has no parent id |
| AzapiSchema.GetAzapiParent | src/tf_mcp_server/core/azapi_schema_generator.py:551-556 | a top-level type defaults to the resource-group parent |
| AzapiSchema.NestedParent | src/tf_mcp_server/core/azapi_schema_generator.py:95-99 | a nested type's parent id, in every scope, equals `get_azapi_parent` and is the type without its last segment |
| AzapiSchema.KeyRank | src/tf_mcp_server/core/azapi_schema_generator.py:127-136 | the rank of `key_fn` is 9999 exactly for `tags` |
| AzapiSchema.KeyTotal | src/tf_mcp_server/core/azapi_schema_generator.py:127-138 | the `key_fn` order compares every two keys |
| AzapiSchema.KeyTransitive | src/tf_mcp_server/core/azapi_schema_generator.py:127-138 | the `key_fn` order is transitive |
| AzapiSchema.InsertPermutes | src/tf_mcp_server/core/azapi_schema_generator.py:138 | inserting into the sorted keys adds the new element and loses nothing |
| AzapiSchema.InsertBounded | src/tf_mcp_server/core/azapi_schema_generator.py:138 | a lower bound of the new element and of the sorted keys bounds the result |
| AzapiSchema.InsertSorted | src/tf_mcp_server/core/azapi_schema_generator.py:138 | inserting into a sorted list by `key_fn` keeps it sorted and is a permutation |
| AzapiSchema.SortByKeySorts | src/tf_mcp_server/core/azapi_schema_generator.py:138 | `sorted(data.keys(), key=key_fn)` orders its input by `key_fn` and is a permutation of it |
| AzapiSchema.Emitted | src/tf_mcp_server/core/azapi_schema_generator.py:140-142 | the rendered entries are exactly those whose key does not start with `__`, drawn from the object |
| AzapiSchema.Pad | src/tf_mcp_server/core/azapi_schema_generator.py:147 | `" " * n` has length n, or 0 for a negative n |
| AzapiSchema.TagsLast | src/tf_mcp_server/core/azapi_schema_generator.py:134-138 | in a list sorted by `key_fn`, nothing but `tags` follows `tags` |
| AzapiSchema.ObjectEntries | src/tf_mcp_server/core/azapi_schema_generator.py:121-147 | an object's rendered members skip the `__` keys, keep every other member exactly once, are sorted by rank then key, and end with `tags` |
| AzapiSchema.ValueRendering | src/tf_mcp_server/core/azapi_schema_generator.py:123-161 | a string is quoted, a boolean is `true`/`false` (never a number), an empty list is `[]`, and an object is a `{` block closed by `}` |
| AzapiSchema.AsDocumentation | src/tf_mcp_server/core/azapi_schema_generator.py:106-119 | the document starts with the `# Resource Type:` heading naming the schema and ends by closing the resource block and the `hcl` fence |
| AzapiSchema.IntValue | src/tf_mcp_server/core/azapi_schema_generator.py:274 | a flags or scope value is an integer for `&` when it is an int or a bool; anything else raises |
| AzapiSchema.PyIndex | src/tf_mcp_server/core/azapi_schema_generator.py:242 | `types[index]` with Python's negative indexing: defined exactly for indices from minus the length up to the length, and the element itself for a non-negative one |
| AzapiSchema.IndexOfType | src/tf_mcp_server/core/azapi_schema_generator.py:331-344 | the position of a referenced `$type` among the six named types of the description chain, the length exactly when it is none of them |
| AzapiSchema.DescribedText | src/tf_mcp_server/core/azapi_schema_generator.py:346 | a documented property's text starts with its requirement |
| AzapiSchema.FallbackText | src/tf_mcp_server/core/azapi_schema_generator.py:348-349 | a property whose flags or type could not be read is documented as optional |
| AzapiSchema.PropertyDoc | src/tf_mcp_server/core/azapi_schema_generator.py:306-349 | a property is left out exactly when its read-only bit is set |
| AzapiSchema.PropertyText | src/tf_mcp_server/core/azapi_schema_generator.py:316-349 | a documented property starts with `(Required)` or `(Optional)`; when it has flags and a describable type, it starts with `(Required)` exactly when its required bit is set |
| AzapiSchema.RequiredNeedsFlag | src/tf_mcp_server/core/azapi_schema_generator.py:317 | a property is documented as `(Required)` only when its required bit is set |
| AzapiSchema.PropertiesOf | src/tf_mcp_server/core/azapi_schema_generator.py:294-299 | the properties of an object type name each property once |
| AzapiSchema.PropertyStep | src/tf_mcp_server/core/azapi_schema_generator.py:295-299 | one iteration of the property loop keeps the names unique |
| AzapiSchema.PropertyStepKeys | src/tf_mcp_server/core/azapi_schema_generator.py:295-299 | one step adds the property's name exactly when the property is documented |
| AzapiSchema.PropertiesOfComplete | src/tf_mcp_server/core/azapi_schema_generator.py:294-299 | every documented property is listed under its name |
| AzapiSchema.PropertiesOfSource | src/tf_mcp_server/core/azapi_schema_generator.py:294-299 | every listed name comes from a documented property of that name |
| AzapiSchema.NestedParentDoc | src/tf_mcp_server/core/azapi_schema_generator.py:355-358 | a nested type's parent id text ends with the provider path of its parent |
| AzapiSchema.ParentIdDoc | src/tf_mcp_server/core/azapi_schema_generator.py:351-372 | a nested type names its parent's provider path; otherwise the lowest scope bit decides, bit 1 giving the tenant text |
| AzapiSchema.ScopeName | src/tf_mcp_server/core/azapi_schema_generator.py:247-254 | the scope is named exactly for the scope types 1, 2, 4, 8 and 16, and is `Unknown` otherwise |
| AzapiSchema.ScopeLocation | src/tf_mcp_server/core/azapi_schema_generator.py:247-274 | of the named scopes only the resource group carries bit 8 |
| AzapiSchema.SchemaProperties | src/tf_mcp_server/core/azapi_schema_generator.py:267-275 | the schema properties start with `type`, `parent_id` and `body`, and hold `location` exactly when scope bit 8 is set |
| AzapiSchema.ResourceTypeSchema | src/tf_mcp_server/core/azapi_schema_generator.py:239-281 | a parsed resource type carries its entry's name and starts with `type`, `parent_id` and `body`; a named scope has `location` exactly when it is the resource group; every exception becomes no schema |
| AzapiSchema.BicepTypesParser.constructor | src/tf_mcp_server/core/azapi_schema_generator.py:226-229 | a new parser holds the types table and an empty parsing stack |
| AzapiSchema.BicepTypesParser.GetResourceTypes | src/tf_mcp_server/core/azapi_schema_generator.py:231-237 | the loop lists exactly the resource type entries, in table order |
| AzapiSchema.BicepTypesParser.ParseObjectProperties | src/tf_mcp_server/core/azapi_schema_generator.py:283-304 | the index is pushed while its properties are read and popped afterwards, so the stack is unchanged, and the result is the object's properties |
| AzapiSchema.BicepTypesParser.ParseResourceType | src/tf_mcp_server/core/azapi_schema_generator.py:239-281 | the parser's stack is unchanged and the result is the resource type's schema |
| AzapiSchema.ResourceTypeEntries | src/tf_mcp_server/core/azapi_schema_generator.py:231-237 | every listed entry is a dictionary whose `$type` is `ResourceType`, listed with its name |
| AzapiSchema.LatestVersions | src/tf_mcp_server/core/azapi_schema_generator.py:199-203 | the `rt_versions` dict has one entry per lower-cased resource type, each drawn from the entries of that type, and every type is present |
| AzapiSchema.VersionStep | src/tf_mcp_server/core/azapi_schema_generator.py:201-203 | one iteration keeps the keys unique, adds the entry's key, and changes no other key |
| AzapiSchema.LatestVersionWins | src/tf_mcp_server/core/azapi_schema_generator.py:199-203 | the entry kept for a type has a version at least that of every entry of the type, and an entry with an equal version never comes before it |
| AzapiSchema.StepKeepsOther | src/tf_mcp_server/core/azapi_schema_generator.py:202-203 | a step for another type leaves this type's entry alone |
| AzapiSchema.StepKeepsOrReplaces | src/tf_mcp_server/core/azapi_schema_generator.py:202-203 | a step for a type already present keeps its entry or replaces it by a strictly newer one |
| AzapiSchema.StepAtOwnKey | src/tf_mcp_server/core/azapi_schema_generator.py:202-203 | after its own step an entry's type holds it or an earlier entry that is not older |
| AzapiSchema.Candidates | src/tf_mcp_server/core/azapi_schema_generator.py:200-201 | each resource type entry is grouped under its lower-cased type with its API version |
| AzapiSchema.SchemasOf | src/tf_mcp_server/core/azapi_schema_generator.py:206-213 | the schemas parsed from the kept entries are stored once each, under their own resource type |
| AzapiSchema.SchemasOfSource | src/tf_mcp_server/core/azapi_schema_generator.py:206-210 | every stored schema was parsed from one of the kept entries |
| AzapiSchema.FileSchemas | src/tf_mcp_server/core/azapi_schema_generator.py:195-213 | what one types file contributes is stored once per type, under its own resource type |
| AzapiSchema.Merge | src/tf_mcp_server/core/azapi_schema_generator.py:210 | assigning `schemas[k] = v` in order keeps the keys unique and every schema under its own type |
| AzapiSchema.AllSchemas | src/tf_mcp_server/core/azapi_schema_generator.py:181-220 | over all type files every schema is stored once, under its own resource type |
| AzapiSchema.KeptSchemaIsLatest | src/tf_mcp_server/core/azapi_schema_generator.py:199-210 | the schema kept for a type comes from an entry whose version no entry of that type exceeds |
| AzapiSchema.FileSchemaIsLatest | src/tf_mcp_server/core/azapi_schema_generator.py:195-210 | in a file whose resource names are strings, the schema kept for a type has an API version at least that of every entry of the type |
| AzapiSchema.ParseResourceSchemas | src/tf_mcp_server/core/azapi_schema_generator.py:181-220 | the walk over the decoded type files computes exactly the merged schemas |
| AzapiSchema.ParseTypesFile | src/tf_mcp_server/core/azapi_schema_generator.py:195-213 | the per-file body computes exactly that file's schemas |
| AzapiSchema.ParseKept | src/tf_mcp_server/core/azapi_schema_generator.py:206-213 | the second loop leaves the parsing stack empty and computes the schemas of the kept entries |
| AzapiSchema.SelectLatest | src/tf_mcp_server/core/azapi_schema_generator.py:199-203 | the first loop computes the `rt_versions` dict |
| AzapiSchema.MergeInto | src/tf_mcp_server/core/azapi_schema_generator.py:206-210 | the assignments into `schemas` compute the merge |
| AzapiSchema.SchemaDocs | src/tf_mcp_server/core/azapi_schema_generator.py:465-467 | every schema gets a document under the same key, headed by the schema's name |
| AzapiSchema.FirstFolded | src/tf_mcp_server/core/azapi_schema_generator.py:544-546 | the first key equal to the lower-cased query once lower-cased, or none when no key is |
| AzapiSchema.GetAzapiSchema | src/tf_mcp_server/core/azapi_schema_generator.py:536-548 | the exact key first, then the first key equal up to case, else the empty text |
| AzapiSchema.ExactKeyWins | src/tf_mcp_server/core/azapi_schema_generator.py:539-540 | an exact key wins even when another key equals it up to case |
| AzapiSchema.CaseInsensitiveLookup | src/tf_mcp_server/core/azapi_schema_generator.py:536-548 | when no two keys differ only in case, every spelling of a stored type finds that type's document |
| AzapiSchema.UnknownTypeEmpty | src/tf_mcp_server/core/azapi_schema_generator.py:548 | a type no key matches, even up to case, has no document |
| AzapiSchema.DigitsThen | src/tf_mcp_server/core/azapi_schema_generator.py:411 | `\d+` then a separator: a non-empty run of digits that, with the separator and the rest, rebuilds the text |
| AzapiSchema.VersionMatch | src/tf_mcp_server/core/azapi_schema_generator.py:411-417 | a name matching the version pattern starts with `azapi_schemas_v` |
| AzapiSchema.SchemaFileNameMatches | src/tf_mcp_server/core/azapi_schema_generator.py:400-417 | a file name the generator saves is recognised, with its three version numbers |
| AzapiSchema.LocalVersions | src/tf_mcp_server/core/azapi_schema_generator.py:412-417 | the versions list holds only the matched versions of globbed names, at most one per name |
| AzapiSchema.NewestVersion | src/tf_mcp_server/core/azapi_schema_generator.py:423-426 | a version is chosen exactly when there is one, and it is one of them |
| AzapiSchema.NewestIsFirstGreatest | src/tf_mcp_server/core/azapi_schema_generator.py:423-426 | the version chosen is a greatest by numeric key, and every version listed before it is smaller, as the stable reverse sort gives |
| AzapiSchema.LatestLocalVersion | src/tf_mcp_server/core/azapi_schema_generator.py:404-426 | the loop and sort return the newest matched version's text, or none when no name matches |
| AzurermDocLines.KeywordCI | src/tf_mcp_server/tools/azurerm_docs_provider.py:278 | a keyword matched without regard to ASCII case leaves exactly the text after it |
| AzurermDocLines.Spaces1 | src/tf_mcp_server/tools/azurerm_docs_provider.py:278 | `\s+` consumes at least one character and stops at the first non-whitespace one |
| AzurermDocLines.Backticked | src/tf_mcp_server/tools/azurerm_docs_provider.py:179-278 | a back-quoted group is non-empty, holds no back quote, and with its quotes and the rest rebuilds the text |
| AzurermDocLines.UpToNewline | src/tf_mcp_server/tools/azurerm_docs_provider.py:179 | `.` takes a prefix of the text that holds no line break |
| AzurermDocLines.AfterArticle | src/tf_mcp_server/tools/azurerm_docs_provider.py:278 | `(?:A\|An\|The)\s+` consumes at least one character |
| AzurermDocLines.BlockHeader | src/tf_mcp_server/tools/azurerm_docs_provider.py:278-285 | a block header's name holds no back quote |
| AzurermDocLines.BacktickItem | src/tf_mcp_server/tools/azurerm_docs_provider.py:367 | an item's back-quoted name is non-empty and holds no back quote |
| AzurermDocLines.ArgLine | src/tf_mcp_server/tools/azurerm_docs_provider.py:179-308 | an argument item is also a back-quoted item, and its name is that item's name stripped |
| AzurermDocLines.StrippedNeverIndented | src/tf_mcp_server/tools/azurerm_docs_provider.py:354-381 | the indented-item pattern is tried on a stripped line, so it never matches |
| AzurermDocLines.MarkerLength | src/tf_mcp_server/tools/azurerm_docs_provider.py:188-314 | a marker match lies within the text and is at least ten characters long |
| AzurermDocLines.RemoveMarkers | src/tf_mcp_server/tools/azurerm_docs_provider.py:188-314 | removing the markers never lengthens the text |
| AzurermDocLines.NoMarkerUnchanged | src/tf_mcp_server/tools/azurerm_docs_provider.py:188-314 | text without an opening parenthesis is left as it is |
| AzurermDocLines.ArgLineOf | src/tf_mcp_server/tools/azurerm_docs_provider.py:179-182 | an item written with a bullet, a back-quoted name, a dash and a description reads back as the stripped name and description |
| AzurermDocLines.BacktickItemOf | src/tf_mcp_server/tools/azurerm_docs_provider.py:367 | a bullet and a back-quoted name read back as that name and the text after it |
| AzurermDocLines.MarkerCleaned | src/tf_mcp_server/tools/azurerm_docs_provider.py:185-190 | a leading `(Required)` or `(Optional)` and the space after it are what cleaning removes, and the argument is required exactly when the marker is `(Required)` |
| AzurermDocLines.OptionalNotRequired | src/tf_mcp_server/tools/azurerm_docs_provider.py:185 | after a leading `(Optional)`, text without a parenthesis is not marked required |
| AzurermDocLines.BlockHeaderOf | src/tf_mcp_server/tools/azurerm_docs_provider.py:278-285 | a line `A`, `An` or `The`, a back-quoted name and `block supports the following:` opens the block of that name, stripped |
| AzurermDocLines.BlockHeaderWith | src/tf_mcp_server/tools/azurerm_docs_provider.py:278-285 | whatever follows the back-quoted name of a header does not change the name read |
| AzurermDocsProvider.PrimaryDir | src/tf_mcp_server/tools/azurerm_docs_provider.py:43-46 | the data-source directory is tried first exactly for the three data-source spellings of the document type |
| AzurermDocsProvider.FallbackDir | src/tf_mcp_server/tools/azurerm_docs_provider.py:52-57 | the fallback is always the other directory |
| AzurermDocsProvider.DataSourcePage | src/tf_mcp_server/tools/azurerm_docs_provider.py:44-77 | every page fetched from the data-source directory is read as a data source |
| AzurermDocsProvider.StripAll | src/tf_mcp_server/tools/azurerm_docs_provider.py:112-113 | stripping the lines keeps their number |
| AzurermDocsProvider.DescriptionBelow | src/tf_mcp_server/tools/azurerm_docs_provider.py:137-140 | a description found below a heading is one of the lines looked at and is prose: not empty and not a heading |
| AzurermDocsProvider.SummaryFrom | src/tf_mcp_server/tools/azurerm_docs_provider.py:112-141 | a summary found by the scan is one of the stripped lines from the start line on, and is prose |
| AzurermDocsProvider.DisplayName | src/tf_mcp_server/tools/azurerm_docs_provider.py:147 | `replace('_', ' ').title()` keeps the length, puts a space exactly where the type has an underscore or a space, and opens every word in upper case |
| AzurermDocsProvider.TitleWords | src/tf_mcp_server/tools/azurerm_docs_provider.py:147 | `title()` keeps the spaces where they are and opens every word in upper case |
| AzurermDocsProvider.Summary | src/tf_mcp_server/tools/azurerm_docs_provider.py:104-152 | the summary is a stripped prose line of the page or the default summary |
| AzurermDocsProvider.SummaryAfterFrontmatter | src/tf_mcp_server/tools/azurerm_docs_provider.py:116-132 | after frontmatter opened on the first line and closed later, a long prose line right below it is the summary |
| AzurermDocsProvider.InsideFrontmatter | src/tf_mcp_server/tools/azurerm_docs_provider.py:125-126 | lines inside the frontmatter other than `---` are skipped |
| AzurermDocsProvider.NoFrontmatterNoSummary | src/tf_mcp_server/tools/azurerm_docs_provider.py:112-141 | a page with neither frontmatter nor a description heading gets no summary from the scan |
| AzurermDocsProvider.ExtractSummary | src/tf_mcp_server/tools/azurerm_docs_provider.py:104-143 | the scan, returning at the first hit, computes the summary |
| AzurermDocsProvider.FirstProseBelow | src/tf_mcp_server/tools/azurerm_docs_provider.py:137-140 | the inner loop returns the first prose line among the four below the heading |
| AzurermDocsProvider.ParsedArgument | src/tf_mcp_server/tools/azurerm_docs_provider.py:179-206 | a line gives an argument exactly when it is an argument item; the argument carries the item's stripped name, and a block argument starts with an empty nested list |
| AzurermDocsProvider.ParsedArgumentOf | src/tf_mcp_server/tools/azurerm_docs_provider.py:179-206 | an item with a back-quoted name, a dash and a `(Required)` or `(Optional)` description reads back as that name and description, required exactly for `(Required)`, a block exactly when the text mentions a block |
| AzurermDocsProvider.View | src/tf_mcp_server/tools/azurerm_docs_provider.py:162-398 | what the three extractors read from one stripped line; an argument read from it is freshly made |
| AzurermDocsProvider.Views | src/tf_mcp_server/tools/azurerm_docs_provider.py:162-163 | the views of the lines, one per line, each freshly read |
| AzurermDocsProvider.PageViews | src/tf_mcp_server/tools/azurerm_docs_provider.py:162-354 | the views of a page's stripped lines hold only freshly read arguments |
| AzurermDocsProvider.ArgumentsFromLines | src/tf_mcp_server/tools/azurerm_docs_provider.py:162-209 | the argument scan only appends, and only arguments read from lines of the section |
| AzurermDocsProvider.NoSectionNoArguments | src/tf_mcp_server/tools/azurerm_docs_provider.py:166-177 | nothing is read before an Arguments Reference heading |
| AzurermDocsProvider.Attached | src/tf_mcp_server/tools/azurerm_docs_provider.py:215-217 | attaching changes only the nested list, only for a `Block` argument named in the definitions, and then to the definition's list |
| AzurermDocsProvider.DefaultArguments | src/tf_mcp_server/tools/azurerm_docs_provider.py:220-262 | four single defaults for a resource, all required but `tags`; two optional single defaults for a data source |
| AzurermDocsProvider.AttachedAll | src/tf_mcp_server/tools/azurerm_docs_provider.py:215-217 | every argument, in order, with its block attached |
| AzurermDocsProvider.Arguments | src/tf_mcp_server/tools/azurerm_docs_provider.py:154-264 | the arguments are never empty and every one is a `Block` exactly when it has a nested list |
| AzurermDocsProvider.SavedValid | src/tf_mcp_server/tools/azurerm_docs_provider.py:281-333 | saving a named block with its arguments keeps the definitions named, non-empty and unique |
| AzurermDocsProvider.BlockDefsValid | src/tf_mcp_server/tools/azurerm_docs_provider.py:266-335 | the block scan keeps every saved block named, non-empty and unique |
| AzurermDocsProvider.BlockDefinitions | src/tf_mcp_server/tools/azurerm_docs_provider.py:266-335 | the block definitions of a page are named, non-empty and unique |
| AzurermDocsProvider.ExtractBlockDefinitions | src/tf_mcp_server/tools/azurerm_docs_provider.py:266-335 | the line-by-line extraction computes the block definitions |
| AzurermDocsProvider.ScanBlockDefinitions | src/tf_mcp_server/tools/azurerm_docs_provider.py:274-333 | the loop over the page's lines computes the block definitions |
| AzurermDocsProvider.AttachBlockDefinitions | src/tf_mcp_server/tools/azurerm_docs_provider.py:215-217 | the matching loop attaches every block's nested list |
| AzurermDocsProvider.ExtractArguments | src/tf_mcp_server/tools/azurerm_docs_provider.py:154-264 | the line-by-line extraction computes the arguments |
| AzurermDocsProvider.Added | src/tf_mcp_server/tools/azurerm_docs_provider.py:373-379 | an attribute is appended unless its name is listed, so the names stay unique and the earlier ones stay |
| AzurermDocsProvider.AttributesFromUnique | src/tf_mcp_server/tools/azurerm_docs_provider.py:353-398 | the attribute scan keeps what was listed before and never lists a name twice |
| AzurermDocsProvider.KnownAttributesUnique | src/tf_mcp_server/tools/azurerm_docs_provider.py:406-438 | `id` and the known attributes have distinct names |
| AzurermDocsProvider.KnownAfterId | src/tf_mcp_server/tools/azurerm_docs_provider.py:400-402 | a scan that found only `id` is completed by the known attributes without a repeated name |
| AzurermDocsProvider.Attributes | src/tf_mcp_server/tools/azurerm_docs_provider.py:337-404 | `id` comes first, there are at least two attributes, and no name repeats |
| AzurermDocsProvider.PageViewsNotIndented | src/tf_mcp_server/tools/azurerm_docs_provider.py:354-392 | the indented-item branch is tried on stripped lines, so no nested attribute is ever listed |
| AzurermDocsProvider.ExtractAttributes | src/tf_mcp_server/tools/azurerm_docs_provider.py:337-404 | the line-by-line extraction computes the attributes |
| AzurermDocsProvider.CodeLines | src/tf_mcp_server/tools/azurerm_docs_provider.py:443 | splitting into lines keeps one entry per line |
| AzurermDocsProvider.RelevantNeedsName | src/tf_mcp_server/tools/azurerm_docs_provider.py:470-473 | the three alternatives all contain the bare name, so a block is relevant exactly when it holds the keyword and the name |
| AzurermDocsProvider.ExamplesFromBounded | src/tf_mcp_server/tools/azurerm_docs_provider.py:450-481 | the example scan keeps what it had and stops at three |
| AzurermDocsProvider.ExamplesFromRelevant | src/tf_mcp_server/tools/azurerm_docs_provider.py:463-474 | every block the scan keeps holds the block keyword and the resource name |
| AzurermDocsProvider.DefaultExample | src/tf_mcp_server/tools/azurerm_docs_provider.py:484-505 | the generated example holds the block keyword and the resource name |
| AzurermDocsProvider.Examples | src/tf_mcp_server/tools/azurerm_docs_provider.py:440-507 | one to three examples, each holding the block keyword and the resource name |
| AzurermDocsProvider.ExtractExamples | src/tf_mcp_server/tools/azurerm_docs_provider.py:440-507 | the line-by-line extraction computes the examples |
| AzurermDocsProvider.Parsed | src/tf_mcp_server/tools/azurerm_docs_provider.py:73-92 | a fetched page gives its URL, at least one well-formed argument, `id` first among unique attributes, and one to three examples |
| AzurermDocsProvider.SearchAzurermProviderDocs | src/tf_mcp_server/tools/azurerm_docs_provider.py:20-102 | the page in the chosen directory; on another status than 200, the page in the other directory; when that fails too, a not-found result with the first URL and status; a request that raised gives an error result |
| BestPractices.PrefixIgnored | src/tf_mcp_server/tools/best_practices.py:27-54 | a leading `azurerm_`, in any case, does not change the lookup key |
| BestPractices.CaseIgnored | src/tf_mcp_server/tools/best_practices.py:27-54 | spellings of a type that differ only in case give the same lookup key |
| BestPractices.FilterCategory | src/tf_mcp_server/tools/best_practices.py:36-254 | a specific category the practices have keeps only that category, with its items; any other category keeps all |
| BestPractices.SelectedPractices | src/tf_mcp_server/tools/best_practices.py:15-256 | a type without an entry gets the generic practices, filtered; a type with a non-empty entry gets its own, filtered |
| BestPractices.SelectionIgnoresPrefix | src/tf_mcp_server/tools/best_practices.py:27-33 | a leading `azurerm_`, in any case, does not change the practices selected |
| BestPractices.FormattedFrame | src/tf_mcp_server/tools/best_practices.py:258-305 | the guidance opens with the title line for the type as given and closes with the general recommendations |
| BestPractices.FormatBestPractices | src/tf_mcp_server/tools/best_practices.py:258-305 | the loop over the categories builds the formatted guidance |
| BestPractices.AppendSection | src/tf_mcp_server/tools/best_practices.py:268-271 | one category adds its title-cased heading, one bullet per item and a blank line |
| BestPractices.BulletList | src/tf_mcp_server/tools/best_practices.py:269-270 | one bullet line per item |
| BestPractices.BulletLines | src/tf_mcp_server/tools/best_practices.py:269-270 | when items hold no line break, the bullet text has exactly one line per item, each the bullet and the item |
| BestPractices.TemplateFrom | src/tf_mcp_server/tools/best_practices.py:44-420 | a known type gets the full template for its `azurerm_` key, which declares that resource and ends with an output reading its id; any other type gets the generic template, declaring the type as given |
| BestPractices.TemplateOutputsId | src/tf_mcp_server/tools/best_practices.py:356-382 | the full template holds an output whose value reads the id of the resource it declares |
| BestPractices.GetBestPractices | src/tf_mcp_server/tools/best_practices.py:15-42 | the guidance opens with the title line for the type as given and closes with the general recommendations; a type without an entry gets the generic practices, filtered by the category |
| BestPractices.TemplateWithBestPractices | src/tf_mcp_server/tools/best_practices.py:44-60 | a type whose normalised key the table holds gets that key's full template; any other gets the generic template for the type as given |
| CoverageAuditor.NonBlankStripped | src/tf_mcp_server/tools/coverage_auditor.py:585 | the kept lines are no more than the lines, each non-empty and already stripped |
| CoverageAuditor.ParseStateList | src/tf_mcp_server/tools/coverage_auditor.py:562-591 | no list exactly when the exit code is not 0; otherwise non-empty addresses without line breaks |
| CoverageAuditor.NonBlankStrippedFrom | src/tf_mcp_server/tools/coverage_auditor.py:585 | every kept line is the stripped form of some line of the output |
| CoverageAuditor.NonBlankStrippedFixed | src/tf_mcp_server/tools/coverage_auditor.py:585 | lines that are non-empty and stripped are kept as they are |
| CoverageAuditor.StateListRoundTrip | src/tf_mcp_server/tools/coverage_auditor.py:579-587 | clean addresses listed one per line read back unchanged and in order |
| CoverageAuditor.ScopeFilter | src/tf_mcp_server/tools/coverage_auditor.py:610-620 | a filter exists exactly for the scopes `resource-group`, `subscription` and `query`; a query scope is its value; every filter holds the scope value |
| CoverageAuditor.GraphQuery | src/tf_mcp_server/tools/coverage_auditor.py:622-636 | the Resource Graph query starts with `Resources \| where `, holds the filter and ends with the projection of id, name, type, location and resource group |
| CoverageAuditor.GroupResource | src/tf_mcp_server/tools/coverage_auditor.py:668-674 | the resource group row has the resource-group type and its own name as group |
| CoverageAuditor.QueryShape | src/tf_mcp_server/tools/coverage_auditor.py:593-685 | the query result is absent exactly when the scope is unknown, the graph query fails, or the named group's lookup exits with 0 but gives output that is not a JSON object; otherwise it is the graph rows, possibly preceded by the resource group |
| CoverageAuditor.QueryAzureResources | src/tf_mcp_server/tools/coverage_auditor.py:593-685 | a result requires a known scope; outside a named resource-group scope the result is exactly the graph query's |
| CoverageAuditor.QueryPrependsGroup | src/tf_mcp_server/tools/coverage_auditor.py:650-679 | when the query succeeds, the group is prepended exactly for a resource-group scope with a value whose lookup exits with 0 |
| CoverageAuditor.Coverage | src/tf_mcp_server/tools/coverage_auditor.py:708 | the coverage is 0 without Azure resources, lies between 0 and 100 when the matches do not exceed the total, is 100 exactly when all match and 0 exactly when none does |
| CoverageAuditor.RecommendationRules | src/tf_mcp_server/tools/coverage_auditor.py:710-728 | each recommendation appears exactly under its condition, with the counts reported, at most three appear, and at coverage up to 100 at least one does |
| CoverageAuditor.RecommendationOrder | src/tf_mcp_server/tools/coverage_auditor.py:712-720 | the export recommendation comes first when resources are missing, and the orphan recommendation follows it |
| CoverageAuditor.ExportCommand | src/tf_mcp_server/tools/coverage_auditor.py:732-734 | the export command names the resource id |
| CoverageAuditor.WithExportCommands | src/tf_mcp_server/tools/coverage_auditor.py:731-734 | every missing entry, in order, gains its export command and nothing else changes |
| CoverageAuditor.GenerateReport | src/tf_mcp_server/tools/coverage_auditor.py:687-752 | the recommendations appended rule by rule and the export-command loop compute the report |
| CoverageAuditor.QueryError | src/tf_mcp_server/tools/coverage_auditor.py:523-526 | the query error opens and closes with the fixed sentences and carries the login hint exactly when authentication did not succeed |
| CoverageAuditor.AuditCoverage | src/tf_mcp_server/tools/coverage_auditor.py:473-560 | workspace check, state listing, Azure query, matching and report, each failed step returning its error without running the later ones |
| CoverageAuditor.StateFailureStopsAudit | src/tf_mcp_server/tools/coverage_auditor.py:511-516 | a failed state listing stops the audit whatever Azure would return |
| CoverageAuditor.UnknownScopeFails | src/tf_mcp_server/tools/coverage_auditor.py:521-620 | an unknown scope fails the audit with the query error |
| CoverageAuditor.IncludeFlagsKeepTotals | src/tf_mcp_server/tools/coverage_auditor.py:543-549 | a cleared include flag empties its list (and with it that list's count in the summary); totals, managed count, coverage and matched list do not depend on the flags |
| CoverageAuditor.AuditAccounts | src/tf_mcp_server/tools/coverage_auditor.py:535-750 | a successful audit with missing resources included accounts for every Azure resource as managed or missing, and its coverage lies between 0 and 100 |
| ResourceMatcher.ExtractResourceNameFromId | src/tf_mcp_server/tools/coverage_auditor.py:24-29 | the name is the text after the id's last slash: a slash-free suffix of the id, empty for an empty id |
| ResourceMatcher.ExtractTypeAfterProviders | src/tf_mcp_server/tools/coverage_auditor.py:32-46 | in an id of slash-free segments, the two segments after the first `providers` give the type |
| ResourceMatcher.FirstIndexAfter | src/tf_mcp_server/tools/coverage_auditor.py:39 | `parts.index('providers')` finds the first occurrence |
| ResourceMatcher.KeepLowerAlnum | src/tf_mcp_server/tools/coverage_auditor.py:51 | deleting the characters outside `[a-z0-9]` leaves only those characters and never lengthens the text |
| ResourceMatcher.NormalizeResourceName | src/tf_mcp_server/tools/coverage_auditor.py:49-51 | a normalized name holds only lower-case letters and digits and is no longer than the name |
| ResourceMatcher.NormalizeIdempotent | src/tf_mcp_server/tools/coverage_auditor.py:49-51 | normalizing twice is normalizing once |
| ResourceMatcher.NormalizeIgnoresCase | src/tf_mcp_server/tools/coverage_auditor.py:49-51 | normalization ignores case |
| ResourceMatcher.ParseTerraformAddress | src/tf_mcp_server/tools/coverage_auditor.py:54-69 | an address with a dot is its dotless type, a dot and the rest of the name; an address without a dot gives two empty texts |
| ResourceMatcher.DecodeResource | src/tf_mcp_server/tools/coverage_auditor.py:143-152 | a resource without `mode` is managed; one with a `mode` is managed exactly when that mode is the string `managed`, so a `null` mode is skipped; every instance listed is decoded |
| ResourceMatcher.StateResources | src/tf_mcp_server/tools/coverage_auditor.py:139-145 | one resource per entry of the state's `resources` list, each decoded with the reader's defaults |
| ResourceMatcher.InstanceAddress | src/tf_mcp_server/tools/coverage_auditor.py:158-166 | every instance address starts with `type.name`, and is exactly that without an index key |
| ResourceMatcher.AddressRoundTrip | src/tf_mcp_server/tools/coverage_auditor.py:54-166 | parsing an instance address gives back its type and a rest that starts with its name |
| ResourceMatcher.DetailOf | src/tf_mcp_server/tools/coverage_auditor.py:172-184 | the details carry the normalized local name and an empty id when the attributes have none |
| ResourceMatcher.AddResourceInstances | src/tf_mcp_server/tools/coverage_auditor.py:154-184 | the loop over one managed resource's `instances` computes its part of the index: each requested instance address is written in order, a later write replacing an earlier one |
| ResourceMatcher.AddResources | src/tf_mcp_server/tools/coverage_auditor.py:142-184 | the loop over the state's resources skips every resource whose mode is not `managed` and computes the details index |
| ResourceMatcher.GetStateResourceDetails | src/tf_mcp_server/tools/coverage_auditor.py:142-184 | the nested loops over resources and instances compute the details index |
| ResourceMatcher.DetailsFromSound | src/tf_mcp_server/tools/coverage_auditor.py:142-184 | every entry of the index is a requested address declared by a managed instance, listed once |
| ResourceMatcher.DetailsFromComplete | src/tf_mcp_server/tools/coverage_auditor.py:142-184 | every requested address of a managed instance gets an entry |
| ResourceMatcher.DetailKeyDeclared | src/tf_mcp_server/tools/coverage_auditor.py:148-178 | an entry of the index is the address of some managed instance |
| ResourceMatcher.ModuleAddressesNeverDetailed | src/tf_mcp_server/tools/coverage_auditor.py:158-170 | addresses inside a module never get details, since the state reader builds only root-module addresses |
| ResourceMatcher.NormalizeId | src/tf_mcp_server/tools/coverage_auditor.py:269-286 | a normalized id has no upper-case letter and no trailing slash |
| ResourceMatcher.IdIndexKeys | src/tf_mcp_server/tools/coverage_auditor.py:265-270 | an id is a key of the id index exactly when some details entry carries it |
| ResourceMatcher.IdIndexLastWins | src/tf_mcp_server/tools/coverage_auditor.py:265-270 | for an indexed id, the index holds the address of the last entry carrying it |
| ResourceMatcher.NameIndex | src/tf_mcp_server/tools/coverage_auditor.py:272-277 | every name in the name index has at least one address |
| ResourceMatcher.NameIndexIsFilter | src/tf_mcp_server/tools/coverage_auditor.py:272-277 | the empty name is never indexed; any other name is indexed exactly when some entry has it, with those entries' addresses in order |
| ResourceMatcher.AddressesNamedAreKeys | src/tf_mcp_server/tools/coverage_auditor.py:272-277 | every address listed under a name is a key of the details |
| ResourceMatcher.FirstTypeHint | src/tf_mcp_server/tools/coverage_auditor.py:307-314 | the first candidate whose Terraform type holds the simplified Azure type, or none when no candidate does |
| ResourceMatcher.Classifications | src/tf_mcp_server/tools/coverage_auditor.py:282-341 | every Azure resource is classified, in order |
| ResourceMatcher.PartitionMatched | src/tf_mcp_server/tools/coverage_auditor.py:321-341 | every matched entry is the entry of one classification |
| ResourceMatcher.ClassifyPartition | src/tf_mcp_server/tools/coverage_auditor.py:282-341 | every Azure resource yields exactly one matched or missing entry |
| ResourceMatcher.PartitionSizes | src/tf_mcp_server/tools/coverage_auditor.py:321-341 | splitting classifications keeps their number |
| ResourceMatcher.MatchedConfidence | src/tf_mcp_server/tools/coverage_auditor.py:329 | confidence is high exactly for identifier matches |
| ResourceMatcher.IdPriority | src/tf_mcp_server/tools/coverage_auditor.py:292-295 | when some entry carries the resource's normalized id, the resource matches by id the address of the last such entry |
| ResourceMatcher.ResolveNoCandidate | src/tf_mcp_server/tools/coverage_auditor.py:292-319 | a resource whose id no entry carries is missing exactly when its name is empty or has no candidate |
| ResourceMatcher.ResolveSingleCandidate | src/tf_mcp_server/tools/coverage_auditor.py:300-303 | a single name candidate is matched by name |
| ResourceMatcher.ResolveSeveralCandidates | src/tf_mcp_server/tools/coverage_auditor.py:304-319 | with several name candidates, the first with a type hint wins by type hint; when none has one, the first candidate wins as an ambiguous match |
| ResourceMatcher.IdIndexValuesAreKeys | src/tf_mcp_server/tools/coverage_auditor.py:265-270 | the indexed addresses are keys of the details |
| ResourceMatcher.ResolvedIsKey | src/tf_mcp_server/tools/coverage_auditor.py:292-322 | a resource only ever resolves to an address the details know |
| ResourceMatcher.MatchedAreKeys | src/tf_mcp_server/tools/coverage_auditor.py:321-332 | every matched entry names an address of the details |
| ResourceMatcher.MatchedAreRequested | src/tf_mcp_server/tools/coverage_auditor.py:168-332 | every matched address is one of the requested addresses |
| ResourceMatcher.SameAddressClaimedTwice | src/tf_mcp_server/tools/coverage_auditor.py:282-332 | nothing stops two Azure resources whose ids differ only in case or trailing slashes from both matching the same address |
| ResourceMatcher.ClassifiedById | src/tf_mcp_server/tools/coverage_auditor.py:292-331 | a resource whose normalized id is indexed is matched to the indexed address |
| ResourceMatcher.OrphansExact | src/tf_mcp_server/tools/coverage_auditor.py:343-353 | orphans are exactly the requested addresses nobody claimed, each split at its first dot |
| ResourceMatcher.FindTypeHint | src/tf_mcp_server/tools/coverage_auditor.py:307-314 | the loop that stops at the first hit finds the first candidate with a type hint |
| ResourceMatcher.BuildIndexes | src/tf_mcp_server/tools/coverage_auditor.py:260-277 | one pass over the details builds both lookup indexes |
| ResourceMatcher.Resolve | src/tf_mcp_server/tools/coverage_auditor.py:283-319 | strategy 1 by identifier, then strategy 2 by name, for one Azure resource |
| ResourceMatcher.CollectOrphans | src/tf_mcp_server/tools/coverage_auditor.py:343-353 | the requested addresses nobody claimed, in order |
| ResourceMatcher.ClassifyAll | src/tf_mcp_server/tools/coverage_auditor.py:281-341 | every Azure resource, in order, classified as matched or missing |
| ResourceMatcher.MatchResources | src/tf_mcp_server/tools/coverage_auditor.py:230-357 | details, indexes, classification of every Azure resource and the orphaned addresses |
| GolangSourceProvider.SupportedNamespaces | src/tf_mcp_server/tools/golang_source_provider.py:38-61 | the supported namespaces are the azurerm and the azapi `internal` namespaces, in that order |
| GolangSourceProvider.FirstPrefixKey | src/tf_mcp_server/tools/golang_source_provider.py:127-130 | the first configured key the namespace starts with, or none when it starts with none |
| GolangSourceProvider.RemoteKeyFor | src/tf_mcp_server/tools/golang_source_provider.py:125-130 | the loop picks the first configured key the namespace starts with |
| GolangSourceProvider.RelativeNamespaceOf | src/tf_mcp_server/tools/golang_source_provider.py:209-274 | below its package, a namespace's relative part is what follows the package and the slash |
| GolangSourceProvider.IndexPathOf | src/tf_mcp_server/tools/golang_source_provider.py:209-277 | with the separator restored, a namespace below its package gives `index/<relative>/<file>` |
| GolangSourceProvider.IndexPathMissesSeparator | src/tf_mcp_server/tools/golang_source_provider.py:209-277 | as written, the same namespace gives `index<relative>/<file>`, which differs from the intended path |
| GolangSourceProvider.AzurermNamespaceIsInternal | src/tf_mcp_server/tools/golang_source_provider.py:38-49 | the configured azurerm namespace is `internal` below its package, and the package does not contain `/internal` |
| GolangSourceProvider.BlockIndexPath | src/tf_mcp_server/tools/golang_source_provider.py:247-253 | the block index path is `index/<block type>s/<type>.json`, except that `ephemeral` is not pluralised |
| GolangSourceProvider.QueryGolangSource | src/tf_mcp_server/tools/golang_source_provider.py:96-141 | an invalid symbol and a method without a receiver are refused with their messages, and a namespace that starts with no configured key is not supported |
| GolangSourceProvider.AzurermNamespaceResolves | src/tf_mcp_server/tools/golang_source_provider.py:127-130 | a namespace below the azurerm key reads from the azurerm index repository |
| GolangSourceProvider.InvalidEntrypoint | src/tf_mcp_server/tools/golang_source_provider.py:174-175 | the entry-point error names the refused entry point |
| GolangSourceProvider.TerraformTypeQuery | src/tf_mcp_server/tools/golang_source_provider.py:177-189 | a type without an underscore is refused with the invalid-type message, and a type whose first segment is not a configured provider is not supported |
| GolangSourceProvider.QueryTerraformSource | src/tf_mcp_server/tools/golang_source_provider.py:143-193 | a block type other than `resource`, `data` and `ephemeral` is refused with its message, and an entry point not listed for the block type gets the entry-point error |
| GolangSourceProvider.TypeWithoutProviderRefused | src/tf_mcp_server/tools/golang_source_provider.py:177-180 | a type without an underscore is refused before anything is read |
| GolangSourceProvider.FetchGolangSource | src/tf_mcp_server/tools/golang_source_provider.py:195-229 | the symbol's file is read from the index repository at the corrected `index/<relative>/…` path (see Findings) and returned as read; a failed read reports `Source code not found (404)` exactly when its message holds `404`, otherwise the fetch error |
| GolangSourceProvider.FetchTerraformSource | src/tf_mcp_server/tools/golang_source_provider.py:231-292 | a failed read of the block index reports not found or the fetch error; a decoded index without `<entrypoint>_index` gives the entry-point-not-found error; the entry point is then read at the corrected `index/<relative>/…` path (see Findings) |
| SupportChecker.NonEmptyParts | src/tf_mcp_server/tools/azurerm_support_checker.py:59 | exactly the non-empty parts are kept, drawn from the parts |
| SupportChecker.LowerAll | src/tf_mcp_server/tools/azurerm_support_checker.py:66 | every part lower-cased, in order |
| SupportChecker.FormatResourceType | src/tf_mcp_server/tools/azurerm_support_checker.py:34-66 | a path without `/PROVIDERS/` in any case gives the empty type; the type has no upper-case letter and no empty segment |
| SupportChecker.FormatUpper | src/tf_mcp_server/tools/azurerm_support_checker.py:47-66 | the same promises for the upper-cased path after the last marker |
| SupportChecker.FormattedParts | src/tf_mcp_server/tools/azurerm_support_checker.py:59-66 | joining the lower-cased non-empty parts with `/` splits back into those parts, none empty and none upper-case |
| SupportChecker.FormatIgnoresCase | src/tf_mcp_server/tools/azurerm_support_checker.py:46-47 | the case of the path does not change the resource type |
| SupportChecker.FormatProperty | src/tf_mcp_server/tools/azurerm_support_checker.py:99-102 | a property's address has its slashes turned into dots, keeping its length, and its mappings are untouched |
| SupportChecker.FormatProperties | src/tf_mcp_server/tools/azurerm_support_checker.py:99-102 | every property, in order, formatted |
| SupportChecker.FormatEntry | src/tf_mcp_server/tools/azurerm_support_checker.py:92-102 | an entry keeps exactly the fields it had; its API path becomes a lower-case type and its property addresses lose their slashes |
| SupportChecker.LoadSupportData | src/tf_mcp_server/tools/azurerm_support_checker.py:68-104 | every entry of the loaded table is rewritten in place to its formatted form |
| SupportChecker.FormatPropertyList | src/tf_mcp_server/tools/azurerm_support_checker.py:99-102 | the inner loop formats every property address |
| SupportChecker.MatchingEntriesExact | src/tf_mcp_server/tools/azurerm_support_checker.py:106-130 | the matching entries are exactly the entries whose path equals the type ignoring case, drawn from the table |
| SupportChecker.FindMatchingEntries | src/tf_mcp_server/tools/azurerm_support_checker.py:106-130 | the loop collects the matching entries in order |
| SupportChecker.CleanAddr | src/tf_mcp_server/tools/azurerm_support_checker.py:148-150 | one leading slash is removed and nothing else changes |
| SupportChecker.MappingsOfSound | src/tf_mcp_server/tools/azurerm_support_checker.py:132-168 | every mapping names an `azurerm_` resource and the property's API address, no pair repeats, and every `azurerm_` item's pair is present |
| SupportChecker.ExtractMappings | src/tf_mcp_server/tools/azurerm_support_checker.py:132-168 | the loop over the property maps computes the mappings |
| SupportChecker.FirstProp | src/tf_mcp_server/tools/azurerm_support_checker.py:192-203 | the first property whose address equals the key ignoring case, or none when no property does |
| SupportChecker.FirstEntryProp | src/tf_mcp_server/tools/azurerm_support_checker.py:190-206 | the first matching property of the first entry that has one, or none when no entry has one |
| SupportChecker.PropertySupportFound | src/tf_mcp_server/tools/azurerm_support_checker.py:170-208 | a property is found exactly when some matching entry lists a property whose address equals the path in dot notation ignoring case, and every mapping names an `azurerm_` resource |
| SupportChecker.CheckPropertySupport | src/tf_mcp_server/tools/azurerm_support_checker.py:170-208 | the loops stop at the first matching property of the first entry that has one |
| SupportChecker.SupportVerdict | src/tf_mcp_server/tools/azurerm_support_checker.py:224-270 | no matching entry gives `resource_not_found` and unsupported; otherwise supported exactly when the property is found with at least one mapping, with the number of entries found |
| SupportChecker.CheckAzurermResourceSupport | src/tf_mcp_server/tools/azurerm_support_checker.py:210-305 | load and normalise the table, then look up, with the error results of a missing or undecodable table |
| SupportChecker.FirstPropIsFirst | src/tf_mcp_server/tools/azurerm_support_checker.py:192-203 | the property found sits at an index before which no property matches the key |
| SupportChecker.FirstEntryPropIsFirst | src/tf_mcp_server/tools/azurerm_support_checker.py:190-206 | the property found is the first match of an entry before which no entry has a match |
| TerraformSchemaProvider.InferProviderName | src/tf_mcp_server/tools/terraform_schema_provider.py:174-178 | with an underscore, the provider is the underscore-free text before the first one; without one it is `unknown` |
| TerraformSchemaProvider.InferProviderNameOf | src/tf_mcp_server/tools/terraform_schema_provider.py:174-178 | a provider name followed by an underscore and anything is read back |
| TerraformSchemaProvider.ConfigLines | src/tf_mcp_server/tools/terraform_schema_provider.py:180-218 | the configuration has fourteen lines for azurerm and twelve otherwise, its source line names `namespace/name`, the next line holds the version constraint, and only azurerm gets the `features` block |
| TerraformSchemaProvider.ProbeKey | src/tf_mcp_server/tools/terraform_schema_provider.py:298-303 | a key is found exactly when the value is a dictionary holding it, and then with its value |
| TerraformSchemaProvider.GetOrEmpty | src/tf_mcp_server/tools/terraform_schema_provider.py:239-245 | `d.get(key, {})` is defined exactly for a dictionary and gives `{}` for a missing key |
| TerraformSchemaProvider.AttributesComeFirst | src/tf_mcp_server/tools/terraform_schema_provider.py:298-299 | an attribute of the block shadows a block type and a direct member of the same name |
| TerraformSchemaProvider.WalkAppend | src/tf_mcp_server/tools/terraform_schema_provider.py:296-309 | walking two paths one after the other is walking their concatenation, an error stopping the walk |
| TerraformSchemaProvider.QuerySchemaPath | src/tf_mcp_server/tools/terraform_schema_provider.py:290-312 | the loop over the dot-separated parts computes the walk of the path |
| TerraformSchemaProvider.ProviderSchema | src/tf_mcp_server/tools/terraform_schema_provider.py:231-236 | the provider lookup is defined exactly for a dictionary |
| TerraformSchemaProvider.ExtractSchema | src/tf_mcp_server/tools/terraform_schema_provider.py:220-259 | a missing `provider_schemas` gives the provider-not-found error; without a path, or for a function, a schema returned is not empty |
| TerraformSchemaProvider.ExtractPresentSchema | src/tf_mcp_server/tools/terraform_schema_provider.py:231-256 | a present provider, category section and resource give that resource's schema, walked along the path when one is given |
| TerraformSchemaProvider.ExtractItemsList | src/tf_mcp_server/tools/terraform_schema_provider.py:261-288 | any category other than resource, data and function, any schema data that is not a dictionary, and a provider the data does not hold, list nothing |
| TerraformSchemaProvider.ItemsListExact | src/tf_mcp_server/tools/terraform_schema_provider.py:261-288 | for a provider the data holds, a missing section lists nothing and a section that is a dictionary lists exactly its keys, in order |
| TerraformSchemaProvider.ItemsHaveSchemas | src/tf_mcp_server/tools/terraform_schema_provider.py:270-282 | every listed name has a schema in the category's section |
| TerraformSchemaProvider.QuerySchema | src/tf_mcp_server/tools/terraform_schema_provider.py:30-103 | an invalid category is reported with its message before anything runs |
| TerraformSchemaProvider.ListProviderItems | src/tf_mcp_server/tools/terraform_schema_provider.py:105-168 | an invalid category, a failed run or undecodable output lists nothing |
| TerraformSchemaProvider.EphemeralListsNothing | src/tf_mcp_server/tools/terraform_schema_provider.py:125-284 | `ephemeral` passes the category guard but never lists anything |
| AvmDocsProvider.SourceFromRepoUrl | src/tf_mcp_server/tools/avm_docs_provider.py:83-89 | a URL without a slash fails to unpack |
| AvmDocsProvider.RepoUrlParts | src/tf_mcp_server/tools/avm_docs_provider.py:85 | the last two slash-separated parts of `<base>/<org>/<repo>` are the organisation and the repository |
| AvmDocsProvider.RepoNameWords | src/tf_mcp_server/tools/avm_docs_provider.py:87 | a repository name `<word>-<provider>-<rest>` splits into the word, the provider and the rest |
| AvmDocsProvider.SourceOf | src/tf_mcp_server/tools/avm_docs_provider.py:83-89 | a module repository's source is its organisation, the rest of its name and its provider |
| AvmDocsProvider.ModuleCollection | src/tf_mcp_server/tools/avm_docs_provider.py:190-205 | the available modules are keyed by module name, each name once |
| AvmDocsProvider.CollectModules | src/tf_mcp_server/tools/avm_docs_provider.py:190-205 | the loop over the index rows computes the module collection |
| AvmDocsProvider.ModuleCollectionStaysFailed | src/tf_mcp_server/tools/avm_docs_provider.py:192-207 | once a row fails, the whole collection fails with that row's error |
| AvmDocsProvider.LastRowWins | src/tf_mcp_server/tools/avm_docs_provider.py:192-202 | a module name maps to the module of its last row that is not proposed |
| AvmDocsProvider.ProposedOnly | src/tf_mcp_server/tools/avm_docs_provider.py:193-194 | a name whose every row is proposed is not available |
| AvmDocsProvider.AvailableModules | src/tf_mcp_server/tools/avm_docs_provider.py:209-218 | one entry per module, in order, with its name and source |
| AvmDocsProvider.VersionOf | src/tf_mcp_server/tools/avm_docs_provider.py:133-137 | a stored tag never starts with `v` |
| AvmDocsProvider.VersionTable | src/tf_mcp_server/tools/avm_docs_provider.py:129-137 | the versions are keyed by their tag without `v`, each tag once |
| AvmDocsProvider.RetrieveVersionInfo | src/tf_mcp_server/tools/avm_docs_provider.py:124-139 | the loop over the releases computes the version table |
| AvmDocsProvider.InsertByCreated | src/tf_mcp_server/tools/avm_docs_provider.py:168 | inserting a version into the sorted list adds it and loses nothing |
| AvmDocsProvider.InsertNewestFirst | src/tf_mcp_server/tools/avm_docs_provider.py:168 | inserting after every version created at or after it keeps the list newest first |
| AvmDocsProvider.SortNewestFirst | src/tf_mcp_server/tools/avm_docs_provider.py:168 | the stable reverse sort by creation time is a permutation of the versions |
| AvmDocsProvider.SortedNewestFirst | src/tf_mcp_server/tools/avm_docs_provider.py:168 | the sorted versions are newest first |
| AvmDocsProvider.Versions | src/tf_mcp_server/tools/avm_docs_provider.py:167 | the stored versions in table order |
| AvmDocsProvider.Tags | src/tf_mcp_server/tools/avm_docs_provider.py:169 | the tag of every version, in order |
| AvmDocsProvider.VersionList | src/tf_mcp_server/tools/avm_docs_provider.py:159-169 | the version list has one tag per stored version |
| AvmDocsProvider.VersionListNewestFirst | src/tf_mcp_server/tools/avm_docs_provider.py:159-169 | every stored tag is listed, and the first one listed belongs to a newest version |
| AvmDocsProvider.ModuleVersionList | src/tf_mcp_server/tools/avm_docs_provider.py:159-169 | an unknown module is refused with the not-found error, and only an unknown one |
| AvmDocsProvider.LatestModuleVersion | src/tf_mcp_server/tools/avm_docs_provider.py:220-225 | the version list's error is passed on, and an empty list gives the no-version message |
| AvmDocsProvider.ModuleVersions | src/tf_mcp_server/tools/avm_docs_provider.py:227-229 | an unknown module is refused, and an empty list gives the no-versions message |
| AvmDocsProvider.VersionPath | src/tf_mcp_server/tools/avm_docs_provider.py:141-157 | an unknown module is refused; a known version's path is the cache directory of the module and version |
| AvmDocsProvider.VersionPrefixIgnored | src/tf_mcp_server/tools/avm_docs_provider.py:232-244 | a version is looked up the same whether or not the caller writes its `v` |
| AvmDocsProvider.SelectedContent | src/tf_mcp_server/tools/avm_docs_provider.py:234-253 | with no selected file the result is empty |
| AvmDocsProvider.ConcatModuleFiles | src/tf_mcp_server/tools/avm_docs_provider.py:236-253 | the loop appends each selected file's content and a newline, in listing order |

## Left out

- Subprocesses are parameters: `terraform`, `tflint`, `conftest`, `az graph query`, `az group show`, `az login` and git. A run is a function from the files written and the arguments to an exit code and output streams. Timeouts and the `asyncio` machinery are not modelled.
- Network reads are parameters returning a status and a body. These cover the AzureRM documentation pages, GitHub content and releases, and the AVM module table and version tags. HTTP clients, retries and caches are not modelled.
- The filesystem is not modelled. This covers `terraform.tfstate` reading, `get_workspace_root`/`resolve_workspace_path`, temporary directories, tar extraction, directory walks and the policy-cache clone. The extractors read already-split lines. A workspace that cannot be resolved is an error value given as a parameter.
- JSON decoding, CSV reading and the regular-expression engine are not modelled. The model takes parsed `Json` values or a decoder that returns `Option`. Each pattern the code uses is written as a predicate on characters or lines.
- `_extract_azure_id_from_state_show` is an unused fallback and is not part of this model.
- CoverageAuditor.AuditCoverage: `_authenticate_azure_cli` and the `auth_attempted`/`auth_successful` fields are not modelled. Whether authentication succeeded is a parameter.
- CoverageAuditor.Coverage: the percentage is an exact `real`. Float arithmetic and `round(..., 2)` are left out.
- ResourceMatcher.NormalizeResourceName: case mapping is ASCII only here and in every other module. Python's Unicode `lower()`, `upper()`, `title()` and `re.IGNORECASE` are not modelled. `strip()` removes Python's whole whitespace set.
- TerraformExecutor.ExecuteWithHclContent: the following are not modelled:
  - `format_hcl` and the `*_with_formatting` variants;
  - `_get_terraform_outputs`;
  - the workspace and state commands;
  - the init cache, pool and lock;
  - the `TypeError` of unexpected keyword arguments.
- TerraformValidator.ValidateHcl: the exception path that reports `Validation error: ...` when the file cannot be written is not modelled.
- TerraformExecutor.TerraformErrors: a non-string `@message` is rendered through the `Json` string view, not as Python's `str` of the value.
- TerraformExecutor.TerraformErrors: the text pass is built on the corrected branch order, in which the `╵` closing marker is tested first (see Findings). As written, src/tf_mcp_server/core/terraform_executor.py:817-822 and src/core/terraform_validator.py:280-284 keep the marker as the last line of its block. `TerraformExecutor.ClosingMarkerKeptAsWritten` shows this.
- TerraformExecutor.TextPass: uses the corrected order, as for `TerraformErrors`. So do `TerraformExecutor.TextBlocks`, `TerraformExecutor.ParseTextBlocks`, `TerraformExecutor.ParseTerraformErrors`, `TerraformExecutor.Validation` and `TerraformValidator.ValidateHcl`, which report a block ending in `╵` without the marker.
- TerraformExecutor.WithOutputs: `-json` output that decodes to a value other than an object gives `Unparsed` (`outputs: None`). The source calls `.items()` on it there and raises an `AttributeError` that its `except json.JSONDecodeError` does not catch (src/tf_mcp_server/core/terraform_executor.py:322-336). The same decoder, which yields only objects, serves the stderr line scan, so the model does not tell undecodable output from a decoded non-object. `TerraformExecutor.OutputTerraform` shares this.
- TerraformExecutor.Validation: the exception path taken when the HCL file cannot be written is not modelled.
- GolangSourceProvider.FetchGolangSource: reads the index through the corrected `index/<relative>/…` path (see Findings). The source reads `index<relative>/…` (src/tf_mcp_server/tools/golang_source_provider.py:213, 215). So does `GolangSourceProvider.QueryGolangSource`, which calls it.
- GolangSourceProvider.FetchTerraformSource: reads the entry point through the corrected path, where the source reads `index<relative>/…` (src/tf_mcp_server/tools/golang_source_provider.py:277). So do `GolangSourceProvider.TerraformTypeQuery` and `GolangSourceProvider.QueryTerraformSource`.
- ResourceMatcher.DecodeResource: a malformed state is read with defaults and the loop carries on. The source instead raises inside its `try`, stops, and returns the details gathered so far (src/tf_mcp_server/tools/coverage_auditor.py:142-197). Malformed here means any of these inputs:
  - a resource that is not a dictionary;
  - `instances` that is not a list;
  - an instance that is not a dictionary, which the model reads as an unkeyed instance with empty attributes, where `instance.get` raises at line 158;
  - `attributes: null`, or `attributes` of any other non-dictionary value such as a list, which the model keeps and reads no `id` from, where `attributes.get` raises at line 176;
  - a non-string `name` on an address that is requested, which the model reads as empty, where Python formats the address with `str` and `normalize_resource_name` then raises on `.lower()` (lines 51 and 182).

  A non-string `type`, and a non-string `name` on an address nobody requested, are read as empty, where Python only formats them with `str`.
- ResourceMatcher.DetailOf: a non-string `id` is read as `""`, so the entry has no id and the audit carries on. In the source a truthy non-string id is stored as it is. `azure_id.lower()` then raises at src/tf_mcp_server/tools/coverage_auditor.py:269, outside the state reader's `try`, and `audit_coverage` returns `success: False` with `Coverage audit failed: ...` (lines 556-560). The model has no `Coverage audit failed` outcome: no exception raised inside `audit_coverage`'s `try` is modelled. The same gap holds for `ResourceMatcher.BuildIndexes`, `ResourceMatcher.MatchResources` and `CoverageAuditor.AuditCoverage`. A falsy non-string id (`0`, `false`, an empty list or dictionary) is skipped by the source's `if azure_id:` as the model skips `""`.
- ResourceMatcher.DecodeIndexKey: a list, dictionary or float `index_key` is treated as absent. The source formats its Python `str` inside `["…"]`.
- TflintRunner.IssueSeverity: a non-string severity, or an issue that is not a dictionary, counts as a notice. Python would raise there.
- ConftestRunner.ValidateWithAvmPolicies: policy-cache management, installation checks and temporary plan files are not modelled.
- ConftestRunner.ValidateWithAvmPolicies: the five-minute timeout report and the `Error running conftest: ...` reports of exceptions raised outside the parse (writing the temporary files, starting Conftest) are not modelled, because running Conftest is an input to the model.
- AzapiSchema.ParseResourceSchemas: a resource whose `scopeType` is not an integer yields no schema, where Python would raise at `scope_type & 8`. A missing data directory is treated as an empty listing. A file whose resource name is not a string contributes nothing.
- AzapiSchema.ValueRendering: the model's JSON values have no floats, so the `float` branch of `_format_properties_as_hcl` is not modelled. `None` renders as `null`, as `json.dumps` gives it.
- The azapi generator's download (`GitHubLoader`), `generate_schemas` I/O, `_save_schemas`, `load_or_generate_schemas` and `_check_latest_github_version` are not modelled. They are file and network work around the parser.
- AzurermDocsProvider.SearchAzurermProviderDocs: `search_query` is accepted and, as in the source, not used. The result's `notes` are always empty and are not a field of the model. The model does not prove that a resource page's URL is free of `docs/d/`.
- GolangSourceProvider.SupportedNamespaces: `get_supported_providers` and `get_supported_tags` are not modelled. The first returns a copy of a constant list, and the model has no aliasing for that copy to avoid. The second is a network read. `_read_github_content` is a reader parameter.
- AvmDocsProvider.RetrieveVersionInfo: the in-place update of the cached module dictionary is modelled as a new table value. Cache expiry and module file downloads are not modelled.
- TerraformSchemaProvider.QuerySchema: `terraform init` and `terraform providers schema -json` in a temporary directory are the fetch parameter.
- SecurityRules.ValidateSecurity: the singleton getter `get_azure_security_validator` is not modelled.
- AzurermDocLines: `block_arguments` is assigned into shared argument dictionaries in place. The model rebuilds the argument list as values, so aliasing between the two is not captured.
- `src/core/utils.py` is not part of this model. The modelled utilities are those of `src/tf_mcp_server/core/utils.py`.
- SecurityRules.ScannedText: uses `Utils.ExtractedHcl` from `src/tf_mcp_server/core/utils.py` in place of the extractor of `src/core/utils.py`, which `src/tools/security_rules.py` imports.
- AvmDocsProvider.DumpStrings: writes each string between quotes without JSON escaping. A name holding `"` or `\` is rendered differently from `json.dumps`.
- AvmDocsProvider.VersionPath: joins the path parts with `/` where the source uses `os.path.join`. An absolute part does not restart the path here.
- Text.ParseInt: accepts an optional sign and ASCII digits. Python's `int()` also accepts `_` separators between digits and non-ASCII decimal digits.
- Telemetry, configuration loading, the MCP tool wiring in both `server.py` files, the aztfexport wrapper, the terraform runner and the HTML scraping documentation tools are not part of this model.

## Findings

| source | as written | input that shows it | evidently intended | confidence | as-written member | corrected member |
|---|---|---|---|---|---|---|
| src/tf_mcp_server/core/utils.py:154-168 | the name patterns are anchored with `^...$` under `re.match`, and Python's `$` also matches just before a final newline | the resource-group name `web\n`, or the storage-account name `data\n`, yields no errors | a name is valid only if every character is allowed, so a trailing newline is rejected | high, not executed | Utils.TrailingNewlineAccepted | Utils.ValidNames |
| src/tf_mcp_server/core/terraform_executor.py:817-822 | the `elif line and current_error` branch comes before `elif line.startswith('╵') and current_error`, so the closing branch can never fire | stderr with the text block `Error: x` then `╵`, where an earlier `{` line failed to decode: the block becomes `Error: x\n╵` | the closing marker ends the block and is not part of the message | high, not executed | TerraformExecutor.ClosingMarkerKeptAsWritten | TerraformExecutor.ClosingMarkerEndsBlock |
| src/tf_mcp_server/tools/golang_source_provider.py:209-215 | the index path (here, and again for the entrypoint source path at lines 274-277) is `"index" + relative_namespace` after the leading `/` is stripped from the relative namespace, so no separator remains | namespace `github.com/hashicorp/terraform-provider-azurerm/internal`, symbol `func`, name `f`: the path starts `indexinternal/` | `index/internal/func.f.goindex`, with a `/` between `index` and the namespace | high, not executed | GolangSourceProvider.IndexPathMissesSeparator | GolangSourceProvider.IndexPathOf |

=== FILE: assoc.dfy ===
/**
 * Python dictionaries as association lists: a sequence of (key, value) pairs in
 * insertion order. Assigning an existing key keeps its position and replaces the
 * value; assigning a new key appends it.
 */
module Assoc {
  import opened Wrappers

  function Keys<K, V>(m: seq<(K, V)>): (ks: seq<K>)
    ensures |ks| == |m| && forall i :: 0 <= i < |m| ==> ks[i] == m[i].0
  {
    seq(|m|, i requires 0 <= i < |m| => m[i].0)
  }

  predicate UniqueKeys<K(==), V>(m: seq<(K, V)>) {
    forall i, j :: 0 <= i < j < |m| ==> m[i].0 != m[j].0
  }

  /** `d.get(k)`: the value of the first pair with key `k`. */
  function Lookup<K(==), V>(m: seq<(K, V)>, k: K): (r: Option<V>)
    ensures r.Some? <==> k in Keys(m)
    ensures r.Some? ==> exists i :: 0 <= i < |m| && m[i] == (k, r.value)
  {
    if m == [] then None
    else if m[0].0 == k then Some(m[0].1)
    else
      var r := Lookup(m[1..], k);
      assert Keys(m) == [m[0].0] + Keys(m[1..]);
      assert r.Some? ==> exists i :: 0 <= i < |m[1..]| && m[1..][i] == (k, r.value);
      r
  }

  lemma LookupUnique<K, V>(m: seq<(K, V)>, i: nat)
    requires UniqueKeys(m) && i < |m|
    ensures Lookup(m, m[i].0) == Some(m[i].1)
  {
    if i > 0 {
      LookupUnique(m[1..], i - 1);
    }
  }

  /** `d[k] = v` */
  function Upsert<K(==), V>(m: seq<(K, V)>, k: K, v: V): (r: seq<(K, V)>)
    ensures UniqueKeys(m) ==> UniqueKeys(r)
    ensures k in Keys(m) ==> Keys(r) == Keys(m)
    ensures k !in Keys(m) ==> Keys(r) == Keys(m) + [k]
    ensures forall i :: 0 <= i < |r| ==> r[i] == (if r[i].0 == k then (k, v) else m[i])
  {
    if k in Keys(m) then
      seq(|m|, i requires 0 <= i < |m| => if m[i].0 == k then (k, v) else m[i])
    else m + [(k, v)]
  }

  /** The position of the first pair with key `k`. */
  function FirstIndex<K(==), V>(m: seq<(K, V)>, k: K): (i: nat)
    requires k in Keys(m)
    ensures i < |m| && m[i].0 == k && forall j :: 0 <= j < i ==> m[j].0 != k
  {
    if m[0].0 == k then 0
    else
      assert Keys(m) == [m[0].0] + Keys(m[1..]);
      1 + FirstIndex(m[1..], k)
  }

  lemma {:induction false} LookupFirst<K, V>(m: seq<(K, V)>, k: K, i: nat)
    requires i < |m| && m[i].0 == k && forall j :: 0 <= j < i ==> m[j].0 != k
    ensures Lookup(m, k) == Some(m[i].1)
  {
    if i > 0 {
      LookupFirst(m[1..], k, i - 1);
    }
  }

  lemma LookupUpsertSame<K, V>(m: seq<(K, V)>, k: K, v: V)
    ensures Lookup(Upsert(m, k, v), k) == Some(v)
  {
    var r := Upsert(m, k, v);
    if k in Keys(m) {
      LookupFirst(r, k, FirstIndex(m, k));
    } else {
      LookupFirst(r, k, |m|);
    }
  }

  lemma LookupUpsertOther<K, V>(m: seq<(K, V)>, k: K, v: V, other: K)
    requires other != k
    ensures Lookup(Upsert(m, k, v), other) == Lookup(m, other)
  {
    var r := Upsert(m, k, v);
    if other in Keys(m) {
      var i := FirstIndex(m, other);
      LookupFirst(m, other, i);
      LookupFirst(r, other, i);
    }
  }
}

=== FILE: avm_docs_provider.dfy ===
/**
 * The Azure Verified Modules catalogue: module rows read from the published index,
 * module sources derived from repository URLs, and release versions ordered newest
 * first. Downloads, the cache files and the GitHub reads are parameters.
 */
module AvmDocsProvider {
  import opened Wrappers
  import opened Text
  import Assoc
  import Order

  // ---------------------------------------------------------------------------
  // Module sources
  // ---------------------------------------------------------------------------

  /** The `ValueError` text of unpacking `n` values into three names. */
  function UnpackError(n: nat): string {
    "not enough values to unpack (expected 3, got " + NatToString(n) + ")"
  }

  /**
   * `_source_from_repo_url`: `…/<org>/<word>-<provider>-<rest>` becomes
   * `<org>/<rest>/<provider>`; too few `/` or `-` is the unpacking error.
   */
  function SourceFromRepoUrl(repoUrl: string): (r: Result<string, string>)
    ensures '/' !in repoUrl ==> r == Err(UnpackError(1))
  {
    var parts := Split(repoUrl, '/');
    SplitHasSeparator(repoUrl, '/');
    if |parts| < 3 then Err(UnpackError(|parts|))
    else
      var org := parts[|parts| - 2];
      var words := Split(parts[|parts| - 1], '-');
      if |words| < 3 then Err(UnpackError(|words|))
      else Ok(org + "/" + Join(words[2..], "-") + "/" + words[1])
  }

  /** The last two `/`-parts of `<base>/<org>/<repo>` are the organisation and the repository. */
  lemma RepoUrlParts(base: string, org: string, repo: string)
    requires '/' !in org && '/' !in repo
    ensures Split(base + "/" + org + "/" + repo, '/') == Split(base, '/') + [org] + [repo]
  {
    assert base + "/" + org + "/" + repo == (base + "/" + org) + ['/'] + repo;
    SplitConcat(base + "/" + org, repo, '/');
    assert base + "/" + org == base + ['/'] + org;
    SplitConcat(base, org, '/');
    SplitWithout(org, '/');
    SplitWithout(repo, '/');
  }

  /** The `-`-parts of `<word>-<provider>-<rest>`. */
  lemma RepoNameWords(word: string, provider: string, rest: string)
    requires '-' !in word && '-' !in provider
    ensures Split(word + "-" + provider + "-" + rest, '-') == [word, provider] + Split(rest, '-')
  {
    assert word + "-" + provider + "-" + rest == word + ['-'] + (provider + ['-'] + rest);
    SplitConcat(word, provider + ['-'] + rest, '-');
    SplitConcat(provider, rest, '-');
    SplitWithout(word, '-');
    SplitWithout(provider, '-');
  }

  /** The source of a module repository is its organisation, the rest of its name, and its provider. */
  lemma SourceOf(base: string, org: string, word: string, provider: string, rest: string)
    requires '/' !in org && '/' !in word && '/' !in provider && '/' !in rest
    requires '-' !in word && '-' !in provider
    ensures SourceFromRepoUrl(base + "/" + org + "/" + word + "-" + provider + "-" + rest)
         == Ok(org + "/" + rest + "/" + provider)
  {
    var repo := word + "-" + provider + "-" + rest;
    assert '/' !in repo by {
      assert forall ch :: ch in repo ==> ch in word || ch == '-' || ch in provider || ch in rest;
    }
    assert base + "/" + org + "/" + word + "-" + provider + "-" + rest == base + "/" + org + "/" + repo;
    var parts := Split(base + "/" + org + "/" + repo, '/');
    assert |parts| >= 3 && parts[|parts| - 2] == org && parts[|parts| - 1] == repo by {
      RepoUrlParts(base, org, repo);
    }
    var words := Split(repo, '-');
    assert |words| >= 3 && words[1] == provider && Join(words[2..], "-") == rest by {
      RepoNameWords(word, provider, rest);
      assert words[2..] == Split(rest, '-');
      JoinSplit(rest, '-');
    }
  }

  // ---------------------------------------------------------------------------
  // The module collection
  // ---------------------------------------------------------------------------

  /** A row of the module index, with the columns the catalogue reads. */
  datatype Row = Row(name: string, description: string, status: string, repoUrl: string)

  datatype Module = Module(name: string, description: string, repoUrl: string, source: string)

  const Proposed: string := "Proposed"

  /** One row of `_module_collection`'s loop: proposed rows are skipped, others assigned by name. */
  function CollectStep(modules: seq<(string, Module)>, row: Row): Result<seq<(string, Module)>, string> {
    if row.status == Proposed then Ok(modules)
    else
      match SourceFromRepoUrl(row.repoUrl)
      case Err(e) => Err("Error retrieving available modules: " + e)
      case Ok(source) =>
        Ok(Assoc.Upsert(modules, row.name, Module(row.name, row.description, row.repoUrl, source)))
  }

  /** The available modules, keyed by module name in first-seen order; the first failing row stops it. */
  function ModuleCollection(rows: seq<Row>): (r: Result<seq<(string, Module)>, string>)
    ensures r.Ok? ==> Assoc.UniqueKeys(r.value)
  {
    if rows == [] then Ok([])
    else
      match ModuleCollection(rows[..|rows| - 1])
      case Err(e) => Err(e)
      case Ok(modules) => CollectStep(modules, rows[|rows| - 1])
  }

  /** `_module_collection`'s loop over the rows of the index. */
  method CollectModules(rows: seq<Row>) returns (r: Result<seq<(string, Module)>, string>)
    ensures r == ModuleCollection(rows)
  {
    var modules: seq<(string, Module)> := [];
    var i := 0;
    while i < |rows|
      invariant 0 <= i <= |rows|
      invariant ModuleCollection(rows[..i]) == Ok(modules)
    {
      assert rows[..i + 1][..i] == rows[..i];
      var row := rows[i];
      if row.status != Proposed {
        var source := SourceFromRepoUrl(row.repoUrl);
        if source.Err? {
          assert ModuleCollection(rows[..i + 1]).Err?;
          ModuleCollectionStaysFailed(rows, i + 1);
          return Err("Error retrieving available modules: " + source.error);
        }
        modules := Assoc.Upsert(modules, row.name, Module(row.name, row.description, row.repoUrl, source.value));
      }
      i := i + 1;
    }
    assert rows[..|rows|] == rows;
    return Ok(modules);
  }

  /** Once a row fails, the whole collection fails with that row's error. */
  lemma {:induction false} ModuleCollectionStaysFailed(rows: seq<Row>, i: nat)
    requires 0 < i <= |rows| && ModuleCollection(rows[..i]).Err?
    ensures ModuleCollection(rows) == ModuleCollection(rows[..i])
    decreases |rows| - i
  {
    if i < |rows| {
      assert rows[..i + 1][..i] == rows[..i];
      ModuleCollectionStaysFailed(rows, i + 1);
    } else {
      assert rows[..i] == rows;
    }
  }

  /** The module of a row that is not proposed. */
  function ModuleOf(row: Row): Option<Module> {
    match SourceFromRepoUrl(row.repoUrl)
    case Ok(source) => Some(Module(row.name, row.description, row.repoUrl, source))
    case Err(_) => None
  }

  /** A module name maps to the module of its last row that is not proposed. */
  lemma {:induction false} LastRowWins(rows: seq<Row>, i: nat)
    requires ModuleCollection(rows).Ok?
    requires i < |rows| && rows[i].status != Proposed
    requires forall j :: i < j < |rows| ==> rows[j].name != rows[i].name || rows[j].status == Proposed
    ensures ModuleOf(rows[i]).Some?
    ensures Assoc.Lookup(ModuleCollection(rows).value, rows[i].name) == ModuleOf(rows[i])
  {
    var n := |rows|;
    var prefix := rows[..n - 1];
    var last := rows[n - 1];
    var modules := ModuleCollection(prefix).value;
    if i == n - 1 {
      Assoc.LookupUpsertSame(modules, last.name, ModuleOf(last).value);
    } else {
      assert prefix[i] == rows[i];
      LastRowWins(prefix, i);
      if last.status != Proposed {
        Assoc.LookupUpsertOther(modules, last.name, ModuleOf(last).value, rows[i].name);
      }
    }
  }

  /** A name whose every row is proposed is not available. */
  lemma {:induction false} ProposedOnly(rows: seq<Row>, name: string)
    requires ModuleCollection(rows).Ok?
    requires forall j :: 0 <= j < |rows| && rows[j].name == name ==> rows[j].status == Proposed
    ensures Assoc.Lookup(ModuleCollection(rows).value, name) == None
  {
    if rows != [] {
      var prefix := rows[..|rows| - 1];
      var last := rows[|rows| - 1];
      assert forall j :: 0 <= j < |prefix| ==> prefix[j] == rows[j];
      ProposedOnly(prefix, name);
      if last.status != Proposed {
        var modules := ModuleCollection(prefix).value;
        Assoc.LookupUpsertOther(modules, last.name, ModuleOf(last).value, name);
      }
    }
  }

  /** An entry of `available_modules`. */
  datatype Summary = Summary(moduleName: string, description: string, source: string)

  /** `available_modules`, before it is serialised. */
  function AvailableModules(modules: seq<(string, Module)>): (r: seq<Summary>)
    ensures |r| == |modules|
    ensures forall i :: 0 <= i < |r| ==> r[i].moduleName == modules[i].1.name && r[i].source == modules[i].1.source
  {
    seq(|modules|, i requires 0 <= i < |modules| =>
      Summary(modules[i].1.name, modules[i].1.description, modules[i].1.source))
  }

  // ---------------------------------------------------------------------------
  // Versions
  // ---------------------------------------------------------------------------

  /** A release as the GitHub releases API describes it. */
  datatype Release = Release(tagName: string, createdAt: string, tarballUrl: string)

  /** A stored version; its tag has no leading `v`. */
  datatype Version = Version(tagName: string, createdAt: string, tarballUrl: string)

  /** The releases endpoint of a module repository. */
  function ReleasesUrl(repoUrl: string): string {
    Join([Replace(repoUrl, "github.com", "api.github.com/repos"), "releases"], "/")
  }

  function VersionOf(release: Release): (v: Version)
    ensures v.tagName == [] || v.tagName[0] != 'v'
  {
    Version(StripLeft(release.tagName, {'v'}), release.createdAt, release.tarballUrl)
  }

  /** The versions `_retrieve_version_info` stores, keyed by tag without `v`; a later release wins. */
  function VersionTable(releases: seq<Release>): (table: seq<(string, Version)>)
    ensures Assoc.UniqueKeys(table)
    ensures forall i :: 0 <= i < |table| ==> table[i].1.tagName == table[i].0
  {
    if releases == [] then []
    else
      var v := VersionOf(releases[|releases| - 1]);
      Assoc.Upsert(VersionTable(releases[..|releases| - 1]), v.tagName, v)
  }

  /** `_retrieve_version_info`'s loop over the releases. */
  method RetrieveVersionInfo(releases: seq<Release>) returns (table: seq<(string, Version)>)
    ensures table == VersionTable(releases)
  {
    table := [];
    for i := 0 to |releases|
      invariant table == VersionTable(releases[..i])
    {
      assert releases[..i + 1][..i] == releases[..i];
      var tag := StripLeft(releases[i].tagName, {'v'});
      table := Assoc.Upsert(table, tag, Version(tag, releases[i].createdAt, releases[i].tarballUrl));
    }
    assert releases[..|releases|] == releases;
  }

  /** Newest first: no version is created after one before it. */
  predicate NewestFirst(vs: seq<Version>) {
    forall i, j :: 0 <= i < j < |vs| ==> Order.LexLe(vs[j].createdAt, vs[i].createdAt)
  }

  /** Place `v` after every version created at or after it. */
  function InsertByCreated(v: Version, sorted: seq<Version>): (r: seq<Version>)
    ensures multiset(r) == multiset(sorted) + multiset{v}
  {
    if sorted == [] then [v]
    else if Order.LexLt(sorted[0].createdAt, v.createdAt) then [v] + sorted
    else
      assert sorted == [sorted[0]] + sorted[1..];
      [sorted[0]] + InsertByCreated(v, sorted[1..])
  }

  lemma {:induction false} InsertNewestFirst(v: Version, sorted: seq<Version>)
    requires NewestFirst(sorted)
    ensures NewestFirst(InsertByCreated(v, sorted))
  {
    if sorted == [] {
    } else if Order.LexLt(sorted[0].createdAt, v.createdAt) {
      forall j | 0 < j < |sorted| ensures Order.LexLe(sorted[j].createdAt, v.createdAt) {
        Order.LexTransitive(sorted[j].createdAt, sorted[0].createdAt, v.createdAt);
      }
    } else {
      var rest := InsertByCreated(v, sorted[1..]);
      InsertNewestFirst(v, sorted[1..]);
      assert Order.LexLe(v.createdAt, sorted[0].createdAt) by {
        Order.LexTotal(v.createdAt, sorted[0].createdAt);
        if v.createdAt == sorted[0].createdAt { Order.LexReflexive(v.createdAt); }
      }
      forall x | x in rest ensures Order.LexLe(x.createdAt, sorted[0].createdAt) {
        assert x in multiset(rest);
        if x != v {
          assert x in multiset(sorted[1..]);
        }
      }
      var r := [sorted[0]] + rest;
      forall i, j | 0 <= i < j < |r| ensures Order.LexLe(r[j].createdAt, r[i].createdAt) {
        if i == 0 {
          assert r[j] in rest;
        }
      }
    }
  }

  /** `sort(key=created_at, reverse=True)`, stable: equally old versions keep their order. */
  function SortNewestFirst(vs: seq<Version>): (r: seq<Version>)
    ensures multiset(r) == multiset(vs)
  {
    if vs == [] then []
    else
      assert vs == vs[..|vs| - 1] + [vs[|vs| - 1]];
      InsertByCreated(vs[|vs| - 1], SortNewestFirst(vs[..|vs| - 1]))
  }

  lemma {:induction false} SortedNewestFirst(vs: seq<Version>)
    ensures NewestFirst(SortNewestFirst(vs))
  {
    if vs != [] {
      SortedNewestFirst(vs[..|vs| - 1]);
      InsertNewestFirst(vs[|vs| - 1], SortNewestFirst(vs[..|vs| - 1]));
    }
  }

  /** The stored versions, in table order. */
  function Versions(table: seq<(string, Version)>): (vs: seq<Version>)
    ensures |vs| == |table| && forall i :: 0 <= i < |table| ==> vs[i] == table[i].1
  {
    seq(|table|, i requires 0 <= i < |table| => table[i].1)
  }

  function Tags(vs: seq<Version>): (tags: seq<string>)
    ensures |tags| == |vs| && forall i :: 0 <= i < |vs| ==> tags[i] == vs[i].tagName
  {
    seq(|vs|, i requires 0 <= i < |vs| => vs[i].tagName)
  }

  /** `_module_version_list` once the module is known: tags of the stored versions, newest first. */
  function VersionList(table: seq<(string, Version)>): (tags: seq<string>)
    ensures |tags| == |table|
  {
    var sorted := SortNewestFirst(Versions(table));
    assert |sorted| == |table| by {
      assert |multiset(sorted)| == |multiset(Versions(table))|;
    }
    Tags(sorted)
  }

  /** Every stored tag is listed, and the first one listed is of a newest version. */
  lemma VersionListNewestFirst(table: seq<(string, Version)>, k: nat)
    requires k < |table| && forall i :: 0 <= i < |table| ==> table[i].1.tagName == table[i].0
    ensures var tags := VersionList(table);
      && table[k].0 in tags
      && exists i :: 0 <= i < |table| && table[i].0 == tags[0]
                     && Order.LexLe(table[k].1.createdAt, table[i].1.createdAt)
  {
    var values := Versions(table);
    var sorted := SortNewestFirst(values);
    assert |sorted| == |table| by { assert |multiset(sorted)| == |multiset(values)|; }
    SortedNewestFirst(values);
    var tags := VersionList(table);
    assert tags == Tags(sorted);
    assert values[k] in multiset(sorted);
    var p :| 0 <= p < |sorted| && sorted[p] == values[k];
    assert tags[p] == table[k].0;
    assert sorted[0] in multiset(values);
    var i :| 0 <= i < |values| && values[i] == sorted[0];
    assert table[i].0 == tags[0];
    if p > 0 {
      assert Order.LexLe(sorted[p].createdAt, sorted[0].createdAt);
    } else {
      Order.LexReflexive(sorted[0].createdAt);
    }
  }

  // ---------------------------------------------------------------------------
  // Queries
  // ---------------------------------------------------------------------------

  function NotFound(moduleName: string): string {
    "Module " + moduleName + " not found in available modules."
  }

  /** `_module_version_list`: the module's releases are read from its repository's releases endpoint. */
  function ModuleVersionList(modules: seq<(string, Module)>, moduleName: string,
                             releases: string -> seq<Release>): (r: Result<seq<string>, string>)
    ensures Assoc.Lookup(modules, moduleName).None? <==> r == Err(NotFound(moduleName))
  {
    match Assoc.Lookup(modules, moduleName)
    case None => Err(NotFound(moduleName))
    case Some(m) => Ok(VersionList(VersionTable(releases(ReleasesUrl(m.repoUrl)))))
  }

  /** `latest_module_version` */
  function LatestModuleVersion(modules: seq<(string, Module)>, moduleName: string,
                               releases: string -> seq<Release>): (r: Result<string, string>)
    ensures ModuleVersionList(modules, moduleName, releases).Err? ==>
      r == Err(ModuleVersionList(modules, moduleName, releases).error)
    ensures ModuleVersionList(modules, moduleName, releases) == Ok([]) ==>
      r == Ok("No version found for module: " + moduleName)
    ensures var l := ModuleVersionList(modules, moduleName, releases);
      l.Ok? && l.value != [] ==> r == Ok(l.value[0])
  {
    match ModuleVersionList(modules, moduleName, releases)
    case Err(e) => Err(e)
    case Ok(tags) => Ok(if tags == [] then "No version found for module: " + moduleName else tags[0])
  }

  /** `json.dumps(list_of_strings, indent=2)` for strings that need no escaping. */
  function DumpStrings(items: seq<string>): string {
    if items == [] then "[]"
    else "[\n" + Join(seq(|items|, i requires 0 <= i < |items| => "  \"" + items[i] + "\""), ",\n") + "\n]"
  }

  /** `module_versions` */
  function ModuleVersions(modules: seq<(string, Module)>, moduleName: string,
                          releases: string -> seq<Release>): (r: Result<string, string>)
    ensures ModuleVersionList(modules, moduleName, releases) == Ok([]) ==>
      r == Ok("No versions found for module: " + moduleName)
    ensures Assoc.Lookup(modules, moduleName).None? ==> r == Err(NotFound(moduleName))
  {
    match ModuleVersionList(modules, moduleName, releases)
    case Err(e) => Err(e)
    case Ok(tags) => Ok(if tags == [] then "No versions found for module: " + moduleName else DumpStrings(tags))
  }

  /** `_retrieve_version_path`, up to the download: the cache directory of a known version. */
  function VersionPath(modules: seq<(string, Module)>, moduleName: string, version: string,
                       releases: string -> seq<Release>): (r: Result<string, string>)
    ensures Assoc.Lookup(modules, moduleName).None? ==> r == Err(NotFound(moduleName))
    ensures r.Ok? ==> r.value == "__avm_data_cache__/" + moduleName + "/" + version
  {
    match Assoc.Lookup(modules, moduleName)
    case None => Err(NotFound(moduleName))
    case Some(m) =>
      var table := VersionTable(releases(ReleasesUrl(m.repoUrl)));
      if version !in Assoc.Keys(table) then
        Err("Version " + version + " not found for module " + moduleName + ", available versions are: "
            + Join(VersionList(table), ", "))
      else Ok("__avm_data_cache__/" + moduleName + "/" + version)
  }

  /** A version is looked up the same whether or not the caller writes its `v`. */
  lemma VersionPrefixIgnored(modules: seq<(string, Module)>, moduleName: string, tag: string,
                             releases: string -> seq<Release>)
    ensures VersionPath(modules, moduleName, StripLeft("v" + tag, {'v'}), releases)
         == VersionPath(modules, moduleName, StripLeft(tag, {'v'}), releases)
  {
    assert StripLeft("v" + tag, {'v'}) == StripLeft(tag, {'v'}) by {
      assert ("v" + tag)[1..] == tag;
    }
  }

  /** Whether a file of a downloaded module is a `.tf` file whose name starts with `prefix`. */
  predicate Selected(fileName: string, prefix: string) {
    IsSuffix(".tf", fileName) && IsPrefix(prefix, fileName)
  }

  /** The selected files' contents, each followed by a newline, in listing order. */
  function SelectedContent(files: seq<(string, string)>, prefix: string): (r: string)
    ensures (forall i :: 0 <= i < |files| ==> !Selected(files[i].0, prefix)) ==> r == ""
  {
    if files == [] then ""
    else
      SelectedContent(files[..|files| - 1], prefix)
      + (if Selected(files[|files| - 1].0, prefix) then files[|files| - 1].1 + "\n" else "")
  }

  /** The loop of `module_variables` (prefix `variable`) and `module_outputs` (prefix `output`). */
  method ConcatModuleFiles(files: seq<(string, string)>, prefix: string) returns (result: string)
    ensures result == SelectedContent(files, prefix)
  {
    result := "";
    for i := 0 to |files|
      invariant result == SelectedContent(files[..i], prefix)
    {
      assert files[..i + 1][..i] == files[..i];
      if Selected(files[i].0, prefix) {
        result := result + files[i].1 + "\n";
      }
    }
    assert files[..|files|] == files;
  }
}

=== FILE: azapi_docs_provider.dfy ===
/**
 * AzAPI documentation search: a case-insensitive substring search over the keys of the
 * loaded AzAPI schema, and the response dictionary built from a local hit, from the
 * Azure REST documentation site, or from the fixed fallback.
 */
module AzapiDocsProvider {
  import opened Wrappers
  import opened Text
  import opened Json

  /** A response dictionary, members in insertion order. */
  type Dict = seq<(string, Json)>

  /** Whether `key` matches the query: the lower-cased query occurs in the lower-cased key. */
  predicate Matches(key: string, query: string) {
    Contains(Lower(key), Lower(query))
  }

  /** The position of the first schema member whose key matches the query. */
  function FirstMatch(members: Dict, query: string): (r: Option<nat>)
    ensures r.Some? ==> r.value < |members| && Matches(members[r.value].0, query)
    ensures r.Some? ==> forall j :: 0 <= j < r.value ==> !Matches(members[j].0, query)
    ensures r.None? ==> forall j :: 0 <= j < |members| ==> !Matches(members[j].0, query)
  {
    if members == [] then None
    else if Matches(members[0].0, query) then Some(0)
    else match FirstMatch(members[1..], query)
      case None => None
      case Some(k) => Some(k + 1)
  }

  /** The hit dictionary for a schema member. */
  function Hit(member: (string, Json)): Dict {
    [("definition", member.1), ("schema_key", JStr(member.0))]
  }

  /** The message of the `AttributeError` raised by `items()` on a value that is not a dictionary. */
  function NoItems(schema: Json): string {
    "'" + PythonType(schema) + "' object has no attribute 'items'"
  }

  /**
   * `_search_azapi_schema`: `{}` for an empty schema, the first matching member's
   * definition and key, or `{}` when no key matches. A loaded schema that is not a
   * dictionary has no `items`, and the search raises.
   */
  method SearchSchema(schema: Json, resourceType: string) returns (r: Result<Dict, string>)
    ensures !Truthy(schema) ==> r == Ok([])
    ensures Truthy(schema) && !schema.JObj? ==> r == Err(NoItems(schema))
    ensures schema.JObj? ==> r == Ok(match FirstMatch(schema.fields, resourceType)
                                     case Some(i) => Hit(schema.fields[i])
                                     case None => [])
  {
    if !Truthy(schema) {
      return Ok([]);
    }
    if !schema.JObj? {
      return Err(NoItems(schema));
    }
    var members := schema.fields;
    var i := 0;
    while i < |members|
      invariant 0 <= i <= |members|
      invariant FirstMatch(members, resourceType) == (match FirstMatch(members[i..], resourceType)
                                                      case Some(k) => Some(k + i) case None => None)
    {
      assert members[i..][1..] == members[i + 1..];
      if Contains(Lower(members[i].0), Lower(resourceType)) {
        return Ok(Hit(members[i]));
      }
      i := i + 1;
    }
    return Ok([]);
  }

  /** Spellings of the query that differ only in case find the same member. */
  lemma {:induction false} MatchIgnoresCase(members: Dict, q1: string, q2: string)
    requires Lower(q1) == Lower(q2)
    ensures FirstMatch(members, q1) == FirstMatch(members, q2)
    decreases |members|
  {
    if members != [] {
      MatchIgnoresCase(members[1..], q1, q2);
    }
  }

  /** The empty query matches whatever key comes first. */
  lemma EmptyQueryMatchesFirst(members: Dict)
    requires members != []
    ensures FirstMatch(members, "") == Some(0)
  {
    ContainsAt(Lower(members[0].0), Lower(""), 0);
  }

  /** A key that holds the query as written matches it. */
  lemma KeyHoldingQueryMatches(key: string, query: string)
    requires Contains(key, query)
    ensures Matches(key, query)
  {
    var i := ContainsWitness(key, query);
    assert Lower(key)[i..i + |query|] == Lower(query);
    ContainsAt(Lower(key), Lower(query), i);
  }

  /** `api_version or "latest"` */
  function VersionOrLatest(apiVersion: string): (v: string)
    ensures v != ""
    ensures apiVersion != "" ==> v == apiVersion
  {
    if apiVersion == "" then "latest" else apiVersion
  }

  const FallbackDocsUrl: string := "https://registry.terraform.io/providers/Azure/azapi/latest/docs"

  /**
   * `_fetch_azapi_docs_online`: the REST documentation entry when the site answers 200,
   * otherwise (another status, or a request that raised: `None`) the fallback entry.
   */
  function OnlineDocs(resourceType: string, apiVersion: string, status: Option<int>): (d: Dict)
    ensures status == Some(200) ==> ("source", JStr("Azure REST API docs")) in d
    ensures status != Some(200) ==> ("source", JStr("fallback")) in d
    ensures ("resource_type", JStr(resourceType)) in d
    ensures ("api_version", JStr(VersionOrLatest(apiVersion))) in d
  {
    if status == Some(200) then
      [("resource_type", JStr(resourceType)),
       ("api_version", JStr(VersionOrLatest(apiVersion))),
       ("documentation_url", JStr("https://docs.microsoft.com/en-us/rest/api/" + Lower(resourceType))),
       ("source", JStr("Azure REST API docs")),
       ("summary", JStr("Azure REST API documentation for " + resourceType))]
    else
      [("resource_type", JStr(resourceType)),
       ("api_version", JStr(VersionOrLatest(apiVersion))),
       ("summary", JStr("AzAPI resource type: " + resourceType)),
       ("documentation_url", JStr(FallbackDocsUrl)),
       ("source", JStr("fallback"))]
  }

  /**
   * `search_azapi_provider_docs`: a local hit is reported with its schema and the
   * `azapi_schemas.json` source; no hit goes online; a search that raised is reported
   * as an error entry.
   */
  method SearchAzapiProviderDocs(schema: Json, resourceType: string, apiVersion: string, status: Option<int>)
    returns (d: Dict)
    ensures Truthy(schema) && !schema.JObj? ==>
      d == [("error", JStr("Error searching AzAPI documentation: " + NoItems(schema))),
            ("resource_type", JStr(resourceType)),
            ("api_version", JStr(apiVersion))]
    ensures schema.JObj? && FirstMatch(schema.fields, resourceType).Some? ==>
      d == [("resource_type", JStr(resourceType)),
            ("api_version", JStr(VersionOrLatest(apiVersion))),
            ("schema", JObj(Hit(schema.fields[FirstMatch(schema.fields, resourceType).value]))),
            ("source", JStr("azapi_schemas.json"))]
    ensures !Truthy(schema) || (schema.JObj? && FirstMatch(schema.fields, resourceType).None?) ==>
      d == OnlineDocs(resourceType, apiVersion, status)
  {
    var info := SearchSchema(schema, resourceType);
    match info
    case Err(e) =>
      d := [("error", JStr("Error searching AzAPI documentation: " + e)),
            ("resource_type", JStr(resourceType)),
            ("api_version", JStr(apiVersion))];
    case Ok(found) =>
      if found != [] {
        d := [("resource_type", JStr(resourceType)),
              ("api_version", JStr(VersionOrLatest(apiVersion))),
              ("schema", JObj(found)),
              ("source", JStr("azapi_schemas.json"))];
      } else {
        d := OnlineDocs(resourceType, apiVersion, status);
      }
  }
}

=== FILE: azapi_schema.dfy ===
/**
 * AzAPI resource schemas built from Bicep type files: the `type@version` names,
 * parent types, the HCL rendering of a schema, the Bicep types parser with its
 * parsing stack, the choice of the latest API version per type, and the lookup
 * of a generated schema. Downloading and walking the Bicep files are left to the caller.
 */
module AzapiSchema {
  import opened Wrappers
  import opened Text
  import opened Json
  import opened Order
  import Assoc

  // ---------------------------------------------------------------------------
  // Names and parents
  // ---------------------------------------------------------------------------

  /** `name.split("@")[0]` */
  function ResourceTypeOf(name: string): string { Split(name, '@')[0] }

  /** `name.split("@")[1] if "@" in name else ""` */
  function ApiVersionOf(name: string): string {
    if '@' in name then
      SplitHasSeparator(name, '@');
      Split(name, '@')[1]
    else ""
  }

  /** A name without `@` is all type; a name with one `@` splits back into its two halves. */
  lemma NameRoundTrip(rtype: string, version: string)
    requires '@' !in rtype && '@' !in version
    ensures ResourceTypeOf(rtype) == rtype && ApiVersionOf(rtype) == ""
    ensures var name := rtype + "@" + version;
      ResourceTypeOf(name) == rtype && ApiVersionOf(name) == version
      && ResourceTypeOf(name) + "@" + ApiVersionOf(name) == name
  {
    SplitCons(rtype, version, '@');
    SplitWithout(rtype, '@');
    SplitWithout(version, '@');
    var name := rtype + "@" + version;
    assert name == rtype + ['@'] + version;
    assert name[|rtype|] == '@';
  }

  /** `/`.join of all segments but the last. */
  function DropLastSegment(parts: seq<string>): string
    requires |parts| >= 1
  {
    Join(parts[..|parts| - 1], "/")
  }

  /** `ResourceSchema.parent_id` */
  function ParentId(resourceType: string, scope: string): (r: string)
    ensures |Split(resourceType, '/')| <= 2 && (scope == "ResourceGroup" || scope == "Subscription")
      ==> r == "Microsoft.Resources/resourceGroups"
    ensures |Split(resourceType, '/')| <= 2 && scope != "ResourceGroup" && scope != "Subscription" ==> r == ""
  {
    var parts := Split(resourceType, '/');
    if |parts| > 2 then DropLastSegment(parts)
    else if scope == "ResourceGroup" || scope == "Subscription" then "Microsoft.Resources/resourceGroups"
    else ""
  }

  /** `get_azapi_parent` */
  function GetAzapiParent(resourceType: string): (r: string)
    ensures |Split(resourceType, '/')| <= 2 ==> r == "Microsoft.Resources/resourceGroups"
  {
    var parts := Split(resourceType, '/');
    if |parts| > 2 then DropLastSegment(parts) else "Microsoft.Resources/resourceGroups"
  }

  lemma {:induction false} JoinSnoc(parts: seq<string>, x: string, sep: string)
    requires |parts| >= 1
    ensures Join(parts + [x], sep) == Join(parts, sep) + sep + x
    decreases |parts|
  {
    if |parts| == 1 {
      assert (parts + [x])[1..] == [x];
    } else {
      JoinSnoc(parts[1..], x, sep);
      assert (parts + [x])[1..] == parts[1..] + [x];
    }
  }

  /**
   * A nested type's parent is the type without its last segment, for schemas of every
   * scope and for `get_azapi_parent` alike.
   */
  lemma NestedParent(resourceType: string, scope: string)
    requires |Split(resourceType, '/')| > 2
    ensures var parts := Split(resourceType, '/');
      ParentId(resourceType, scope) == GetAzapiParent(resourceType)
      && ParentId(resourceType, scope) + "/" + parts[|parts| - 1] == resourceType
  {
    var parts := Split(resourceType, '/');
    var n := |parts|;
    JoinSnoc(parts[..n - 1], parts[n - 1], "/");
    assert parts[..n - 1] + [parts[n - 1]] == parts;
    JoinSplit(resourceType, '/');
  }

  // ---------------------------------------------------------------------------
  // HCL rendering of a schema
  // ---------------------------------------------------------------------------

  /** The first component of `key_fn`. */
  function KeyRank(k: string): (rank: nat)
    ensures rank == 9999 <==> k == "tags"
  {
    if IsPrefix("__", k) then
      assert k[0] == '_' && "tags"[0] == 't';
      0
    else if k in ["name", "type", "parent_id", "location", "sku"] then 30
    else if k == "identity" then 50
    else if k == "tags" then 9999
    else 100
  }

  /** The order of `key_fn`: by rank, then by key. */
  predicate KeyLe(a: string, b: string) {
    KeyRank(a) < KeyRank(b) || (KeyRank(a) == KeyRank(b) && LexLe(a, b))
  }

  lemma KeyTotal(a: string, b: string)
    ensures KeyLe(a, b) || KeyLe(b, a)
  {
    LexTotal(a, b);
  }

  lemma KeyTransitive(a: string, b: string, c: string)
    requires KeyLe(a, b) && KeyLe(b, c)
    ensures KeyLe(a, c)
  {
    if KeyRank(a) == KeyRank(b) == KeyRank(c) {
      LexTransitive(a, b, c);
    }
  }

  predicate SortedByKey(s: seq<(string, string)>) {
    forall i, j :: 0 <= i < j < |s| ==> KeyLe(s[i].0, s[j].0)
  }

  function Insert(x: (string, string), s: seq<(string, string)>): (r: seq<(string, string)>)
    decreases |s|
  {
    if s == [] then [x]
    else if KeyLe(x.0, s[0].0) then [x] + s
    else [s[0]] + Insert(x, s[1..])
  }

  /** Every element of `Insert(x, s)` is `x` or an element of `s`, and nothing is lost. */
  lemma {:induction false} InsertPermutes(x: (string, string), s: seq<(string, string)>)
    ensures multiset(Insert(x, s)) == multiset(s) + multiset{x}
    decreases |s|
  {
    if s != [] && !KeyLe(x.0, s[0].0) {
      InsertPermutes(x, s[1..]);
      assert s == [s[0]] + s[1..];
    }
  }

  /** A lower bound of `x` and of every element of `s` bounds `Insert(x, s)`. */
  lemma {:induction false} InsertBounded(x: (string, string), s: seq<(string, string)>, lo: string)
    requires KeyLe(lo, x.0) && forall i :: 0 <= i < |s| ==> KeyLe(lo, s[i].0)
    ensures forall i :: 0 <= i < |Insert(x, s)| ==> KeyLe(lo, Insert(x, s)[i].0)
    decreases |s|
  {
    if s != [] && !KeyLe(x.0, s[0].0) {
      InsertBounded(x, s[1..], lo);
    }
  }

  lemma {:induction false} InsertSorted(x: (string, string), s: seq<(string, string)>)
    requires SortedByKey(s)
    ensures SortedByKey(Insert(x, s)) && multiset(Insert(x, s)) == multiset(s) + multiset{x}
    decreases |s|
  {
    InsertPermutes(x, s);
    if s == [] {
    } else if KeyLe(x.0, s[0].0) {
      forall i | 0 <= i < |s|
        ensures KeyLe(x.0, s[i].0)
      {
        if i > 0 {
          KeyTransitive(x.0, s[0].0, s[i].0);
        }
      }
      ConsSorted(x, s);
    } else {
      KeyTotal(x.0, s[0].0);
      InsertSorted(x, s[1..]);
      InsertBounded(x, s[1..], s[0].0);
      ConsSorted(s[0], Insert(x, s[1..]));
    }
  }

  /** An element bounding a sorted sequence can go in front of it. */
  lemma ConsSorted(h: (string, string), t: seq<(string, string)>)
    requires SortedByKey(t) && forall i :: 0 <= i < |t| ==> KeyLe(h.0, t[i].0)
    ensures SortedByKey([h] + t)
  {
    var r := [h] + t;
    forall i, j | 0 <= i < j < |r|
      ensures KeyLe(r[i].0, r[j].0)
    {
      assert r[j] == t[j - 1];
      if i > 0 {
        assert r[i] == t[i - 1];
      }
    }
  }

  /** `sorted(..., key=key_fn)` as an insertion sort. */
  function SortByKey(s: seq<(string, string)>): seq<(string, string)>
    decreases |s|
  {
    if s == [] then [] else Insert(s[0], SortByKey(s[1..]))
  }

  /** The sort orders its input by `key_fn` and is a permutation of it. */
  lemma {:induction false} SortByKeySorts(s: seq<(string, string)>)
    ensures SortedByKey(SortByKey(s)) && multiset(SortByKey(s)) == multiset(s)
    decreases |s|
  {
    if s != [] {
      SortByKeySorts(s[1..]);
      InsertSorted(s[0], SortByKey(s[1..]));
      HeadTail(s);
      assert multiset(s) == multiset{s[0]} + multiset(s[1..]) by {
        assert multiset([s[0]] + s[1..]) == multiset([s[0]]) + multiset(s[1..]);
      }
    }
  }

  /** The entries whose key does not start with `__`, in order. */
  function Emitted(entries: seq<(string, string)>): (r: seq<(string, string)>)
    ensures forall e :: e in r <==> e in entries && !IsPrefix("__", e.0)
    ensures multiset(r) <= multiset(entries)
    decreases |entries|
  {
    if entries == [] then []
    else
      var rest := Emitted(entries[1..]);
      assert entries == [entries[0]] + entries[1..];
      if IsPrefix("__", entries[0].0) then rest else [entries[0]] + rest
  }

  function Pad(n: int): (r: string)
    ensures |r| == (if n > 0 then n else 0)
    decreases n
  {
    if n <= 0 then "" else " " + Pad(n - 1)
  }

  /** `_format_properties_as_hcl` */
  function Hcl(data: Json, indent: int): string
    decreases data
  {
    match data
    case JObj(fields) =>
      var entries := seq(|fields|, i requires 0 <= i < |fields| =>
        (fields[i].0, Pad(indent) + fields[i].0 + " = " + Hcl(fields[i].1, indent + 2)));
      "{\n" + Join(Lines(ObjectEntries(entries)), "\n") + "\n" + Pad(indent - 2) + "}"
    case JStr(s) => "\"" + s + "\""
    case JBool(b) => if b then "true" else "false"
    case JInt(i) => IntToString(i)
    case JArr(items) =>
      if items == [] then "[]"
      else "[" + Join(seq(|items|, i requires 0 <= i < |items| => Hcl(items[i], indent)), ", ") + "]"
    case JNull => "null"
  }

  /**
   * Values render as HCL: a string quoted, a boolean as `true`/`false`, an empty list
   * as `[]`, and an object as a brace block closed two columns left of its members.
   */
  lemma ValueRendering(data: Json, indent: int)
    ensures data.JStr? ==> Hcl(data, indent) == "\"" + data.s + "\""
    ensures data.JBool? ==> Hcl(data, indent) == (if data.b then "true" else "false")
    ensures data == JArr([]) ==> Hcl(data, indent) == "[]"
    ensures data.JObj? ==>
      var h := Hcl(data, indent);
      |h| >= 2 && h[..2] == "{\n" && h[|h| - 1] == '}'
  {
  }

  function Lines(entries: seq<(string, string)>): seq<string> {
    seq(|entries|, i requires 0 <= i < |entries| => entries[i].1)
  }

  /** In a sorted list, nothing but `tags` follows `tags`. */
  lemma TagsLast(r: seq<(string, string)>)
    requires SortedByKey(r)
    ensures forall i, j :: 0 <= i < j < |r| && r[i].0 == "tags" ==> r[j].0 == "tags"
  {
    forall i, j | 0 <= i < j < |r| && r[i].0 == "tags"
      ensures r[j].0 == "tags"
    {
      assert KeyLe(r[i].0, r[j].0);
    }
  }

  /**
   * The rendered members of an object: those not starting with `__`, each exactly once,
   * sorted by rank and then key, so `tags` comes last.
   */
  function ObjectEntries(entries: seq<(string, string)>): (r: seq<(string, string)>)
    ensures SortedByKey(r)
    ensures multiset(r) == multiset(Emitted(entries))
    ensures forall i :: 0 <= i < |r| ==> !IsPrefix("__", r[i].0)
    ensures forall i, j :: 0 <= i < j < |r| && r[i].0 == "tags" ==> r[j].0 == "tags"
  {
    var emitted := Emitted(entries);
    var r := SortByKey(emitted);
    SortByKeySorts(emitted);
    assert forall i :: 0 <= i < |r| ==> !IsPrefix("__", r[i].0) by {
      forall i | 0 <= i < |r|
        ensures !IsPrefix("__", r[i].0)
      {
        assert r[i] in multiset(emitted);
      }
    }
    TagsLast(r);
    r
  }

  /** The HCL documentation of one schema (`ResourceSchema.as_documentation`). */
  datatype ResourceSchema = ResourceSchema(name: string, scope: string, properties: Json)

  /** `str.removesuffix("s")` */
  function RemoveSuffixS(s: string): string {
    if IsSuffix("s", s) then s[..|s| - 1] else s
  }

  function AsDocumentation(schema: ResourceSchema): (doc: string)
    ensures IsPrefix("# Resource Type: " + schema.name + "\n", doc)
    ensures IsSuffix("}\n```\n", doc)
  {
    var parts := Split(ResourceTypeOf(schema.name), '/');
    var resourceLabel := RemoveSuffixS(parts[|parts| - 1]);
    var head := "# Resource Type: " + schema.name + "\n";
    var doc := head
      + "API Version: " + ApiVersionOf(schema.name) + "\n"
      + "Parent resource type: " + ParentId(ResourceTypeOf(schema.name), schema.scope) + "\n"
      + "A json-like Resource Schema reference:\n\n"
      + "```hcl\nresource \"azapi_resource\" \"" + resourceLabel + "\" {\n"
      + Hcl(schema.properties, 2)
      + "}\n```\n";
    assert doc[..|head|] == head;
    doc
  }

  // ---------------------------------------------------------------------------
  // Bicep types: flags, references and property documentation
  // ---------------------------------------------------------------------------

  /** The integer a flags value stands for in `flags & bit`; `None` where `&` raises. */
  function IntValue(j: Json): (r: Option<int>)
    ensures j.JInt? ==> r == Some(j.i)
    ensures r.Some? <==> j.JInt? || j.JBool?
  {
    match j
    case JInt(i) => Some(i)
    case JBool(b) => Some(if b then 1 else 0)
    case _ => None
  }

  /** `n & bit != 0` for a power of two `bit`, on Python's unbounded two's-complement integers. */
  predicate Bit(n: int, bit: nat)
    requires bit > 0
  {
    (n / bit) % 2 == 1
  }

  /** `xs[n]` with Python's negative indexing; `None` where it raises `IndexError`. */
  function PyIndex(xs: seq<Json>, n: int): (r: Option<Json>)
    ensures 0 <= n < |xs| ==> r == Some(xs[n])
    ensures r.Some? <==> -|xs| <= n < |xs|
  {
    if 0 <= n < |xs| then Some(xs[n])
    else if -|xs| <= n < 0 then Some(xs[|xs| + n])
    else None
  }

  /** `int(ref.replace("#/", ""))` for a `$ref` value; `None` where it raises. */
  function RefIndex(ref: Json): Option<int> {
    if ref.JStr? then ParseInt(Replace(ref.s, "#/", "")) else None
  }

  /** The `$type` values `_parse_property` names, and the description it gives each. */
  const BicepTypeNames: seq<string> :=
    ["StringType", "IntegerType", "BooleanType", "ArrayType", "ObjectType", "UnionType"]
  const TypeDescriptions: seq<string> :=
    ["String Type", "Integer Type", "Boolean", "Array Type", "Object Type", "Union Type"]
  const ComplexType := "Complex Type"

  /** The position of `name` in `names`, or `|names|`. */
  function IndexOfType(names: seq<string>, name: string): (i: nat)
    ensures i <= |names| && (i < |names| <==> name in names)
    ensures i < |names| ==> names[i] == name
  {
    if names == [] then 0
    else if names[0] == name then 0
    else 1 + IndexOfType(names[1..], name)
  }

  /** The description `_parse_property` gives a referenced `$type`. */
  function TypeName(refType: Json): string {
    if !refType.JStr? then ComplexType
    else
      var i := IndexOfType(BicepTypeNames, refType.s);
      if i < |TypeDescriptions| then TypeDescriptions[i] else ComplexType
  }


  /** The type description of a property's `type`; `None` where the lookup raises. */
  function TypeDescription(types: seq<Json>, propType: Json): Option<string> {
    if !propType.JObj? then Some("Property")
    else
      var ref := Get(propType, "$ref").GetOr(JStr(""));
      if !Truthy(ref) then Some("Property")
      else match RefIndex(ref)
        case None => None
        case Some(n) =>
          if n >= |types| then Some("Property")
          else match PyIndex(types, n)
            case None => None
            case Some(refData) =>
              if refData.JObj? then Some(TypeName(Get(refData, "$type").GetOr(JStr("")))) else None
  }

  const Required := "(Required)"
  const Optional := "(Optional)"

  /** The text of a documented property: requirement, type description and description, stripped. */
  function DescribedText(required: string, desc: string, description: string): (doc: string)
    requires required == Required || required == Optional
    ensures IsPrefix(required, doc)
  {
    assert required[0] == '(' && required[9] == ')';
    PrintableNotWhitespace(required[0]);
    PrintableNotWhitespace(required[9]);
    var rest := " " + desc + ". " + description;
    StripKeepsPrefix(required, rest);
    Strip(required + rest)
  }

  /** The text of a property whose flags or type could not be read. */
  function FallbackText(description: string): (doc: string)
    ensures IsPrefix(Optional, doc)
  {
    var doc := Optional + (" Property. " + description);
    assert doc[..|Optional|] == Optional;
    doc
  }

  /** The flags of a property, where they are an integer. */
  function FlagsOf(propData: Json): Option<int> {
    IntValue(Get(propData, "flags").GetOr(JInt(0)))
  }

  /** The read-only bit (2) is set. */
  predicate ReadOnly(propData: Json) {
    FlagsOf(propData).Some? && Bit(FlagsOf(propData).value, 2)
  }

  /** The required bit (1) is set. */
  predicate RequiredFlag(propData: Json) {
    FlagsOf(propData).Some? && Bit(FlagsOf(propData).value, 1)
  }

  /**
   * `BicepTypesParser._parse_property`: `None` exactly for a read-only property,
   * otherwise its documentation text.
   */
  function PropertyDoc(types: seq<Json>, propData: Json): (doc: Option<string>)
    requires propData.JObj?
    ensures doc.None? <==> ReadOnly(propData)
  {
    if ReadOnly(propData) then None else Some(PropertyText(types, propData))
  }

  /**
   * The documentation of a property that is not read-only: "(Required)" or
   * "(Optional)", the type description and the description, where "(Required)" needs
   * the required bit. When reading the flags or the type raises, the property is
   * documented as optional.
   */
  function PropertyText(types: seq<Json>, propData: Json): (text: string)
    requires propData.JObj? && !ReadOnly(propData)
    ensures IsPrefix(Required, text) || IsPrefix(Optional, text)
    ensures !RequiredFlag(propData) ==> IsPrefix(Optional, text)
    ensures FlagsOf(propData).Some? && TypeDescription(types, Get(propData, "type").GetOr(JObj([]))).Some?
      ==> (IsPrefix(Required, text) <==> RequiredFlag(propData))
  {
    var description := Str(Get(propData, "description").GetOr(JStr("")));
    match FlagsOf(propData)
    case None => FallbackText(description)
    case Some(flags) =>
      assert RequiredFlag(propData) <==> Bit(flags, 1);
      var required := if Bit(flags, 1) then Required else Optional;
      match TypeDescription(types, Get(propData, "type").GetOr(JObj([])))
      case None => FallbackText(description)
      case Some(desc) =>
        var text := DescribedText(required, desc, description);
        if !Bit(flags, 1) then OptionalExcludesRequired(text); text else text
  }

  /** A property is documented as "(Required)" only when its required bit is set. */
  lemma RequiredNeedsFlag(types: seq<Json>, propData: Json)
    requires propData.JObj?
    ensures var doc := PropertyDoc(types, propData);
      doc.Some? && IsPrefix(Required, doc.value) ==> RequiredFlag(propData)
  {
    var doc := PropertyDoc(types, propData);
    if doc.Some? && !RequiredFlag(propData) {
      OptionalExcludesRequired(doc.value);
    }
  }

  lemma OptionalExcludesRequired(text: string)
    requires IsPrefix(Optional, text)
    ensures !IsPrefix(Required, text)
  {
    assert text[1] == 'O' && Required[1] == 'R';
  }

  /**
   * The properties of an object type, in order, read-only ones and non-object
   * entries skipped; a later duplicate name replaces an earlier one.
   */
  function PropertiesOf(types: seq<Json>, items: seq<(string, Json)>): (r: seq<(string, string)>)
    ensures Assoc.UniqueKeys(r)
  {
    if items == [] then []
    else PropertyStep(types, PropertiesOf(types, items[..|items| - 1]), items[|items| - 1])
  }

  /** One iteration of the property loop: document `item` into `acc` unless it is skipped. */
  function PropertyStep(types: seq<Json>, acc: seq<(string, string)>, item: (string, Json)): (r: seq<(string, string)>)
    ensures Assoc.UniqueKeys(acc) ==> Assoc.UniqueKeys(r)
  {
    if item.1.JObj? then
      match PropertyDoc(types, item.1)
      case Some(doc) => if doc != "" then Assoc.Upsert(acc, item.0, doc) else acc
      case None => acc
    else acc
  }

  /** A documented property: an object entry that is not read-only. */
  predicate Documented(item: (string, Json)) {
    item.1.JObj? && !ReadOnly(item.1)
  }

  /** A name is listed exactly when some entry of that name is documented. */
  /** Every documented entry is listed under its name. */
  lemma {:induction false} PropertiesOfComplete(types: seq<Json>, items: seq<(string, Json)>, i: nat)
    requires i < |items| && Documented(items[i])
    ensures items[i].0 in Assoc.Keys(PropertiesOf(types, items))
  {
    var init := items[..|items| - 1];
    var last := items[|items| - 1];
    PropertyStepKeys(types, PropertiesOf(types, init), last, items[i].0);
    if i < |init| {
      assert init[i] == items[i];
      PropertiesOfComplete(types, init, i);
    }
  }

  /** Every listed name comes from a documented entry of that name. */
  lemma PropertiesOfStep(types: seq<Json>, items: seq<(string, Json)>)
    requires items != []
    ensures PropertiesOf(types, items) == PropertyStep(types, PropertiesOf(types, items[..|items| - 1]), items[|items| - 1])
  {
  }

  lemma {:induction false} PropertiesOfSource(types: seq<Json>, items: seq<(string, Json)>, name: string) returns (i: nat)
    requires name in Assoc.Keys(PropertiesOf(types, items))
    ensures i < |items| && items[i].0 == name && Documented(items[i])
  {
    if items == [] {
      assert false;
    }
    var init := items[..|items| - 1];
    var last := items[|items| - 1];
    assert name in Assoc.Keys(PropertyStep(types, PropertiesOf(types, init), last)) by {
      PropertiesOfStep(types, items);
    }
    PropertyStepKeys(types, PropertiesOf(types, init), last, name);
    if last.0 == name && Documented(last) {
      i := |items| - 1;
    } else {
      i := PropertiesOfSource(types, init, name);
      assert init[i] == items[i];
    }
  }

  /** One step adds the item's name exactly when the item is documented. */
  lemma PropertyStepKeys(types: seq<Json>, acc: seq<(string, string)>, item: (string, Json), name: string)
    ensures name in Assoc.Keys(PropertyStep(types, acc, item))
        <==> name in Assoc.Keys(acc) || (item.0 == name && Documented(item))
  {
    if Documented(item) {
      assert PropertyDoc(types, item.1).value != "";
    }
  }

  /** The properties of `types[index]`; `None` where its `properties` is not a dict. */
  function PropertyItems(data: Json): Option<seq<(string, Json)>> {
    if data.JObj? && "properties" in Assoc.Keys(data.fields) then
      match Get(data, "properties")
      case Some(JObj(items)) => Some(items)
      case _ => None
    else Some([])
  }

  /**
   * `_parse_object_properties(index)` with the given parsing stack: nothing for an
   * index outside the table or one already being parsed; `None` where it raises.
   */
  function ObjectProperties(types: seq<Json>, index: int, stack: seq<int>): Option<seq<(string, string)>> {
    if index < 0 || index >= |types| || index in stack then Some([])
    else match PropertyItems(types[index])
      case None => None
      case Some(items) => Some(PropertiesOf(types, items))
  }

  const NestedHead := "Reference to the `id` property of resource of type: `"
  const NestedMiddle := "`, or a string in the format like: /subscriptions/{subscriptionId}/resourceGroups/{resourceGroupName}"
  const TenantDoc := "A tenant id in format /tenants/{tenantId}"
  const ManagementGroupDoc := "A management group id in format /providers/Microsoft.Management/managementGroups/{managementGroupId}"
  const SubscriptionDoc := "A subscription id in format /subscriptions/{subscriptionId}"
  const ResourceGroupDoc := "Reference to the `id` property of a `Microsoft.Resources/resourceGroups`, or a string value in format /subscriptions/{subscriptionId}/resourceGroups/{resourceGroupName}"
  const ExtensionDoc := "A resource id reference to a extension."

  /** The parent id text of a nested type: a reference to the parent's `id` or its path. */
  function NestedParentDoc(parentType: string): (doc: string)
    ensures IsSuffix("/providers/" + parentType, doc)
  {
    NestedHead + parentType + NestedMiddle + ("/providers/" + parentType)
  }

  /** `_get_parent_id_doc`: a nested type names its parent; otherwise the lowest scope bit decides. */
  function ParentIdDoc(name: string, scopeType: int): (doc: string)
    ensures |Split(ResourceTypeOf(name), '/')| > 2 ==>
      IsSuffix("/providers/" + GetAzapiParent(ResourceTypeOf(name)), doc)
    ensures |Split(ResourceTypeOf(name), '/')| <= 2 && Bit(scopeType, 1) ==> doc == TenantDoc
  {
    var parts := Split(ResourceTypeOf(name), '/');
    if |parts| > 2 then NestedParentDoc(DropLastSegment(parts))
    else if Bit(scopeType, 1) then TenantDoc
    else if Bit(scopeType, 2) then ManagementGroupDoc
    else if Bit(scopeType, 4) then SubscriptionDoc
    else if Bit(scopeType, 8) then ResourceGroupDoc
    else if Bit(scopeType, 16) then ExtensionDoc
    else "Unknown scope"
  }

  /** `scope_map.get(scope_type, "Unknown")` */
  function ScopeName(scopeType: int): (scope: string)
    ensures scope != "Unknown" <==> scopeType in {1, 2, 4, 8, 16}
  {
    if scopeType == 1 then "Tenant"
    else if scopeType == 2 then "ManagementGroup"
    else if scopeType == 4 then "Subscription"
    else if scopeType == 8 then "ResourceGroup"
    else if scopeType == 16 then "Extension"
    else "Unknown"
  }

  /** Of the named scopes, only the resource group carries bit 8. */
  lemma ScopeLocation(scopeType: int)
    ensures ScopeName(scopeType) != "Unknown" ==> (Bit(scopeType, 8) <==> ScopeName(scopeType) == "ResourceGroup")
  {
  }

  const LocationDoc := "(Required) String Type. The geo-location where the resource lives"

  /** The schema properties of a resource type: type, parent id, body and, for resource-group scope, location. */
  function SchemaProperties(name: string, scopeType: int, body: seq<(string, string)>): (r: Json)
    ensures r.JObj? && |r.fields| >= 3
    ensures Assoc.Keys(r.fields)[..3] == ["type", "parent_id", "body"]
    ensures "location" in Assoc.Keys(r.fields) <==> Bit(scopeType, 8)
  {
    var common := [("type", JStr(name)), ("parent_id", JStr(ParentIdDoc(name, scopeType))),
                   ("body", JObj(StringFields(body)))];
    var extra := if Bit(scopeType, 8) then [("location", JStr(LocationDoc))] else [];
    var fields := common + extra;
    assert "location"[0] == 'l' && "type"[0] == 't' && "parent_id"[0] == 'p' && "body"[0] == 'b';
    assert Assoc.Keys(common) == ["type", "parent_id", "body"];
    assert "location" !in Assoc.Keys(common);
    assert Assoc.Keys(extra) == (if Bit(scopeType, 8) then ["location"] else []);
    assert Assoc.Keys(fields) == Assoc.Keys(common) + Assoc.Keys(extra);
    JObj(fields)
  }

  function StringFields(fields: seq<(string, string)>): (r: seq<(string, Json)>)
    ensures |r| == |fields| && forall i :: 0 <= i < |fields| ==> r[i] == (fields[i].0, JStr(fields[i].1))
  {
    seq(|fields|, i requires 0 <= i < |fields| => (fields[i].0, JStr(fields[i].1)))
  }

  /** The body properties named by a resource's `body.$ref`; `None` where reading it raises. */
  function BodyProperties(types: seq<Json>, bodyRef: Json, stack: seq<int>): Option<seq<(string, string)>> {
    if !Truthy(bodyRef) then Some([])
    else match RefIndex(bodyRef)
      case None => None
      case Some(n) => ObjectProperties(types, n, stack)
  }

  /**
   * `parse_resource_type(index)` with the given parsing stack; `None` wherever the
   * source catches an exception. A scope type that is not an integer makes
   * `scope_type & 8` raise, so it is rejected before the rest is read.
   */
  function ResourceTypeSchema(types: seq<Json>, index: int, stack: seq<int>): (r: Option<ResourceSchema>)
    ensures r.Some? ==>
      && r.value.properties.JObj? && |r.value.properties.fields| >= 3
      && Assoc.Keys(r.value.properties.fields)[..3] == ["type", "parent_id", "body"]
      && (r.value.scope != "Unknown" ==>
            ("location" in Assoc.Keys(r.value.properties.fields) <==> r.value.scope == "ResourceGroup"))
    ensures r.Some? ==>
      PyIndex(types, index).Some? && Get(PyIndex(types, index).value, "name").GetOr(JStr("")) == JStr(r.value.name)
  {
    match PyIndex(types, index)
    case None => None
    case Some(data) =>
      if !data.JObj? then None
      else
        var nameValue := Get(data, "name").GetOr(JStr(""));
        match IntValue(Get(data, "scopeType").GetOr(JInt(0)))
        case None => None
        case Some(scopeType) =>
          var body := Get(data, "body").GetOr(JObj([]));
          if !body.JObj? || !nameValue.JStr? then None
          else match BodyProperties(types, Get(body, "$ref").GetOr(JNull), stack)
            case None => None
            case Some(props) =>
              ScopeLocation(scopeType);
              Some(ResourceSchema(nameValue.s, ScopeName(scopeType),
                                  SchemaProperties(nameValue.s, scopeType, props)))
  }

  // ---------------------------------------------------------------------------
  // The parser object
  // ---------------------------------------------------------------------------

  /** `BicepTypesParser`: a types table and the stack of object types being parsed. */
  class BicepTypesParser {
    const types: seq<Json>
    var parsingStack: seq<int>

    constructor (types: seq<Json>)
      ensures this.types == types && parsingStack == []
    {
      this.types := types;
      parsingStack := [];
    }

    /** `get_resource_types` */
    method GetResourceTypes() returns (rts: seq<(nat, Json)>)
      ensures rts == ResourceTypeEntries(types)
    {
      rts := [];
      var i := 0;
      while i < |types|
        invariant 0 <= i <= |types|
        invariant rts == ResourceTypeEntries(types[..i])
      {
        assert types[..i + 1][..i] == types[..i];
        var data := types[i];
        if data.JObj? && Get(data, "$type") == Some(JStr("ResourceType")) {
          rts := rts + [(i, Get(data, "name").GetOr(JStr("")))];
        }
        i := i + 1;
      }
      assert types[..|types|] == types;
    }

    /** `_parse_object_properties`: pushes the index while its properties are read, then pops it. */
    method ParseObjectProperties(index: int) returns (props: Option<seq<(string, string)>>)
      modifies this
      ensures parsingStack == old(parsingStack)
      ensures props == ObjectProperties(types, index, old(parsingStack))
    {
      if index < 0 || index >= |types| || index in parsingStack {
        return Some([]);
      }
      parsingStack := parsingStack + [index];
      var items := PropertyItems(types[index]);
      if items.None? {
        props := None;
      } else {
        var acc := [];
        var i := 0;
        while i < |items.value|
          invariant 0 <= i <= |items.value|
          invariant acc == PropertiesOf(types, items.value[..i])
        {
          assert items.value[..i + 1][..i] == items.value[..i];
          assert PropertiesOf(types, items.value[..i + 1]) == PropertyStep(types, acc, items.value[i]);
          var (name, propData) := items.value[i];
          if propData.JObj? {
            var doc := PropertyDoc(types, propData);
            if doc.Some? && doc.value != "" {
              acc := Assoc.Upsert(acc, name, doc.value);
            }
          }
          i := i + 1;
        }
        assert items.value[..|items.value|] == items.value;
        props := Some(acc);
      }
      parsingStack := parsingStack[..|parsingStack| - 1];
    }

    /** `parse_resource_type` */
    method ParseResourceType(index: int) returns (schema: Option<ResourceSchema>)
      modifies this
      ensures parsingStack == old(parsingStack)
      ensures schema == ResourceTypeSchema(types, index, old(parsingStack))
    {
      var data := PyIndex(types, index);
      if data.None? || !data.value.JObj? {
        return None;
      }
      var nameValue := Get(data.value, "name").GetOr(JStr(""));
      var scopeType := IntValue(Get(data.value, "scopeType").GetOr(JInt(0)));
      if scopeType.None? {
        return None;
      }
      var body := Get(data.value, "body").GetOr(JObj([]));
      if !body.JObj? || !nameValue.JStr? {
        return None;
      }
      var bodyRef := Get(body, "$ref").GetOr(JNull);
      var props: Option<seq<(string, string)>> := Some([]);
      if Truthy(bodyRef) {
        var n := RefIndex(bodyRef);
        if n.None? {
          return None;
        }
        props := ParseObjectProperties(n.value);
      }
      if props.None? {
        return None;
      }
      schema := Some(ResourceSchema(nameValue.s, ScopeName(scopeType.value),
                                    SchemaProperties(nameValue.s, scopeType.value, props.value)));
    }
  }

  /** The `(index, name)` of every entry whose `$type` is "ResourceType", in table order. */
  function ResourceTypeEntries(types: seq<Json>): (r: seq<(nat, Json)>)
    ensures forall e :: e in r ==>
      e.0 < |types| && types[e.0].JObj? && Get(types[e.0], "$type") == Some(JStr("ResourceType"))
      && e.1 == Get(types[e.0], "name").GetOr(JStr(""))
  {
    if types == [] then []
    else
      var acc := ResourceTypeEntries(types[..|types| - 1]);
      var data := types[|types| - 1];
      if data.JObj? && Get(data, "$type") == Some(JStr("ResourceType")) then
        acc + [(|types| - 1, Get(data, "name").GetOr(JStr("")))]
      else acc
  }

  // ---------------------------------------------------------------------------
  // Latest API version per resource type
  // ---------------------------------------------------------------------------

  /** A resource type entry with the key it is grouped under (its type, lower-cased) and its API version. */
  datatype Candidate = Candidate(index: nat, name: string, key: string, version: string)

  function CandidateOf(entry: (nat, string)): Candidate {
    Candidate(entry.0, entry.1, Lower(ResourceTypeOf(entry.1)), ApiVersionOf(entry.1))
  }

  /**
   * The `rt_versions` dict: for each key, the entry of that key whose API version no
   * other entry's exceeds, the first such one (only a strictly greater version
   * replaces the entry kept so far).
   */
  function LatestVersions(cs: seq<Candidate>): (m: seq<(string, Candidate)>)
    ensures Assoc.UniqueKeys(m)
    ensures forall i :: 0 <= i < |m| ==> m[i].1 in cs && m[i].1.key == m[i].0
    ensures forall j :: 0 <= j < |cs| ==> cs[j].key in Assoc.Keys(m)
  {
    if cs == [] then []
    else
      var init := cs[..|cs| - 1];
      var acc := LatestVersions(init);
      var c := cs[|cs| - 1];
      var m := VersionStep(acc, c);
      VersionStepFrom(cs, acc, m);
      m
  }

  /** One iteration of the selection loop. */
  function VersionStep(acc: seq<(string, Candidate)>, c: Candidate): (m: seq<(string, Candidate)>)
    ensures Assoc.UniqueKeys(acc) ==> Assoc.UniqueKeys(m)
    ensures Assoc.Keys(acc) <= Assoc.Keys(m) && c.key in Assoc.Keys(m)
    ensures forall i :: 0 <= i < |m| ==> m[i] == (c.key, c) || (i < |acc| && m[i] == acc[i])
  {
    match Assoc.Lookup(acc, c.key)
    case None => Assoc.Upsert(acc, c.key, c)
    case Some(kept) =>
      if LexLt(kept.version, c.version) then Assoc.Upsert(acc, c.key, c) else acc
  }

  /**
   * The entry kept for a key has a version at least that of every entry of the key,
   * and an entry with an equal version never comes before it: the first of the
   * newest versions wins.
   */
  lemma {:induction false} LatestVersionWins(cs: seq<Candidate>, j: nat)
    requires j < |cs|
    ensures KeptOver(Assoc.Lookup(LatestVersions(cs), cs[j].key), cs[j], cs[..j + 1])
  {
    var init := cs[..|cs| - 1];
    if j < |init| {
      assert KeptOver(Assoc.Lookup(LatestVersions(init), cs[j].key), cs[j], init[..j + 1]) by {
        LatestVersionWins(init, j);
        assert init[j] == cs[j];
      }
      EarlierEntryStep(cs, j);
    } else {
      assert cs[..j + 1] == cs && cs[j] == cs[|cs| - 1];
      LastEntryWins(cs);
    }
  }

  /** One more candidate keeps the accumulated entries drawn from the candidates and covering their keys. */
  lemma VersionStepFrom(cs: seq<Candidate>, acc: seq<(string, Candidate)>, m: seq<(string, Candidate)>)
    requires cs != []
    requires forall i :: 0 <= i < |acc| ==> acc[i].1 in cs[..|cs| - 1] && acc[i].1.key == acc[i].0
    requires forall j :: 0 <= j < |cs| - 1 ==> cs[j].key in Assoc.Keys(acc)
    requires m == VersionStep(acc, cs[|cs| - 1])
    ensures forall i :: 0 <= i < |m| ==> m[i].1 in cs && m[i].1.key == m[i].0
    ensures forall j :: 0 <= j < |cs| ==> cs[j].key in Assoc.Keys(m)
  {
    var init := cs[..|cs| - 1];
    var c := cs[|cs| - 1];
    forall i | 0 <= i < |m|
      ensures m[i].1 in cs && m[i].1.key == m[i].0
    {
      if m[i].1 != c {
        assert m[i] == acc[i] && acc[i].1 in init;
      }
    }
    forall j | 0 <= j < |cs|
      ensures cs[j].key in Assoc.Keys(m)
    {
      if j < |init| {
        assert init[j] == cs[j];
      }
    }
  }

  lemma LatestVersionsStep(cs: seq<Candidate>)
    requires cs != []
    ensures LatestVersions(cs) == VersionStep(LatestVersions(cs[..|cs| - 1]), cs[|cs| - 1])
  {
  }

  lemma EarlierEntryStep(cs: seq<Candidate>, j: nat)
    requires j < |cs| - 1
    requires var init := cs[..|cs| - 1];
      KeptOver(Assoc.Lookup(LatestVersions(init), cs[j].key), cs[j], init[..j + 1])
    ensures KeptOver(Assoc.Lookup(LatestVersions(cs), cs[j].key), cs[j], cs[..j + 1])
  {
    var init := cs[..|cs| - 1];
    LatestVersionsStep(cs);
    EarlierEntryWins(LatestVersions(init), cs[|cs| - 1], cs[j], init[..j + 1]);
    assert init[..j + 1] == cs[..j + 1];
  }

  /**
   * `kept` is an entry at least as new as `e`, and where it is not strictly newer it
   * occurs in `prefix` (the entries up to and including `e`).
   */
  predicate KeptOver(kept: Option<Candidate>, e: Candidate, prefix: seq<Candidate>) {
    && kept.Some?
    && LexLe(e.version, kept.value.version)
    && (LexLt(e.version, kept.value.version) || kept.value in prefix)
  }

  lemma EarlierEntryWins(acc: seq<(string, Candidate)>, c: Candidate, e: Candidate, prefix: seq<Candidate>)
    requires KeptOver(Assoc.Lookup(acc, e.key), e, prefix)
    ensures KeptOver(Assoc.Lookup(VersionStep(acc, c), e.key), e, prefix)
  {
    if c.key != e.key {
      StepKeepsOther(acc, c, e.key);
    } else {
      StepKeepsOrReplaces(acc, c, e.version);
    }
  }

  lemma LastEntryWins(cs: seq<Candidate>)
    requires cs != []
    ensures var c := cs[|cs| - 1];
      KeptOver(Assoc.Lookup(VersionStep(LatestVersions(cs[..|cs| - 1]), c), c.key), c, cs)
  {
    var init := cs[..|cs| - 1];
    var acc := LatestVersions(init);
    StepAtOwnKey(acc, cs[|cs| - 1], init);
    assert forall x :: x in init ==> x in cs;
  }

  /** A step for another key leaves this key's entry alone. */
  lemma StepKeepsOther(acc: seq<(string, Candidate)>, c: Candidate, k: string)
    requires c.key != k
    ensures Assoc.Lookup(VersionStep(acc, c), k) == Assoc.Lookup(acc, k)
  {
    var kept := Assoc.Lookup(acc, c.key);
    if kept.None? || LexLt(kept.value.version, c.version) {
      Assoc.LookupUpsertOther(acc, c.key, c, k);
    }
  }

  /** A step for a key already present keeps its entry or replaces it by a strictly newer one. */
  lemma StepKeepsOrReplaces(acc: seq<(string, Candidate)>, c: Candidate, v: string)
    requires Assoc.Lookup(acc, c.key).Some? && LexLe(v, Assoc.Lookup(acc, c.key).value.version)
    ensures var w := Assoc.Lookup(VersionStep(acc, c), c.key);
      var kept := Assoc.Lookup(acc, c.key).value;
      (w == Some(kept)) || (w == Some(c) && LexLt(v, c.version))
  {
    var kept := Assoc.Lookup(acc, c.key).value;
    if LexLt(kept.version, c.version) {
      Assoc.LookupUpsertSame(acc, c.key, c);
      LexLeLt(v, kept.version, c.version);
    }
  }

  /** After its own step, an entry's key holds it or an entry of the prefix that is not older. */
  lemma StepAtOwnKey(acc: seq<(string, Candidate)>, c: Candidate, init: seq<Candidate>)
    requires forall i :: 0 <= i < |acc| ==> acc[i].1 in init
    ensures var w := Assoc.Lookup(VersionStep(acc, c), c.key);
      && w.Some? && LexLe(c.version, w.value.version)
      && (w.value == c || w.value in init)
  {
    LexReflexive(c.version);
    match Assoc.Lookup(acc, c.key)
    case None =>
      Assoc.LookupUpsertSame(acc, c.key, c);
    case Some(kept) =>
      if LexLt(kept.version, c.version) {
        Assoc.LookupUpsertSame(acc, c.key, c);
      } else {
        LexTotal(kept.version, c.version);
        var p :| 0 <= p < |acc| && acc[p] == (c.key, kept);
      }
  }

  // ---------------------------------------------------------------------------
  // Parsing the type files
  // ---------------------------------------------------------------------------

  /** Every resource type entry has a string name (otherwise reading its type raises). */
  predicate NamesAreStrings(entries: seq<(nat, Json)>) {
    forall i :: 0 <= i < |entries| ==> entries[i].1.JStr?
  }

  function Candidates(entries: seq<(nat, Json)>): (cs: seq<Candidate>)
    requires NamesAreStrings(entries)
    ensures |cs| == |entries|
    ensures forall i :: 0 <= i < |cs| ==> cs[i] == CandidateOf((entries[i].0, entries[i].1.s))
  {
    seq(|entries|, i requires 0 <= i < |entries| => CandidateOf((entries[i].0, entries[i].1.s)))
  }

  /** Each schema is stored under its own resource type. */
  predicate Keyed(r: seq<(string, ResourceSchema)>) {
    forall i :: 0 <= i < |r| ==> ResourceTypeOf(r[i].1.name) == r[i].0
  }

  /** The second loop of `parse_resource_schemas`: parse each kept entry, keyed by its type. */
  function SchemasOf(types: seq<Json>, kept: seq<(string, Candidate)>): (r: seq<(string, ResourceSchema)>)
    ensures Assoc.UniqueKeys(r) && Keyed(r)
  {
    if kept == [] then []
    else
      var acc := SchemasOf(types, kept[..|kept| - 1]);
      match ResourceTypeSchema(types, kept[|kept| - 1].1.index, [])
      case None => acc
      case Some(schema) => Assoc.Upsert(acc, ResourceTypeOf(schema.name), schema)
  }

  /** Every schema kept was parsed from one of the kept entries. */
  lemma {:induction false} SchemasOfSource(types: seq<Json>, kept: seq<(string, Candidate)>, i: nat) returns (p: nat)
    requires i < |SchemasOf(types, kept)|
    ensures p < |kept| && ResourceTypeSchema(types, kept[p].1.index, []) == Some(SchemasOf(types, kept)[i].1)
  {
    var init := kept[..|kept| - 1];
    var acc := SchemasOf(types, init);
    var r := SchemasOf(types, kept);
    var last := ResourceTypeSchema(types, kept[|kept| - 1].1.index, []);
    if last.Some? && r[i].1 == last.value {
      p := |kept| - 1;
    } else {
      assert i < |acc| && r[i] == acc[i];
      p := SchemasOfSource(types, init, i);
      assert init[p] == kept[p];
    }
  }

  /**
   * What one types file contributes: nothing when it names a resource type with a
   * non-string name, otherwise the schema of the latest version of each type.
   */
  function FileSchemas(types: seq<Json>): (r: seq<(string, ResourceSchema)>)
    ensures Assoc.UniqueKeys(r) && Keyed(r)
  {
    var entries := ResourceTypeEntries(types);
    if !NamesAreStrings(entries) then []
    else SchemasOf(types, LatestVersions(Candidates(entries)))
  }

  /** `schemas[k] = v` for each pair, in order. */
  function Merge(acc: seq<(string, ResourceSchema)>, more: seq<(string, ResourceSchema)>): (r: seq<(string, ResourceSchema)>)
    ensures Assoc.UniqueKeys(acc) ==> Assoc.UniqueKeys(r)
    ensures Keyed(acc) && Keyed(more) ==> Keyed(r)
  {
    if more == [] then acc
    else
      var mid := Merge(acc, more[..|more| - 1]);
      assert Keyed(more) ==> Keyed(more[..|more| - 1]);
      Assoc.Upsert(mid, more[|more| - 1].0, more[|more| - 1].1)
  }

  /**
   * `parse_resource_schemas` over the decoded type files, in the order they are
   * visited; a value that is not a list is skipped, and a later file's schema for a
   * type replaces an earlier one.
   */
  function AllSchemas(files: seq<Json>): (r: seq<(string, ResourceSchema)>)
    ensures Assoc.UniqueKeys(r) && Keyed(r)
  {
    if files == [] then []
    else
      var acc := AllSchemas(files[..|files| - 1]);
      var file := files[|files| - 1];
      if file.JArr? then Merge(acc, FileSchemas(file.items)) else acc
  }

  /** Each candidate's schema, when it parses, carries the candidate's name. */
  predicate NamedLikeCandidates(types: seq<Json>, cs: seq<Candidate>) {
    forall k :: 0 <= k < |cs| ==>
      && cs[k] == CandidateOf((cs[k].index, cs[k].name))
      && var schema := ResourceTypeSchema(types, cs[k].index, []);
        schema.Some? ==> schema.value.name == cs[k].name
  }

  lemma CandidatesNamed(types: seq<Json>)
    requires NamesAreStrings(ResourceTypeEntries(types))
    ensures NamedLikeCandidates(types, Candidates(ResourceTypeEntries(types)))
  {
    var entries := ResourceTypeEntries(types);
    forall k | 0 <= k < |entries|
      ensures var schema := ResourceTypeSchema(types, entries[k].0, []);
        schema.Some? ==> JStr(schema.value.name) == entries[k].1
    {
      assert entries[k] in entries;
    }
  }

  /** The schema kept for a key comes from a candidate whose version no candidate of that key exceeds. */
  lemma KeptSchemaIsLatest(types: seq<Json>, cs: seq<Candidate>, i: nat, j: nat)
    requires NamedLikeCandidates(types, cs)
    requires i < |SchemasOf(types, LatestVersions(cs))| && j < |cs|
    requires cs[j].key == Lower(SchemasOf(types, LatestVersions(cs))[i].0)
    ensures LexLe(cs[j].version, ApiVersionOf(SchemasOf(types, LatestVersions(cs))[i].1.name))
  {
    var kept := LatestVersions(cs);
    var r := SchemasOf(types, kept);
    var p := SchemasOfSource(types, kept, i);
    var c := kept[p].1;
    assert r[i].1.name == c.name && c.key == Lower(ResourceTypeOf(c.name)) by {
      var q :| 0 <= q < |cs| && cs[q] == c;
    }
    assert cs[j].key == c.key by {
      assert r[i].0 == ResourceTypeOf(r[i].1.name);
    }
    assert Assoc.Lookup(kept, cs[j].key) == Some(c) by {
      Assoc.LookupUnique(kept, p);
    }
    LatestVersionWins(cs, j);
  }

  /**
   * In a file whose resource names are strings, the schema kept for a type comes from
   * an entry of that type whose API version is at least that of every entry of the type.
   */
  lemma FileSchemaIsLatest(types: seq<Json>, i: nat, j: nat)
    requires var entries := ResourceTypeEntries(types);
      NamesAreStrings(entries) && i < |FileSchemas(types)| && j < |entries|
    requires var entries := ResourceTypeEntries(types);
      Lower(ResourceTypeOf(entries[j].1.s)) == Lower(FileSchemas(types)[i].0)
    ensures var entries := ResourceTypeEntries(types);
      LexLe(ApiVersionOf(entries[j].1.s), ApiVersionOf(FileSchemas(types)[i].1.name))
  {
    CandidatesNamed(types);
    KeptSchemaIsLatest(types, Candidates(ResourceTypeEntries(types)), i, j);
  }

  /** `SimpleBicepParser.parse_resource_schemas`, with the type files given as decoded values. */
  method ParseResourceSchemas(files: seq<Json>) returns (schemas: seq<(string, ResourceSchema)>)
    ensures schemas == AllSchemas(files)
  {
    schemas := [];
    var f := 0;
    while f < |files|
      invariant 0 <= f <= |files|
      invariant schemas == AllSchemas(files[..f])
    {
      assert files[..f + 1][..f] == files[..f];
      var file := files[f];
      if file.JArr? {
        var found := ParseTypesFile(file.items);
        schemas := MergeInto(schemas, found);
      }
      f := f + 1;
    }
    assert files[..|files|] == files;
  }

  /** The body of the per-file `try`: a fresh parser, the latest versions, then each schema. */
  method ParseTypesFile(types: seq<Json>) returns (found: seq<(string, ResourceSchema)>)
    ensures found == FileSchemas(types)
  {
    var parser := new BicepTypesParser(types);
    var entries := parser.GetResourceTypes();
    if !NamesAreStrings(entries) {
      return [];
    }
    var kept := SelectLatest(Candidates(entries));
    found := ParseKept(parser, kept);
  }

  /** The second loop of `parse_resource_schemas`, on the file's parser. */
  method ParseKept(parser: BicepTypesParser, kept: seq<(string, Candidate)>)
    returns (found: seq<(string, ResourceSchema)>)
    requires parser.parsingStack == []
    modifies parser
    ensures parser.parsingStack == []
    ensures found == SchemasOf(parser.types, kept)
  {
    found := [];
    var k := 0;
    while k < |kept|
      invariant 0 <= k <= |kept|
      invariant parser.parsingStack == []
      invariant found == SchemasOf(parser.types, kept[..k])
    {
      assert kept[..k + 1][..k] == kept[..k];
      var schema := parser.ParseResourceType(kept[k].1.index);
      if schema.Some? {
        found := Assoc.Upsert(found, ResourceTypeOf(schema.value.name), schema.value);
      }
      k := k + 1;
    }
    assert kept[..|kept|] == kept;
  }

  /** The first loop of `parse_resource_schemas`: the `rt_versions` dict. */
  method SelectLatest(cs: seq<Candidate>) returns (kept: seq<(string, Candidate)>)
    ensures kept == LatestVersions(cs)
  {
    kept := [];
    var i := 0;
    while i < |cs|
      invariant 0 <= i <= |cs|
      invariant kept == LatestVersions(cs[..i])
    {
      assert cs[..i + 1][..i] == cs[..i];
      var c := cs[i];
      var current := Assoc.Lookup(kept, c.key);
      if current.None? || LexLt(current.value.version, c.version) {
        kept := Assoc.Upsert(kept, c.key, c);
      }
      i := i + 1;
    }
    assert cs[..|cs|] == cs;
  }

  method MergeInto(acc: seq<(string, ResourceSchema)>, more: seq<(string, ResourceSchema)>)
    returns (r: seq<(string, ResourceSchema)>)
    ensures r == Merge(acc, more)
  {
    r := acc;
    var i := 0;
    while i < |more|
      invariant 0 <= i <= |more|
      invariant r == Merge(acc, more[..i])
    {
      assert more[..i + 1][..i] == more[..i];
      r := Assoc.Upsert(r, more[i].0, more[i].1);
      i := i + 1;
    }
    assert more[..|more|] == more;
  }

  /** The generated documentation of every schema, under the same keys. */
  function SchemaDocs(schemas: seq<(string, ResourceSchema)>): (docs: seq<(string, string)>)
    ensures |docs| == |schemas|
    ensures forall i :: 0 <= i < |docs| ==>
      && docs[i].0 == schemas[i].0
      && IsPrefix("# Resource Type: " + schemas[i].1.name + "\n", docs[i].1)
  {
    seq(|schemas|, i requires 0 <= i < |schemas| => (schemas[i].0, AsDocumentation(schemas[i].1)))
  }

  // ---------------------------------------------------------------------------
  // Looking a schema up
  // ---------------------------------------------------------------------------

  /** The position of the first key equal to `low` once lower-cased. */
  function FirstFolded(schemas: seq<(string, string)>, low: string): (r: Option<nat>)
    ensures r.Some? ==> r.value < |schemas| && Lower(schemas[r.value].0) == low
    ensures r.Some? ==> forall j :: 0 <= j < r.value ==> Lower(schemas[j].0) != low
    ensures r.None? ==> forall j :: 0 <= j < |schemas| ==> Lower(schemas[j].0) != low
  {
    if schemas == [] then None
    else if Lower(schemas[0].0) == low then Some(0)
    else
      match FirstFolded(schemas[1..], low)
      case None => None
      case Some(i) => Some(i + 1)
  }

  /** `get_azapi_schema`: an exact key first, then the first key equal up to case, else "". */
  function SchemaFor(resourceType: string, schemas: seq<(string, string)>): string {
    match Assoc.Lookup(schemas, resourceType)
    case Some(doc) => doc
    case None =>
      match FirstFolded(schemas, Lower(resourceType))
      case Some(i) => schemas[i].1
      case None => ""
  }

  method GetAzapiSchema(resourceType: string, schemas: seq<(string, string)>) returns (doc: string)
    ensures doc == SchemaFor(resourceType, schemas)
  {
    var direct := Assoc.Lookup(schemas, resourceType);
    if direct.Some? {
      return direct.value;
    }
    var low := Lower(resourceType);
    var i := 0;
    while i < |schemas|
      invariant 0 <= i <= |schemas|
      invariant forall j :: 0 <= j < i ==> Lower(schemas[j].0) != low
    {
      if Lower(schemas[i].0) == low {
        assert FirstFolded(schemas, low) == Some(i);
        return schemas[i].1;
      }
      i := i + 1;
    }
    return "";
  }

  /** No two keys differ only in case. */
  predicate CaseDistinct(schemas: seq<(string, string)>) {
    forall i, j :: 0 <= i < j < |schemas| ==> Lower(schemas[i].0) != Lower(schemas[j].0)
  }

  /** An exact key wins even when another key equals it up to case. */
  lemma ExactKeyWins(resourceType: string, schemas: seq<(string, string)>, i: nat)
    requires Assoc.UniqueKeys(schemas) && i < |schemas| && schemas[i].0 == resourceType
    ensures SchemaFor(resourceType, schemas) == schemas[i].1
  {
    Assoc.LookupUnique(schemas, i);
  }

  /**
   * When no two keys differ only in case, the lookup is case-insensitive: any
   * spelling of a stored type finds that type's document.
   */
  lemma CaseInsensitiveLookup(resourceType: string, schemas: seq<(string, string)>, i: nat)
    requires CaseDistinct(schemas) && i < |schemas| && Lower(schemas[i].0) == Lower(resourceType)
    ensures SchemaFor(resourceType, schemas) == schemas[i].1
  {
    assert Assoc.UniqueKeys(schemas);
    var direct := Assoc.Lookup(schemas, resourceType);
    if direct.Some? {
      var k :| 0 <= k < |schemas| && schemas[k] == (resourceType, direct.value);
      LowerIdempotent(resourceType);
      assert Lower(schemas[k].0) == Lower(schemas[i].0);
      assert k == i;
    } else {
      var f := FirstFolded(schemas, Lower(resourceType));
      assert f.Some? && f.value == i;
    }
  }

  /** A type no key matches, even up to case, has no document. */
  lemma UnknownTypeEmpty(resourceType: string, schemas: seq<(string, string)>)
    requires forall j :: 0 <= j < |schemas| ==> Lower(schemas[j].0) != Lower(resourceType)
    ensures SchemaFor(resourceType, schemas) == ""
  {
    assert forall j :: 0 <= j < |schemas| ==> schemas[j].0 != resourceType;
  }

  // ---------------------------------------------------------------------------
  // The newest schema file on disk
  // ---------------------------------------------------------------------------

  const SchemaFilePrefix := "azapi_schemas_v"
  const JsonSuffix := ".json"

  /** A version found in a file name; `text` is the matched group, as written. */
  datatype LocalVersion = LocalVersion(text: string, major: nat, minor: nat, patch: nat)

  /** `\d+` followed by `sep`: the digits and what follows the separator. */
  function DigitsThen(s: string, sep: string): (r: Option<(string, string)>)
    ensures r.Some? ==> r.value.0 != [] && AllDigits(r.value.0)
    ensures r.Some? ==> s == r.value.0 + (sep + r.value.1)
  {
    var d := LeadingDigits(s);
    if d != [] && IsPrefix(sep, s[|d|..]) then
      assert s == d + s[|d|..];
      assert s[|d|..] == sep + s[|d| + |sep|..];
      Some((d, s[|d| + |sep|..]))
    else None
  }

  /** The version group and the `\.json` that must follow it, after the literal prefix. */
  function VersionFrom(s: string): Option<LocalVersion> {
    match DigitsThen(s, ".")
    case None => None
    case Some((d1, s1)) =>
      match DigitsThen(s1, ".")
      case None => None
      case Some((d2, s2)) =>
        match DigitsThen(s2, JsonSuffix)
        case None => None
        case Some((d3, _)) =>
          Some(LocalVersion(d1 + "." + d2 + "." + d3, DigitsValue(d1), DigitsValue(d2), DigitsValue(d3)))
  }

  /** `re.match(r'azapi_schemas_v(\d+\.\d+\.\d+)\.json', name)` and the version key of its group. */
  function VersionMatch(name: string): (r: Option<LocalVersion>)
    ensures r.Some? ==> IsPrefix(SchemaFilePrefix, name)
  {
    if IsPrefix(SchemaFilePrefix, name) then VersionFrom(name[|SchemaFilePrefix|..]) else None
  }

  /** `_get_schema_file(f"v{version}")` for a version written as three numbers. */
  function SchemaFileName(major: nat, minor: nat, patch: nat): string {
    SchemaFilePrefix + (NatToString(major) + ("." + (NatToString(minor) + ("." + (NatToString(patch) + JsonSuffix)))))
  }

  lemma DigitsThenOf(d: string, sep: string, rest: string)
    requires d != [] && AllDigits(d) && sep != [] && !IsDigit(sep[0])
    ensures DigitsThen(d + (sep + rest), sep) == Some((d, rest))
  {
    LeadingDigitsOf(d, sep + rest);
    assert (d + (sep + rest))[|d|..] == sep + rest;
    assert (d + (sep + rest))[|d| + |sep|..] == rest;
  }

  lemma VersionFromOf(a: string, b: string, c: string)
    requires a != [] && AllDigits(a) && b != [] && AllDigits(b) && c != [] && AllDigits(c)
    ensures VersionFrom(a + ("." + (b + ("." + (c + JsonSuffix)))))
      == Some(LocalVersion(a + "." + b + "." + c, DigitsValue(a), DigitsValue(b), DigitsValue(c)))
  {
    var s2 := c + JsonSuffix;
    var s1 := b + ("." + s2);
    DigitsThenOf(a, ".", s1);
    DigitsThenOf(b, ".", s2);
    assert s2 == c + (JsonSuffix + "");
    DigitsThenOf(c, JsonSuffix, "");
  }

  lemma VersionMatchOf(a: string, b: string, c: string)
    requires a != [] && AllDigits(a) && b != [] && AllDigits(b) && c != [] && AllDigits(c)
    ensures VersionMatch(SchemaFilePrefix + (a + ("." + (b + ("." + (c + JsonSuffix))))))
      == Some(LocalVersion(a + "." + b + "." + c, DigitsValue(a), DigitsValue(b), DigitsValue(c)))
  {
    var tail := a + ("." + (b + ("." + (c + JsonSuffix))));
    var name := SchemaFilePrefix + tail;
    assert name[..|SchemaFilePrefix|] == SchemaFilePrefix && name[|SchemaFilePrefix|..] == tail;
    VersionFromOf(a, b, c);
  }

  /** A file the generator saves is recognised, with its version numbers. */
  lemma SchemaFileNameMatches(major: nat, minor: nat, patch: nat)
    ensures var v := VersionMatch(SchemaFileName(major, minor, patch));
      v.Some? && v.value.major == major && v.value.minor == minor && v.value.patch == patch
  {
    VersionMatchOf(NatToString(major), NatToString(minor), NatToString(patch));
    ParseNatRoundTrip(major);
    ParseNatRoundTrip(minor);
    ParseNatRoundTrip(patch);
  }

  /** `glob("azapi_schemas_v*.json")` keeps a name. */
  predicate GlobMatches(name: string) {
    |name| >= |SchemaFilePrefix| + |JsonSuffix| && IsPrefix(SchemaFilePrefix, name) && IsSuffix(JsonSuffix, name)
  }

  /** The `versions` list: the matched versions of the globbed names, in listing order. */
  function LocalVersions(names: seq<string>): (vs: seq<LocalVersion>)
    ensures |vs| <= |names|
    ensures forall v :: v in vs ==> exists n :: n in names && GlobMatches(n) && VersionMatch(n) == Some(v)
  {
    if names == [] then []
    else
      var init := LocalVersions(names[..|names| - 1]);
      var name := names[|names| - 1];
      assert forall n :: n in names[..|names| - 1] ==> n in names;
      if GlobMatches(name) && VersionMatch(name).Some? then init + [VersionMatch(name).value] else init
  }

  /** Version keys compared as tuples of integers. */
  predicate KeyLt(a: LocalVersion, b: LocalVersion) {
    || a.major < b.major
    || (a.major == b.major && a.minor < b.minor)
    || (a.major == b.major && a.minor == b.minor && a.patch < b.patch)
  }

  /**
   * `sorted(versions, key=version_key, reverse=True)[0]`: the sort is stable, so the
   * first version whose key no other exceeds.
   */
  function NewestVersion(vs: seq<LocalVersion>): (r: Option<LocalVersion>)
    ensures r.Some? <==> vs != []
    ensures r.Some? ==> r.value in vs
  {
    if vs == [] then None
    else
      var best := NewestVersion(vs[..|vs| - 1]);
      assert forall v :: v in vs[..|vs| - 1] ==> v in vs;
      if best.None? || KeyLt(best.value, vs[|vs| - 1]) then Some(vs[|vs| - 1]) else best
  }

  /** The version chosen is a greatest one, and every version listed before it is smaller. */
  lemma {:induction false} NewestIsFirstGreatest(vs: seq<LocalVersion>) returns (p: nat)
    requires vs != []
    ensures p < |vs| && NewestVersion(vs) == Some(vs[p])
    ensures forall i :: 0 <= i < |vs| ==> !KeyLt(vs[p], vs[i])
    ensures forall i :: 0 <= i < p ==> KeyLt(vs[i], vs[p])
  {
    var init := vs[..|vs| - 1];
    if init == [] {
      p := 0;
    } else {
      var q := NewestIsFirstGreatest(init);
      assert forall i :: 0 <= i < |init| ==> vs[i] == init[i];
      if KeyLt(vs[q], vs[|vs| - 1]) {
        p := |vs| - 1;
      } else {
        p := q;
      }
    }
  }

  /** `_get_latest_local_version`, with the names of the data directory's files given in listing order. */
  method LatestLocalVersion(names: seq<string>) returns (version: Option<string>)
    ensures var newest := NewestVersion(LocalVersions(names));
      version == if newest.None? then None else Some(newest.value.text)
  {
    var versions: seq<LocalVersion> := [];
    var i := 0;
    while i < |names|
      invariant 0 <= i <= |names|
      invariant versions == LocalVersions(names[..i])
    {
      assert names[..i + 1][..i] == names[..i];
      var name := names[i];
      if GlobMatches(name) {
        var m := VersionMatch(name);
        if m.Some? {
          versions := versions + [m.value];
        }
      }
      i := i + 1;
    }
    assert names[..|names|] == names;
    if versions == [] {
      return None;
    }
    var newest := NewestVersion(versions);
    return Some(newest.value.text);
  }
}

=== FILE: azurerm_doc_lines.dfy ===
/**
 * The line patterns the AzureRM documentation reader recognises, written out as
 * functions on one stripped markdown line. Each follows a regular expression of the
 * reader: `\s` is Python's whitespace, `IGNORECASE` is ASCII case folding, and `.`
 * stops at a line break.
 */
module AzurermDocLines {
  import opened Wrappers
  import opened Text

  /** The dashes the reader accepts between an argument name and its description. */
  const Dashes: set<char> := {'-', '–', '—'}

  /** The text after `w` when `s` starts with `w`, ignoring ASCII case (`w` is lower-case). */
  function KeywordCI(s: string, w: string): (r: Option<string>)
    ensures r.Some? ==> |w| <= |s| && r.value == s[|w|..]
  {
    if |w| <= |s| && Lower(s[..|w|]) == w then Some(s[|w|..]) else None
  }

  /** `\s+`: at least one whitespace character, and the text after all of them. */
  function Spaces1(s: string): (r: Option<string>)
    ensures r.Some? ==> |r.value| < |s| && (r.value == [] || r.value[0] !in Whitespace)
  {
    if s != [] && s[0] in Whitespace then Some(StripLeft(s, Whitespace)) else None
  }

  /** `` `([^`]+)` ``: a non-empty back-quoted text, and what follows the closing quote. */
  function Backticked(s: string): (r: Option<(string, string)>)
    ensures r.Some? ==> r.value.0 != [] && '`' !in r.value.0
    ensures r.Some? ==> s == ['`'] + r.value.0 + ['`'] + r.value.1
  {
    if s == [] || s[0] != '`' then None
    else match IndexOf(s[1..], '`')
      case None => None
      case Some(k) =>
        if k == 0 then None
        else
          assert s == ['`'] + s[1..k + 1] + ['`'] + s[k + 2..];
          Some((s[1..k + 1], s[k + 2..]))
  }

  /** What `.` matches from the front of `s`: everything before the first line break. */
  function UpToNewline(s: string): (r: string)
    ensures '\n' !in r && IsPrefix(r, s)
  {
    if s == [] || s[0] == '\n' then [] else [s[0]] + UpToNewline(s[1..])
  }

  /** `^##\s+(Arguments?\s+Reference|Argument\s+Reference)` with `word` "argument", or the attribute form. */
  predicate ReferenceHeading(line: string, word: string) {
    match KeywordCI(line, "##")
    case None => false
    case Some(r1) =>
      match Spaces1(r1)
      case None => false
      case Some(r2) =>
        match KeywordCI(r2, word)
        case None => false
        case Some(r3) =>
          var r4 := if r3 != [] && LowerChar(r3[0]) == 's' then r3[1..] else r3;
          match Spaces1(r4)
          case None => false
          case Some(r5) => KeywordCI(r5, "reference").Some?
  }

  /** Each word of `words` in turn, each after at least one whitespace character, ignoring case. */
  predicate Phrase(s: string, words: seq<string>)
    decreases |words|
  {
    if words == [] then true
    else match Spaces1(s)
      case None => false
      case Some(r) =>
        match KeywordCI(r, words[0])
        case None => false
        case Some(rest) => Phrase(rest, words[1..])
  }

  /** `(?:A|An|The)\s+`, trying the alternatives in order; the text after the spaces. */
  function AfterArticle(s: string): (r: Option<string>)
    ensures r.Some? ==> |r.value| < |s|
  {
    if KeywordCI(s, "a").Some? && Spaces1(s[1..]).Some? then Spaces1(s[1..])
    else if KeywordCI(s, "an").Some? && Spaces1(s[2..]).Some? then Spaces1(s[2..])
    else if KeywordCI(s, "the").Some? && Spaces1(s[3..]).Some? then Spaces1(s[3..])
    else None
  }

  const BlockHeaderWords: seq<string> := ["block", "supports", "the", "following:"]

  /**
   * `^(?:A|An|The)\s+`([^`]+)`\s+block\s+supports\s+the\s+following:` (ignoring case):
   * the stripped block name when the line opens a block definition.
   */
  function BlockHeader(line: string): (r: Option<string>)
    ensures r.Some? ==> '`' !in r.value
  {
    match AfterArticle(line)
    case None => None
    case Some(r1) =>
      match Backticked(r1)
      case None => None
      case Some((name, rest)) =>
        if Phrase(rest, BlockHeaderWords) then
          assert forall c :: c in Strip(name) ==> c in name;
          Some(Strip(name))
        else None
  }

  /** `^[\*\-]\s*`([^`]+)``: the back-quoted name of a list item and the text after it. */
  function BacktickItem(line: string): (r: Option<(string, string)>)
    ensures r.Some? ==> r.value.0 != [] && '`' !in r.value.0
  {
    if line == [] || line[0] !in {'*', '-'} then None
    else Backticked(StripLeft(line[1..], Whitespace))
  }

  /**
   * `^[\*\-]\s*`([^`]+)`\s*[-–—]\s*(.+)`: an argument item, as its stripped name and
   * stripped description. When only whitespace follows the dash, `.+` still takes the
   * last character that is not a line break, and the description strips to empty.
   */
  function ArgLine(line: string): (r: Option<(string, string)>)
    ensures r.Some? ==> BacktickItem(line).Some? && r.value.0 == Strip(BacktickItem(line).value.0)
  {
    match BacktickItem(line)
    case None => None
    case Some((name, after)) =>
      match DescriptionAfter(after)
      case None => None
      case Some(description) => Some((Strip(name), description))
  }

  /** `\s*[-–—]\s*(.+)` after the name, as the stripped description. */
  function DescriptionAfter(after: string): Option<string> {
    var r1 := StripLeft(after, Whitespace);
    if r1 == [] || r1[0] !in Dashes then None
    else
      var rest := r1[1..];
      var t := StripLeft(rest, Whitespace);
      if t != [] then Some(Strip(UpToNewline(t)))
      else if StripLeft(rest, {'\n'}) != [] then Some("")
      else None
  }

  /** `^\s+[\*\-]\s*`([^`]+)``: an indented list item. */
  function IndentedItem(line: string): Option<(string, string)> {
    match Spaces1(line)
    case None => None
    case Some(r) => BacktickItem(r)
  }

  /** A stripped line is never indented, so the indented-item pattern never matches one. */
  lemma StrippedNeverIndented(line: string)
    ensures IndentedItem(Strip(line)).None?
  {
  }

  /** The length of a `\s*\((?:Required|Optional)\)\s*[-–—]?\s*` match at the front of `s`, or 0. */
  function MarkerLength(s: string): (n: nat)
    ensures n <= |s|
    ensures n > 0 ==> n >= 10
  {
    var t := StripLeft(s, Whitespace);
    if KeywordCI(t, "(required)").Some? || KeywordCI(t, "(optional)").Some? then
      var u := StripLeft(t[10..], Whitespace);
      var v := if u != [] && u[0] in Dashes then u[1..] else u;
      |s| - |StripLeft(v, Whitespace)|
    else 0
  }

  /** `re.sub` of the marker pattern with `''`: every non-overlapping match, left to right, removed. */
  function RemoveMarkers(s: string): (r: string)
    ensures |r| <= |s|
    decreases |s|
  {
    if s == [] then []
    else
      var n := MarkerLength(s);
      if n > 0 then RemoveMarkers(s[n..]) else [s[0]] + RemoveMarkers(s[1..])
  }

  /** Text without an opening parenthesis holds no marker and is left as it is. */
  lemma {:induction false} NoMarkerUnchanged(s: string)
    requires '(' !in s
    ensures RemoveMarkers(s) == s
    decreases |s|
  {
    if s != [] {
      var t := StripLeft(s, Whitespace);
      assert KeywordCI(t, "(required)").None? && KeywordCI(t, "(optional)").None? by {
        if |t| >= 10 {
          assert t[0] == s[|s| - |t|];
          assert Lower(t[..10])[0] == LowerChar(t[0]);
        }
      }
      assert '(' !in s[1..] by { assert forall c :: c in s[1..] ==> c in s; }
      NoMarkerUnchanged(s[1..]);
    }
  }

  /** `re.sub(r'^[-–—]\s*', '', s)` */
  function DropLeadingDash(s: string): string {
    if s != [] && s[0] in Dashes then StripLeft(s[1..], Whitespace) else s
  }

  /** The description with the `(Required)`/`(Optional)` markers and a leading dash removed. */
  function CleanDescription(description: string): string {
    Strip(DropLeadingDash(Strip(RemoveMarkers(description))))
  }

  /** `"(Required)" in d or "(required)" in d` */
  predicate MarkedRequired(description: string) {
    Contains(description, "(Required)") || Contains(description, "(required)")
  }

  /** An item written `* `name` - description` reads back as its name and description. */
  lemma ArgLineOf(bullet: char, name: string, dash: char, description: string)
    requires bullet in {'*', '-'} && dash in Dashes
    requires name != [] && '`' !in name
    requires description != [] && description[0] !in Whitespace && '\n' !in description
    ensures ArgLine([bullet, '`'] + name + ['`', ' ', dash, ' '] + description)
         == Some((Strip(name), Strip(description)))
  {
    var after := [' ', dash, ' '] + description;
    var line := [bullet, '`'] + name + ['`', ' ', dash, ' '] + description;
    assert line == [bullet] + (['`'] + name + ['`'] + after);
    BacktickItemOf(bullet, name, after);
    DescriptionAfterOf(dash, description);
  }

  lemma BacktickItemOf(bullet: char, name: string, after: string)
    requires bullet in {'*', '-'}
    requires name != [] && '`' !in name
    ensures BacktickItem([bullet] + (['`'] + name + ['`'] + after)) == Some((name, after))
  {
    var line := [bullet] + (['`'] + name + ['`'] + after);
    assert line[1..] == ['`'] + (name + ['`'] + after);
    StripLeftStops('`', name + ['`'] + after, Whitespace);
    assert ['`'] + name + ['`'] + after == ['`'] + (name + ['`'] + after);
    BacktickedOf(name, after);
  }

  lemma DescriptionAfterOf(dash: char, description: string)
    requires dash in Dashes
    requires description != [] && description[0] !in Whitespace && '\n' !in description
    ensures DescriptionAfter([' ', dash, ' '] + description) == Some(Strip(description))
  {
    var after := [' ', dash, ' '] + description;
    assert StripLeft(after, Whitespace) == [dash] + ([' '] + description) by {
      assert after == [' '] + ([dash] + ([' '] + description));
      StripLeftSkips(' ', [dash] + ([' '] + description), Whitespace);
      DashNotSpace(dash);
      StripLeftStops(dash, [' '] + description, Whitespace);
    }
    assert StripLeft([' '] + description, Whitespace) == description by {
      StripLeftSkips(' ', description, Whitespace);
      assert description == [description[0]] + description[1..];
      StripLeftStops(description[0], description[1..], Whitespace);
    }
    UpToNewlineWhole(description);
  }

  lemma DashNotSpace(c: char)
    requires c in Dashes
    ensures c !in Whitespace
  {
  }

  lemma StripLeftStops(c: char, t: string, cs: set<char>)
    requires c !in cs
    ensures StripLeft([c] + t, cs) == [c] + t
  {
  }

  lemma StripLeftSkips(c: char, t: string, cs: set<char>)
    requires c in cs
    ensures StripLeft([c] + t, cs) == StripLeft(t, cs)
  {
    assert ([c] + t)[1..] == t;
  }

  lemma BacktickedOf(name: string, after: string)
    requires name != [] && '`' !in name
    ensures Backticked(['`'] + name + ['`'] + after) == Some((name, after))
  {
    var s := ['`'] + name + ['`'] + after;
    assert s[1..] == name + ['`'] + after;
    assert IndexOf(s[1..], '`') == Some(|name|) by {
      IndexOfFirst(s[1..], '`', |name|);
    }
    assert s[1..|name| + 1] == name;
    assert s[|name| + 2..] == after;
  }

  lemma IndexOfFirst(xs: string, x: char, i: nat)
    requires i < |xs| && xs[i] == x && forall j :: 0 <= j < i ==> xs[j] != x
    ensures IndexOf(xs, x) == Some(i)
  {
  }

  lemma {:induction false} UpToNewlineWhole(s: string)
    requires '\n' !in s
    ensures UpToNewline(s) == s
    decreases |s|
  {
    if s != [] {
      UpToNewlineWhole(s[1..]);
    }
  }

  /** A leading `(Required)` or `(Optional)` marker and the space after it are what cleaning removes. */
  lemma MarkerCleaned(marker: string, description: string)
    requires marker == "(Required)" || marker == "(Optional)"
    requires description != [] && description[0] !in Whitespace && description[0] !in Dashes
    requires description[|description| - 1] !in Whitespace && '(' !in description
    ensures CleanDescription(marker + " " + description) == description
    ensures MarkedRequired(marker + " " + description) <==> marker == "(Required)"
  {
    var s := marker + " " + description;
    assert RemoveMarkers(s) == description by {
      assert MarkerLength(s) == 11 by {
        MarkerLengthOf(marker, description);
      }
      assert s[11..] == description;
      NoMarkerUnchanged(description);
    }
    if marker == "(Required)" {
      ContainsAt(s, "(Required)", 0);
    } else {
      OptionalNotRequired(description);
    }
  }

  lemma MarkerLengthOf(marker: string, description: string)
    requires marker == "(Required)" || marker == "(Optional)"
    requires description != [] && description[0] !in Whitespace && description[0] !in Dashes
    ensures MarkerLength(marker + " " + description) == 11
  {
    var s := marker + " " + description;
    ParenNotStripped(s);
    MarkerKeyword(marker, " " + description);
    assert s[10..] == [' '] + description;
    SpaceStripped(description);
  }

  lemma ParenNotStripped(s: string)
    requires s != [] && s[0] == '('
    ensures StripLeft(s, Whitespace) == s
  {
  }

  lemma MarkerKeyword(marker: string, rest: string)
    requires marker == "(Required)" || marker == "(Optional)"
    ensures KeywordCI(marker + rest, "(required)").Some? || KeywordCI(marker + rest, "(optional)").Some?
  {
    assert (marker + rest)[..10] == marker;
    if marker == "(Required)" {
      assert Lower(marker) == "(required)";
    } else {
      assert Lower(marker) == "(optional)";
    }
  }

  lemma SpaceStripped(description: string)
    requires description != [] && description[0] !in Whitespace
    ensures StripLeft([' '] + description, Whitespace) == description
    ensures StripLeft(description, Whitespace) == description
  {
    assert ([' '] + description)[1..] == description;
  }

  /** After a leading `(Optional) `, text without `(` holds no `(Required)` marker. */
  lemma OptionalNotRequired(description: string)
    requires '(' !in description
    ensures !MarkedRequired("(Optional)" + " " + description)
  {
    var s := "(Optional)" + " " + description;
    assert '(' !in s[1..] by {
      assert s[1..] == "Optional) " + description;
    }
    assert s[1] == 'O';
    OpeningMissing(s[1..], "(Required)");
    OpeningMissing(s[1..], "(required)");
  }

  /** Text without the first character of `sub` does not contain `sub`. */
  lemma {:induction false} OpeningMissing(s: string, sub: string)
    requires sub != [] && sub[0] !in s
    ensures !Contains(s, sub)
    decreases |s|
  {
    if s != [] {
      assert |sub| <= |s| ==> s[..|sub|][0] == s[0];
      assert sub[0] !in s[1..] by { assert forall c :: c in s[1..] ==> c in s; }
      OpeningMissing(s[1..], sub);
    }
  }

  /** The words, each after one space. */
  function Spaced(words: seq<string>): string {
    if words == [] then "" else [' '] + (words[0] + Spaced(words[1..]))
  }

  /** Lower-case words that start with a visible character. */
  predicate PlainWords(words: seq<string>) {
    forall i :: 0 <= i < |words| ==> words[i] != [] && words[i][0] !in Whitespace && Lower(words[i]) == words[i]
  }

  /** Words written out with single spaces read back as the phrase. */
  lemma {:induction false} SpacedIsPhrase(words: seq<string>)
    requires PlainWords(words)
    ensures Phrase(Spaced(words), words)
    decreases |words|
  {
    if words != [] {
      assert PlainWords(words[1..]) by {
        forall i | 0 <= i < |words[1..]| ensures words[1..][i] == words[i + 1] { }
      }
      SpacedIsPhrase(words[1..]);
      PhraseStep(words[0], Spaced(words[1..]), words[1..]);
      assert [words[0]] + words[1..] == words;
    }
  }

  lemma PhraseStep(w: string, rest: string, words: seq<string>)
    requires w != [] && w[0] !in Whitespace && Lower(w) == w
    ensures Phrase([' '] + (w + rest), [w] + words) == Phrase(rest, words)
  {
    StripLeftSkips(' ', w + rest, Whitespace);
    assert w + rest == [w[0]] + (w[1..] + rest);
    StripLeftStops(w[0], w[1..] + rest, Whitespace);
    assert (w + rest)[..|w|] == w && (w + rest)[|w|..] == rest;
    assert ([w] + words)[1..] == words;
  }

  lemma HeaderWordsPlain()
    ensures PlainWords(BlockHeaderWords)
  {
    assert Lower("block") == "block";
    assert Lower("supports") == "supports";
    assert Lower("the") == "the";
    assert Lower("following:") == "following:";
  }

  /** A header `A `name` block supports the following:` (or `An`, `The`) opens the block `name`. */
  lemma BlockHeaderOf(article: string, name: string)
    requires article == "A" || article == "An" || article == "The"
    requires name != [] && '`' !in name
    ensures BlockHeader(article + ([' '] + (['`'] + name + ['`'] + Spaced(BlockHeaderWords)))) == Some(Strip(name))
  {
    HeaderWordsPlain();
    SpacedIsPhrase(BlockHeaderWords);
    BlockHeaderWith(article, name, Spaced(BlockHeaderWords));
  }

  lemma BlockHeaderWith(article: string, name: string, rest: string)
    requires article == "A" || article == "An" || article == "The"
    requires name != [] && '`' !in name
    requires Phrase(rest, BlockHeaderWords)
    ensures BlockHeader(article + ([' '] + (['`'] + name + ['`'] + rest))) == Some(Strip(name))
  {
    AfterArticleOf(article, ['`'] + name + ['`'] + rest);
    BacktickedOf(name, rest);
  }

  lemma AfterArticleOf(article: string, quoted: string)
    requires article == "A" || article == "An" || article == "The"
    requires quoted != [] && quoted[0] == '`'
    ensures AfterArticle(article + ([' '] + quoted)) == Some(quoted)
  {
    SpaceThenQuote(quoted);
    if article == "A" {
      ArticleA(article + ([' '] + quoted), [' '] + quoted);
    } else if article == "An" {
      ArticleAn(article + ([' '] + quoted), [' '] + quoted);
    } else {
      ArticleThe(article + ([' '] + quoted), [' '] + quoted);
    }
  }

  lemma SpaceThenQuote(quoted: string)
    requires quoted != [] && quoted[0] == '`'
    ensures Spaces1([' '] + quoted) == Some(quoted)
  {
    assert quoted == ['`'] + quoted[1..];
    QuoteNotWhitespace(quoted[1..]);
    StripLeftSkips(' ', quoted, Whitespace);
  }

  lemma QuoteNotWhitespace(t: string)
    ensures StripLeft(['`'] + t, Whitespace) == ['`'] + t
  {
    assert '`' !in Whitespace;
    StripLeftStops('`', t, Whitespace);
  }

  lemma ArticleA(line: string, rest: string)
    requires line == "A" + rest
    requires Spaces1(rest).Some?
    ensures AfterArticle(line) == Spaces1(rest)
  {
    assert line[..1] == "A" && line[1..] == rest;
  }

  lemma ArticleAn(line: string, rest: string)
    requires line == "An" + rest
    ensures AfterArticle(line) == Spaces1(rest)
  {
    assert line[1..] == ['n'] + rest;
    assert Spaces1(line[1..]).None?;
    assert line[..2] == "An" && line[2..] == rest;
  }

  lemma ArticleThe(line: string, rest: string)
    requires line == "The" + rest
    ensures AfterArticle(line) == Spaces1(rest)
  {
    assert line[1..] == ['h'] + line[2..];
    assert Spaces1(line[1..]).None?;
    assert KeywordCI(line, "an").None? by {
      assert line[..2] == "Th";
    }
    assert line[..3] == "The" && line[3..] == rest;
  }
}

=== FILE: azurerm_docs_provider.dfy ===
/**
 * AzureRM provider documentation: which markdown page is fetched for a resource type,
 * and the line-scanning extractors that read its summary, arguments, nested block
 * arguments, attributes and examples.
 */
module AzurermDocsProvider {
  import opened Wrappers
  import opened Text
  import opened Assoc
  import opened AzurermDocLines

  /** The `type` of an argument: `"Single"` or `"Block"`. */
  datatype ArgKind = Single | Block

  /** `ArgumentDetail`; `blockArguments` is `None` unless the argument is a block. */
  datatype ArgumentDetail = ArgumentDetail(
    name: string,
    description: string,
    required: bool,
    kind: ArgKind,
    blockArguments: Option<seq<ArgumentDetail>>)

  /** An attribute entry: its `name` and `description`. */
  type Attribute = (string, string)

  /** Block name to its nested arguments, in insertion order. */
  type BlockDefs = seq<(string, seq<ArgumentDetail>)>

  /** `TerraformAzureProviderDocsResult` (its `notes` are always empty and left out). */
  datatype DocsResult = DocsResult(
    resourceType: string,
    documentationUrl: string,
    summary: string,
    arguments: seq<ArgumentDetail>,
    attributes: seq<Attribute>,
    examples: seq<string>)

  /** What a GET of a documentation URL gave: a response, or an exception's message. */
  datatype Fetched = Response(status: int, text: string) | Raised(message: string)

  // ---------------------------------------------------------------------------
  // Which page is fetched

  const WebsiteRoot: string := "https://raw.githubusercontent.com/hashicorp/terraform-provider-azurerm/main/website/"

  /** The page of `normalizedType` in the directory `docs/<dir>` (`r`: resources, `d`: data sources). */
  function DocUrl(dir: char, normalizedType: string): string {
    WebsiteRoot + ("docs/" + [dir] + "/" + normalizedType + ".html.markdown")
  }

  /** `resource_type.lower().replace('azurerm_', '')` */
  function NormalizedType(resourceType: string): string {
    Replace(Lower(resourceType), "azurerm_", "")
  }

  /** The document types that select the data-source directory. */
  predicate DataSourceAlias(docType: string) {
    Lower(docType) in ["data-source", "datasource", "data_source"]
  }

  /** The directory tried first. */
  function PrimaryDir(docType: string): (dir: char)
    ensures dir == 'd' <==> DataSourceAlias(docType)
    ensures dir in {'r', 'd'}
  {
    if DataSourceAlias(docType) then 'd' else 'r'
  }

  /** The directory tried when the first answers with another status than 200. */
  function FallbackDir(docType: string): (dir: char)
    ensures dir != PrimaryDir(docType) && dir in {'r', 'd'}
  {
    if DataSourceAlias(docType) then 'r' else 'd'
  }

  /** `"docs/d/" in doc_url` */
  predicate IsDataSource(url: string) {
    Contains(url, "docs/d/")
  }

  /** Every page in the data-source directory is read as a data source. */
  lemma DataSourcePage(normalizedType: string)
    ensures IsDataSource(DocUrl('d', normalizedType))
  {
    var tail := "docs/" + ['d'] + "/" + normalizedType + ".html.markdown";
    assert tail[..7] == "docs/d/";
    ContainsAt(tail, "docs/d/", 0);
    ContainsInRight(WebsiteRoot, tail, "docs/d/");
  }

  // ---------------------------------------------------------------------------
  // Summary

  /** `line and not line.startswith('#')` */
  predicate Prose(line: string) {
    line != [] && line[0] != '#'
  }

  /** Where the summary scan stands with respect to the `---` frontmatter. */
  datatype Frontmatter = Before | Inside | Ended

  /** `line.strip()` of each line. */
  function StripAll(raw: seq<string>): (lines: seq<string>)
    ensures |lines| == |raw|
  {
    if raw == [] then [] else [Strip(raw[0])] + StripAll(raw[1..])
  }

  lemma {:induction false} StripAllAt(raw: seq<string>, k: nat)
    requires k < |raw|
    ensures StripAll(raw)[k] == Strip(raw[k])
  {
    if k > 0 {
      StripAllAt(raw[1..], k - 1);
    }
  }

  /** The stripped lines of a page: `[line.strip() for line in markdown.split('\n')]`. */
  function StrippedLines(markdown: string): seq<string> {
    StripAll(Split(markdown, '\n'))
  }

  /** The first line of `lines[j..end]` that is `Prose`. */
  function DescriptionBelow(lines: seq<string>, j: nat, end: nat): (r: Option<string>)
    requires end <= |lines|
    ensures r.Some? ==> exists k :: j <= k < end && r.value == lines[k] && Prose(r.value)
    decreases end - j
  {
    if j >= end then None
    else if Prose(lines[j]) then Some(lines[j])
    else DescriptionBelow(lines, j + 1, end)
  }

  /**
   * The summary scan of the stripped lines from line `i`: a `---` line opens the
   * frontmatter, and any later one closes it; inside it nothing is read. After it, a
   * prose line longer than 20 characters is the summary; a `## Description` heading
   * offers the first prose line among the four lines below it.
   */
  function SummaryFrom(lines: seq<string>, i: nat, fm: Frontmatter): (r: Option<string>)
    ensures r.Some? ==> exists k :: i <= k < |lines| && r.value == lines[k] && Prose(r.value)
    decreases |lines| - i
  {
    if i >= |lines| then None
    else if lines[i] == "---" then SummaryFrom(lines, i + 1, if fm == Before then Inside else Ended)
    else if fm == Inside then SummaryFrom(lines, i + 1, fm)
    else if fm == Ended && Prose(lines[i]) && |lines[i]| > 20 then Some(lines[i])
    else if IsPrefix("## description", Lower(lines[i]))
            && DescriptionBelow(lines, i + 1, if i + 5 < |lines| then i + 5 else |lines|).Some? then
      DescriptionBelow(lines, i + 1, if i + 5 < |lines| then i + 5 else |lines|)
    else SummaryFrom(lines, i + 1, fm)
  }

  /** `resource_type.replace('_', ' ').title()`: words split at `_`, each opening in upper case. */
  function DisplayName(resourceType: string): (name: string)
    ensures |name| == |resourceType|
    ensures forall k :: 0 <= k < |name| ==> (name[k] == ' ' <==> resourceType[k] in {'_', ' '})
    ensures forall k :: 0 <= k < |name| && (k == 0 || name[k - 1] == ' ') ==> !IsLower(name[k])
  {
    var spaced := ReplaceChar(resourceType, '_', ' ');
    TitleWords(spaced);
    Title(spaced)
  }

  lemma TitleWords(s: string)
    ensures forall k :: 0 <= k < |s| ==> (Title(s)[k] == ' ' <==> s[k] == ' ')
    ensures forall k :: 0 <= k < |s| && (k == 0 || s[k - 1] == ' ') ==> !IsLower(Title(s)[k])
  {
    var t := Title(s);
    forall k | 0 <= k < |s|
      ensures (t[k] == ' ' <==> s[k] == ' ')
      ensures (k == 0 || s[k - 1] == ' ') ==> !IsLower(t[k])
    {
      assert t[k] == if k == 0 || !IsLetter(s[k - 1]) then UpperChar(s[k]) else LowerChar(s[k]);
    }
  }

  /** `_generate_default_summary` */
  function DefaultSummary(resourceType: string, isDataSource: bool): string {
    if isDataSource then "Use this data source to access information about an existing " + DisplayName(resourceType) + "."
    else "Manages an Azure " + DisplayName(resourceType) + " resource."
  }

  /** `_extract_summary`: a stripped prose line of the page, or the default summary. */
  function Summary(markdown: string, resourceType: string, isDataSource: bool): (s: string)
    ensures s == DefaultSummary(resourceType, isDataSource)
         || exists k :: 0 <= k < |StrippedLines(markdown)| && s == StrippedLines(markdown)[k] && Prose(s)
  {
    match SummaryFrom(StrippedLines(markdown), 0, Before)
    case Some(line) => line
    case None => DefaultSummary(resourceType, isDataSource)
  }

  /**
   * After frontmatter opened on line 0 and closed on line `k`, a long prose line right
   * below it is the summary.
   */
  lemma SummaryAfterFrontmatter(lines: seq<string>, k: nat)
    requires k + 1 < |lines| && 0 < k
    requires lines[0] == "---" && lines[k] == "---"
    requires forall j :: 0 < j < k ==> lines[j] != "---"
    requires Prose(lines[k + 1]) && |lines[k + 1]| > 20
    ensures SummaryFrom(lines, 0, Before) == Some(lines[k + 1])
  {
    InsideFrontmatter(lines, 1, k);
    assert SummaryFrom(lines, k + 1, Ended) == Some(lines[k + 1]);
  }

  lemma {:induction false} InsideFrontmatter(lines: seq<string>, i: nat, k: nat)
    requires i <= k < |lines|
    requires forall j :: i <= j < k ==> lines[j] != "---"
    ensures SummaryFrom(lines, i, Inside) == SummaryFrom(lines, k, Inside)
    decreases k - i
  {
    if i < k {
      InsideFrontmatter(lines, i + 1, k);
    }
  }

  /** A page with neither frontmatter nor a description heading gets no summary from the scan. */
  lemma {:induction false} NoFrontmatterNoSummary(lines: seq<string>, i: nat)
    requires forall j :: i <= j < |lines| ==> lines[j] != "---" && !IsPrefix("## description", Lower(lines[j]))
    ensures SummaryFrom(lines, i, Before) == None
    decreases |lines| - i
  {
    if i < |lines| {
      NoFrontmatterNoSummary(lines, i + 1);
    }
  }

  /** `_extract_summary`, scanning the lines in order and returning at the first hit. */
  method ExtractSummary(markdown: string, resourceType: string, isDataSource: bool) returns (summary: string)
    ensures summary == Summary(markdown, resourceType, isDataSource)
  {
    var lines := StrippedLines(markdown);
    var fm := Before;
    var i := 0;
    while i < |lines|
      invariant 0 <= i <= |lines|
      invariant SummaryFrom(lines, 0, Before) == SummaryFrom(lines, i, fm)
      decreases |lines| - i
    {
      var line := lines[i];
      if line == "---" {
        fm := if fm == Before then Inside else Ended;
        i := i + 1;
        continue;
      }
      if fm == Inside {
        i := i + 1;
        continue;
      }
      if fm == Ended && Prose(line) && |line| > 20 {
        return line;
      }
      if IsPrefix("## description", Lower(line)) {
        var below := FirstProseBelow(lines, i);
        if below.Some? {
          return below.value;
        }
      }
      i := i + 1;
    }
    summary := DefaultSummary(resourceType, isDataSource);
  }

  /** The inner loop of `_extract_summary`: the first prose line among the four below line `i`. */
  method FirstProseBelow(lines: seq<string>, i: nat) returns (r: Option<string>)
    requires i < |lines|
    ensures r == DescriptionBelow(lines, i + 1, if i + 5 < |lines| then i + 5 else |lines|)
  {
    var end := if i + 5 < |lines| then i + 5 else |lines|;
    var j := i + 1;
    while j < end
      invariant i + 1 <= j <= end
      invariant DescriptionBelow(lines, i + 1, end) == DescriptionBelow(lines, j, end)
      decreases end - j
    {
      if Prose(lines[j]) {
        return Some(lines[j]);
      }
      j := j + 1;
    }
    return None;
  }

  // ---------------------------------------------------------------------------
  // What the extractors read off a line

  /** Whether an argument's cleaned description mentions a block (ignoring case). */
  function KindOf(cleaned: string): ArgKind {
    if Contains(Lower(cleaned), "block") then Block else Single
  }

  /** A block argument carries a list of nested arguments, any other argument none. */
  predicate WellFormed(a: ArgumentDetail) {
    a.kind == Block <==> a.blockArguments.Some?
  }

  /** A freshly read argument: well formed, and a block's nested list still empty. */
  predicate Fresh(a: ArgumentDetail) {
    WellFormed(a) && (a.kind == Block ==> a.blockArguments == Some([]))
  }

  /**
   * An argument item as the extractors read it: the stripped name, the description with
   * its `(Required)`/`(Optional)` marker and leading dash removed, `required` from the
   * raw description, and an empty nested list for a block.
   */
  function ParsedArgument(line: string): (r: Option<ArgumentDetail>)
    ensures r.Some? <==> ArgLine(line).Some?
    ensures r.Some? ==> r.value.name == ArgLine(line).value.0 && Fresh(r.value)
  {
    match ArgLine(line)
    case None => None
    case Some((name, description)) =>
      var cleaned := CleanDescription(description);
      var kind := KindOf(cleaned);
      Some(ArgumentDetail(name, cleaned, MarkedRequired(description), kind,
                          if kind == Block then Some([]) else None))
  }

  /** An item `* `name` - (Required) text` reads back as a required argument `name` described by `text`. */
  lemma ParsedArgumentOf(bullet: char, name: string, dash: char, marker: string, text: string)
    requires bullet in {'*', '-'} && dash in Dashes
    requires name != [] && '`' !in name
    requires marker == "(Required)" || marker == "(Optional)"
    requires text != [] && text[0] !in Whitespace && text[0] !in Dashes
    requires text[|text| - 1] !in Whitespace && '(' !in text && '\n' !in text
    ensures ParsedArgument([bullet, '`'] + name + ['`', ' ', dash, ' '] + (marker + " " + text))
         == Some(ArgumentDetail(Strip(name), text, marker == "(Required)", KindOf(text),
                                if KindOf(text) == Block then Some([]) else None))
  {
    var description := marker + " " + text;
    assert description[0] == '(' && description[|description| - 1] == text[|text| - 1];
    assert '\n' !in description by {
      assert forall c :: c in description ==> c in marker || c == ' ' || c in text;
    }
    ArgLineOf(bullet, name, dash, description);
    MarkerCleaned(marker, text);
  }

  /** `^\s+[\*\-]\s*`([^`]+)`\s*[-–—]\s*(.+)`: an indented item's name and description. */
  function IndentedArgLine(line: string): Option<(string, string)> {
    match Spaces1(line)
    case None => None
    case Some(rest) => ArgLine(rest)
  }

  /** `^[\*\-]\s*`([^`]+)`.*block` (ignoring case): the stripped name of an item that mentions a block. */
  function BlockMention(line: string): Option<string> {
    match BacktickItem(line)
    case None => None
    case Some((name, after)) =>
      if Contains(Lower(UpToNewline(after)), "block") then Some(Strip(name)) else None
  }

  /** Every pattern the extractors try on a stripped line, and what it gave. */
  datatype LineView = LineView(
    text: string,
    argumentsHeading: bool,
    attributesHeading: bool,
    sectionHeading: bool,
    blockHeader: Option<string>,
    item: bool,
    entry: Option<(string, string)>,
    argument: Option<ArgumentDetail>,
    indentedEntry: Option<(string, string)>,
    blockMention: Option<string>)

  function View(line: string): (v: LineView)
    ensures v.text == line
    ensures v.argument.Some? ==> Fresh(v.argument.value)
    ensures v.entry.Some? ==> v.item
  {
    LineView(line,
             ReferenceHeading(line, "argument"),
             ReferenceHeading(line, "attribute"),
             IsPrefix("## ", line),
             BlockHeader(line),
             BacktickItem(line).Some?,
             ArgLine(line),
             ParsedArgument(line),
             IndentedArgLine(line),
             BlockMention(line))
  }

  /** Every argument a view offers is freshly read. */
  predicate FreshViews(views: seq<LineView>) {
    forall k :: 0 <= k < |views| ==> views[k].argument.Some? ==> Fresh(views[k].argument.value)
  }

  function Views(lines: seq<string>): (views: seq<LineView>)
    ensures |views| == |lines| && FreshViews(views)
  {
    if lines == [] then [] else [View(lines[0])] + Views(lines[1..])
  }

  lemma {:induction false} ViewsAt(lines: seq<string>, k: nat)
    requires k < |lines|
    ensures Views(lines)[k] == View(lines[k])
  {
    if k > 0 {
      ViewsAt(lines[1..], k - 1);
    }
  }

  /** The views of the stripped lines of a page. */
  function PageViews(markdown: string): (views: seq<LineView>)
    ensures FreshViews(views)
  {
    Views(StrippedLines(markdown))
  }

  // ---------------------------------------------------------------------------
  // Arguments

  /**
   * The first pass of `_extract_arguments` from line `i`: a reference heading opens the
   * section; inside it, a `## ` heading or a block header ends the scan, and every
   * argument item is kept.
   */
  function ArgumentsFrom(views: seq<LineView>, i: nat, inSection: bool, args: seq<ArgumentDetail>)
    : (r: seq<ArgumentDetail>)
    decreases |views| - i
  {
    if i >= |views| then args
    else if views[i].argumentsHeading then ArgumentsFrom(views, i + 1, true, args)
    else if inSection && (views[i].sectionHeading || views[i].blockHeader.Some?) then args
    else if inSection && views[i].text != [] && views[i].argument.Some? then
      ArgumentsFrom(views, i + 1, inSection, args + [views[i].argument.value])
    else ArgumentsFrom(views, i + 1, inSection, args)
  }

  /** The scan only appends, and only arguments read from lines inside the section. */
  lemma {:induction false} ArgumentsFromLines(views: seq<LineView>, i: nat, inSection: bool, args: seq<ArgumentDetail>)
    ensures var r := ArgumentsFrom(views, i, inSection, args);
      && |args| <= |r| && r[..|args|] == args
      && forall k :: |args| <= k < |r| ==> exists j :: i <= j < |views| && views[j].argument == Some(r[k])
    decreases |views| - i
  {
    if i >= |views| {
    } else if views[i].argumentsHeading {
      ArgumentsFromLines(views, i + 1, true, args);
    } else if inSection && (views[i].sectionHeading || views[i].blockHeader.Some?) {
    } else if inSection && views[i].text != [] && views[i].argument.Some? {
      var a := views[i].argument.value;
      ArgumentsFromLines(views, i + 1, inSection, args + [a]);
      var r := ArgumentsFrom(views, i + 1, inSection, args + [a]);
      assert r[..|args|] == (r[..|args| + 1])[..|args|];
    } else {
      ArgumentsFromLines(views, i + 1, inSection, args);
    }
  }

  /** Nothing is read before an Arguments Reference heading. */
  lemma {:induction false} NoSectionNoArguments(views: seq<LineView>, i: nat, args: seq<ArgumentDetail>)
    requires forall j :: i <= j < |views| ==> !views[j].argumentsHeading
    ensures ArgumentsFrom(views, i, false, args) == args
    decreases |views| - i
  {
    if i < |views| {
      NoSectionNoArguments(views, i + 1, args);
    }
  }

  /** The nested arguments of a `Block` argument named in the definitions. */
  function Attached(a: ArgumentDetail, defs: BlockDefs): (r: ArgumentDetail)
    ensures r.name == a.name && r.description == a.description && r.required == a.required && r.kind == a.kind
    ensures r.blockArguments != a.blockArguments ==> a.kind == Block && a.name in Keys(defs)
    ensures a.kind == Block && a.name in Keys(defs) ==> r.blockArguments == Lookup(defs, a.name)
    ensures WellFormed(a) ==> WellFormed(r)
  {
    if a.kind == Block && Lookup(defs, a.name).Some? then a.(blockArguments := Lookup(defs, a.name))
    else a
  }

  /** The arguments every resource is given when its page lists none. */
  const ResourceDefaults: seq<ArgumentDetail> := [
    ArgumentDetail("name", "Specifies the name of the resource.", true, Single, None),
    ArgumentDetail("resource_group_name", "The name of the resource group in which to create the resource.", true, Single, None),
    ArgumentDetail("location", "Specifies the supported Azure location where the resource exists.", true, Single, None),
    ArgumentDetail("tags", "A mapping of tags to assign to the resource.", false, Single, None)]

  /** The arguments every data source is given when its page lists none. */
  const DataSourceDefaults: seq<ArgumentDetail> := [
    ArgumentDetail("name", "Specifies the name of the resource to retrieve information about.", false, Single, None),
    ArgumentDetail("resource_group_name", "The name of the resource group containing the resource.", false, Single, None)]

  /** The defaults: four for a resource, of which all but `tags` are required; two optional ones for a data source. */
  function DefaultArguments(isDataSource: bool): (r: seq<ArgumentDetail>)
    ensures r != [] && forall a :: a in r ==> a.kind == Single && WellFormed(a)
    ensures isDataSource ==> |r| == 2 && forall a :: a in r ==> !a.required
    ensures !isDataSource ==> |r| == 4 && forall k :: 0 <= k < 4 ==> (r[k].required <==> r[k].name != "tags")
  {
    if isDataSource then DataSourceDefaults else ResourceDefaults
  }

  /** Each argument with the nested arguments of its block attached. */
  function AttachedAll(args: seq<ArgumentDetail>, defs: BlockDefs): (r: seq<ArgumentDetail>)
    ensures |r| == |args| && forall k :: 0 <= k < |r| ==> r[k] == Attached(args[k], defs)
  {
    seq(|args|, k requires 0 <= k < |args| => Attached(args[k], defs))
  }

  /** `_extract_arguments`: the section's arguments with their blocks attached, or the defaults. */
  function Arguments(markdown: string, isDataSource: bool): (r: seq<ArgumentDetail>)
    ensures r != [] && forall a :: a in r ==> WellFormed(a)
  {
    var views := PageViews(markdown);
    var found := ArgumentsFrom(views, 0, false, []);
    ArgumentsFromLines(views, 0, false, []);
    if found == [] then DefaultArguments(isDataSource)
    else AttachedAll(found, BlockDefinitions(markdown))
  }

  // ---------------------------------------------------------------------------
  // Block definitions

  /** Saving the block being read: only a named block with at least one argument is kept. */
  function Saved(name: string, args: seq<ArgumentDetail>, defs: BlockDefs): BlockDefs {
    if name != "" && args != [] then Upsert(defs, name, args) else defs
  }

  /** `---`, a `## ` heading, or a blank line right above a block header. */
  predicate EndsBlock(views: seq<LineView>, i: nat)
    requires i < |views|
  {
    views[i].text == "---" || views[i].sectionHeading
    || (views[i].text == "" && i + 1 < |views| && views[i + 1].blockHeader.Some?)
  }

  /** Every block is named, has arguments and appears once; each nested argument is freshly read. */
  predicate ValidDefs(defs: BlockDefs) {
    UniqueKeys(defs)
    && forall k :: 0 <= k < |defs| ==> defs[k].0 != "" && defs[k].1 != [] && forall a :: a in defs[k].1 ==> Fresh(a)
  }

  lemma SavedValid(name: string, args: seq<ArgumentDetail>, defs: BlockDefs)
    requires ValidDefs(defs) && forall a :: a in args ==> Fresh(a)
    ensures ValidDefs(Saved(name, args, defs))
  {
  }

  /**
   * `_extract_block_definitions` from line `i`, reading the block `current` (`""`: none,
   * as a name that strips to nothing is false too) whose arguments so far are `args`.
   */
  function BlockDefsFrom(views: seq<LineView>, i: nat, current: string, args: seq<ArgumentDetail>, defs: BlockDefs)
    : BlockDefs
    decreases |views| - i
  {
    if i >= |views| then Saved(current, args, defs)
    else if views[i].blockHeader.Some? then
      BlockDefsFrom(views, i + 1, views[i].blockHeader.value, [], Saved(current, args, defs))
    else if current == "" then BlockDefsFrom(views, i + 1, current, args, defs)
    else if EndsBlock(views, i) then BlockDefsFrom(views, i + 1, "", [], Saved(current, args, defs))
    else if views[i].argument.Some? then
      BlockDefsFrom(views, i + 1, current, args + [views[i].argument.value], defs)
    else BlockDefsFrom(views, i + 1, current, args, defs)
  }

  /** The scan keeps every saved block named, non-empty and unique. */
  lemma {:induction false} BlockDefsValid(views: seq<LineView>, i: nat, current: string, args: seq<ArgumentDetail>, defs: BlockDefs)
    requires FreshViews(views)
    requires ValidDefs(defs) && forall a :: a in args ==> Fresh(a)
    ensures ValidDefs(BlockDefsFrom(views, i, current, args, defs))
    decreases |views| - i
  {
    SavedValid(current, args, defs);
    if i >= |views| {
    } else if views[i].blockHeader.Some? {
      BlockDefsValid(views, i + 1, views[i].blockHeader.value, [], Saved(current, args, defs));
    } else if current == "" {
      BlockDefsValid(views, i + 1, current, args, defs);
    } else if EndsBlock(views, i) {
      BlockDefsValid(views, i + 1, "", [], Saved(current, args, defs));
    } else if views[i].argument.Some? {
      BlockDefsValid(views, i + 1, current, args + [views[i].argument.value], defs);
    } else {
      BlockDefsValid(views, i + 1, current, args, defs);
    }
  }

  /** The block definitions of a page. */
  function BlockDefinitions(markdown: string): (defs: BlockDefs)
    ensures ValidDefs(defs)
  {
    BlockDefsValid(PageViews(markdown), 0, "", [], []);
    BlockDefsFrom(PageViews(markdown), 0, "", [], [])
  }

  /** `_extract_block_definitions`, one line at a time. */
  method ExtractBlockDefinitions(markdown: string) returns (defs: BlockDefs)
    ensures defs == BlockDefinitions(markdown)
  {
    defs := ScanBlockDefinitions(PageViews(markdown));
  }

  /** The loop of `_extract_block_definitions` over the views of the page's lines. */
  method ScanBlockDefinitions(views: seq<LineView>) returns (defs: BlockDefs)
    ensures defs == BlockDefsFrom(views, 0, "", [], [])
  {
    var current := "";
    var args: seq<ArgumentDetail> := [];
    defs := [];
    var i := 0;
    while i < |views|
      invariant 0 <= i <= |views|
      invariant BlockDefsFrom(views, 0, "", [], []) == BlockDefsFrom(views, i, current, args, defs)
      decreases |views| - i
    {
      var line := views[i];
      if line.blockHeader.Some? {
        assert BlockDefsFrom(views, i, current, args, defs)
            == BlockDefsFrom(views, i + 1, line.blockHeader.value, [], Saved(current, args, defs));
        if current != "" && args != [] {
          defs := Upsert(defs, current, args);
        }
        current := line.blockHeader.value;
        args := [];
        i := i + 1;
        continue;
      }
      if current != "" {
        if line.text == "---" || line.sectionHeading
           || (line.text == "" && i + 1 < |views| && views[i + 1].blockHeader.Some?) {
          assert BlockDefsFrom(views, i, current, args, defs)
              == BlockDefsFrom(views, i + 1, "", [], Saved(current, args, defs));
          if args != [] {
            defs := Upsert(defs, current, args);
          }
          current := "";
          args := [];
          i := i + 1;
          continue;
        }
        if line.argument.Some? {
          assert BlockDefsFrom(views, i, current, args, defs)
              == BlockDefsFrom(views, i + 1, current, args + [line.argument.value], defs);
          args := args + [line.argument.value];
        }
      }
      i := i + 1;
    }
    if current != "" && args != [] {
      defs := Upsert(defs, current, args);
    }
  }

  /** The matching loop of `_extract_arguments`: each `Block` argument named in `defs` gets its nested list. */
  method AttachBlockDefinitions(args: seq<ArgumentDetail>, defs: BlockDefs) returns (r: seq<ArgumentDetail>)
    ensures r == AttachedAll(args, defs)
  {
    r := args;
    for k := 0 to |r|
      invariant |r| == |args|
      invariant forall j :: 0 <= j < k ==> r[j] == Attached(args[j], defs)
      invariant forall j :: k <= j < |r| ==> r[j] == args[j]
    {
      var definition := Lookup(defs, r[k].name);
      if r[k].kind == Block && definition.Some? {
        r := r[k := r[k].(blockArguments := definition)];
      }
    }
  }

  /** `_extract_arguments`, one line at a time up to the end of the section. */
  method ExtractArguments(markdown: string, isDataSource: bool) returns (arguments: seq<ArgumentDetail>)
    ensures arguments == Arguments(markdown, isDataSource)
  {
    var views := PageViews(markdown);
    var inSection := false;
    var args: seq<ArgumentDetail> := [];
    var i := 0;
    while i < |views|
      invariant 0 <= i <= |views|
      invariant ArgumentsFrom(views, 0, false, []) == ArgumentsFrom(views, i, inSection, args)
      decreases |views| - i
    {
      var line := views[i];
      if line.argumentsHeading {
        inSection := true;
        i := i + 1;
        continue;
      }
      if inSection && (line.sectionHeading || line.blockHeader.Some?) {
        assert ArgumentsFrom(views, i, inSection, args) == args;
        break;
      }
      if inSection && line.text != [] && line.argument.Some? {
        args := args + [line.argument.value];
      }
      i := i + 1;
    }
    var defs := ExtractBlockDefinitions(markdown);
    arguments := AttachBlockDefinitions(args, defs);
    if arguments == [] {
      arguments := DefaultArguments(isDataSource);
    }
  }

  // ---------------------------------------------------------------------------
  // Attributes

  const IdAttribute: Attribute := ("id", "The ID of the resource.")

  /** The attributes reported for a page whose Attributes Reference gave none. */
  const KnownAttributes: seq<Attribute> := [
    ("location", "The Azure location where the Virtual Machine exists."),
    ("size", "The size of the Virtual Machine."),
    ("admin_username", "The admin username of the Virtual Machine."),
    ("network_interface_ids", "A list of the Network Interface IDs which are attached to the Virtual Machine."),
    ("os_disk", "A os_disk block as defined below."),
    ("storage_data_disk", "One or more storage_data_disk blocks as defined below."),
    ("identity", "A identity block as defined below.")]

  /** Appending an attribute unless one of that name is already listed. */
  function Added(attrs: seq<Attribute>, name: string, description: string): (r: seq<Attribute>)
    ensures UniqueKeys(attrs) ==> UniqueKeys(r)
    ensures name in Keys(r) && |attrs| <= |r| && r[..|attrs|] == attrs
  {
    if name in Keys(attrs) then attrs
    else
      var r := attrs + [(name, description)];
      assert Keys(r)[|attrs|] == name;
      r
  }

  /**
   * What an attribute-section line adds: an item with a description, under its own name;
   * or an indented item, under the name of the block it belongs to.
   */
  function AttributeStep(v: LineView, currentBlock: string, attrs: seq<Attribute>): seq<Attribute> {
    if v.item then
      match v.entry
      case Some((name, description)) => Added(attrs, name, description)
      case None => attrs
    else
      match v.indentedEntry
      case Some((name, description)) =>
        if currentBlock != "" then Added(attrs, currentBlock + "." + name, "(Block attribute) " + description)
        else attrs
      case None => attrs
  }

  /** The block an item that mentions a block opens, or the one already open. */
  function NextBlock(v: LineView, currentBlock: string): string {
    match v.blockMention
    case Some(name) => name
    case None => currentBlock
  }

  /** The scan of `_extract_attributes` from line `i`, up to the `## ` heading after the section. */
  function AttributesFrom(views: seq<LineView>, i: nat, inSection: bool, currentBlock: string, attrs: seq<Attribute>)
    : seq<Attribute>
    decreases |views| - i
  {
    if i >= |views| then attrs
    else if views[i].attributesHeading then AttributesFrom(views, i + 1, true, currentBlock, attrs)
    else if inSection && views[i].sectionHeading then attrs
    else if !inSection then AttributesFrom(views, i + 1, false, currentBlock, attrs)
    else AttributesFrom(views, i + 1, true, NextBlock(views[i], currentBlock),
                        AttributeStep(views[i], currentBlock, attrs))
  }

  /** The scan keeps what was listed before and never lists a name twice. */
  lemma {:induction false} AttributesFromUnique(views: seq<LineView>, i: nat, inSection: bool, currentBlock: string,
                                                attrs: seq<Attribute>)
    requires UniqueKeys(attrs)
    ensures var r := AttributesFrom(views, i, inSection, currentBlock, attrs);
      UniqueKeys(r) && |attrs| <= |r| && r[..|attrs|] == attrs
    decreases |views| - i
  {
    if i >= |views| {
    } else if views[i].attributesHeading {
      AttributesFromUnique(views, i + 1, true, currentBlock, attrs);
    } else if inSection && views[i].sectionHeading {
    } else if !inSection {
      AttributesFromUnique(views, i + 1, false, currentBlock, attrs);
    } else {
      var next := AttributeStep(views[i], currentBlock, attrs);
      AttributesFromUnique(views, i + 1, true, NextBlock(views[i], currentBlock), next);
      var r := AttributesFrom(views, i + 1, true, NextBlock(views[i], currentBlock), next);
      assert r[..|attrs|] == r[..|next|][..|attrs|];
    }
  }

  lemma KnownAttributesUnique()
    ensures UniqueKeys([IdAttribute] + KnownAttributes)
  {
  }

  /** A scan that found nothing beyond `id` is completed by the known attributes without a repeated name. */
  lemma KnownAfterId(found: seq<Attribute>)
    requires |found| == 1 && found[0] == IdAttribute
    ensures var r := found + KnownAttributes; |r| >= 2 && r[0] == IdAttribute && UniqueKeys(r)
  {
    assert found == [IdAttribute];
    KnownAttributesUnique();
  }

  /** `_extract_attributes`: `id` first, then the section's attributes, or the known ones. */
  function Attributes(markdown: string): (r: seq<Attribute>)
    ensures |r| >= 2 && r[0] == IdAttribute && UniqueKeys(r)
  {
    var found := AttributesFrom(PageViews(markdown), 0, false, "", [IdAttribute]);
    AttributesFromUnique(PageViews(markdown), 0, false, "", [IdAttribute]);
    if |found| == 1 then KnownAfterId(found); found + KnownAttributes else found
  }

  /** A stripped line never offers an indented item, so no nested attribute is ever listed. */
  lemma {:induction false} PageViewsNotIndented(markdown: string)
    ensures forall k :: 0 <= k < |PageViews(markdown)| ==> PageViews(markdown)[k].indentedEntry.None?
  {
    var raw := Split(markdown, '\n');
    forall k | 0 <= k < |PageViews(markdown)|
      ensures PageViews(markdown)[k].indentedEntry.None?
    {
      StripAllAt(raw, k);
      ViewsAt(StrippedLines(markdown), k);
      StrippedNeverIndented(raw[k]);
    }
  }

  /** `_extract_attributes`, one line at a time up to the end of the section. */
  method ExtractAttributes(markdown: string) returns (attributes: seq<Attribute>)
    ensures attributes == Attributes(markdown)
  {
    var views := PageViews(markdown);
    attributes := [IdAttribute];
    var inSection := false;
    var currentBlock := "";
    var i := 0;
    while i < |views|
      invariant 0 <= i <= |views|
      invariant AttributesFrom(views, 0, false, "", [IdAttribute])
             == AttributesFrom(views, i, inSection, currentBlock, attributes)
      decreases |views| - i
    {
      var line := views[i];
      if line.attributesHeading {
        inSection := true;
        i := i + 1;
        continue;
      }
      if inSection && line.sectionHeading {
        break;
      }
      if inSection {
        if line.item {
          if line.entry.Some? && line.entry.value.0 !in Keys(attributes) {
            attributes := attributes + [line.entry.value];
          }
        } else if line.indentedEntry.Some? && currentBlock != "" {
          var nested := currentBlock + "." + line.indentedEntry.value.0;
          if nested !in Keys(attributes) {
            attributes := attributes + [(nested, "(Block attribute) " + line.indentedEntry.value.1)];
          }
        }
        if line.blockMention.Some? {
          currentBlock := line.blockMention.value;
        }
      }
      i := i + 1;
    }
    if |attributes| == 1 {
      attributes := attributes + KnownAttributes;
    }
  }

  // ---------------------------------------------------------------------------
  // Examples

  /** A line as the example scan sees it: a fence with its language, or a line of text. */
  datatype CodeLine = Fence(language: string) | Text(line: string)

  /** A line whose stripped form starts with three backquotes is a fence; its language is the rest, stripped and lower-cased. */
  function CodeLineOf(line: string): CodeLine {
    var stripped := Strip(line);
    if IsPrefix("```", stripped) then Fence(Lower(Strip(stripped[3..]))) else Text(line)
  }

  function CodeLines(raw: seq<string>): (lines: seq<CodeLine>)
    ensures |lines| == |raw|
  {
    if raw == [] then [] else [CodeLineOf(raw[0])] + CodeLines(raw[1..])
  }

  /** `"data"` for a data source, `"resource"` otherwise. */
  function BlockKeyword(isDataSource: bool): string {
    if isDataSource then "data" else "resource"
  }

  /** `normalized_type.replace('-', '_')` */
  function ResourceName(normalizedType: string): string {
    Replace(normalizedType, "-", "_")
  }

  /** The relevance test of a code block, as written with its three alternatives for the name. */
  predicate Relevant(code: string, blockType: string, resourceName: string) {
    Contains(code, blockType)
    && (Contains(code, "azurerm_" + resourceName) || Contains(code, "\"" + resourceName + "\"")
        || Contains(code, resourceName))
  }

  /** The alternatives all hold the bare name, so a block is relevant iff it holds the keyword and the name. */
  lemma RelevantNeedsName(code: string, blockType: string, resourceName: string)
    ensures Relevant(code, blockType, resourceName) <==> Contains(code, blockType) && Contains(code, resourceName)
  {
    var prefixed := "azurerm_" + resourceName;
    var quoted := "\"" + resourceName + "\"";
    assert prefixed[8..8 + |resourceName|] == resourceName;
    ContainsAt(prefixed, resourceName, 8);
    assert quoted[1..1 + |resourceName|] == resourceName;
    ContainsAt(quoted, resourceName, 1);
    if Contains(code, prefixed) {
      ContainsTransitive(code, prefixed, resourceName);
    }
    if Contains(code, quoted) {
      ContainsTransitive(code, quoted, resourceName);
    }
  }

  /** The languages whose blocks are read: `hcl`, `terraform`, or none. */
  predicate ExampleLanguage(language: string) {
    language in ["hcl", "terraform", ""]
  }

  /**
   * The scan of `_extract_examples` from line `i`: inside a fence, text lines are
   * collected; the closing fence keeps the block when its language is read, it has
   * lines, and it is relevant; the scan stops at the third kept block.
   */
  function ExamplesFrom(lines: seq<CodeLine>, i: nat, inCode: bool, language: string, current: seq<string>,
                        examples: seq<string>, blockType: string, resourceName: string): seq<string>
    requires |examples| < 3
    decreases |lines| - i
  {
    if i >= |lines| then examples
    else match lines[i]
      case Fence(fenceLanguage) =>
        if !inCode then ExamplesFrom(lines, i + 1, true, fenceLanguage, [], examples, blockType, resourceName)
        else
          var code := Strip(Join(current, "\n"));
          if ExampleLanguage(language) && current != [] && Relevant(code, blockType, resourceName) then
            if |examples| + 1 >= 3 then examples + [code]
            else ExamplesFrom(lines, i + 1, false, "", [], examples + [code], blockType, resourceName)
          else ExamplesFrom(lines, i + 1, false, "", [], examples, blockType, resourceName)
      case Text(line) =>
        if inCode then ExamplesFrom(lines, i + 1, true, language, current + [line], examples, blockType, resourceName)
        else ExamplesFrom(lines, i + 1, false, language, current, examples, blockType, resourceName)
  }

  /** The scan keeps what it had, and at most three blocks in all. */
  lemma {:induction false} ExamplesFromBounded(lines: seq<CodeLine>, i: nat, inCode: bool, language: string,
                                               current: seq<string>, examples: seq<string>,
                                               blockType: string, resourceName: string)
    requires |examples| < 3
    ensures var r := ExamplesFrom(lines, i, inCode, language, current, examples, blockType, resourceName);
      |examples| <= |r| <= 3 && r[..|examples|] == examples
    decreases |lines| - i
  {
    if i < |lines| {
      match lines[i]
      case Fence(fenceLanguage) =>
        if !inCode {
          ExamplesFromBounded(lines, i + 1, true, fenceLanguage, [], examples, blockType, resourceName);
        } else {
          var code := Strip(Join(current, "\n"));
          if ExampleLanguage(language) && current != [] && Relevant(code, blockType, resourceName) {
            var more := examples + [code];
            if |examples| + 1 < 3 {
              ExamplesFromBounded(lines, i + 1, false, "", [], more, blockType, resourceName);
              var r := ExamplesFrom(lines, i + 1, false, "", [], more, blockType, resourceName);
              assert r[..|examples|] == r[..|more|][..|examples|];
            }
          } else {
            ExamplesFromBounded(lines, i + 1, false, "", [], examples, blockType, resourceName);
          }
        }
      case Text(line) =>
        if inCode {
          ExamplesFromBounded(lines, i + 1, true, language, current + [line], examples, blockType, resourceName);
        } else {
          ExamplesFromBounded(lines, i + 1, false, language, current, examples, blockType, resourceName);
        }
    }
  }


  /** Every block the scan keeps holds the block keyword and the resource name. */
  lemma {:induction false} ExamplesFromRelevant(lines: seq<CodeLine>, i: nat, inCode: bool, language: string,
                                                current: seq<string>, examples: seq<string>,
                                                blockType: string, resourceName: string)
    requires |examples| < 3
    requires forall e :: e in examples ==> Contains(e, blockType) && Contains(e, resourceName)
    ensures forall e :: e in ExamplesFrom(lines, i, inCode, language, current, examples, blockType, resourceName) ==>
      Contains(e, blockType) && Contains(e, resourceName)
    decreases |lines| - i
  {
    if i < |lines| {
      match lines[i]
      case Fence(fenceLanguage) =>
        if !inCode {
          ExamplesFromRelevant(lines, i + 1, true, fenceLanguage, [], examples, blockType, resourceName);
        } else {
          var code := Strip(Join(current, "\n"));
          if ExampleLanguage(language) && current != [] && Relevant(code, blockType, resourceName) {
            RelevantNeedsName(code, blockType, resourceName);
            var more := examples + [code];
            if |examples| + 1 < 3 {
              ExamplesFromRelevant(lines, i + 1, false, "", [], more, blockType, resourceName);
            }
          } else {
            ExamplesFromRelevant(lines, i + 1, false, "", [], examples, blockType, resourceName);
          }
        }
      case Text(line) =>
        if inCode {
          ExamplesFromRelevant(lines, i + 1, true, language, current + [line], examples, blockType, resourceName);
        } else {
          ExamplesFromRelevant(lines, i + 1, false, language, current, examples, blockType, resourceName);
        }
    }
  }


  /** The first line of the generated example: `<keyword> "azurerm_<name>" "example" {`. */
  function ExampleOpening(blockType: string, resourceName: string): string {
    blockType + " \"azurerm_" + resourceName + "\" \"example\" {"
  }

  /** The example generated when the page has none. */
  function DefaultExample(normalizedType: string, isDataSource: bool): (e: string)
    ensures Contains(e, BlockKeyword(isDataSource)) && Contains(e, ResourceName(normalizedType))
  {
    var blockType := BlockKeyword(isDataSource);
    var name := ResourceName(normalizedType);
    var rest := if isDataSource then
      ["  name                = \"example-" + normalizedType + "\"",
       "  resource_group_name = \"example-resource-group\"",
       "}",
       "",
       "# Use the data source",
       "output \"" + name + "_id\" {",
       "  value = data.azurerm_" + name + ".example.id",
       "}"]
    else
      ["  name                = \"example-" + normalizedType + "\"",
       "  resource_group_name = azurerm_resource_group.example.name",
       "  location            = azurerm_resource_group.example.location",
       "",
       "  tags = {",
       "    Environment = \"Development\"",
       "  }",
       "}"];
    OpeningNames(blockType, name, "\n" + Join(rest, "\n"));
    ExampleOpening(blockType, name) + ("\n" + Join(rest, "\n"))
  }

  lemma OpeningNames(blockType: string, resourceName: string, after: string)
    ensures Contains(ExampleOpening(blockType, resourceName) + after, blockType)
    ensures Contains(ExampleOpening(blockType, resourceName) + after, resourceName)
  {
    var s := ExampleOpening(blockType, resourceName) + after;
    assert s[..|blockType|] == blockType;
    ContainsAt(s, blockType, 0);
    var k := |blockType| + 10;
    assert s[k..k + |resourceName|] == resourceName;
    ContainsAt(s, resourceName, k);
  }

  /** `_extract_examples`: one to three examples, each mentioning the block keyword and the resource name. */
  function Examples(markdown: string, normalizedType: string, isDataSource: bool): (r: seq<string>)
    ensures 1 <= |r| <= 3
    ensures forall e :: e in r ==> Contains(e, BlockKeyword(isDataSource)) && Contains(e, ResourceName(normalizedType))
  {
    var lines := CodeLines(Split(markdown, '\n'));
    var blockType := BlockKeyword(isDataSource);
    var name := ResourceName(normalizedType);
    ExamplesFromBounded(lines, 0, false, "", [], [], blockType, name);
    ExamplesFromRelevant(lines, 0, false, "", [], [], blockType, name);
    var found := ExamplesFrom(lines, 0, false, "", [], [], blockType, name);
    if found == [] then [DefaultExample(normalizedType, isDataSource)] else found
  }

  /** `_extract_examples`, one line at a time up to the third example. */
  method ExtractExamples(markdown: string, normalizedType: string, isDataSource: bool) returns (examples: seq<string>)
    ensures examples == Examples(markdown, normalizedType, isDataSource)
  {
    var lines := CodeLines(Split(markdown, '\n'));
    var blockType := BlockKeyword(isDataSource);
    var name := ResourceName(normalizedType);
    examples := [];
    var inCode := false;
    var current: seq<string> := [];
    var language := "";
    var i := 0;
    while i < |lines|
      invariant 0 <= i <= |lines| && |examples| < 3
      invariant ExamplesFrom(lines, 0, false, "", [], [], blockType, name)
             == ExamplesFrom(lines, i, inCode, language, current, examples, blockType, name)
      decreases |lines| - i
    {
      match lines[i] {
      case Fence(fenceLanguage) =>
        if !inCode {
          inCode := true;
          language := fenceLanguage;
          current := [];
        } else {
          inCode := false;
          var code := Strip(Join(current, "\n"));
          if ExampleLanguage(language) && current != [] && Relevant(code, blockType, name) {
            if |examples| + 1 >= 3 {
              examples := examples + [code];
              return;
            }
            examples := examples + [code];
          }
          current := [];
          language := "";
        }
      case Text(line) =>
        if inCode {
          current := current + [line];
        }
      }
      i := i + 1;
    }
    if examples == [] {
      examples := [DefaultExample(normalizedType, isDataSource)];
    }
  }

  // ---------------------------------------------------------------------------
  // The search

  /** The result for a page that could not be fetched. */
  function ErrorResult(resourceType: string, message: string): DocsResult {
    DocsResult(resourceType, "", "Error retrieving documentation: " + message, [], [], [])
  }

  /** The result when neither directory has the page: the first URL and the first status. */
  function NotFound(resourceType: string, url: string, status: int): DocsResult {
    DocsResult(resourceType, url, "Documentation not found for " + resourceType + " (HTTP " + IntToString(status) + ")",
               [], [], [])
  }

  /** The result read from a fetched page; the page is a data source iff its URL is in `docs/d/`. */
  function Parsed(resourceType: string, normalizedType: string, url: string, markdown: string): (r: DocsResult)
    ensures r.documentationUrl == url
    ensures r.arguments != [] && forall a :: a in r.arguments ==> WellFormed(a)
    ensures |r.attributes| >= 2 && r.attributes[0] == IdAttribute && UniqueKeys(r.attributes)
    ensures 1 <= |r.examples| <= 3
    ensures forall e :: e in r.examples ==> Contains(e, ResourceName(normalizedType))
  {
    var isDataSource := IsDataSource(url);
    DocsResult(resourceType, url, Summary(markdown, resourceType, isDataSource), Arguments(markdown, isDataSource),
               Attributes(markdown), Examples(markdown, normalizedType, isDataSource))
  }

  /**
   * `search_azurerm_provider_docs`: the page in the directory the document type selects;
   * on another status than 200, the page in the other directory; when that fails too,
   * a not-found result with the first URL and status. A request that raised gives an
   * error result with no URL. (`search_query` is accepted and not used.)
   */
  method SearchAzurermProviderDocs(resourceType: string, searchQuery: string, docType: string, fetch: string -> Fetched)
    returns (r: DocsResult)
    ensures r.resourceType == resourceType
    ensures var nt := NormalizedType(resourceType);
      var primary := DocUrl(PrimaryDir(docType), nt);
      var fallback := DocUrl(FallbackDir(docType), nt);
      match fetch(primary)
      case Raised(message) => r == ErrorResult(resourceType, message)
      case Response(status, text) =>
        if status == 200 then r == Parsed(resourceType, nt, primary, text)
        else match fetch(fallback)
          case Raised(message) => r == ErrorResult(resourceType, message)
          case Response(status2, text2) =>
            if status2 == 200 then r == Parsed(resourceType, nt, fallback, text2)
            else r == NotFound(resourceType, primary, status)
  {
    var normalized := NormalizedType(resourceType);
    var docUrl := DocUrl(PrimaryDir(docType), normalized);
    var response := fetch(docUrl);
    if response.Raised? {
      return ErrorResult(resourceType, response.message);
    }
    if response.status != 200 {
      var fallbackUrl := DocUrl(FallbackDir(docType), normalized);
      var fallbackResponse := fetch(fallbackUrl);
      if fallbackResponse.Raised? {
        return ErrorResult(resourceType, fallbackResponse.message);
      }
      if fallbackResponse.status == 200 {
        response := fallbackResponse;
        docUrl := fallbackUrl;
      } else {
        return NotFound(resourceType, docUrl, response.status);
      }
    }
    var markdown := response.text;
    var isDataSource := IsDataSource(docUrl);
    var summary := ExtractSummary(markdown, resourceType, isDataSource);
    var arguments := ExtractArguments(markdown, isDataSource);
    var attributes := ExtractAttributes(markdown);
    var examples := ExtractExamples(markdown, normalized, isDataSource);
    r := DocsResult(resourceType, docUrl, summary, arguments, attributes, examples);
  }
}

=== FILE: best_practices.dfy ===
/**
 * Azure best-practice guidance: a fixed table of practices per resource type and
 * category, a generic fallback, the markdown rendering, and Terraform templates.
 */
module BestPractices {
  import opened Wrappers
  import opened Text
  import Assoc

  /** Practice lists by category, in table order. */
  type Practices = seq<(string, seq<string>)>

  /** `_load_best_practices` */
  const BestPracticesDb: seq<(string, Practices)> := [
    ("azurerm_virtual_machine", [
      ("security", [
        "Enable disk encryption using Azure Disk Encryption",
        "Use managed identities instead of service principals",
        "Configure network security groups with least privilege",
        "Enable boot diagnostics for troubleshooting",
        "Use Azure Security Center recommendations",
        "Disable unused network interfaces and ports",
        "Enable Azure Antimalware extension",
        "Use strong authentication methods"]),
      ("performance", [
        "Choose appropriate VM size based on workload",
        "Use Premium SSD for production workloads",
        "Enable accelerated networking when supported",
        "Configure proper load balancing",
        "Use proximity placement groups for latency-sensitive apps",
        "Optimize VM placement with availability sets/zones",
        "Monitor performance metrics regularly"]),
      ("cost", [
        "Use Azure Reserved Instances for predictable workloads",
        "Implement auto-shutdown for dev/test environments",
        "Right-size VMs based on actual utilization",
        "Use spot instances for fault-tolerant workloads",
        "Monitor and optimize with Azure Cost Management",
        "Deallocate VMs when not in use",
        "Use Azure Hybrid Benefit for Windows/SQL licenses"]),
      ("reliability", [
        "Deploy across availability zones",
        "Use availability sets for planned maintenance",
        "Implement backup and disaster recovery",
        "Configure health probes and monitoring",
        "Use infrastructure as code for consistency",
        "Implement automated failover mechanisms",
        "Regular testing of disaster recovery procedures"])]),
    ("azurerm_storage_account", [
      ("security", [
        "Enable secure transfer (HTTPS only)",
        "Use private endpoints for secure connectivity",
        "Configure firewall rules and virtual network access",
        "Enable Azure Defender for Storage",
        "Use customer-managed encryption keys when required",
        "Enable blob soft delete for data protection",
        "Configure shared access signature (SAS) policies properly",
        "Regular audit of access permissions"]),
      ("performance", [
        "Choose appropriate performance tier (Standard vs Premium)",
        "Use hot/cool/archive tiers based on access patterns",
        "Configure CDN for globally distributed content",
        "Optimize blob storage with proper container structure",
        "Use read-access geo-redundant storage for high availability",
        "Implement connection pooling for applications",
        "Monitor storage metrics and optimize access patterns"]),
      ("cost", [
        "Implement lifecycle management policies",
        "Use appropriate redundancy level (LRS/ZRS/GRS)",
        "Monitor storage metrics and optimize usage",
        "Configure blob tier automation",
        "Clean up orphaned resources regularly",
        "Use storage reserved capacity for predictable workloads",
        "Optimize data transfer costs"]),
      ("reliability", [
        "Configure geo-redundant storage for critical data",
        "Implement backup strategies for important data",
        "Monitor storage health and availability",
        "Use multiple storage accounts to avoid limits",
        "Implement retry logic in applications",
        "Regular testing of backup and restore procedures",
        "Monitor for storage account limits and quotas"])]),
    ("azurerm_key_vault", [
      ("security", [
        "Use Azure RBAC for fine-grained access control",
        "Enable firewall and virtual network rules",
        "Use private endpoints for network isolation",
        "Enable soft delete and purge protection",
        "Rotate keys and secrets regularly",
        "Use managed identities for application access",
        "Enable auditing and monitoring",
        "Implement least privilege access policies"]),
      ("performance", [
        "Use appropriate Key Vault tier (Standard vs Premium)",
        "Implement connection pooling and caching",
        "Monitor request rates and throttling",
        "Use bulk operations when possible",
        "Optimize key and secret retrieval patterns",
        "Consider regional placement for latency"]),
      ("cost", [
        "Monitor Key Vault transaction costs",
        "Optimize secret and key operations",
        "Use Standard tier unless HSM is required",
        "Implement efficient caching strategies",
        "Regular cleanup of unused secrets and keys"]),
      ("reliability", [
        "Enable backup for critical keys and secrets",
        "Implement disaster recovery procedures",
        "Monitor Key Vault availability",
        "Use multiple Key Vaults for high availability",
        "Implement proper error handling and retry logic",
        "Regular testing of backup and restore procedures"])]),
    ("azurerm_application_gateway", [
      ("security", [
        "Enable Web Application Firewall (WAF)",
        "Use SSL/TLS termination with strong ciphers",
        "Configure custom SSL certificates",
        "Implement proper backend pool health checks",
        "Use private IP addresses for backend pools",
        "Enable request and response logging",
        "Configure security headers"]),
      ("performance", [
        "Choose appropriate tier and size",
        "Configure connection draining",
        "Optimize backend pool configuration",
        "Use cookie-based session affinity when needed",
        "Monitor performance metrics",
        "Configure appropriate timeout values"]),
      ("cost", [
        "Right-size the Application Gateway",
        "Monitor capacity and scaling requirements",
        "Use reserved capacity for predictable workloads",
        "Optimize routing rules and listeners",
        "Regular review of usage patterns"]),
      ("reliability", [
        "Deploy across availability zones",
        "Configure health probes for backend pools",
        "Implement proper error handling",
        "Monitor gateway health and performance",
        "Use multiple instances for high availability",
        "Implement disaster recovery procedures"])])]

  /** The practices of the generic fallback. */
  const GenericPractices: Practices := [
    ("security", [
      "Use managed identities for authentication",
      "Enable encryption at rest and in transit",
      "Configure network security groups with least privilege",
      "Use private endpoints when available",
      "Enable monitoring and auditing",
      "Implement proper access controls"]),
    ("performance", [
      "Choose appropriate resource sizing",
      "Monitor performance metrics",
      "Optimize configuration for workload",
      "Use appropriate Azure regions",
      "Implement caching strategies",
      "Configure load balancing when needed"]),
    ("cost", [
      "Right-size resources based on usage",
      "Use reserved instances for predictable workloads",
      "Monitor costs regularly",
      "Implement resource lifecycle management",
      "Use appropriate pricing tiers",
      "Clean up unused resources"]),
    ("reliability", [
      "Deploy across availability zones",
      "Implement backup and disaster recovery",
      "Monitor resource health",
      "Use infrastructure as code",
      "Implement proper error handling",
      "Test disaster recovery procedures"])]

  // ---------------------------------------------------------------------------
  // Selection
  // ---------------------------------------------------------------------------

  /** The table key of a resource type: lower-cased, every `azurerm_` removed, then prefixed once. */
  function NormalizedKey(resourceType: string): string {
    "azurerm_" + Replace(Lower(resourceType), "azurerm_", "")
  }

  /** A leading `azurerm_`, in any case, does not change the key. */
  lemma PrefixIgnored(prefix: string, name: string)
    requires Lower(prefix) == "azurerm_"
    ensures NormalizedKey(prefix + name) == NormalizedKey(name)
  {
    LowerConcat(prefix, name);
    ReplaceLeading("azurerm_", Lower(name), "");
    assert "" + Replace(Lower(name), "azurerm_", "") == Replace(Lower(name), "azurerm_", "");
  }

  /** Spellings that differ only in case select the same entry. */
  lemma CaseIgnored(a: string, b: string)
    requires Lower(a) == Lower(b)
    ensures NormalizedKey(a) == NormalizedKey(b)
  {
  }

  /** An occurrence at the very start is the first one replaced. */
  lemma ReplaceLeading(a: string, t: string, b: string)
    requires |a| > 0
    ensures Replace(a + t, a, b) == b + Replace(t, a, b)
  {
    var s := a + t;
    assert IsPrefix(a, s);
    assert s[|a|..] == t;
  }

  /** A specific category the practices have keeps only that category; otherwise all are kept. */
  function FilterCategory(practices: Practices, category: string): (r: Practices)
    ensures category != "all" && category in Assoc.Keys(practices) ==> Assoc.Keys(r) == [category]
    ensures !(category != "all" && category in Assoc.Keys(practices)) ==> r == practices
    ensures forall k :: k in Assoc.Keys(r) ==> Assoc.Lookup(r, k) == Assoc.Lookup(practices, k)
  {
    if category != "all" && category in Assoc.Keys(practices) then
      var items := Assoc.Lookup(practices, category).value;
      assert Assoc.Lookup([(category, items)], category) == Some(items);
      [(category, items)]
    else practices
  }

  /** The practices `get_best_practices` renders from a table: the entry, or the generic ones when there is none. */
  function SelectedPractices(db: seq<(string, Practices)>, generic: Practices, resourceType: string,
                             category: string): (r: Practices)
    ensures NormalizedKey(resourceType) !in Assoc.Keys(db) ==> r == FilterCategory(generic, category)
    ensures forall p :: Assoc.Lookup(db, NormalizedKey(resourceType)) == Some(p) && p != [] ==>
      r == FilterCategory(p, category)
  {
    var practices := Assoc.Lookup(db, NormalizedKey(resourceType)).GetOr([]);
    if practices == [] then FilterCategory(generic, category)
    else FilterCategory(practices, category)
  }

  /** A leading `azurerm_`, in any case, does not change what is selected. */
  lemma SelectionIgnoresPrefix(db: seq<(string, Practices)>, generic: Practices, prefix: string, name: string,
                               category: string)
    requires Lower(prefix) == "azurerm_"
    ensures SelectedPractices(db, generic, prefix + name, category) == SelectedPractices(db, generic, name, category)
  {
    PrefixIgnored(prefix, name);
  }

  // ---------------------------------------------------------------------------
  // Rendering
  // ---------------------------------------------------------------------------

  /** The title line of a rendering. */
  function TitleLine(resourceType: string): string {
    "# Azure Best Practices for " + resourceType + "\n\n"
  }

  /** The fixed advice on provider versions that follows the title. */
  const ProviderVersion: string :=
    "## Provider Version\n\n"
    + "Use `azurerm` provider version `~> 4.x` for Azure resources.\n\n"
    + "Use `azapi` provider version `~> 2.x` for advanced Azure resources.\n\n"

  function Header(resourceType: string): string {
    TitleLine(resourceType) + ProviderVersion
  }

  /** The closing general recommendations, line by line. */
  const GeneralRecommendationLines: seq<string> := [
    "## General Recommendations",
    "",
    "### Resource Naming",
    "- Follow Azure naming conventions",
    "- Use consistent naming patterns across resources",
    "- Include environment and purpose in names",
    "",
    "### Tagging Strategy",
    "- Implement consistent tagging for cost management",
    "- Tag resources by environment, owner, and purpose",
    "- Use tags for automation and governance",
    "",
    "### Infrastructure as Code",
    "- Use version control for Terraform configurations",
    "- Implement CI/CD pipelines for deployments",
    "- Test configurations before applying to production",
    "- Use remote state management",
    "",
    "### Monitoring and Logging",
    "- Enable diagnostic settings for all resources",
    "- Use Azure Monitor for centralized monitoring",
    "- Set up alerts for critical metrics",
    "- Implement log retention policies",
    "",
    "### Security",
    "- Follow Azure Security Center recommendations",
    "- Implement network segmentation",
    "- Use Azure Policy for governance",
    "- Regular security assessments and audits",
    ""
  ]

  const GeneralRecommendations: string := Join(GeneralRecommendationLines, "\n")

  /** One `• ` line per item. */
  function Bullets(items: seq<string>): string {
    if items == [] then "" else Bullets(items[..|items| - 1]) + "• " + items[|items| - 1] + "\n"
  }

  function SectionHeading(category: string): string {
    "## " + Title(category) + "\n\n"
  }

  /** One heading and its bullets per category. */
  function Sections(practices: Practices): string {
    if practices == [] then ""
    else
      var last := practices[|practices| - 1];
      Sections(practices[..|practices| - 1]) + SectionHeading(last.0) + Bullets(last.1) + "\n"
  }

  /** `_format_best_practices` */
  function Formatted(resourceType: string, practices: Practices): string {
    Header(resourceType) + Sections(practices) + GeneralRecommendations
  }

  /** The rendering opens with the title line for the type as given and closes with the general recommendations. */
  lemma FormattedFrame(resourceType: string, practices: Practices)
    ensures IsPrefix(TitleLine(resourceType), Formatted(resourceType, practices))
    ensures IsSuffix(GeneralRecommendations, Formatted(resourceType, practices))
  {
    Framed(TitleLine(resourceType), ProviderVersion, Sections(practices), GeneralRecommendations);
  }

  lemma Framed(head: string, b: string, c: string, foot: string)
    ensures IsPrefix(head, head + b + c + foot) && IsSuffix(foot, head + b + c + foot)
  {
    var s := head + b + c + foot;
    assert s[..|head|] == head;
    assert s[|head + b + c|..] == foot;
  }

  /** `_format_best_practices`' loop over the categories. */
  method FormatBestPractices(resourceType: string, practices: Practices) returns (formatted: string)
    ensures formatted == Formatted(resourceType, practices)
  {
    formatted := Header(resourceType);
    for i := 0 to |practices|
      invariant formatted == Header(resourceType) + Sections(practices[..i])
    {
      SectionsStep(practices, i);
      formatted := AppendSection(formatted, practices[i].0, practices[i].1);
    }
    assert practices[..|practices|] == practices;
    formatted := formatted + GeneralRecommendations;
  }

  lemma SectionsStep(practices: Practices, i: nat)
    requires i < |practices|
    ensures Sections(practices[..i + 1])
         == Sections(practices[..i]) + (SectionHeading(practices[i].0) + Bullets(practices[i].1) + "\n")
  {
    assert practices[..i + 1][..i] == practices[..i];
  }

  /** The inner loop: one category's heading and its bullets. */
  method AppendSection(formatted: string, category: string, items: seq<string>) returns (r: string)
    ensures r == formatted + (SectionHeading(category) + Bullets(items) + "\n")
  {
    r := formatted + SectionHeading(category);
    for j := 0 to |items|
      invariant r == formatted + SectionHeading(category) + Bullets(items[..j])
    {
      assert items[..j + 1][..j] == items[..j];
      r := r + "• " + items[j] + "\n";
    }
    assert items[..|items|] == items;
    r := r + "\n";
  }

  /** The line `• item` of each item. */
  function BulletList(items: seq<string>): (lines: seq<string>)
    ensures |lines| == |items|
  {
    seq(|items|, i requires 0 <= i < |items| => "• " + items[i])
  }

  /** The bullet text has exactly one line per item, each `• ` and the item, when items hold no newline. */
  lemma BulletLines(items: seq<string>)
    requires forall i :: 0 <= i < |items| ==> '\n' !in items[i]
    ensures Split(Bullets(items), '\n') == BulletList(items) + [""]
  {
    assert Bullets(items) + "" == Bullets(items);
    BulletsThen(items, "");
  }

  lemma {:induction false} BulletsThen(items: seq<string>, t: string)
    requires forall i :: 0 <= i < |items| ==> '\n' !in items[i]
    requires '\n' !in t
    ensures Split(Bullets(items) + t, '\n') == BulletList(items) + [t]
  {
    SplitWithout(t, '\n');
    if items == [] {
      assert Bullets(items) + t == t;
    } else {
      var init, last := items[..|items| - 1], items[|items| - 1];
      var line := "• " + last;
      assert '\n' !in line by {
        assert forall k :: 0 <= k < |line| ==> line[k] == (if k < 2 then "• "[k] else last[k - 2]);
      }
      assert Bullets(items) + t == Bullets(init) + line + ['\n'] + t;
      SplitConcat(Bullets(init) + line, t, '\n');
      BulletsThen(init, line);
      assert BulletList(items) == BulletList(init) + [line];
    }
  }

  /** `get_best_practices` */
  function GetBestPractices(resourceType: string, category: string): (r: string)
    ensures IsPrefix(TitleLine(resourceType), r) && IsSuffix(GeneralRecommendations, r)
    ensures NormalizedKey(resourceType) !in Assoc.Keys(BestPracticesDb) ==>
      r == Formatted(resourceType, FilterCategory(GenericPractices, category))
  {
    var practices := SelectedPractices(BestPracticesDb, GenericPractices, resourceType, category);
    FormattedFrame(resourceType, practices);
    Formatted(resourceType, practices)
  }

  // ---------------------------------------------------------------------------
  // Templates
  // ---------------------------------------------------------------------------

  const TemplatePreamble: string := Join([
    "terraform {",
    "  required_version = \">= 1.0\"",
    "  required_providers {",
    "    azurerm = {",
    "      source  = \"hashicorp/azurerm\"",
    "      version = \"~> 3.0\"",
    "    }",
    "  }",
    "}",
    "",
    "provider \"azurerm\" {",
    "  features {}",
    "}",
    ""
  ], "\n")

  const TemplateVariables: string := Join([
    "",
    "# Variables",
    "variable \"resource_group_name\" {",
    "  description = \"Name of the resource group\"",
    "  type        = string",
    "}",
    "",
    "variable \"location\" {",
    "  description = \"Azure region for deployment\"",
    "  type        = string",
    "  default     = \"East US\"",
    "}",
    "",
    "variable \"environment\" {",
    "  description = \"Environment name\"",
    "  type        = string",
    "  default     = \"dev\"",
    "  ",
    "  validation {",
    "    condition     = contains([\"dev\", \"test\", \"staging\", \"prod\"], var.environment)",
    "    error_message = \"Environment must be one of: dev, test, staging, prod.\"",
    "  }",
    "}",
    "",
    "variable \"common_tags\" {",
    "  description = \"Common tags for all resources\"",
    "  type        = map(string)",
    "  default     = {}",
    "}",
    "",
    "# Main resource",
    ""
  ], "\n")

  /** The header line of a resource block. */
  function ResourceLine(resourceType: string): string {
    "resource \"" + resourceType + "\" \"main\" {\n"
  }

  /** `_generate_template` for a table key. */
  function Template(resourceType: string): string {
    TemplateHead(resourceType) + ResourceLine(resourceType) + TemplateBody(resourceType)
  }

  /** The title line, provider settings and variables of a full template. */
  function TemplateHead(resourceType: string): string {
    "# " + Title(ReplaceChar(resourceType, '_', ' ')) + " with Best Practices Applied\n\n"
    + TemplatePreamble + TemplateVariables
  }

  /** The body of the main resource and the outputs of a full template. */
  function TemplateBody(resourceType: string): string {
    var name := Replace(resourceType, "azurerm_", "");
    TemplateFields(name) + IdOutput(resourceType, name) + NameOutput(resourceType, name)
  }

  /** The attributes and tags of the main resource, closing its block. */
  function TemplateFields(name: string): string {
    "  name                = \"${var.environment}-" + name + "\"\n"
    + "  resource_group_name = var.resource_group_name\n"
    + "  location           = var.location\n"
    + "  \n"
    + "  # Add comprehensive tags\n"
    + "  tags = merge(\n"
    + "    var.common_tags,\n"
    + "    {\n"
    + "      \"Environment\" = var.environment\n"
    + "      \"ManagedBy\"   = \"Terraform\"\n"
    + "      \"Purpose\"     = \"main-workload\"\n"
    + "    }\n"
    + "  )\n"
    + "}\n"
    + "\n"
    + "# Outputs\n"
  }

  /** The `value` line of an output reading `attribute` of the main resource. */
  function OutputValue(resourceType: string, attribute: string): string {
    "  value       = " + resourceType + ".main." + attribute + "\n"
  }

  /** The output exposing the main resource's id. */
  function IdOutput(resourceType: string, name: string): string {
    ("output \"" + name + "_id\" {\n" + "  description = \"ID of the " + name + "\"\n")
    + OutputValue(resourceType, "id") + "}\n\n"
  }

  /** The output exposing the main resource's name. */
  function NameOutput(resourceType: string, name: string): string {
    "output \"" + name + "_name\" {\n"
    + "  description = \"Name of the " + name + "\"\n"
    + OutputValue(resourceType, "name")
    + "}\n"
  }

  /** `_generate_generic_template`, for a type as given. */
  function GenericTemplate(resourceType: string): string {
    GenericTemplateHead(resourceType) + ResourceLine(resourceType) + GenericTemplateBody
  }

  function GenericTemplateHead(resourceType: string): string {
    "# Generic template for " + resourceType + "\n\n" + TemplatePreamble + "\n"
  }

  const GenericTemplateBody: string :=
    "  name                = \"example-resource\"\n"
    + "  resource_group_name = \"example-rg\"\n"
    + "  location           = \"East US\"\n"
    + "  \n"
    + "  tags = {\n"
    + "    Environment = \"Development\"\n"
    + "    ManagedBy   = \"Terraform\"\n"
    + "  }\n"
    + "}\n"

  lemma Embedded(before: string, s: string, after: string)
    ensures Contains(before + s + after, s)
  {
    assert (before + s + after)[|before|..|before| + |s|] == s;
    ContainsAt(before + s + after, s, |before|);
  }

  /** A full template ends with an output reading the id of the resource it declares. */
  lemma TemplateOutputsId(resourceType: string)
    ensures Contains(Template(resourceType), OutputValue(resourceType, "id"))
  {
    var name := Replace(resourceType, "azurerm_", "");
    var head := "output \"" + name + "_id\" {\n" + "  description = \"ID of the " + name + "\"\n";
    Embedded(head, OutputValue(resourceType, "id"), "}\n\n");
    ContainsInRight(TemplateFields(name), IdOutput(resourceType, name), OutputValue(resourceType, "id"));
    ContainsInLeft(TemplateFields(name) + IdOutput(resourceType, name), NameOutput(resourceType, name), OutputValue(resourceType, "id"));
    ContainsInRight(TemplateHead(resourceType) + ResourceLine(resourceType), TemplateBody(resourceType), OutputValue(resourceType, "id"));
  }

  /** Template selection from a table: a known type gets its full template, any other the generic one. */
  function TemplateFrom(db: seq<(string, Practices)>, resourceType: string): (t: string)
    ensures NormalizedKey(resourceType) in Assoc.Keys(db) ==>
      t == Template(NormalizedKey(resourceType))
      && Contains(t, ResourceLine(NormalizedKey(resourceType)))
      && Contains(t, OutputValue(NormalizedKey(resourceType), "id"))
    ensures NormalizedKey(resourceType) !in Assoc.Keys(db) ==>
      t == GenericTemplate(resourceType) && Contains(t, ResourceLine(resourceType))
  {
    var key := NormalizedKey(resourceType);
    if key in Assoc.Keys(db) then
      Embedded(TemplateHead(key), ResourceLine(key), TemplateBody(key));
      TemplateOutputsId(key);
      Template(key)
    else
      Embedded(GenericTemplateHead(resourceType), ResourceLine(resourceType), GenericTemplateBody);
      GenericTemplate(resourceType)
  }

  /** `get_template_with_best_practices` */
  function TemplateWithBestPractices(resourceType: string): (t: string)
    ensures NormalizedKey(resourceType) in Assoc.Keys(BestPracticesDb) ==>
      t == Template(NormalizedKey(resourceType)) && Contains(t, OutputValue(NormalizedKey(resourceType), "id"))
    ensures NormalizedKey(resourceType) !in Assoc.Keys(BestPracticesDb) ==> t == GenericTemplate(resourceType)
  {
    TemplateFrom(BestPracticesDb, resourceType)
  }
}

=== FILE: conftest_runner.dfy ===
/**
 * Policy checks of a Terraform plan with Conftest: the severity exception policy,
 * the two parsers of Conftest's output, the violation summary and the command line.
 * Running Conftest and the temporary files are inputs to the model.
 */
module ConftestRunner {
  import opened Wrappers
  import opened Text
  import opened Json
  import opened Utils

  // ---------------------------------------------------------------------------
  // Severity exception policy
  // ---------------------------------------------------------------------------

  const ExceptionHeader := "package avmsec\n\nimport rego.v1\n\n"

  function ExceptionBody(comment: string, level: string): string {
    ExceptionHeader + "# " + comment + "\nexception contains rules if {\n  rules = rules_below_" + level + "\n}"
  }

  lemma ExceptionBodyShape(comment: string, level: string)
    ensures var b := ExceptionBody(comment, level);
      IsPrefix("package avmsec", b) && IsSuffix("rules = rules_below_" + level + "\n}", b)
  {
    var tail := "rules = rules_below_" + level + "\n}";
    var head := ExceptionHeader + "# " + comment + "\nexception contains rules if {\n  ";
    assert ExceptionBody(comment, level) == head + tail;
    assert head[..14] == "package avmsec" by {
      assert |ExceptionHeader| >= 14 && ExceptionHeader[..14] == "package avmsec";
      assert head[..14] == ExceptionHeader[..14];
    }
    assert (head + tail)[..14] == head[..14];
    assert (head + tail)[|head + tail| - |tail|..] == tail;
  }

  /** `_create_severity_exception` */
  function SeverityException(severityFilter: string): (r: string)
    ensures r != "" <==> severityFilter in ["high", "medium", "low"]
    ensures r != "" ==> IsPrefix("package avmsec", r) && IsSuffix("rules = rules_below_" + severityFilter + "\n}", r)
  {
    var r := if severityFilter == "high" then
      ExceptionBody("Skip all policies except high severity", "high")
    else if severityFilter == "medium" then
      ExceptionBody("Skip all policies except high and medium severity", "medium")
    else if severityFilter == "low" then
      ExceptionBody("Skip all policies except high, medium, and low severity", "low")
    else "";
    ExceptionBodyShape("Skip all policies except high severity", "high");
    ExceptionBodyShape("Skip all policies except high and medium severity", "medium");
    ExceptionBodyShape("Skip all policies except high, medium, and low severity", "low");
    r
  }

  // ---------------------------------------------------------------------------
  // Violations
  // ---------------------------------------------------------------------------

  datatype Level = Failure | Warning

  datatype Violation = Violation(filename: Json, level: Level, policy: Json, message: Json, metadata: Json)

  /** One failure or warning of a Conftest JSON result. */
  function ToViolation(filename: Json, level: Level, item: Json): Violation {
    Violation(
      filename, level,
      Get(item, "rule").GetOr(JStr("unknown")),
      Get(item, "msg").GetOr(JStr(if level == Failure then "Policy violation" else "Policy warning")),
      Get(item, "metadata").GetOr(JObj([])))
  }

  function Violations(filename: Json, level: Level, items: seq<Json>): (vs: seq<Violation>)
    ensures |vs| == |items|
    decreases |items|
  {
    if items == [] then []
    else Violations(filename, level, items[..|items| - 1]) + [ToViolation(filename, level, items[|items| - 1])]
  }

  function FileOf(result: Json): Json { Get(result, "filename").GetOr(JStr("unknown")) }

  /** The message of the `AttributeError` that `x.get(...)` raises on a value that is not a dict. */
  function NoGet(x: Json): string {
    "'" + PythonType(x) + "' object has no attribute 'get'"
  }

  /** The message of the `TypeError` that `for item in x` raises on a value that cannot be iterated. */
  function NotIterable(x: Json): string {
    "'" + PythonType(x) + "' object is not iterable"
  }

  /** The index of the first item from `i` on that is not a dictionary, or `|items|`. */
  function FirstNonDict(items: seq<Json>, i: nat): (k: nat)
    requires i <= |items|
    ensures i <= k <= |items|
    ensures forall j :: i <= j < k ==> items[j].JObj?
    ensures k < |items| ==> !items[k].JObj?
    decreases |items| - i
  {
    if i == |items| || !items[i].JObj? then i else FirstNonDict(items, i + 1)
  }

  /**
   * `for item in value`: the items a decoded value yields, or the message of the exception
   * Python raises. A dict yields its keys and a string its characters, both as strings.
   */
  function Iterated(value: Json): (r: Result<seq<Json>, string>)
    ensures r.Err? <==> value.JNull? || value.JBool? || value.JInt?
    ensures r.Err? ==> r.error == NotIterable(value)
    ensures value.JArr? ==> r == Ok(value.items)
    ensures value.JObj? ==> |r.value| == |value.fields| && forall item :: item in r.value ==> item.JStr?
    ensures value.JStr? ==> |r.value| == |value.s| && forall item :: item in r.value ==> item.JStr?
  {
    match value
    case JArr(items) => Ok(items)
    case JObj(fields) => Ok(seq(|fields|, i requires 0 <= i < |fields| => JStr(fields[i].0)))
    case JStr(s) => Ok(seq(|s|, i requires 0 <= i < |s| => JStr([s[i]])))
    case _ => Err(NotIterable(value))
  }

  /**
   * `for item in value: item.get(...)`: the dictionaries iterated, or the message of the first
   * exception Python raises. A non-empty string or dict yields strings, which have no `get`.
   */
  function DictItems(value: Json): (r: Result<seq<Json>, string>)
    ensures r.Ok? ==> forall item :: item in r.value ==> item.JObj?
    ensures r.Ok? <==> value == JObj([]) || value == JStr("")
                       || (value.JArr? && forall item :: item in value.items ==> item.JObj?)
    ensures r.Ok? && value.JArr? ==> r.value == value.items
    ensures value.JNull? || value.JBool? || value.JInt? ==> r == Err(NotIterable(value))
  {
    match Iterated(value)
    case Err(e) => Err(e)
    case Ok(items) =>
      var k := FirstNonDict(items, 0);
      if k < |items| then
        assert !(value.JArr? && forall item :: item in value.items ==> item.JObj?) by {
          assert items[k] in items;
        }
        Err(NoGet(items[k]))
      else Ok(items)
  }

  /** `result.get(key, [])`, iterated as dictionaries. */
  function ListedItems(result: Json, key: string): (r: Result<seq<Json>, string>)
    ensures Get(result, key).None? ==> r == Ok([])
    ensures Get(result, key).Some? ==> r == DictItems(Get(result, key).value)
  {
    match Get(result, key)
    case None => Ok([])
    case Some(v) => DictItems(v)
  }

  /** The violations of one result: all failures, then all warnings, or the exception raised. */
  function ResultViolations(result: Json): (r: Result<seq<Violation>, string>)
    ensures !result.JObj? ==> r == Err(NoGet(result))
    ensures result.JObj? ==> (r.Ok? <==> ListedItems(result, "failures").Ok? && ListedItems(result, "warnings").Ok?)
    ensures r.Ok? ==> |r.value| == |ListedItems(result, "failures").value| + |ListedItems(result, "warnings").value|
    ensures result.JObj? && ListedItems(result, "failures").Err? ==> r == Err(ListedItems(result, "failures").error)
  {
    if !result.JObj? then Err(NoGet(result))
    else match ListedItems(result, "failures")
    case Err(e) => Err(e)
    case Ok(failures) =>
      match ListedItems(result, "warnings")
      case Err(e) => Err(e)
      case Ok(warnings) =>
        Ok(Violations(FileOf(result), Failure, failures) + Violations(FileOf(result), Warning, warnings))
  }

  /** The violations of all results in order, or the exception of the first result that raises. */
  function ConftestViolations(results: seq<Json>): Result<seq<Violation>, string>
    decreases |results|
  {
    if results == [] then Ok([])
    else match ConftestViolations(results[..|results| - 1])
      case Err(e) => Err(e)
      case Ok(prev) =>
        match ResultViolations(results[|results| - 1])
        case Err(e) => Err(e)
        case Ok(vs) => Ok(prev + vs)
  }

  /** `_parse_conftest_output` on the decoded document: its items are the results. */
  function OutputViolations(outputData: Json): Result<seq<Violation>, string> {
    match Iterated(outputData)
    case Err(e) => Err(e)
    case Ok(results) => ConftestViolations(results)
  }

  /** The parse succeeds exactly when every result's failures and warnings can be iterated. */
  lemma {:induction false} ConftestViolationsOk(results: seq<Json>)
    ensures ConftestViolations(results).Ok? <==> forall i :: 0 <= i < |results| ==> ResultViolations(results[i]).Ok?
    decreases |results|
  {
    if results != [] {
      var n := |results|;
      var prefix := results[..n - 1];
      ConftestViolationsOk(prefix);
      assert ConftestViolations(results).Ok? <==> ConftestViolations(prefix).Ok? && ResultViolations(results[n - 1]).Ok?;
      if ConftestViolations(results).Ok? {
        forall i | 0 <= i < n
          ensures ResultViolations(results[i]).Ok?
        {
          if i < n - 1 {
            assert results[i] == prefix[i];
          }
        }
      } else if ConftestViolations(prefix).Err? {
        var i :| 0 <= i < |prefix| && ResultViolations(prefix[i]).Err?;
        assert results[i] == prefix[i];
      }
    }
  }

  /** Once a prefix of the results raises, the whole parse raises the same exception. */
  lemma {:induction false} ConftestErrorPersists(results: seq<Json>, j: nat)
    requires j <= |results| && ConftestViolations(results[..j]).Err?
    ensures ConftestViolations(results) == ConftestViolations(results[..j])
    decreases |results| - j
  {
    if j < |results| {
      assert results[..j + 1][..j] == results[..j];
      ConftestErrorPersists(results, j + 1);
    } else {
      assert results[..j] == results;
    }
  }

  lemma ViolationsStep(filename: Json, level: Level, items: seq<Json>, j: nat)
    requires j < |items|
    ensures Violations(filename, level, items[..j + 1])
      == Violations(filename, level, items[..j]) + [ToViolation(filename, level, items[j])]
  {
    assert items[..j + 1][..j] == items[..j];
  }

  /** One of the inner loops of `_parse_conftest_output`, over items already known to be dicts. */
  method CollectViolations(filename: Json, level: Level, items: seq<Json>) returns (violations: seq<Violation>)
    ensures violations == Violations(filename, level, items)
  {
    violations := [];
    for j := 0 to |items|
      invariant violations == Violations(filename, level, items[..j])
    {
      ViolationsStep(filename, level, items, j);
      violations := violations + [ToViolation(filename, level, items[j])];
    }
    assert items[..|items|] == items;
  }

  /** The violations of one result, as the outer loop of `_parse_conftest_output` appends them. */
  method ResultViolationsOf(result: Json) returns (violations: Result<seq<Violation>, string>)
    ensures violations == ResultViolations(result)
  {
    if !result.JObj? {
      return Err(NoGet(result));
    }
    var filename := FileOf(result);
    var failureItems := ListedItems(result, "failures");
    if failureItems.Err? {
      return Err(failureItems.error);
    }
    var failures := CollectViolations(filename, Failure, failureItems.value);
    var warningItems := ListedItems(result, "warnings");
    if warningItems.Err? {
      return Err(warningItems.error);
    }
    var warnings := CollectViolations(filename, Warning, warningItems.value);
    violations := Ok(failures + warnings);
  }

  /** `_parse_conftest_output` */
  method ParseConftestOutput(outputData: Json) returns (violations: Result<seq<Violation>, string>)
    ensures violations == OutputViolations(outputData)
  {
    var items := Iterated(outputData);
    if items.Err? {
      return Err(items.error);
    }
    var results := items.value;
    var found: seq<Violation> := [];
    for i := 0 to |results|
      invariant ConftestViolations(results[..i]) == Ok(found)
    {
      assert results[..i + 1][..i] == results[..i];
      var added := ResultViolationsOf(results[i]);
      if added.Err? {
        ConftestErrorPersists(results, i + 1);
        return Err(added.error);
      }
      found := found + added.value;
    }
    assert results[..|results|] == results;
    violations := Ok(found);
  }

  function CountLevel(vs: seq<Violation>, level: Level): (n: nat)
    ensures n <= |vs|
    decreases |vs|
  {
    if vs == [] then 0
    else CountLevel(vs[..|vs| - 1], level) + (if vs[|vs| - 1].level == level then 1 else 0)
  }

  lemma {:induction false} CountLevelConcat(a: seq<Violation>, b: seq<Violation>, level: Level)
    ensures CountLevel(a + b, level) == CountLevel(a, level) + CountLevel(b, level)
    decreases |b|
  {
    if b == [] {
      assert a + b == a;
    } else {
      var b' := b[..|b| - 1];
      CountLevelConcat(a, b', level);
      assert (a + b)[..|a + b| - 1] == a + b';
    }
  }

  /** Both levels together account for every violation. */
  lemma {:induction false} CountLevelsAdd(vs: seq<Violation>)
    ensures CountLevel(vs, Failure) + CountLevel(vs, Warning) == |vs|
    decreases |vs|
  {
    if vs != [] {
      CountLevelsAdd(vs[..|vs| - 1]);
    }
  }

  lemma {:induction false} CountViolations(filename: Json, level: Level, items: seq<Json>, other: Level)
    requires other != level
    ensures CountLevel(Violations(filename, level, items), level) == |items|
    ensures CountLevel(Violations(filename, level, items), other) == 0
    decreases |items|
  {
    if items != [] {
      var n := |items|;
      CountViolations(filename, level, items[..n - 1], other);
      ViolationsStep(filename, level, items, n - 1);
      assert items[..n] == items;
    }
  }

  /** The number of items listed under `key`, zero when they cannot be iterated. */
  function ListedCount(result: Json, key: string): nat {
    match ListedItems(result, key)
    case Ok(items) => |items|
    case Err(_) => 0
  }

  function FailureTotal(results: seq<Json>): nat
    decreases |results|
  {
    if results == [] then 0
    else FailureTotal(results[..|results| - 1]) + ListedCount(results[|results| - 1], "failures")
  }

  function WarningTotal(results: seq<Json>): nat
    decreases |results|
  {
    if results == [] then 0
    else WarningTotal(results[..|results| - 1]) + ListedCount(results[|results| - 1], "warnings")
  }

  /** A parse that succeeds yields exactly the listed failures and warnings, counted per level. */
  lemma {:induction false} ConftestCounts(results: seq<Json>)
    requires ConftestViolations(results).Ok?
    ensures CountLevel(ConftestViolations(results).value, Failure) == FailureTotal(results)
    ensures CountLevel(ConftestViolations(results).value, Warning) == WarningTotal(results)
    ensures |ConftestViolations(results).value| == FailureTotal(results) + WarningTotal(results)
    decreases |results|
  {
    if results != [] {
      var prefix := results[..|results| - 1];
      var r := results[|results| - 1];
      ConftestCounts(prefix);
      var fs := ListedItems(r, "failures").value;
      var ws := ListedItems(r, "warnings").value;
      var f := Violations(FileOf(r), Failure, fs);
      var w := Violations(FileOf(r), Warning, ws);
      var prev := ConftestViolations(prefix).value;
      CountViolations(FileOf(r), Failure, fs, Warning);
      CountViolations(FileOf(r), Warning, ws, Failure);
      CountLevelConcat(prev, f + w, Failure);
      CountLevelConcat(prev, f + w, Warning);
      CountLevelConcat(f, w, Failure);
      CountLevelConcat(f, w, Warning);
      assert ConftestViolations(results).value == prev + (f + w);
    }
  }

  /** The violation of one line of Conftest's text output, if it reports one. */
  function LineViolation(line: string): Option<Violation> {
    var t := Strip(line);
    if t != "" && (Contains(t, "FAIL") || Contains(t, "WARN")) then
      Some(Violation(JStr("unknown"), if Contains(t, "FAIL") then Failure else Warning, JStr("unknown"), JStr(t), JObj([])))
    else None
  }

  function TextViolations(lines: seq<string>): seq<Violation>
    decreases |lines|
  {
    if lines == [] then []
    else
      var line := lines[|lines| - 1];
      TextViolations(lines[..|lines| - 1])
      + (match LineViolation(line) case Some(v) => [v] case None => [])
  }

  /** `_parse_conftest_text_output` */
  method ParseConftestTextOutput(outputText: string) returns (violations: seq<Violation>)
    ensures violations == TextViolations(Split(outputText, '\n'))
  {
    var lines := Split(outputText, '\n');
    violations := [];
    for i := 0 to |lines|
      invariant violations == TextViolations(lines[..i])
    {
      assert lines[..i + 1][..i] == lines[..i];
      var line := Strip(lines[i]);
      if line != "" && (Contains(line, "FAIL") || Contains(line, "WARN")) {
        violations := violations + [Violation(JStr("unknown"), if Contains(line, "FAIL") then Failure else Warning,
                                              JStr("unknown"), JStr(line), JObj([]))];
      }
    }
    assert lines[..|lines|] == lines;
  }

  /**
   * Each text violation carries a non-blank stripped line that mentions FAIL or WARN, and
   * its level is a failure exactly when the line mentions FAIL.
   */
  lemma {:induction false} TextViolationsSound(lines: seq<string>)
    ensures |TextViolations(lines)| <= |lines|
    ensures forall v :: v in TextViolations(lines) ==>
      v.message.JStr? && v.message.s != "" && Strip(v.message.s) == v.message.s
      && (Contains(v.message.s, "FAIL") || Contains(v.message.s, "WARN"))
      && (v.level == Failure <==> Contains(v.message.s, "FAIL"))
    decreases |lines|
  {
    if lines != [] {
      TextViolationsSound(lines[..|lines| - 1]);
      StripIdempotent(lines[|lines| - 1]);
    }
  }

  // ---------------------------------------------------------------------------
  // Summary and command
  // ---------------------------------------------------------------------------

  datatype Summary = Summary(totalViolations: nat, failures: nat, warnings: nat)

  function SummaryOf(vs: seq<Violation>): (s: Summary)
    ensures s.failures + s.warnings == s.totalViolations == |vs|
  {
    CountLevelsAdd(vs);
    Summary(|vs|, CountLevel(vs, Failure), CountLevel(vs, Warning))
  }

  /** Where the selected policy set lives, and whether that directory exists. */
  datatype PolicySource = BuiltIn(path: string, present: bool) | CustomSet(path: string, present: bool)

  /** The command line, given the file paths the runner creates. */
  function ConftestCommand(executable: string, source: PolicySource, policySet: string, severityFilter: Option<string>,
                           customPolicies: seq<string>, exceptionFile: string, planFile: string): (cmd: seq<string>)
    ensures |cmd| >= 8 && cmd[..5] == [executable, "test", "--all-namespaces", "-p", source.path]
    ensures cmd[|cmd| - 3..] == ["--output", "json", planFile]
    ensures |cmd| == 8 + 2 * |customPolicies| + (if ExceptionContent(policySet, severityFilter) != "" then 2 else 0)
  {
    [executable, "test", "--all-namespaces", "-p", source.path]
    + PolicyFlags(customPolicies)
    + (if ExceptionContent(policySet, severityFilter) != "" then ["-p", exceptionFile] else [])
    + ["--output", "json", planFile]
  }

  function PolicyFlags(policies: seq<string>): (flags: seq<string>)
    ensures |flags| == 2 * |policies|
    ensures forall k :: 0 <= k < |policies| ==> flags[2 * k] == "-p" && flags[2 * k + 1] == policies[k]
    decreases |policies|
  {
    if policies == [] then []
    else PolicyFlags(policies[..|policies| - 1]) + ["-p", policies[|policies| - 1]]
  }

  /** The severity exception is used only for the `avmsec` set with a non-empty filter. */
  function ExceptionContent(policySet: string, severityFilter: Option<string>): (r: string)
    ensures r != "" ==> policySet == "avmsec" && severityFilter.Some?
  {
    if policySet == "avmsec" && severityFilter.Some? && severityFilter.value != "" then SeverityException(severityFilter.value)
    else ""
  }

  /** The command-building part of `validate_with_avm_policies`. */
  method BuildCommand(executable: string, source: PolicySource, policySet: string, severityFilter: Option<string>,
                      customPolicies: seq<string>, exceptionFile: string, planFile: string) returns (cmd: seq<string>)
    ensures cmd == ConftestCommand(executable, source, policySet, severityFilter, customPolicies, exceptionFile, planFile)
  {
    cmd := [executable, "test", "--all-namespaces"];
    cmd := cmd + ["-p", source.path];
    var exceptionContent := ExceptionContent(policySet, severityFilter);
    for i := 0 to |customPolicies|
      invariant cmd == [executable, "test", "--all-namespaces", "-p", source.path] + PolicyFlags(customPolicies[..i])
    {
      assert customPolicies[..i + 1][..i] == customPolicies[..i];
      cmd := cmd + ["-p", customPolicies[i]];
    }
    assert customPolicies[..|customPolicies|] == customPolicies;
    if exceptionContent != "" {
      cmd := cmd + ["-p", exceptionFile];
    }
    cmd := cmd + ["--output", "json"];
    cmd := cmd + [planFile];
  }

  // ---------------------------------------------------------------------------
  // Outcome of a validation
  // ---------------------------------------------------------------------------

  /** What one Conftest run produced; `decoded` is `json.loads(stdout)` when it succeeds. */
  datatype RunOutput = RunOutput(returnCode: int, stdout: string, stderr: string, decoded: Option<Json>)

  /** The fields that only the report of a completed run carries. */
  datatype RunDetails = RunDetails(policySet: string, severityFilter: Option<string>, totalViolations: nat,
                                   policySetUsed: string, commandOutput: Option<string>, commandError: Option<string>)

  datatype PolicyReport =
    PolicyReport(success: bool, error: Option<string>, violations: seq<Violation>, summary: Summary,
                 details: Option<RunDetails>)

  function Rejected(error: string): PolicyReport {
    PolicyReport(false, Some(error), [], Summary(0, 0, 0), None)
  }

  /** The violations of the output: JSON results, else text lines; or the exception the parse raises. */
  function ParsedViolations(run: RunOutput): Result<seq<Violation>, string> {
    if run.stdout == "" then Ok([])
    else match run.decoded
      case Some(outputData) => OutputViolations(outputData)
      case None => Ok(TextViolations(Split(run.stdout, '\n')))
  }

  /** `command_output`: the cleaned standard output, kept only when the run failed and printed something. */
  function CommandOutput(run: RunOutput): Option<string> {
    if run.returnCode != 0 && run.stdout != "" then Some(StripAnsi(run.stdout)) else None
  }

  /** `command_error`: the cleaned standard error, unless nothing is left of it. */
  function CommandError(run: RunOutput): Option<string> {
    if run.stderr != "" && StripAnsi(run.stderr) != "" then Some(StripAnsi(run.stderr)) else None
  }

  /** `validate_with_avm_policies`, with Conftest's run as the input `run`. */
  function ValidateWithAvmPolicies(planJson: string, source: PolicySource, policySet: string,
                                   severityFilter: Option<string>, run: RunOutput): (r: PolicyReport)
    ensures Strip(planJson) == "" ==> r == Rejected("No Terraform plan JSON provided")
    ensures r.summary.failures + r.summary.warnings == r.summary.totalViolations == |r.violations|
    ensures r.error.None? <==> r.details.Some?
    ensures r.details.Some? ==>
      var d := r.details.value;
      d.policySet == d.policySetUsed == policySet && d.severityFilter == severityFilter
      && d.totalViolations == r.summary.totalViolations
    ensures Strip(planJson) != "" && source.present && ParsedViolations(run).Err? ==>
      r == Rejected("Error running conftest: " + StripAnsi(ParsedViolations(run).error))
  {
    if Strip(planJson) == "" then Rejected("No Terraform plan JSON provided")
    else if !source.present then
      match source
      case BuiltIn(path, _) => Rejected("Policy set \"" + policySet + "\" not found at " + path + ". Try reinitializing the policy cache.")
      case CustomSet(_, _) =>
        Rejected("Unknown policy set \"" + policySet + "\". Available: all, Azure-Proactive-Resiliency-Library-v2, avmsec")
    else match ParsedViolations(run)
      case Err(e) => Rejected("Error running conftest: " + StripAnsi(e))
      case Ok(vs) =>
        var s := SummaryOf(vs);
        PolicyReport(run.returnCode == 0, None, vs, s,
                     Some(RunDetails(policySet, severityFilter, s.totalViolations, policySet, CommandOutput(run), CommandError(run))))
  }

  /**
   * A run whose output parses reports success exactly on exit code 0, counts what it parsed,
   * keeps the cleaned standard output only for a failed run that printed something, and keeps
   * the standard error only when something is left of it after cleaning.
   */
  lemma RunOutcome(planJson: string, source: PolicySource, policySet: string, severityFilter: Option<string>, run: RunOutput)
    requires Strip(planJson) != "" && source.present && ParsedViolations(run).Ok?
    ensures var r := ValidateWithAvmPolicies(planJson, source, policySet, severityFilter, run);
      (r.success <==> run.returnCode == 0) && r.error.None? && r.violations == ParsedViolations(run).value
      && (run.stdout != "" && run.decoded.Some? ==>
            var results := Iterated(run.decoded.value).value;
            r.summary == Summary(FailureTotal(results) + WarningTotal(results), FailureTotal(results), WarningTotal(results)))
      && (r.details.value.commandOutput.Some? <==> run.returnCode != 0 && run.stdout != "")
      && (r.details.value.commandOutput.Some? ==>
            r.details.value.commandOutput.value == StripAnsi(run.stdout)
            && (Esc !in run.stdout ==> r.details.value.commandOutput.value == run.stdout))
      && (r.details.value.commandError.Some? ==>
            r.details.value.commandError.value == StripAnsi(run.stderr) != "")
      && (Esc !in run.stderr ==> r.details.value.commandError == (if run.stderr == "" then None else Some(run.stderr)))
  {
    if run.stdout != "" && run.decoded.Some? {
      ConftestCounts(Iterated(run.decoded.value).value);
    }
  }

  /** A parse that raises a message without escape sequences is reported with that very message. */
  lemma ParseErrorReported(planJson: string, source: PolicySource, policySet: string,
                           severityFilter: Option<string>, run: RunOutput, message: string)
    requires Strip(planJson) != "" && source.present
    requires ParsedViolations(run) == Err(message) && Esc !in message
    ensures ValidateWithAvmPolicies(planJson, source, policySet, severityFilter, run)
      == Rejected("Error running conftest: " + message)
  {
    assert StripAnsi(message) == message;
  }

  lemma NotIterablePlain(x: Json)
    ensures Esc !in NotIterable(x)
  {
    assert Esc !in PythonType(x);
  }

  /** A decoded document that cannot be iterated is reported as the error of the failed run. */
  lemma NonIterableOutputRejected(planJson: string, source: PolicySource, policySet: string,
                                  severityFilter: Option<string>, run: RunOutput)
    requires Strip(planJson) != "" && source.present && run.stdout != ""
    requires run.decoded.Some? && (run.decoded.value.JNull? || run.decoded.value.JBool? || run.decoded.value.JInt?)
    ensures ValidateWithAvmPolicies(planJson, source, policySet, severityFilter, run)
      == Rejected("Error running conftest: " + NotIterable(run.decoded.value))
  {
    var message := NotIterable(run.decoded.value);
    NotIterablePlain(run.decoded.value);
    assert OutputViolations(run.decoded.value) == Err(message);
    ParseErrorReported(planJson, source, policySet, severityFilter, run, message);
  }

  /** A result whose `failures` is `null` makes the whole run an error, whatever else it lists. */
  lemma NullFailuresRejected(planJson: string, source: PolicySource, policySet: string,
                             severityFilter: Option<string>, run: RunOutput, before: seq<Json>, after: seq<Json>)
    requires Strip(planJson) != "" && source.present && run.stdout != ""
    requires forall result :: result in before ==> result == JObj([])
    requires run.decoded == Some(JArr(before + [JObj([("failures", JNull)])] + after))
    ensures ValidateWithAvmPolicies(planJson, source, policySet, severityFilter, run)
      == Rejected("Error running conftest: " + NotIterable(JNull))
  {
    var bad := JObj([("failures", JNull)]);
    var results := before + [bad] + after;
    var j := |before| + 1;
    assert ConftestViolations(before).Ok? by {
      assert ResultViolations(JObj([])).Ok?;
      forall i | 0 <= i < |before|
        ensures ResultViolations(before[i]).Ok?
      {
        assert before[i] in before;
      }
      ConftestViolationsOk(before);
    }
    assert results[..j][..j - 1] == before && results[..j][j - 1] == bad;
    assert ResultViolations(bad) == Err(NotIterable(JNull));
    assert ConftestViolations(results[..j]) == Err(NotIterable(JNull));
    ConftestErrorPersists(results, j);
    NotIterablePlain(JNull);
    ParseErrorReported(planJson, source, policySet, severityFilter, run, NotIterable(JNull));
  }
}

=== FILE: coverage_auditor.dfy ===
/**
 * The coverage auditor around the matcher: the `terraform state list` parse, the Azure
 * Resource Graph query per scope, the report and the `audit_coverage` control flow.
 * Subprocesses become capability parameters: the state listing arrives as its exit code
 * and stdout, the Resource Graph query and `az group show` as functions from the query
 * or group name to an optional result.
 */
module CoverageAuditor {
  import opened Wrappers
  import opened Text
  import opened Json
  import opened ResourceMatcher

  // ---------------------------------------------------------------------------
  // terraform state list
  // ---------------------------------------------------------------------------

  /** `[line.strip() for line in lines if line.strip()]` */
  function NonBlankStripped(lines: seq<string>): (r: seq<string>)
    ensures |r| <= |lines|
    ensures forall i :: 0 <= i < |r| ==> r[i] != "" && Strip(r[i]) == r[i]
    decreases |lines|
  {
    if lines == [] then []
    else
      var s := Strip(lines[|lines| - 1]);
      StripIdempotent(lines[|lines| - 1]);
      NonBlankStripped(lines[..|lines| - 1]) + (if s != "" then [s] else [])
  }

  /** The addresses listed by `terraform state list`; `None` unless the exit code is 0. */
  function ParseStateList(exitCode: Option<int>, stdout: string): (r: Option<seq<string>>)
    ensures r.None? <==> exitCode != Some(0)
    ensures r.Some? ==> forall i :: 0 <= i < |r.value| ==> r.value[i] != "" && '\n' !in r.value[i]
  {
    if exitCode != Some(0) then None
    else
      var lines := Split(stdout, '\n');
      SplitPartsFree(stdout, '\n');
      var r := NonBlankStripped(lines);
      NonBlankStrippedFrom(lines);
      Some(r)
  }

  lemma {:induction false} NonBlankStrippedFrom(lines: seq<string>)
    ensures forall i :: 0 <= i < |NonBlankStripped(lines)| ==>
      exists j :: 0 <= j < |lines| && NonBlankStripped(lines)[i] == Strip(lines[j])
    decreases |lines|
  {
    if lines != [] {
      var prefix := lines[..|lines| - 1];
      var r := NonBlankStripped(lines);
      var s := Strip(lines[|lines| - 1]);
      assert r == NonBlankStripped(prefix) + (if s != "" then [s] else []);
      NonBlankStrippedFrom(prefix);
      forall i | 0 <= i < |r|
        ensures exists j :: 0 <= j < |lines| && r[i] == Strip(lines[j])
      {
        if i < |NonBlankStripped(prefix)| {
          var j :| 0 <= j < |prefix| && NonBlankStripped(prefix)[i] == Strip(prefix[j]);
          assert lines[j] == prefix[j];
          assert r[i] == Strip(lines[j]);
        } else {
          assert r[i] == Strip(lines[|lines| - 1]);
        }
      }
    } else {
      assert NonBlankStripped(lines) == [];
    }
  }

  /** Addresses that are already stripped and not blank. */
  predicate CleanAddress(a: string) {
    a != "" && '\n' !in a && a[0] !in Whitespace && a[|a| - 1] !in Whitespace
  }

  lemma {:induction false} NonBlankStrippedFixed(lines: seq<string>)
    requires forall i :: 0 <= i < |lines| ==> CleanAddress(lines[i])
    ensures NonBlankStripped(lines) == lines
    decreases |lines|
  {
    if lines != [] {
      var prefix, last := lines[..|lines| - 1], lines[|lines| - 1];
      NonBlankStrippedFixed(prefix);
      assert Strip(last) == last;
      assert prefix + [last] == lines;
    }
  }

  /** Listing clean addresses one per line reads them back unchanged and in order. */
  lemma StateListRoundTrip(addresses: seq<string>)
    requires forall i :: 0 <= i < |addresses| ==> CleanAddress(addresses[i])
    ensures ParseStateList(Some(0), Join(addresses, "\n")) == Some(addresses)
  {
    if addresses == [] {
      assert Split("", '\n') == [""];
    } else {
      SplitJoin(addresses, '\n');
      NonBlankStrippedFixed(addresses);
    }
  }

  // ---------------------------------------------------------------------------
  // Azure Resource Graph query
  // ---------------------------------------------------------------------------

  const ResourceGroupType := "microsoft.resources/resourcegroups"

  /** The `where` clause for a scope; `None` for an unknown scope. */
  function ScopeFilter(scope: string, scopeValue: string): (r: Option<string>)
    ensures r.Some? <==> scope == "resource-group" || scope == "subscription" || scope == "query"
    ensures scope == "query" ==> r == Some(scopeValue)
    ensures r.Some? ==> Contains(r.value, scopeValue)
  {
    if scope == "resource-group" then
      var f := "resourceGroup =~ '" + scopeValue + "'";
      ContainsAt(f, scopeValue, 18);
      Some(f)
    else if scope == "subscription" then
      var f := "subscriptionId =~ '" + scopeValue + "'";
      ContainsAt(f, scopeValue, 19);
      Some(f)
    else if scope == "query" then
      ContainsAt(scopeValue, scopeValue, 0);
      Some(scopeValue)
    else None
  }

  /** The full Resource Graph query around a `where` clause. */
  function GraphQuery(filter: string): (q: string)
    ensures IsPrefix("Resources | where ", q) && Contains(q, filter)
    ensures IsSuffix(" | project id, name, type, location, resourceGroup", q)
  {
    var q := "Resources | where " + filter + " | project id, name, type, location, resourceGroup";
    ContainsAt(q, filter, 18);
    q
  }

  /** The resource group itself, shaped like a Resource Graph row. */
  function GroupResource(group: Json): (r: AzureResource)
    ensures r.rtype == ResourceGroupType && r.name == r.resourceGroup
  {
    AzureResource(GetStr(group, "id", ""), GetStr(group, "name", ""), ResourceGroupType,
      Some(GetStr(group, "location", "")), GetStr(group, "name", ""))
  }

  /**
   * What `az group show` gives: a non-zero exit, or an exit of 0 with its output decoded as
   * JSON (`None` when the output is not JSON).
   */
  datatype GroupShow = ShowFailed | ShowOutput(decoded: Option<Json>)

  /** Output the group lookup cannot read, which makes the whole query fail. */
  predicate Unreadable(g: GroupShow) {
    g.ShowOutput? && !(g.decoded.Some? && g.decoded.value.JObj?)
  }

  /**
   * `_query_azure_resources`: run the query for the scope; for a named resource group
   * whose `az group show` succeeds, the group itself is put first.
   */
  function QueryAzureResources(scope: string, scopeValue: string,
                               runQuery: string -> Option<seq<AzureResource>>,
                               showGroup: string -> GroupShow): (r: Option<seq<AzureResource>>)
    ensures r.Some? ==> ScopeFilter(scope, scopeValue).Some?
    ensures ScopeFilter(scope, scopeValue).Some? && !(scope == "resource-group" && scopeValue != "") ==>
      r == runQuery(GraphQuery(ScopeFilter(scope, scopeValue).value))
  {
    match ScopeFilter(scope, scopeValue)
    case None => None
    case Some(filter) =>
      match runQuery(GraphQuery(filter))
      case None => None
      case Some(rows) =>
        if scope == "resource-group" && scopeValue != "" then
          match showGroup(scopeValue)
          case ShowFailed => Some(rows)
          case ShowOutput(Some(group)) => if group.JObj? then Some([GroupResource(group)] + rows) else None
          case ShowOutput(None) => None
        else Some(rows)
  }

  /**
   * The query result is the graph rows, possibly preceded by the resource group; it is
   * absent exactly when the scope is unknown, the graph query fails, or the named group's
   * lookup exits with 0 but gives output that is not a JSON object.
   */
  lemma QueryShape(scope: string, scopeValue: string,
                   runQuery: string -> Option<seq<AzureResource>>, showGroup: string -> GroupShow)
    ensures var r := QueryAzureResources(scope, scopeValue, runQuery, showGroup);
      && (r.None? <==> (ScopeFilter(scope, scopeValue).None? || runQuery(GraphQuery(ScopeFilter(scope, scopeValue).value)).None?
                        || (scope == "resource-group" && scopeValue != "" && Unreadable(showGroup(scopeValue)))))
      && (r.Some? ==> var rows := runQuery(GraphQuery(ScopeFilter(scope, scopeValue).value)).value;
            (r.value == rows || (|r.value| == |rows| + 1 && r.value[1..] == rows && r.value[0].rtype == ResourceGroupType)))
  {
  }

  /** The group is prepended only for a named resource-group scope whose lookup gives an object. */
  lemma QueryPrependsGroup(scope: string, scopeValue: string,
                           runQuery: string -> Option<seq<AzureResource>>, showGroup: string -> GroupShow)
    requires QueryAzureResources(scope, scopeValue, runQuery, showGroup).Some?
    ensures var r := QueryAzureResources(scope, scopeValue, runQuery, showGroup).value;
      var rows := runQuery(GraphQuery(ScopeFilter(scope, scopeValue).value)).value;
      |r| == |rows| + 1 <==> scope == "resource-group" && scopeValue != "" && showGroup(scopeValue).ShowOutput?
  {
  }

  // ---------------------------------------------------------------------------
  // Report
  // ---------------------------------------------------------------------------

  /** The coverage percentage, exactly (the source rounds a float to two places). */
  function Coverage(matched: nat, total: nat): (c: real)
    ensures total == 0 ==> c == 0.0
    ensures matched <= total ==> 0.0 <= c <= 100.0
    ensures total > 0 ==> (c == 100.0 <==> matched == total)
    ensures total > 0 ==> (c == 0.0 <==> matched == 0)
  {
    if total > 0 then (matched as real) / (total as real) * 100.0 else 0.0
  }

  datatype Recommendation =
    | ExportUnmanaged(count: nat)
    | ReviewOrphaned(count: nat)
    | ReviewManually
    | AllManaged

  function RecommendationText(r: Recommendation): string {
    match r
    case ExportUnmanaged(n) => "Export " + NatToString(n) + " unmanaged resources using aztfexport tools"
    case ReviewOrphaned(n) =>
      "Review " + NatToString(n) + " orphaned resources in Terraform state - they may have been deleted in Azure or renamed"
    case ReviewManually => "Some resources could not be automatically matched. Review Azure and Terraform resources manually."
    case AllManaged => "Excellent! All Azure resources in scope are managed by Terraform."
  }

  /** The four recommendation rules, applied in order. */
  function Recommendations(missing: nat, orphaned: nat, coverage: real): seq<Recommendation> {
    (if missing > 0 then [ExportUnmanaged(missing)] else [])
    + (if orphaned > 0 then [ReviewOrphaned(orphaned)] else [])
    + (if coverage < 100.0 && missing == 0 then [ReviewManually] else [])
    + (if coverage == 100.0 then [AllManaged] else [])
  }

  /**
   * Each rule fires exactly under its condition, the missing/orphaned counts are the
   * ones reported, at most three rules fire, and at coverage up to 100% at least one does.
   */
  lemma RecommendationRules(missing: nat, orphaned: nat, coverage: real)
    ensures var rs := Recommendations(missing, orphaned, coverage);
      && (ExportUnmanaged(missing) in rs <==> missing > 0)
      && (ReviewOrphaned(orphaned) in rs <==> orphaned > 0)
      && (ReviewManually in rs <==> coverage < 100.0 && missing == 0)
      && (AllManaged in rs <==> coverage == 100.0)
      && (forall r :: r in rs && r.ExportUnmanaged? ==> r.count == missing)
      && (forall r :: r in rs && r.ReviewOrphaned? ==> r.count == orphaned)
      && |rs| <= 3
      && (coverage <= 100.0 ==> rs != [])
  {
  }

  /** Missing and orphaned recommendations come first, in that order. */
  lemma RecommendationOrder(missing: nat, orphaned: nat, coverage: real)
    requires missing > 0
    ensures var rs := Recommendations(missing, orphaned, coverage);
      rs[0] == ExportUnmanaged(missing) && (orphaned > 0 ==> rs[1] == ReviewOrphaned(orphaned))
  {
  }

  function ExportCommand(resourceId: string): (c: string)
    ensures Contains(c, resourceId)
  {
    var c := "Use export_azure_resource with resource_id='" + resourceId + "'";
    ContainsAt(c, resourceId, 44);
    c
  }

  datatype Summary = Summary(
    totalAzureResources: nat,
    totalTerraformResources: nat,
    terraformManaged: nat,
    coveragePercentage: real,
    missingFromTerraform: nat,
    orphanedInTerraform: nat)

  datatype Report = Report(
    summary: Summary,
    managedResources: seq<MatchedResource>,
    missingResources: seq<MissingResource>,
    orphanedResources: seq<OrphanedResource>,
    recommendations: seq<Recommendation>)

  /** Every missing entry with its export command set. */
  function WithExportCommands(missing: seq<MissingResource>): (r: seq<MissingResource>)
    ensures |r| == |missing|
    ensures forall i :: 0 <= i < |r| ==>
      r[i] == missing[i].(exportCommand := Some(ExportCommand(missing[i].resourceId)))
  {
    seq(|missing|, i requires 0 <= i < |missing| =>
      missing[i].(exportCommand := Some(ExportCommand(missing[i].resourceId))))
  }

  function ReportOf(matched: seq<MatchedResource>, missing: seq<MissingResource>, orphaned: seq<OrphanedResource>,
                    totalAzure: nat, totalTerraform: nat): Report
  {
    var coverage := Coverage(|matched|, totalAzure);
    Report(
      Summary(totalAzure, totalTerraform, |matched|, coverage, |missing|, |orphaned|),
      matched, WithExportCommands(missing), orphaned,
      Recommendations(|missing|, |orphaned|, coverage))
  }

  /**
   * `_generate_report`: the recommendations are appended rule by rule and every missing
   * entry gains its export command in a loop.
   */
  method GenerateReport(matched: seq<MatchedResource>, missing: seq<MissingResource>, orphaned: seq<OrphanedResource>,
                        totalAzure: nat, totalTerraform: nat) returns (report: Report)
    ensures report == ReportOf(matched, missing, orphaned, totalAzure, totalTerraform)
  {
    var coverage := if totalAzure > 0 then (|matched| as real) / (totalAzure as real) * 100.0 else 0.0;
    var recommendations := [];
    if |missing| > 0 {
      recommendations := recommendations + [ExportUnmanaged(|missing|)];
    }
    if |orphaned| > 0 {
      recommendations := recommendations + [ReviewOrphaned(|orphaned|)];
    }
    if coverage < 100.0 && |missing| == 0 {
      recommendations := recommendations + [ReviewManually];
    }
    if coverage == 100.0 {
      recommendations := recommendations + [AllManaged];
    }

    var annotated := [];
    for i := 0 to |missing|
      invariant annotated == WithExportCommands(missing[..i])
    {
      annotated := annotated + [missing[i].(exportCommand := Some(ExportCommand(missing[i].resourceId)))];
    }
    assert missing[..|missing|] == missing;

    report := Report(
      Summary(totalAzure, totalTerraform, |matched|, coverage, |missing|, |orphaned|),
      matched, annotated, orphaned, recommendations);
  }

  // ---------------------------------------------------------------------------
  // audit_coverage
  // ---------------------------------------------------------------------------

  const StateListError := "Failed to retrieve Terraform state. Ensure workspace is initialized and state exists."
  const QueryFailed := "Failed to query Azure resources. "
  const AuthHint := "Azure authentication may not be configured. Please run \"az login\" or set ARM_CLIENT_ID, ARM_CLIENT_SECRET, and ARM_TENANT_ID environment variables. "
  const CheckScope := "Check Azure authentication and scope parameters."

  function QueryError(authSuccessful: bool): (e: string)
    ensures IsPrefix(QueryFailed, e) && IsSuffix(CheckScope, e)
    ensures Contains(e, AuthHint) <==> !authSuccessful
  {
    if authSuccessful then
      var e := QueryFailed + CheckScope;
      assert |e| < |AuthHint|;
      assert !Contains(e, AuthHint) by {
        if Contains(e, AuthHint) {
          ContainsLength(e, AuthHint);
        }
      }
      e
    else
      var e := QueryFailed + AuthHint + CheckScope;
      ContainsAt(e, AuthHint, |QueryFailed|);
      e
  }

  /**
   * The outcome of an audit from the results of its steps: a workspace error, the
   * state listing, the Azure query (absent when unknown scope or failed query), the
   * authentication flag, the state file and the two include flags.
   */
  function AuditOf(workspaceError: Option<string>, stateList: Option<seq<string>>,
                   azure: Option<seq<AzureResource>>, authSuccessful: bool, state: Json,
                   includeMissing: bool, includeOrphaned: bool): Result<Report, string>
  {
    if workspaceError.Some? then Err(workspaceError.value)
    else if stateList.None? then Err(StateListError)
    else if azure.None? then Err(QueryError(authSuccessful))
    else
      var addresses := stateList.value;
      var details := DetailsFrom(StateResources(state), addresses);
      var (matched, missing) := Classify(azure.value, details);
      var orphaned := Orphans(addresses, MatchedAddresses(matched));
      Ok(ReportOf(matched, if includeMissing then missing else [], if includeOrphaned then orphaned else [],
        |azure.value|, |addresses|))
  }

  /**
   * `audit_coverage`: validate the workspace, list the state, query Azure, match and
   * report; each failed step returns its error without running the later ones.
   */
  method AuditCoverage(workspaceError: Option<string>, stateExit: Option<int>, stateStdout: string,
                       scope: string, scopeValue: string,
                       runQuery: string -> Option<seq<AzureResource>>, showGroup: string -> GroupShow,
                       authSuccessful: bool, state: Json, includeMissing: bool, includeOrphaned: bool)
    returns (r: Result<Report, string>)
    ensures r == AuditOf(workspaceError, ParseStateList(stateExit, stateStdout),
                         QueryAzureResources(scope, scopeValue, runQuery, showGroup),
                         authSuccessful, state, includeMissing, includeOrphaned)
  {
    if workspaceError.Some? {
      return Err(workspaceError.value);
    }
    var addresses := ParseStateList(stateExit, stateStdout);
    if addresses.None? {
      return Err(StateListError);
    }
    var azure := QueryAzureResources(scope, scopeValue, runQuery, showGroup);
    if azure.None? {
      return Err(QueryError(authSuccessful));
    }
    var matched, missing, orphaned := MatchResources(azure.value, state, addresses.value);
    var report := GenerateReport(matched, if includeMissing then missing else [],
      if includeOrphaned then orphaned else [], |azure.value|, |addresses.value|);
    return Ok(report);
  }

  /** A failed state listing stops the audit whatever the Azure query would return. */
  lemma StateFailureStopsAudit(stateList: Option<seq<string>>, azure1: Option<seq<AzureResource>>,
                               azure2: Option<seq<AzureResource>>, authSuccessful: bool, state: Json,
                               includeMissing: bool, includeOrphaned: bool)
    requires stateList.None?
    ensures AuditOf(None, stateList, azure1, authSuccessful, state, includeMissing, includeOrphaned)
         == AuditOf(None, stateList, azure2, authSuccessful, state, includeMissing, includeOrphaned)
         == Err(StateListError)
  {
  }

  /** An unknown scope fails the audit (after a successful state listing) with the query error. */
  lemma UnknownScopeFails(scope: string, scopeValue: string, runQuery: string -> Option<seq<AzureResource>>,
                          showGroup: string -> GroupShow, stateList: seq<string>, authSuccessful: bool,
                          state: Json, includeMissing: bool, includeOrphaned: bool)
    requires scope != "resource-group" && scope != "subscription" && scope != "query"
    ensures AuditOf(None, Some(stateList), QueryAzureResources(scope, scopeValue, runQuery, showGroup),
                    authSuccessful, state, includeMissing, includeOrphaned) == Err(QueryError(authSuccessful))
  {
  }

  /**
   * A cleared include flag empties its list, which also zeroes that list's count and can
   * change the recommendations; the totals, the managed count, the coverage and the
   * matched list do not depend on the flags.
   */
  lemma IncludeFlagsKeepTotals(stateList: seq<string>, azure: seq<AzureResource>, authSuccessful: bool,
                                   state: Json, m1: bool, o1: bool, m2: bool, o2: bool)
    ensures var r1 := AuditOf(None, Some(stateList), Some(azure), authSuccessful, state, m1, o1);
      var r2 := AuditOf(None, Some(stateList), Some(azure), authSuccessful, state, m2, o2);
      && r1.Ok? && r2.Ok?
      && r1.value.managedResources == r2.value.managedResources
      && r1.value.summary.(missingFromTerraform := 0, orphanedInTerraform := 0)
         == r2.value.summary.(missingFromTerraform := 0, orphanedInTerraform := 0)
      && (!m1 ==> r1.value.missingResources == [] && r1.value.summary.missingFromTerraform == 0)
      && (!o1 ==> r1.value.orphanedResources == [] && r1.value.summary.orphanedInTerraform == 0)
  {
  }

  /**
   * A successful audit accounts for every Azure resource: managed plus missing equals
   * the Azure total (with missing included), coverage lies in [0, 100], and at least one
   * recommendation is made.
   */
  lemma AuditAccounts(stateList: seq<string>, azure: seq<AzureResource>, authSuccessful: bool,
                      state: Json, includeOrphaned: bool)
    ensures var r := AuditOf(None, Some(stateList), Some(azure), authSuccessful, state, true, includeOrphaned);
      && r.Ok?
      && r.value.summary.terraformManaged + r.value.summary.missingFromTerraform == r.value.summary.totalAzureResources
      && 0.0 <= r.value.summary.coveragePercentage <= 100.0
      && r.value.summary.totalTerraformResources == |stateList|
      && r.value.recommendations != []
  {
    var details := DetailsFrom(StateResources(state), stateList);
    ClassifyPartition(azure, details);
    var (matched, missing) := Classify(azure, details);
    RecommendationRules(|missing|, |Orphans(stateList, MatchedAddresses(matched))|, Coverage(|matched|, |azure|));
  }
}

=== FILE: golang_source_provider.dfy ===
/**
 * Locating Go source in the provider index repositories: input checks, resolving a
 * namespace to its configured index, and the paths of symbol and block index files.
 * Reading from GitHub and decoding JSON are parameters.
 */
module GolangSourceProvider {
  import opened Wrappers
  import opened Text
  import opened Json
  import Assoc

  datatype RemoteIndex = RemoteIndex(owner: string, repo: string, packagePath: string)

  const AzurermNamespace: string := "github.com/hashicorp/terraform-provider-azurerm/internal"
  const AzapiNamespace: string := "github.com/Azure/terraform-provider-azapi/internal"
  const AzurermPackage: string := "github.com/hashicorp/terraform-provider-azurerm"
  const AzapiPackage: string := "github.com/Azure/terraform-provider-azapi"

  /** `remote_index_map`, in its declaration order. */
  const RemoteIndexMap: seq<(string, RemoteIndex)> := [
    (AzurermNamespace, RemoteIndex("lonegunmanb", "terraform-provider-azurerm-index", AzurermPackage)),
    (AzapiNamespace, RemoteIndex("lonegunmanb", "terraform-provider-azapi-index", AzapiPackage))]

  /** `provider_index_map` */
  const ProviderIndexMap: seq<(string, string)> := [("azurerm", AzurermNamespace), ("azapi", AzapiNamespace)]

  /** `get_supported_namespaces`: the keys of the remote index map. */
  function SupportedNamespaces(): (namespaces: seq<string>)
    ensures namespaces == [AzurermNamespace, AzapiNamespace]
  {
    Assoc.Keys(RemoteIndexMap)
  }

  // ---------------------------------------------------------------------------
  // Namespaces
  // ---------------------------------------------------------------------------

  /** The position of the first key that `namespace` starts with. */
  function FirstPrefixKey(keys: seq<string>, namespace: string): (r: Option<nat>)
    ensures r.Some? ==> r.value < |keys| && IsPrefix(keys[r.value], namespace)
    ensures r.Some? ==> forall j :: 0 <= j < r.value ==> !IsPrefix(keys[j], namespace)
    ensures r.None? ==> forall j :: 0 <= j < |keys| ==> !IsPrefix(keys[j], namespace)
  {
    if keys == [] then None
    else if IsPrefix(keys[0], namespace) then Some(0)
    else match FirstPrefixKey(keys[1..], namespace)
      case None => None
      case Some(k) => Some(k + 1)
  }

  /** The loop of `query_golang_source_code` that picks the first key the namespace starts with. */
  method RemoteKeyFor(namespace: string) returns (key: Option<string>)
    ensures var i := FirstPrefixKey(SupportedNamespaces(), namespace);
      key == if i.Some? then Some(SupportedNamespaces()[i.value]) else None
  {
    var keys := Assoc.Keys(RemoteIndexMap);
    key := None;
    var i := 0;
    while i < |keys|
      invariant 0 <= i <= |keys|
      invariant FirstPrefixKey(keys, namespace) == (match FirstPrefixKey(keys[i..], namespace)
                                                    case Some(k) => Some(k + i) case None => None)
    {
      assert keys[i..][1..] == keys[i + 1..];
      if IsPrefix(keys[i], namespace) {
        key := Some(keys[i]);
        return;
      }
      i := i + 1;
    }
  }

  // ---------------------------------------------------------------------------
  // Index paths
  // ---------------------------------------------------------------------------

  /** `namespace.replace(package_path, "").lstrip("/")` */
  function RelativeNamespace(namespace: string, packagePath: string): string
    requires packagePath != ""
  {
    StripLeft(Replace(namespace, packagePath, ""), {'/'})
  }

  /** An occurrence at the very start is the first one replaced. */
  lemma ReplaceLeading(a: string, t: string, b: string)
    requires |a| > 0
    ensures Replace(a + t, a, b) == b + Replace(t, a, b)
  {
    var s := a + t;
    assert IsPrefix(a, s);
    assert s[|a|..] == t;
  }

  /** Below its package, a namespace's relative part is what follows the package and `/`. */
  lemma RelativeNamespaceOf(packagePath: string, rel: string)
    requires packagePath != ""
    requires !Contains("/" + rel, packagePath) && (rel == "" || rel[0] != '/')
    ensures RelativeNamespace(packagePath + "/" + rel, packagePath) == rel
  {
    PackageReplaced(packagePath, rel);
    SlashStripped(rel);
  }

  lemma PackageReplaced(packagePath: string, rel: string)
    requires packagePath != "" && !Contains("/" + rel, packagePath)
    ensures Replace(packagePath + "/" + rel, packagePath, "") == "/" + rel
  {
    var tail := "/" + rel;
    assert packagePath + "/" + rel == packagePath + tail;
    ReplaceLeading(packagePath, tail, "");
    assert "" + tail == tail;
  }

  lemma SlashStripped(rel: string)
    requires rel == "" || rel[0] != '/'
    ensures StripLeft("/" + rel, {'/'}) == rel
  {
    assert ("/" + rel)[1..] == rel;
  }

  /** The index file of a symbol: `<symbol>.[<receiver>.]<name>.goindex`. */
  function SymbolFile(symbol: string, name: string, receiver: string): string {
    if symbol == "method" && receiver != "" then symbol + "." + receiver + "." + name + ".goindex"
    else symbol + "." + name + ".goindex"
  }

  /** A file below a namespace's index directory, as written: "index" and the relative namespace run together. */
  function IndexPathAsWritten(namespace: string, packagePath: string, file: string): string
    requires packagePath != ""
  {
    "index" + RelativeNamespace(namespace, packagePath) + "/" + file
  }

  /** A file below a namespace's index directory, with the separator after "index" that the index layout has. */
  function IndexPath(namespace: string, packagePath: string, file: string): string
    requires packagePath != ""
  {
    var rel := RelativeNamespace(namespace, packagePath);
    "index/" + (if rel != "" then rel + "/" else "") + file
  }

  /** For a namespace below its package, the corrected path is `index/<relative>/<file>`. */
  lemma IndexPathOf(packagePath: string, rel: string, file: string)
    requires packagePath != "" && rel != ""
    requires !Contains("/" + rel, packagePath) && rel[0] != '/'
    ensures IndexPath(packagePath + "/" + rel, packagePath, file) == "index/" + rel + "/" + file
  {
    RelativeNamespaceOf(packagePath, rel);
  }

  /** As written, the same namespace gives `index<relative>/<file>`: the separator is missing. */
  lemma IndexPathMissesSeparator(packagePath: string, rel: string, file: string)
    requires packagePath != "" && rel != ""
    requires !Contains("/" + rel, packagePath) && rel[0] != '/'
    ensures IndexPathAsWritten(packagePath + "/" + rel, packagePath, file) == "index" + rel + "/" + file
    ensures IndexPathAsWritten(packagePath + "/" + rel, packagePath, file)
         != IndexPath(packagePath + "/" + rel, packagePath, file)
  {
    RelativeNamespaceOf(packagePath, rel);
    IndexPathOf(packagePath, rel, file);
    var written := "index" + rel + "/" + file;
    var intended := "index/" + rel + "/" + file;
    assert written[5] == rel[0] && intended[5] == '/';
  }

  /** The configured azurerm namespace is `internal` below its package. */
  lemma AzurermNamespaceIsInternal(pkg: string, ns: string)
    requires pkg == AzurermPackage && ns == AzurermNamespace
    ensures ns == pkg + "/" + "internal" && !Contains("/" + "internal", pkg)
  {
    if Contains("/" + "internal", pkg) {
      ContainsLength("/" + "internal", pkg);
    }
  }

  /** `index/<block_type>s/<type>.json`, except that `ephemeral` is not pluralised. */
  function BlockIndexPath(blockType: string, terraformType: string): (path: string)
    ensures blockType != "ephemeral" ==> IsPrefix("index/" + blockType + "s/", path)
    ensures blockType == "ephemeral" ==> IsPrefix("index/ephemeral/", path)
    ensures IsSuffix("/" + terraformType + ".json", path)
  {
    var plural := if blockType != "ephemeral" then blockType + "s" else blockType;
    var path := "index/" + plural + "/" + terraformType + ".json";
    assert path == ("index/" + plural + "/") + terraformType + ".json";
    assert path == "index/" + plural + ("/" + terraformType + ".json");
    path
  }

  // ---------------------------------------------------------------------------
  // Queries
  // ---------------------------------------------------------------------------

  /** What reading a file of an index repository gave: its content, or the text of the exception. */
  datatype Read = Content(text: string) | ReadFailed(message: string)

  /** Reading `(owner, repo, path, tag)`. */
  type Reader = (string, string, string, string) -> Read

  /** Python's `repr` of a list of strings. */
  function ListRepr(items: seq<string>): string {
    Repr(JArr(seq(|items|, i requires 0 <= i < |items| => JStr(items[i]))))
  }

  const Symbols: set<string> := {"func", "method", "type", "var"}

  /** `_fetch_golang_source_code` */
  function FetchGolangSource(namespace: string, symbol: string, name: string, receiver: string, tag: string,
                             remote: RemoteIndex, read: Reader): (r: string)
    requires remote.packagePath != ""
    ensures var c := read(remote.owner, remote.repo, IndexPath(namespace, remote.packagePath, SymbolFile(symbol, name, receiver)), tag);
      && (c.Content? ==> r == c.text)
      && (c.ReadFailed? ==> (IsPrefix("Source code not found (404): ", r) <==> Contains(c.message, "404")))
  {
    match read(remote.owner, remote.repo, IndexPath(namespace, remote.packagePath, SymbolFile(symbol, name, receiver)), tag)
    case Content(text) => text
    case ReadFailed(message) =>
      if Contains(message, "404") then "Source code not found (404): " + symbol + " " + name + " in " + namespace
      else
        var r := "Error: Failed to fetch golang source code: " + message;
        assert r[0] != "Source code not found (404): "[0];
        r
  }

  /**
   * `query_golang_source_code`: invalid symbols and methods without a receiver are refused,
   * and a namespace must start with one of the configured keys.
   */
  function QueryGolangSource(namespace: string, symbol: string, name: string, receiver: string, tag: string,
                             read: Reader): (r: string)
    ensures symbol !in Symbols ==>
      r == "Error: Failed to query golang source code: Invalid symbol type: " + symbol
           + ". Must be one of: func, method, type, var"
    ensures symbol == "method" && receiver == "" ==>
      r == "Error: Failed to query golang source code: Receiver is required for method symbols"
    ensures symbol in Symbols && !(symbol == "method" && receiver == "")
            && !IsPrefix(AzurermNamespace, namespace) && !IsPrefix(AzapiNamespace, namespace) ==>
      r == "Error: Namespace '" + namespace + "' is not supported. Supported namespaces: " + ListRepr(SupportedNamespaces())
  {
    if symbol !in Symbols then
      "Error: Failed to query golang source code: Invalid symbol type: " + symbol + ". Must be one of: func, method, type, var"
    else if symbol == "method" && receiver == "" then
      "Error: Failed to query golang source code: Receiver is required for method symbols"
    else
      match FirstPrefixKey(SupportedNamespaces(), namespace)
      case None =>
        "Error: Namespace '" + namespace + "' is not supported. Supported namespaces: " + ListRepr(SupportedNamespaces())
      case Some(i) => FetchGolangSource(namespace, symbol, name, receiver, tag, RemoteIndexMap[i].1, read)
  }

  /** A namespace below the azurerm key reads from the azurerm index repository. */
  lemma AzurermNamespaceResolves(namespace: string)
    requires IsPrefix(AzurermNamespace, namespace)
    ensures FirstPrefixKey(SupportedNamespaces(), namespace) == Some(0)
  {
  }

  /** The entry points each block type accepts. */
  function ValidEntrypoints(blockType: string): seq<string> {
    if blockType == "resource" then ["create", "read", "update", "delete", "schema", "attribute"]
    else if blockType == "data" then ["read", "schema", "attribute"]
    else if blockType == "ephemeral" then ["open", "close", "renew", "schema"]
    else []
  }

  const BlockTypes: set<string> := {"resource", "data", "ephemeral"}

  /** `_fetch_terraform_source_code`: read the block index, then the entry point's source. */
  function FetchTerraformSource(blockType: string, terraformType: string, entrypoint: string, tag: string,
                                remote: RemoteIndex, read: Reader,
                                decode: string -> Result<seq<(string, Json)>, string>): (r: string)
    requires remote.packagePath != ""
    ensures var c := read(remote.owner, remote.repo, BlockIndexPath(blockType, terraformType), tag);
      && (c.ReadFailed? ==> IsPrefix("Source code not found (404): ", r) || IsPrefix("Error: Failed to fetch terraform source code: ", r))
      && (c.Content? && decode(c.text).Ok? && Assoc.Lookup(decode(c.text).value, entrypoint + "_index").None? ==>
            r == "Error: Entrypoint '" + entrypoint + "' not found for " + terraformType)
  {
    var failed := (message: string) =>
      if Contains(message, "404") then "Source code not found (404): " + blockType + " " + terraformType + "." + entrypoint
      else "Error: Failed to fetch terraform source code: " + message;
    match read(remote.owner, remote.repo, BlockIndexPath(blockType, terraformType), tag)
    case ReadFailed(message) => failed(message)
    case Content(indexContent) =>
      match decode(indexContent)
      case Err(message) => failed(message)
      case Ok(index) =>
        match Assoc.Lookup(index, entrypoint + "_index")
        case None => "Error: Entrypoint '" + entrypoint + "' not found for " + terraformType
        case Some(entry) =>
          match Assoc.Lookup(index, "namespace").GetOr(JStr(""))
          case JStr(namespacePath) =>
            (match read(remote.owner, remote.repo, IndexPath(namespacePath, remote.packagePath, Str(entry)), "")
             case Content(text) => text
             case ReadFailed(message) => failed(message))
          case other => failed("'" + PythonType(other) + "' object has no attribute 'replace'")
  }

  /** The entry-point error of `query_terraform_source_code`. */
  function InvalidEntrypoint(blockType: string, entrypoint: string): (message: string)
    ensures IsPrefix("Error: Failed to query terraform source code: Invalid entrypoint '" + entrypoint + "'", message)
  {
    var head := "Error: Failed to query terraform source code: Invalid entrypoint '" + entrypoint + "'";
    head + (" for block type '" + blockType + "'. Valid entrypoints: " + ListRepr(ValidEntrypoints(blockType)))
  }

  /** The part of `query_terraform_source_code` after the block type and entry point are accepted. */
  function TerraformTypeQuery(blockType: string, terraformType: string, entrypoint: string, tag: string,
                              read: Reader, decode: string -> Result<seq<(string, Json)>, string>): (r: string)
    ensures '_' !in terraformType ==>
      r == "Error: Failed to query terraform source code: Invalid terraform type: " + terraformType
           + ", valid terraform type should be like 'azurerm_resource_group'"
    ensures '_' in terraformType && Split(terraformType, '_')[0] !in Assoc.Keys(ProviderIndexMap) ==>
      r == "Error: Provider '" + Split(terraformType, '_')[0] + "' is not supported. Supported providers: "
           + ListRepr(Assoc.Keys(ProviderIndexMap))
  {
    var segments := Split(terraformType, '_');
    SplitHasSeparator(terraformType, '_');
    if |segments| < 2 then
      "Error: Failed to query terraform source code: Invalid terraform type: " + terraformType
      + ", valid terraform type should be like 'azurerm_resource_group'"
    else
      match Assoc.Lookup(ProviderIndexMap, segments[0])
      case None =>
        "Error: Provider '" + segments[0] + "' is not supported. Supported providers: "
        + ListRepr(Assoc.Keys(ProviderIndexMap))
      case Some(key) =>
        var remote := Assoc.Lookup(RemoteIndexMap, key).GetOr(RemoteIndexMap[0].1);
        assert remote.packagePath != "" by {
          assert forall i :: 0 <= i < |RemoteIndexMap| ==> RemoteIndexMap[i].1.packagePath != "";
        }
        FetchTerraformSource(blockType, terraformType, entrypoint, tag, remote, read, decode)
  }

  /**
   * `query_terraform_source_code`: only the listed block types, their entry points, and
   * types of the form `azurerm_…` or `azapi_…` reach the index; anything else is an error.
   */
  function QueryTerraformSource(blockType: string, terraformType: string, entrypoint: string, tag: string,
                                read: Reader, decode: string -> Result<seq<(string, Json)>, string>): (r: string)
    ensures blockType !in BlockTypes ==>
      r == "Error: Failed to query terraform source code: Invalid block type: " + blockType
           + ". Must be one of: resource, data, ephemeral"
    ensures blockType in BlockTypes && entrypoint !in ValidEntrypoints(blockType) ==>
      r == InvalidEntrypoint(blockType, entrypoint)
  {
    if blockType !in BlockTypes then
      "Error: Failed to query terraform source code: Invalid block type: " + blockType
      + ". Must be one of: resource, data, ephemeral"
    else if entrypoint !in ValidEntrypoints(blockType) then InvalidEntrypoint(blockType, entrypoint)
    else TerraformTypeQuery(blockType, terraformType, entrypoint, tag, read, decode)
  }

  /** A type without `_` is refused before anything is read. */
  lemma TypeWithoutProviderRefused(blockType: string, terraformType: string, entrypoint: string, tag: string,
                                   read: Reader, decode: string -> Result<seq<(string, Json)>, string>)
    requires blockType in BlockTypes && entrypoint in ValidEntrypoints(blockType) && '_' !in terraformType
    ensures QueryTerraformSource(blockType, terraformType, entrypoint, tag, read, decode)
         == "Error: Failed to query terraform source code: Invalid terraform type: " + terraformType
            + ", valid terraform type should be like 'azurerm_resource_group'"
  {
  }
}

=== FILE: json.dfy ===
/**
 * A decoded JSON value, as `json.loads` returns it. Objects keep their members in
 * document order, one member per key: a decoded dict holds each key once (for a repeated
 * key `json.loads` keeps the first position and the last value). The type does not enforce
 * this; `Get` reads the first member with the key, and `Assoc.UniqueKeys` states the
 * property where a proof needs it. Numbers are integers; fractional numbers are not modelled.
 */
module Json {
  import opened Wrappers
  import opened Text
  import Assoc

  datatype Json =
    | JNull
    | JBool(b: bool)
    | JInt(i: int)
    | JStr(s: string)
    | JArr(items: seq<Json>)
    | JObj(fields: seq<(string, Json)>)

  /** `value.get(key)` on a dict; `None` for any other value. */
  function Get(j: Json, key: string): (r: Option<Json>)
    ensures r.Some? ==> j.JObj?
  {
    match j
    case JObj(fields) => Assoc.Lookup(fields, key)
    case _ => None
  }

  /** `value.get(key, default)` when the member is expected to be a string. */
  function GetStr(j: Json, key: string, default: string): string {
    match Get(j, key)
    case Some(JStr(s)) => s
    case None => default
    case _ => default
  }

  /** `value.get(key, [])` when the member is expected to be a list. */
  function GetArr(j: Json, key: string): seq<Json> {
    match Get(j, key)
    case Some(JArr(items)) => items
    case _ => []
  }

  /** Python's `repr` of a decoded value (quotes inside strings are not escaped). */
  function Repr(j: Json): string
    decreases j, 1
  {
    match j
    case JNull => "None"
    case JBool(b) => if b then "True" else "False"
    case JInt(i) => IntToString(i)
    case JStr(s) => "'" + s + "'"
    case JArr(items) => "[" + ReprItems(items, j) + "]"
    case JObj(fields) => "{" + ReprFields(fields, j) + "}"
  }

  /** The items of a list, each as `repr` writes it, separated by ", ". */
  function ReprItems(items: seq<Json>, ghost parent: Json): string
    requires forall i :: 0 <= i < |items| ==> items[i] < parent
    decreases parent, 0, |items|
  {
    if items == [] then ""
    else
      (if |items| > 1 then ReprItems(items[..|items| - 1], parent) + ", " else "")
      + Repr(items[|items| - 1])
  }

  /** The members of a dict as `'key': repr(value)`, separated by ", ". */
  function ReprFields(fields: seq<(string, Json)>, ghost parent: Json): string
    requires forall i :: 0 <= i < |fields| ==> fields[i].1 < parent
    decreases parent, 0, |fields|
  {
    if fields == [] then ""
    else
      (if |fields| > 1 then ReprFields(fields[..|fields| - 1], parent) + ", " else "")
      + "'" + fields[|fields| - 1].0 + "': " + Repr(fields[|fields| - 1].1)
  }

  /** Python's `str` of a decoded value, as an f-string interpolates it. */
  function Str(j: Json): (r: string)
    ensures j.JStr? ==> r == j.s
  {
    if j.JStr? then j.s else Repr(j)
  }

  /** The name Python gives the type of a decoded value, as its error messages quote it. */
  function PythonType(j: Json): string {
    match j
    case JNull => "NoneType"
    case JBool(_) => "bool"
    case JInt(_) => "int"
    case JStr(_) => "str"
    case JArr(_) => "list"
    case JObj(_) => "dict"
  }

  /** Python truthiness of a decoded value. */
  predicate Truthy(j: Json) {
    match j
    case JNull => false
    case JBool(b) => b
    case JInt(i) => i != 0
    case JStr(s) => s != ""
    case JArr(items) => items != []
    case JObj(fields) => fields != []
  }
}

=== FILE: order.dfy ===
/** Python's ordering of strings: lexicographic by code point. */
module Order {
  /** `a <= b` on Python strings. */
  predicate LexLe(a: string, b: string)
    decreases |a|
  {
    a == [] || (b != [] && (a[0] < b[0] || (a[0] == b[0] && LexLe(a[1..], b[1..]))))
  }

  /** `a < b` on Python strings. */
  predicate LexLt(a: string, b: string) { LexLe(a, b) && a != b }

  lemma {:induction false} LexReflexive(a: string)
    ensures LexLe(a, a)
    decreases |a|
  {
    if a != [] {
      LexReflexive(a[1..]);
    }
  }

  lemma {:induction false} LexTotal(a: string, b: string)
    ensures LexLe(a, b) || LexLe(b, a)
    decreases |a|
  {
    if a != [] && b != [] && a[0] == b[0] {
      LexTotal(a[1..], b[1..]);
    }
  }

  lemma {:induction false} LexAntisymmetric(a: string, b: string)
    requires LexLe(a, b) && LexLe(b, a)
    ensures a == b
    decreases |a|
  {
    if a != [] {
      LexAntisymmetric(a[1..], b[1..]);
      assert a == [a[0]] + a[1..] && b == [b[0]] + b[1..];
    }
  }

  lemma {:induction false} LexTransitive(a: string, b: string, c: string)
    requires LexLe(a, b) && LexLe(b, c)
    ensures LexLe(a, c)
    decreases |a|
  {
    if a != [] && a[0] == b[0] && b[0] == c[0] {
      LexTransitive(a[1..], b[1..], c[1..]);
    }
  }

  /** Exactly one of `a < b`, `a == b`, `b < a` holds. */
  lemma LexTrichotomy(a: string, b: string)
    ensures LexLt(a, b) || a == b || LexLt(b, a)
    ensures !(LexLt(a, b) && LexLt(b, a))
  {
    LexTotal(a, b);
    if LexLe(a, b) && LexLe(b, a) {
      LexAntisymmetric(a, b);
    }
  }

  /** `a <= b < c` gives `a < c`. */
  lemma LexLeLt(a: string, b: string, c: string)
    requires LexLe(a, b) && LexLt(b, c)
    ensures LexLt(a, c)
  {
    LexTransitive(a, b, c);
    assert LexLe(c, b) ==> b == c by {
      if LexLe(c, b) {
        LexAntisymmetric(b, c);
      }
    }
  }
}

=== FILE: resource_matcher.dfy ===
/**
 * Reconciliation of Azure resources against Terraform state: identifier helpers,
 * the index of declared resources read from the state file, and the matcher that
 * sorts every Azure resource into matched or missing and every requested address
 * into matched or orphaned.
 */
module ResourceMatcher {
  import opened Wrappers
  import opened Text
  import opened Json
  import Assoc

  // ---------------------------------------------------------------------------
  // Identifier helpers
  // ---------------------------------------------------------------------------

  /** The last `/`-separated segment of an Azure resource id, "" for "". */
  function ExtractResourceNameFromId(resourceId: string): (r: string)
    ensures resourceId == "" ==> r == ""
    ensures IsSuffix(r, resourceId) && '/' !in r
    ensures |r| < |resourceId| ==> resourceId[|resourceId| - |r| - 1] == '/'
  {
    if resourceId == "" then ""
    else
      var parts := Split(resourceId, '/');
      SplitLast(resourceId, '/');
      parts[|parts| - 1]
  }

  /** `<namespace>/<type>` taken from the two segments after the first `providers` segment. */
  function ExtractResourceTypeFromId(resourceId: string): string
  {
    if resourceId == "" then ""
    else
      var parts := Split(resourceId, '/');
      match IndexOf(parts, "providers")
      case None => ""
      case Some(i) => if i + 2 < |parts| then parts[i + 1] + "/" + parts[i + 2] else ""
  }

  /** In an id made of `/`-free segments, the two segments after the first `providers` give the type. */
  lemma ExtractTypeAfterProviders(prefix: seq<string>, ns: string, rtype: string, rest: seq<string>)
    requires "providers" !in prefix
    requires forall p :: p in prefix + [ns, rtype] + rest ==> '/' !in p
    ensures ExtractResourceTypeFromId(Join(prefix + ["providers", ns, rtype] + rest, "/")) == ns + "/" + rtype
  {
    var parts := prefix + ["providers", ns, rtype] + rest;
    SegmentsSlashFree(prefix, ns, rtype, rest);
    SplitJoin(parts, '/');
    assert parts == prefix + ["providers"] + ([ns, rtype] + rest);
    FirstIndexAfter(prefix, "providers", [ns, rtype] + rest);
    assert Join(parts, "/") != "";
  }

  lemma SegmentsSlashFree(prefix: seq<string>, ns: string, rtype: string, rest: seq<string>)
    requires forall p :: p in prefix + [ns, rtype] + rest ==> '/' !in p
    ensures var parts := prefix + ["providers", ns, rtype] + rest;
      forall k :: 0 <= k < |parts| ==> '/' !in parts[k]
  {
    var parts := prefix + ["providers", ns, rtype] + rest;
    forall k | 0 <= k < |parts|
      ensures '/' !in parts[k]
    {
      if k < |prefix| {
        assert parts[k] in prefix + [ns, rtype] + rest;
      } else if k == |prefix| + 1 || k == |prefix| + 2 {
        assert parts[k] in prefix + [ns, rtype] + rest;
      } else if k > |prefix| + 2 {
        assert parts[k] == (prefix + [ns, rtype] + rest)[k - 1];
      }
    }
  }

  /** The first occurrence of `x` right after an `x`-free prefix is at the prefix's length. */
  lemma FirstIndexAfter<T>(prefix: seq<T>, x: T, rest: seq<T>)
    requires x !in prefix
    ensures IndexOf(prefix + [x] + rest, x) == Some(|prefix|)
  {
    var xs := prefix + [x] + rest;
    assert xs[|prefix|] == x;
    forall j | 0 <= j < |prefix|
      ensures xs[j] != x
    {
      assert xs[j] == prefix[j];
    }
  }

  /** Keep only the characters `a`-`z` and `0`-`9`. */
  function KeepLowerAlnum(s: string): (r: string)
    ensures |r| <= |s|
    ensures forall i :: 0 <= i < |r| ==> IsLower(r[i]) || IsDigit(r[i])
  {
    if s == [] then []
    else (if IsLower(s[0]) || IsDigit(s[0]) then [s[0]] else []) + KeepLowerAlnum(s[1..])
  }

  /** Lower-case, then delete every character outside `[a-z0-9]`. */
  function NormalizeResourceName(name: string): (r: string)
    ensures |r| <= |name|
    ensures forall i :: 0 <= i < |r| ==> IsLower(r[i]) || IsDigit(r[i])
  {
    KeepLowerAlnum(Lower(name))
  }

  lemma {:induction false} KeepLowerAlnumFixed(s: string)
    requires forall i :: 0 <= i < |s| ==> IsLower(s[i]) || IsDigit(s[i])
    ensures KeepLowerAlnum(s) == s
  {
    if s != [] {
      KeepLowerAlnumFixed(s[1..]);
    }
  }

  lemma NormalizeIdempotent(name: string)
    ensures NormalizeResourceName(NormalizeResourceName(name)) == NormalizeResourceName(name)
  {
    var r := NormalizeResourceName(name);
    assert Lower(r) == r;
    KeepLowerAlnumFixed(r);
  }

  lemma NormalizeIgnoresCase(name: string)
    ensures NormalizeResourceName(Upper(name)) == NormalizeResourceName(name)
  {
    LowerUpper(name);
  }

  /** `type.name` split at the first dot; `("", "")` when there is no dot. */
  function ParseTerraformAddress(address: string): (r: (string, string))
    ensures '.' in address ==> r.0 + "." + r.1 == address && '.' !in r.0
    ensures '.' !in address ==> r == ("", "")
  {
    var parts := Split(address, '.');
    SplitHasSeparator(address, '.');
    SplitPartsFree(address, '.');
    JoinSplit(address, '.');
    if |parts| >= 2 then (parts[0], Join(parts[1..], ".")) else ("", "")
  }

  // ---------------------------------------------------------------------------
  // Declared state
  // ---------------------------------------------------------------------------

  /** An instance's `index_key`: absent, a count index, or a `for_each` key. */
  datatype IndexKey = NoKey | IntKey(n: int) | BoolKey(b: bool) | StrKey(k: string)

  datatype Instance = Instance(indexKey: IndexKey, attributes: Json)

  datatype StateResource = StateResource(rtype: string, name: string, mode: string, instances: seq<Instance>)

  function DecodeIndexKey(j: Option<Json>): IndexKey {
    match j
    case Some(JInt(n)) => IntKey(n)
    case Some(JBool(b)) => BoolKey(b)
    case Some(JStr(k)) => StrKey(k)
    case _ => NoKey
  }

  function DecodeInstance(j: Json): Instance {
    Instance(DecodeIndexKey(Get(j, "index_key")), Get(j, "attributes").GetOr(JObj([])))
  }

  /**
   * A state resource with the defaults the reader applies: `mode` is `managed` when absent,
   * and a `mode` that is not a string (such as `null`) is never `managed`.
   */
  function DecodeResource(j: Json): (r: StateResource)
    ensures Get(j, "mode").None? ==> r.mode == "managed"
    ensures Get(j, "mode").Some? ==> (r.mode == "managed" <==> Get(j, "mode").value == JStr("managed"))
    ensures |r.instances| == |GetArr(j, "instances")|
  {
    var instances := GetArr(j, "instances");
    var mode := match Get(j, "mode")
      case None => "managed"
      case Some(JStr(m)) => m
      case Some(_) => "";
    StateResource(GetStr(j, "type", ""), GetStr(j, "name", ""), mode,
      seq(|instances|, i requires 0 <= i < |instances| => DecodeInstance(instances[i])))
  }

  /** `state.resources`, or no resources when the state is not an object. */
  function StateResources(state: Json): (rs: seq<StateResource>)
    ensures |rs| == |GetArr(state, "resources")|
    ensures forall i :: 0 <= i < |rs| ==> rs[i] == DecodeResource(GetArr(state, "resources")[i])
  {
    var rs := GetArr(state, "resources");
    seq(|rs|, i requires 0 <= i < |rs| => DecodeResource(rs[i]))
  }

  /** The address of one instance: `type.name`, `type.name[n]` or `type.name["k"]`. */
  function InstanceAddress(rtype: string, name: string, key: IndexKey): (a: string)
    ensures IsPrefix(rtype + "." + name, a)
    ensures key.NoKey? ==> a == rtype + "." + name
  {
    var base := rtype + "." + name;
    match key
    case NoKey => base
    case IntKey(n) => base + "[" + IntToString(n) + "]"
    case BoolKey(b) => base + "[" + (if b then "True" else "False") + "]"
    case StrKey(k) => base + "[\"" + k + "\"]"
  }

  /** Parsing an instance address gives back its type and the rest of the address. */
  lemma AddressRoundTrip(rtype: string, name: string, key: IndexKey)
    requires '.' !in rtype
    ensures var a := InstanceAddress(rtype, name, key);
      ParseTerraformAddress(a).0 == rtype && IsPrefix(name, ParseTerraformAddress(a).1)
  {
    var a := InstanceAddress(rtype, name, key);
    var rest := a[|rtype| + 1..];
    assert a[..|rtype| + 1 + |name|] == rtype + "." + name;
    assert a == rtype + ['.'] + rest;
    SplitCons(rtype, rest, '.');
    JoinSplit(rest, '.');
    assert rest[..|name|] == a[|rtype| + 1..|rtype| + 1 + |name|];
  }

  datatype Detail = Detail(
    terraformType: string,
    terraformName: string,
    azureResourceId: string,
    normalizedName: string,
    attributes: Json)

  /** Declared details keyed by address, in insertion order. */
  type Details = seq<(string, Detail)>

  function DetailOf(r: StateResource, inst: Instance): (d: Detail)
    ensures d.normalizedName == NormalizeResourceName(r.name)
    ensures Get(inst.attributes, "id").None? ==> d.azureResourceId == ""
  {
    Detail(r.rtype, r.name, GetStr(inst.attributes, "id", ""), NormalizeResourceName(r.name), inst.attributes)
  }

  function AddInstance(acc: Details, r: StateResource, inst: Instance, requested: seq<string>): Details {
    var address := InstanceAddress(r.rtype, r.name, inst.indexKey);
    if address in requested then Assoc.Upsert(acc, address, DetailOf(r, inst)) else acc
  }

  function AddInstances(acc: Details, r: StateResource, insts: seq<Instance>, requested: seq<string>): Details
    decreases |insts|
  {
    if insts == [] then acc
    else AddInstance(AddInstances(acc, r, insts[..|insts| - 1], requested), r, insts[|insts| - 1], requested)
  }

  function AddResource(acc: Details, r: StateResource, requested: seq<string>): Details {
    if r.mode != "managed" then acc else AddInstances(acc, r, r.instances, requested)
  }

  /** The details of the requested addresses declared by `rs`, resource by resource. */
  function DetailsFrom(rs: seq<StateResource>, requested: seq<string>): Details
    decreases |rs|
  {
    if rs == [] then [] else AddResource(DetailsFrom(rs[..|rs| - 1], requested), rs[|rs| - 1], requested)
  }

  /** The inner loop of the details index: one managed resource's instances. */
  method AddResourceInstances(acc: Details, r: StateResource, requested: seq<string>) returns (details: Details)
    ensures details == AddInstances(acc, r, r.instances, requested)
  {
    details := acc;
    var j := 0;
    while j < |r.instances|
      invariant 0 <= j <= |r.instances|
      invariant details == AddInstances(acc, r, r.instances[..j], requested)
    {
      var inst := r.instances[j];
      var address := InstanceAddress(r.rtype, r.name, inst.indexKey);
      if address in requested {
        details := Assoc.Upsert(details, address, DetailOf(r, inst));
      }
      assert r.instances[..j + 1][..j] == r.instances[..j];
      j := j + 1;
    }
    assert r.instances[..j] == r.instances;
  }

  /** The outer loop of the details index, over the state's resources. */
  method AddResources(resources: seq<StateResource>, requested: seq<string>) returns (details: Details)
    ensures details == DetailsFrom(resources, requested)
  {
    details := [];
    var i := 0;
    while i < |resources|
      invariant 0 <= i <= |resources|
      invariant details == DetailsFrom(resources[..i], requested)
    {
      var r := resources[i];
      assert resources[..i + 1][..i] == resources[..i];
      if r.mode == "managed" {
        details := AddResourceInstances(details, r, requested);
      }
      i := i + 1;
    }
    assert resources[..i] == resources;
  }

  /** The details index built from the state file in nested loops. */
  method GetStateResourceDetails(state: Json, requested: seq<string>) returns (details: Details)
    ensures details == DetailsFrom(StateResources(state), requested)
  {
    details := AddResources(StateResources(state), requested);
  }

  /** `(k, d)` comes from a managed instance of one of `rs` whose address is `k`. */
  predicate DeclaredBy(rs: seq<StateResource>, k: string, d: Detail) {
    exists r, inst :: r in rs && inst in r.instances && r.mode == "managed"
      && InstanceAddress(r.rtype, r.name, inst.indexKey) == k && d == DetailOf(r, inst)
  }

  predicate DetailsSound(ds: Details, universe: seq<StateResource>, requested: seq<string>) {
    Assoc.UniqueKeys(ds)
    && forall i :: 0 <= i < |ds| ==> ds[i].0 in requested && DeclaredBy(universe, ds[i].0, ds[i].1)
  }

  lemma {:induction false} AddInstancesSound(acc: Details, r: StateResource, insts: seq<Instance>,
                                              requested: seq<string>, universe: seq<StateResource>)
    requires DetailsSound(acc, universe, requested)
    requires r in universe && r.mode == "managed" && forall inst :: inst in insts ==> inst in r.instances
    ensures DetailsSound(AddInstances(acc, r, insts, requested), universe, requested)
    decreases |insts|
  {
    if insts != [] {
      var prefix := insts[..|insts| - 1];
      assert forall inst :: inst in prefix ==> inst in insts;
      AddInstancesSound(acc, r, prefix, requested, universe);
      var mid := AddInstances(acc, r, prefix, requested);
      var inst := insts[|insts| - 1];
      var address := InstanceAddress(r.rtype, r.name, inst.indexKey);
      if address in requested {
        var res := Assoc.Upsert(mid, address, DetailOf(r, inst));
        forall i | 0 <= i < |res|
          ensures res[i].0 in requested && DeclaredBy(universe, res[i].0, res[i].1)
        {
          if res[i].0 == address {
            assert DeclaredBy(universe, address, DetailOf(r, inst));
          }
        }
      }
    }
  }

  /** Every entry of the index is a requested address declared by a managed instance, once. */
  lemma {:induction false} DetailsFromSound(rs: seq<StateResource>, requested: seq<string>, universe: seq<StateResource>)
    requires forall r :: r in rs ==> r in universe
    ensures DetailsSound(DetailsFrom(rs, requested), universe, requested)
    decreases |rs|
  {
    if rs != [] {
      var prefix := rs[..|rs| - 1];
      assert forall r :: r in prefix ==> r in rs;
      DetailsFromSound(prefix, requested, universe);
      var r := rs[|rs| - 1];
      if r.mode == "managed" {
        AddInstancesSound(DetailsFrom(prefix, requested), r, r.instances, requested, universe);
      }
    }
  }

  lemma {:induction false} AddInstancesKeepsKeys(acc: Details, r: StateResource, insts: seq<Instance>, requested: seq<string>)
    ensures forall k :: k in Assoc.Keys(acc) ==> k in Assoc.Keys(AddInstances(acc, r, insts, requested))
    ensures forall inst :: (inst in insts && InstanceAddress(r.rtype, r.name, inst.indexKey) in requested
      ==> InstanceAddress(r.rtype, r.name, inst.indexKey) in Assoc.Keys(AddInstances(acc, r, insts, requested)))
    decreases |insts|
  {
    if insts != [] {
      var prefix := insts[..|insts| - 1];
      AddInstancesKeepsKeys(acc, r, prefix, requested);
      forall inst | inst in insts
        ensures inst == insts[|insts| - 1] || inst in prefix
      {
        var i :| 0 <= i < |insts| && insts[i] == inst;
        if i < |insts| - 1 { assert prefix[i] == inst; }
      }
    }
  }

  /** Every requested address of a managed instance of `rs` gets an entry. */
  lemma {:induction false} DetailsFromComplete(rs: seq<StateResource>, requested: seq<string>, r: StateResource, inst: Instance)
    requires r in rs && r.mode == "managed" && inst in r.instances
    requires InstanceAddress(r.rtype, r.name, inst.indexKey) in requested
    ensures InstanceAddress(r.rtype, r.name, inst.indexKey) in Assoc.Keys(DetailsFrom(rs, requested))
    decreases |rs|
  {
    var prefix := rs[..|rs| - 1];
    var last := rs[|rs| - 1];
    var before := DetailsFrom(prefix, requested);
    if last.mode == "managed" {
      AddInstancesKeepsKeys(before, last, last.instances, requested);
    }
    if r != last {
      var i :| 0 <= i < |rs| && rs[i] == r;
      assert prefix[i] == r;
      DetailsFromComplete(prefix, requested, r, inst);
    }
  }

  /** An entry of the index is the address of some managed instance. */
  lemma DetailKeyDeclared(rs: seq<StateResource>, requested: seq<string>, k: string)
    requires k in Assoc.Keys(DetailsFrom(rs, requested))
    ensures exists r, inst :: (r in rs && inst in r.instances && r.mode == "managed"
      && InstanceAddress(r.rtype, r.name, inst.indexKey) == k)
  {
    var ds := DetailsFrom(rs, requested);
    DetailsFromSound(rs, requested, rs);
    var i :| 0 <= i < |ds| && ds[i].0 == k;
    assert DeclaredBy(rs, ds[i].0, ds[i].1);
  }

  /** Addresses inside a module (`module.<name>.…`) never get details. */
  lemma ModuleAddressesNeverDetailed(rs: seq<StateResource>, requested: seq<string>, k: string)
    requires forall r :: r in rs ==> r.rtype != "module" && '.' !in r.rtype
    requires k in Assoc.Keys(DetailsFrom(rs, requested))
    ensures !IsPrefix("module.", k)
  {
    DetailKeyDeclared(rs, requested, k);
    var r, inst :| r in rs && inst in r.instances && r.mode == "managed"
      && InstanceAddress(r.rtype, r.name, inst.indexKey) == k;
    DottedPrefix(r.rtype, r.name, k);
  }

  /** An address that starts with a dotless type other than `module` and a dot is not a module address. */
  lemma DottedPrefix(t: string, n: string, k: string)
    requires t != "module" && '.' !in t && IsPrefix(t + "." + n, k)
    ensures !IsPrefix("module.", k)
  {
    if 7 <= |k| {
      assert k[..|t| + 1] == (t + "." + n)[..|t| + 1] == t + ".";
      if |t| < 6 {
        assert k[..7][|t|] == '.';
      } else if |t| == 6 {
        assert k[..7][..6] == t;
      } else {
        assert k[..7][6] == t[6];
      }
    }
  }

  // ---------------------------------------------------------------------------
  // Matching
  // ---------------------------------------------------------------------------

  /** One row of the Azure Resource Graph result (`location` may be absent). */
  datatype AzureResource = AzureResource(id: string, name: string, rtype: string, location: Option<string>, resourceGroup: string)

  datatype MatchMethod = AzureId | Name | NameWithTypeHint | NameAmbiguous

  datatype Confidence = High | Medium

  datatype MatchedResource = MatchedResource(
    azureResourceId: string,
    azureResourceType: string,
    azureResourceName: string,
    terraformAddress: string,
    terraformType: string,
    confidence: Confidence,
    matchMethod: MatchMethod)

  /** An Azure resource with no Terraform counterpart; the report adds `exportCommand`. */
  datatype MissingResource = MissingResource(
    resourceId: string,
    resourceType: string,
    resourceName: string,
    location: string,
    reason: string,
    exportCommand: Option<string>)

  datatype OrphanedResource = OrphanedResource(
    terraformAddress: string,
    terraformType: string,
    terraformName: string,
    reason: string)

  datatype Classification = IsMatched(matched: MatchedResource) | IsMissing(missing: MissingResource)

  const MissingReason := "Not found in Terraform state"
  const OrphanedReason := "Resource not found in Azure or could not be matched"

  /** An id lower-cased with trailing slashes trimmed. */
  function NormalizeId(id: string): (r: string)
    ensures r == [] || r[|r| - 1] != '/'
    ensures forall i :: 0 <= i < |r| ==> !IsUpper(r[i])
  {
    StripRight(Lower(id), {'/'})
  }

  predicate IdIndexed(entry: (string, Detail), key: string) {
    entry.1.azureResourceId != "" && NormalizeId(entry.1.azureResourceId) == key
  }

  /** Normalized Azure id -> address, later entries overwriting earlier ones. */
  function IdIndex(ds: Details): map<string, string>
    decreases |ds|
  {
    if ds == [] then map[]
    else
      var m := IdIndex(ds[..|ds| - 1]);
      var (address, d) := ds[|ds| - 1];
      if d.azureResourceId != "" then m[NormalizeId(d.azureResourceId) := address] else m
  }

  /** An id is a key of the index iff some entry carries it. */
  lemma {:induction false} IdIndexKeys(ds: Details, key: string)
    ensures key in IdIndex(ds) <==> exists j :: 0 <= j < |ds| && IdIndexed(ds[j], key)
    decreases |ds|
  {
    if ds != [] {
      var prefix := ds[..|ds| - 1];
      IdIndexKeys(prefix, key);
      if key in IdIndex(ds) && !IdIndexed(ds[|ds| - 1], key) {
        var j :| 0 <= j < |prefix| && IdIndexed(prefix[j], key);
        assert ds[j] == prefix[j];
      }
      if j :| 0 <= j < |ds| - 1 && IdIndexed(ds[j], key) {
        assert prefix[j] == ds[j];
      }
    }
  }

  /** For an indexed id, the index holds the address of the LAST entry carrying it. */
  lemma {:induction false} IdIndexLastWins(ds: Details, key: string, j: nat)
    requires j < |ds| && IdIndexed(ds[j], key)
    requires forall j' :: j < j' < |ds| ==> !IdIndexed(ds[j'], key)
    ensures key in IdIndex(ds) && IdIndex(ds)[key] == ds[j].0
    decreases |ds|
  {
    var prefix := ds[..|ds| - 1];
    if j < |ds| - 1 {
      assert prefix[j] == ds[j];
      IdIndexLastWins(prefix, key, j);
    }
  }

  /** Normalized Terraform local name -> addresses, in insertion order. */
  function NameIndex(ds: Details): (m: map<string, seq<string>>)
    ensures forall n :: n in m ==> |m[n]| >= 1
    decreases |ds|
  {
    if ds == [] then map[]
    else
      var m := NameIndex(ds[..|ds| - 1]);
      var (address, d) := ds[|ds| - 1];
      var n := d.normalizedName;
      if n != "" then m[n := (if n in m then m[n] else []) + [address]] else m
  }

  /** The addresses whose normalized name is `n`, in order. */
  function AddressesNamed(ds: Details, n: string): seq<string>
    decreases |ds|
  {
    if ds == [] then []
    else AddressesNamed(ds[..|ds| - 1], n) + (if ds[|ds| - 1].1.normalizedName == n then [ds[|ds| - 1].0] else [])
  }

  lemma {:induction false} NameIndexIsFilter(ds: Details, n: string)
    ensures "" !in NameIndex(ds)
    ensures n != "" ==> (n in NameIndex(ds) <==> AddressesNamed(ds, n) != [])
    ensures n in NameIndex(ds) ==> NameIndex(ds)[n] == AddressesNamed(ds, n)
    decreases |ds|
  {
    if ds != [] {
      NameIndexIsFilter(ds[..|ds| - 1], n);
    }
  }

  lemma {:induction false} AddressesNamedAreKeys(ds: Details, n: string)
    ensures forall a :: a in AddressesNamed(ds, n) ==> a in Assoc.Keys(ds)
    decreases |ds|
  {
    if ds != [] {
      var prefix := ds[..|ds| - 1];
      AddressesNamedAreKeys(prefix, n);
      assert forall a :: a in Assoc.Keys(prefix) ==> a in Assoc.Keys(ds);
    }
  }

  /** The Azure type lower-cased with `microsoft.` and every `/` removed. */
  function SimplifiedAzureType(azureType: string): string {
    Replace(Replace(Lower(azureType), "microsoft.", ""), "/", "")
  }

  function TerraformTypeOf(ds: Details, address: string): string {
    match Assoc.Lookup(ds, address)
    case Some(d) => d.terraformType
    case None => ""
  }

  predicate TypeHint(ds: Details, candidate: string, azureType: string) {
    Contains(Lower(TerraformTypeOf(ds, candidate)), SimplifiedAzureType(azureType))
  }

  /** The first candidate from position `i` on whose Terraform type contains the simplified Azure type. */
  function FirstTypeHint(ds: Details, candidates: seq<string>, azureType: string, i: nat): (r: Option<nat>)
    ensures r.Some? ==> i <= r.value < |candidates| && TypeHint(ds, candidates[r.value], azureType)
    ensures r.Some? ==> forall j :: i <= j < r.value ==> !TypeHint(ds, candidates[j], azureType)
    ensures r.None? ==> forall j :: i <= j < |candidates| ==> !TypeHint(ds, candidates[j], azureType)
    decreases |candidates| - i
  {
    if i >= |candidates| then None
    else if TypeHint(ds, candidates[i], azureType) then Some(i)
    else FirstTypeHint(ds, candidates, azureType, i + 1)
  }

  /** The address an Azure resource resolves to, and by which strategy. */
  /** The normalized last segment of the resource's id, the key of the name strategy. */
  function AzureName(a: AzureResource): string {
    NormalizeResourceName(ExtractResourceNameFromId(a.id))
  }

  function ResolveMatch(a: AzureResource, ds: Details): Option<(string, MatchMethod)> {
    ResolveKeys(NormalizeId(a.id), AzureName(a), a.rtype, ds)
  }

  /** The match of a resource with normalized id `nid`, normalized name `nname` and type `rtype`. */
  function ResolveKeys(nid: string, nname: string, rtype: string, ds: Details): Option<(string, MatchMethod)> {
    var ids := IdIndex(ds);
    var names := NameIndex(ds);
    if nid in ids then Some((ids[nid], AzureId))
    else if nname in names then
      var candidates := names[nname];
      if |candidates| == 1 then Some((candidates[0], Name))
      else match FirstTypeHint(ds, candidates, rtype, 0)
        case Some(k) => Some((candidates[k], NameWithTypeHint))
        case None => Some((candidates[0], NameAmbiguous))
    else None
  }

  function ClassifyOne(a: AzureResource, ds: Details): Classification {
    var name := ExtractResourceNameFromId(a.id);
    match ResolveMatch(a, ds)
    case Some((address, how)) =>
      IsMatched(MatchedResource(a.id, a.rtype, name, address, TerraformTypeOf(ds, address),
        if how == AzureId then High else Medium, how))
    case None =>
      IsMissing(MissingResource(a.id, a.rtype, name, a.location.GetOr("unknown"), MissingReason, None))
  }

  /** The classification of every Azure resource, in order. */
  function Classifications(azure: seq<AzureResource>, ds: Details): (cs: seq<Classification>)
    ensures |cs| == |azure|
  {
    seq(|azure|, i requires 0 <= i < |azure| => ClassifyOne(azure[i], ds))
  }

  /** Matched and missing entries of a run of classifications, in order. */
  function Partition(cs: seq<Classification>): (seq<MatchedResource>, seq<MissingResource>)
    decreases |cs|
  {
    if cs == [] then ([], [])
    else
      var (m, x) := Partition(cs[..|cs| - 1]);
      match cs[|cs| - 1]
      case IsMatched(r) => (m + [r], x)
      case IsMissing(r) => (m, x + [r])
  }

  /** Matched and missing entries, in the order of the Azure resources. */
  function Classify(azure: seq<AzureResource>, ds: Details): (seq<MatchedResource>, seq<MissingResource>) {
    Partition(Classifications(azure, ds))
  }

  /** Every matched entry of a partition is the entry of one of its classifications. */
  lemma {:induction false} PartitionMatched(cs: seq<Classification>)
    ensures forall m :: m in Partition(cs).0 ==> exists i :: 0 <= i < |cs| && cs[i] == IsMatched(m)
    decreases |cs|
  {
    if cs != [] {
      var init := cs[..|cs| - 1];
      PartitionMatched(init);
      forall m | m in Partition(cs).0
        ensures exists i :: 0 <= i < |cs| && cs[i] == IsMatched(m)
      {
        if m in Partition(init).0 {
          var i :| 0 <= i < |init| && init[i] == IsMatched(m);
          assert cs[i] == init[i];
        } else {
          assert cs[|cs| - 1] == IsMatched(m);
        }
      }
    }
  }

  /** Two matched classifications give their two entries, in order. */
  lemma PartitionPair(c: Classification, d: Classification)
    requires c.IsMatched? && d.IsMatched?
    ensures Partition([c, d]).0 == [c.matched, d.matched]
  {
    assert [c, d][..1] == [c];
    assert [c][..0] == [];
    assert Partition([c]).0 == [c.matched];
  }

  function MatchedAddresses(ms: seq<MatchedResource>): set<string> {
    set i | 0 <= i < |ms| :: ms[i].terraformAddress
  }

  function OrphanOf(address: string): OrphanedResource {
    var (t, n) := ParseTerraformAddress(address);
    OrphanedResource(address, t, n, OrphanedReason)
  }

  /** The requested addresses outside `claimed`, in order. */
  function Orphans(addresses: seq<string>, claimed: set<string>): seq<OrphanedResource>
    decreases |addresses|
  {
    if addresses == [] then []
    else
      var a := addresses[|addresses| - 1];
      Orphans(addresses[..|addresses| - 1], claimed) + (if a in claimed then [] else [OrphanOf(a)])
  }

  /** Every Azure resource yields exactly one matched or missing entry. */
  lemma ClassifyPartition(azure: seq<AzureResource>, ds: Details)
    ensures |Classify(azure, ds).0| + |Classify(azure, ds).1| == |azure|
  {
    PartitionSizes(Classifications(azure, ds));
  }

  lemma {:induction false} PartitionSizes(cs: seq<Classification>)
    ensures |Partition(cs).0| + |Partition(cs).1| == |cs|
    decreases |cs|
  {
    if cs != [] {
      PartitionSizes(cs[..|cs| - 1]);
    }
  }

  /** Confidence is high exactly for identifier matches. */
  lemma MatchedConfidence(azure: seq<AzureResource>, ds: Details)
    ensures forall m :: m in Classify(azure, ds).0 ==> (m.confidence == High <==> m.matchMethod == AzureId)
  {
    var cs := Classifications(azure, ds);
    PartitionMatched(cs);
    forall m | m in Classify(azure, ds).0
      ensures m.confidence == High <==> m.matchMethod == AzureId
    {
      var i :| 0 <= i < |cs| && cs[i] == IsMatched(m);
      assert ClassifyOne(azure[i], ds) == IsMatched(m);
    }
  }

  /**
   * Identifier priority: when some details entry carries the resource's normalized id,
   * the resource matches by id the address of the last such entry.
   */
  lemma IdPriority(a: AzureResource, ds: Details, j: nat)
    requires j < |ds| && IdIndexed(ds[j], NormalizeId(a.id))
    requires forall j' :: j < j' < |ds| ==> !IdIndexed(ds[j'], NormalizeId(a.id))
    ensures ResolveMatch(a, ds) == Some((ds[j].0, AzureId))
  {
    IdIndexLastWins(ds, NormalizeId(a.id), j);
  }

  /** A resource whose id no entry carries and whose name has no candidate is missing. */
  lemma ResolveNoCandidate(a: AzureResource, ds: Details)
    requires forall j :: 0 <= j < |ds| ==> !IdIndexed(ds[j], NormalizeId(a.id))
    ensures (AzureName(a) == "" || AddressesNamed(ds, AzureName(a)) == []) <==> ResolveMatch(a, ds).None?
  {
    NoIdNoName(NormalizeId(a.id), AzureName(a), a.rtype, ds);
  }

  lemma NoIdNoName(nid: string, nname: string, rtype: string, ds: Details)
    requires forall j :: 0 <= j < |ds| ==> !IdIndexed(ds[j], nid)
    ensures (nname == "" || AddressesNamed(ds, nname) == []) <==> ResolveKeys(nid, nname, rtype, ds).None?
  {
    IdIndexKeys(ds, nid);
    NameIndexIsFilter(ds, nname);
  }

  /** A single name candidate is matched by name. */
  lemma ResolveSingleCandidate(a: AzureResource, ds: Details)
    requires forall j :: 0 <= j < |ds| ==> !IdIndexed(ds[j], NormalizeId(a.id))
    requires AzureName(a) != "" && |AddressesNamed(ds, AzureName(a))| == 1
    ensures ResolveMatch(a, ds) == Some((AddressesNamed(ds, AzureName(a))[0], Name))
  {
    IdIndexKeys(ds, NormalizeId(a.id));
    NameIndexIsFilter(ds, AzureName(a));
  }

  /**
   * Several name candidates: the first one with a type hint wins by type hint; when none
   * has one, the first candidate wins as an ambiguous match.
   */
  lemma ResolveSeveralCandidates(a: AzureResource, ds: Details)
    requires forall j :: 0 <= j < |ds| ==> !IdIndexed(ds[j], NormalizeId(a.id))
    requires AzureName(a) != "" && |AddressesNamed(ds, AzureName(a))| > 1
    ensures var cands := AddressesNamed(ds, AzureName(a));
      var r := ResolveMatch(a, ds);
      && r.Some?
      && (r.value.1 == NameWithTypeHint <==> exists k :: 0 <= k < |cands| && TypeHint(ds, cands[k], a.rtype))
      && (r.value.1 == NameWithTypeHint ==>
            exists k :: (0 <= k < |cands| && r.value.0 == cands[k] && TypeHint(ds, cands[k], a.rtype)
                         && forall j :: 0 <= j < k ==> !TypeHint(ds, cands[j], a.rtype)))
      && (r.value.1 != NameWithTypeHint ==> r.value == (cands[0], NameAmbiguous))
  {
    var cands := AddressesNamed(ds, AzureName(a));
    IdIndexKeys(ds, NormalizeId(a.id));
    NameIndexIsFilter(ds, AzureName(a));
    assert NormalizeId(a.id) !in IdIndex(ds);
    assert NameIndex(ds)[AzureName(a)] == cands;
    var h := FirstTypeHint(ds, cands, a.rtype, 0);
    if h.Some? {
      assert ResolveMatch(a, ds) == Some((cands[h.value], NameWithTypeHint));
    } else {
      assert ResolveMatch(a, ds) == Some((cands[0], NameAmbiguous));
    }
  }

  /** The indexed addresses are keys of the details. */
  lemma {:induction false} IdIndexValuesAreKeys(ds: Details)
    ensures forall key :: key in IdIndex(ds) ==> IdIndex(ds)[key] in Assoc.Keys(ds)
    decreases |ds|
  {
    if ds != [] {
      var prefix := ds[..|ds| - 1];
      IdIndexValuesAreKeys(prefix);
      assert forall a :: a in Assoc.Keys(prefix) ==> a in Assoc.Keys(ds);
    }
  }

  /** A resource only ever resolves to an address the details know. */
  lemma ResolvedIsKey(a: AzureResource, ds: Details)
    ensures ResolveMatch(a, ds).Some? ==> ResolveMatch(a, ds).value.0 in Assoc.Keys(ds)
  {
    var n := AzureName(a);
    IdIndexValuesAreKeys(ds);
    NameIndexIsFilter(ds, n);
    AddressesNamedAreKeys(ds, n);
  }

  lemma MatchedAreKeys(azure: seq<AzureResource>, ds: Details)
    ensures forall m :: m in Classify(azure, ds).0 ==> m.terraformAddress in Assoc.Keys(ds)
  {
    var cs := Classifications(azure, ds);
    PartitionMatched(cs);
    forall m | m in Classify(azure, ds).0
      ensures m.terraformAddress in Assoc.Keys(ds)
    {
      var i :| 0 <= i < |cs| && cs[i] == IsMatched(m);
      assert ClassifyOne(azure[i], ds) == IsMatched(m);
      ResolvedIsKey(azure[i], ds);
    }
  }

  /** Every matched address is one of the requested addresses. */
  lemma MatchedAreRequested(azure: seq<AzureResource>, state: Json, requested: seq<string>)
    ensures forall m :: (m in Classify(azure, DetailsFrom(StateResources(state), requested)).0
                         ==> m.terraformAddress in requested)
  {
    var rs := StateResources(state);
    var ds := DetailsFrom(rs, requested);
    MatchedAreKeys(azure, ds);
    DetailsFromSound(rs, requested, rs);
  }

  /**
   * No double-claim guard: two Azure resources whose ids differ only in case or in
   * trailing slashes both match the same address.
   */
  lemma SameAddressClaimedTwice(a: AzureResource, b: AzureResource, ds: Details)
    requires NormalizeId(a.id) == NormalizeId(b.id) && NormalizeId(a.id) in IdIndex(ds)
    ensures var m := Classify([a, b], ds).0;
      |m| == 2 && m[0].terraformAddress == m[1].terraformAddress
  {
    ClassifiedById(a, ds);
    ClassifiedById(b, ds);
    ClassificationsPair(a, b, ds);
    PartitionPair(ClassifyOne(a, ds), ClassifyOne(b, ds));
  }

  lemma ClassificationsPair(a: AzureResource, b: AzureResource, ds: Details)
    ensures Classifications([a, b], ds) == [ClassifyOne(a, ds), ClassifyOne(b, ds)]
  {
    var cs := Classifications([a, b], ds);
    assert cs[0] == ClassifyOne(a, ds) && cs[1] == ClassifyOne(b, ds);
  }

  /** A resource whose normalized id is indexed is matched to the indexed address. */
  lemma ClassifiedById(a: AzureResource, ds: Details)
    requires NormalizeId(a.id) in IdIndex(ds)
    ensures ClassifyOne(a, ds).IsMatched?
    ensures ClassifyOne(a, ds).matched.terraformAddress == IdIndex(ds)[NormalizeId(a.id)]
  {
    assert ResolveMatch(a, ds) == Some((IdIndex(ds)[NormalizeId(a.id)], AzureId));
  }

  /** Orphans are exactly the unclaimed requested addresses, split at their first dot. */
  lemma {:induction false} OrphansExact(addresses: seq<string>, claimed: set<string>)
    ensures forall o :: o in Orphans(addresses, claimed) ==>
      (o.terraformAddress in addresses && o.terraformAddress !in claimed && o.reason == OrphanedReason
       && ('.' in o.terraformAddress ==> o.terraformType + "." + o.terraformName == o.terraformAddress))
    ensures forall a :: a in addresses && a !in claimed ==> exists o :: o in Orphans(addresses, claimed) && o.terraformAddress == a
    ensures |Orphans(addresses, claimed)| <= |addresses|
    decreases |addresses|
  {
    if addresses != [] {
      var prefix := addresses[..|addresses| - 1];
      var last := addresses[|addresses| - 1];
      OrphansExact(prefix, claimed);
      forall a | a in addresses && a !in claimed
        ensures exists o :: o in Orphans(addresses, claimed) && o.terraformAddress == a
      {
        if a == last {
          assert OrphanOf(a) in Orphans(addresses, claimed);
        } else {
          assert a in prefix;
          var o :| o in Orphans(prefix, claimed) && o.terraformAddress == a;
          assert o in Orphans(addresses, claimed);
        }
      }
    }
  }

  /** The first candidate with a type hint, by a loop that stops at the first hit. */
  method FindTypeHint(ds: Details, candidates: seq<string>, azureType: string) returns (r: Option<nat>)
    ensures r == FirstTypeHint(ds, candidates, azureType, 0)
  {
    var simplified := SimplifiedAzureType(azureType);
    r := None;
    var i := 0;
    while i < |candidates|
      invariant 0 <= i <= |candidates|
      invariant FirstTypeHint(ds, candidates, azureType, i) == FirstTypeHint(ds, candidates, azureType, 0)
    {
      var tfType := TerraformTypeOf(ds, candidates[i]);
      if Contains(Lower(tfType), simplified) {
        r := Some(i);
        return;
      }
      i := i + 1;
    }
  }

  /** Both lookup indexes, filled in one pass over the details. */
  method BuildIndexes(details: Details) returns (idIndex: map<string, string>, nameIndex: map<string, seq<string>>)
    ensures idIndex == IdIndex(details) && nameIndex == NameIndex(details)
  {
    idIndex, nameIndex := map[], map[];
    var i := 0;
    while i < |details|
      invariant 0 <= i <= |details|
      invariant idIndex == IdIndex(details[..i]) && nameIndex == NameIndex(details[..i])
    {
      assert details[..i + 1][..i] == details[..i];
      var (address, d) := details[i];
      if d.azureResourceId != "" {
        idIndex := idIndex[NormalizeId(d.azureResourceId) := address];
      }
      var n := d.normalizedName;
      if n != "" {
        if n !in nameIndex {
          nameIndex := nameIndex[n := []];
        }
        nameIndex := nameIndex[n := nameIndex[n] + [address]];
      }
      i := i + 1;
    }
    assert details[..i] == details;
  }

  /** Strategy 1 (identifier), then strategy 2 (name) for one Azure resource. */
  method Resolve(a: AzureResource, details: Details, idIndex: map<string, string>, nameIndex: map<string, seq<string>>)
    returns (found: Option<(string, MatchMethod)>)
    requires idIndex == IdIndex(details) && nameIndex == NameIndex(details)
    ensures found == ResolveMatch(a, details)
  {
    var nid := NormalizeId(a.id);
    var nname := AzureName(a);
    found := None;
    if nid in idIndex {
      found := Some((idIndex[nid], AzureId));
    } else if nname in nameIndex {
      var candidates := nameIndex[nname];
      if |candidates| == 1 {
        found := Some((candidates[0], Name));
      } else {
        var hint := FindTypeHint(details, candidates, a.rtype);
        if hint.Some? {
          found := Some((candidates[hint.value], NameWithTypeHint));
        } else {
          found := Some((candidates[0], NameAmbiguous));
        }
      }
    }
  }

  lemma ClassifyStep(azure: seq<AzureResource>, k: nat, ds: Details)
    requires k < |azure|
    ensures Classify(azure[..k + 1], ds) ==
      (match ClassifyOne(azure[k], ds)
       case IsMatched(r) => (Classify(azure[..k], ds).0 + [r], Classify(azure[..k], ds).1)
       case IsMissing(r) => (Classify(azure[..k], ds).0, Classify(azure[..k], ds).1 + [r]))
  {
    var cs := Classifications(azure[..k + 1], ds);
    assert cs[..k] == Classifications(azure[..k], ds);
    assert cs[k] == ClassifyOne(azure[k], ds);
  }

  /** The requested addresses nobody claimed, in order. */
  method CollectOrphans(requested: seq<string>, claimed: set<string>) returns (orphaned: seq<OrphanedResource>)
    ensures orphaned == Orphans(requested, claimed)
  {
    orphaned := [];
    var t := 0;
    while t < |requested|
      invariant 0 <= t <= |requested|
      invariant orphaned == Orphans(requested[..t], claimed)
    {
      assert requested[..t + 1][..t] == requested[..t];
      if requested[t] !in claimed {
        orphaned := orphaned + [OrphanOf(requested[t])];
      }
      t := t + 1;
    }
    assert requested[..t] == requested;
  }

  /** Strategies 1 and 2 for every Azure resource, in order. */
  method ClassifyAll(azure: seq<AzureResource>, details: Details,
                     idIndex: map<string, string>, nameIndex: map<string, seq<string>>)
    returns (matched: seq<MatchedResource>, missing: seq<MissingResource>)
    requires idIndex == IdIndex(details) && nameIndex == NameIndex(details)
    ensures (matched, missing) == Classify(azure, details)
  {
    matched, missing := [], [];
    var k := 0;
    while k < |azure|
      invariant 0 <= k <= |azure|
      invariant (matched, missing) == Classify(azure[..k], details)
    {
      ClassifyStep(azure, k, details);
      var a := azure[k];
      var name := ExtractResourceNameFromId(a.id);
      var found := Resolve(a, details, idIndex, nameIndex);
      if found.Some? {
        var (address, how) := found.value;
        var entry := MatchedResource(a.id, a.rtype, name, address, TerraformTypeOf(details, address),
          if how == AzureId then High else Medium, how);
        assert ClassifyOne(a, details) == IsMatched(entry);
        matched := matched + [entry];
      } else {
        var entry := MissingResource(a.id, a.rtype, name, a.location.GetOr("unknown"), MissingReason, None);
        assert ClassifyOne(a, details) == IsMissing(entry);
        missing := missing + [entry];
      }
      k := k + 1;
    }
    assert azure[..k] == azure;
  }

  /**
   * `match_resources`: build the details, the id and name indexes, classify every
   * Azure resource and collect the orphaned addresses.
   */
  method MatchResources(azure: seq<AzureResource>, state: Json, requested: seq<string>)
    returns (matched: seq<MatchedResource>, missing: seq<MissingResource>, orphaned: seq<OrphanedResource>)
    ensures (matched, missing) == Classify(azure, DetailsFrom(StateResources(state), requested))
    ensures orphaned == Orphans(requested, MatchedAddresses(matched))
  {
    var details := GetStateResourceDetails(state, requested);
    var idIndex, nameIndex := BuildIndexes(details);
    matched, missing := ClassifyAll(azure, details, idIndex, nameIndex);
    orphaned := CollectOrphans(requested, MatchedAddresses(matched));
  }
}

=== FILE: security_rules.dfy ===
/**
 * The Azure security scan: five substring rules over HCL text (fenced HCL is
 * extracted from markdown first) and the scan summary.
 */
module SecurityRules {
  import opened Text
  import Utils

  /** The rules of the rule table, in its order. */
  datatype RuleKind = Encryption | NetworkSecurity | AccessControl | PublicAccess | Tagging | Diagnostics {
    /** The rule's position in the table. */
    function Number(): nat {
      match this
      case Encryption => 1
      case NetworkSecurity => 2
      case AccessControl => 3
      case PublicAccess => 4
      case Tagging => 5
      case Diagnostics => 6
    }

    /** The rule's identifier, `AZURE_00<n>`. */
    function Id(): string {
      "AZURE_00" + [DigitChar(Number())]
    }
  }

  /** Distinct rules have distinct identifiers. */
  lemma RuleIdsDistinct(a: RuleKind, b: RuleKind)
    requires a != b
    ensures a.Id() != b.Id()
  {
    assert a.Id()[8] == DigitChar(a.Number()) && b.Id()[8] == DigitChar(b.Number());
  }

  /** A finding; its `rule_id` is `rule.Id()`. */
  datatype Finding = Finding(rule: RuleKind, severity: string, message: string, resourceType: string,
                             recommendation: string)

  /** An entry of the rule table. */
  datatype Rule = Rule(id: string, name: string, description: string, severity: string)

  /** `_load_security_rules` */
  const SecurityRules: seq<Rule> := [
    Rule(Encryption.Id(), "Storage Account Encryption", "Storage accounts should have encryption enabled", "HIGH"),
    Rule(NetworkSecurity.Id(), "Network Security Groups", "Network security groups should not allow unrestricted access", "HIGH"),
    Rule(AccessControl.Id(), "Key Vault Access Policies", "Key Vault should have proper access policies configured", "MEDIUM"),
    Rule(PublicAccess.Id(), "Public IP Restrictions", "Public IPs should have restrictions when possible", "MEDIUM"),
    Rule(Tagging.Id(), "Resource Tagging", "Resources should have appropriate tags", "LOW"),
    Rule(Diagnostics.Id(), "Diagnostic Settings", "Resources should have diagnostic settings enabled", "MEDIUM")]

  /** Every finding of `fs` is of `rule`. */
  predicate AllOfRule(fs: seq<Finding>, rule: RuleKind) {
    forall i :: 0 <= i < |fs| ==> fs[i].rule == rule
  }

  /** Mentioning `enable_blob_encryption` mentions `encryption`. */
  lemma BlobEncryptionMentionsEncryption(hcl: string)
    requires Contains(hcl, "enable_blob_encryption")
    ensures Contains(hcl, "encryption")
  {
    var s := "enable_blob_encryption";
    assert s[12..22] == "encryption";
    ContainsAt(s, "encryption", 12);
    ContainsTransitive(hcl, s, "encryption");
  }

  /** `_check_encryption`: a storage account with no mention of encryption. */
  function CheckEncryption(hcl: string): (r: seq<Finding>)
    ensures |r| <= 1 && AllOfRule(r, Encryption)
    ensures r != [] <==> Contains(hcl, "azurerm_storage_account") && !Contains(hcl, "encryption")
  {
    if Contains(hcl, "azurerm_storage_account")
       && !Contains(hcl, "enable_blob_encryption") && !Contains(hcl, "encryption") then
      [Finding(Encryption, "HIGH", "Storage account does not have encryption explicitly configured",
               "azurerm_storage_account", "Add encryption block to storage account configuration")]
    else
      assert Contains(hcl, "enable_blob_encryption") ==> Contains(hcl, "encryption") by {
        if Contains(hcl, "enable_blob_encryption") {
          BlobEncryptionMentionsEncryption(hcl);
        }
      }
      []
  }

  /** `_check_network_security`: a security rule, a `"*"`, and an address prefix. */
  function CheckNetworkSecurity(hcl: string): (r: seq<Finding>)
    ensures |r| <= 1 && AllOfRule(r, NetworkSecurity)
    ensures r != [] <==> Contains(hcl, "azurerm_network_security_rule") && Contains(hcl, "\"*\"")
                         && (Contains(hcl, "source_address_prefix") || Contains(hcl, "destination_address_prefix"))
  {
    if Contains(hcl, "azurerm_network_security_rule") && Contains(hcl, "\"*\"")
       && (Contains(hcl, "source_address_prefix") || Contains(hcl, "destination_address_prefix")) then
      [Finding(NetworkSecurity, "HIGH", "Network security rule allows unrestricted access (*)",
               "azurerm_network_security_rule", "Restrict source and destination address prefixes")]
    else []
  }

  /** `_check_access_control`: a Key Vault with no access policy. */
  function CheckAccessControl(hcl: string): (r: seq<Finding>)
    ensures |r| <= 1 && AllOfRule(r, AccessControl)
    ensures r != [] <==> Contains(hcl, "azurerm_key_vault") && !Contains(hcl, "access_policy")
  {
    if Contains(hcl, "azurerm_key_vault") && !Contains(hcl, "access_policy") then
      [Finding(AccessControl, "MEDIUM", "Key Vault does not have access policies configured",
               "azurerm_key_vault", "Configure appropriate access policies for Key Vault")]
    else []
  }

  /** `_check_storage_security`: a container whose access type is `blob` or `container`. */
  function CheckStorageSecurity(hcl: string): (r: seq<Finding>)
    ensures |r| <= 1 && AllOfRule(r, PublicAccess)
    ensures r != [] <==> Contains(hcl, "azurerm_storage_container")
                         && (Contains(hcl, "container_access_type = \"blob\"")
                             || Contains(hcl, "container_access_type = \"container\""))
  {
    if Contains(hcl, "azurerm_storage_container")
       && (Contains(hcl, "container_access_type = \"blob\"") || Contains(hcl, "container_access_type = \"container\"")) then
      [Finding(PublicAccess, "MEDIUM", "Storage container allows public access",
               "azurerm_storage_container", "Consider using private access unless public access is required")]
    else []
  }

  /** The resource types the monitoring rule looks for, in the order it looks. */
  const MonitoredResources: seq<string> :=
    ["azurerm_storage_account", "azurerm_key_vault", "azurerm_virtual_machine", "azurerm_application_gateway"]

  function MonitoringFinding(resource: string): Finding {
    Finding(Diagnostics, "MEDIUM", resource + " does not have diagnostic settings configured", resource,
            "Add diagnostic settings to enable monitoring and logging")
  }

  /** The first of `resources` that occurs in `hcl`. */
  function FirstPresent(resources: seq<string>, hcl: string): (r: int)
    ensures -1 <= r < |resources|
    ensures r >= 0 ==> Contains(hcl, resources[r]) && forall j :: 0 <= j < r ==> !Contains(hcl, resources[j])
    ensures r == -1 ==> forall j :: 0 <= j < |resources| ==> !Contains(hcl, resources[j])
  {
    if resources == [] then -1
    else if Contains(hcl, resources[0]) then 0
    else
      var k := FirstPresent(resources[1..], hcl);
      if k == -1 then -1 else k + 1
  }

  /** What `_check_monitoring` reports: the first monitored resource present, unless diagnostics are configured. */
  function MonitoringFindings(hcl: string): (r: seq<Finding>)
    ensures |r| <= 1 && AllOfRule(r, Diagnostics)
    ensures r != [] <==> !Contains(hcl, "azurerm_monitor_diagnostic_setting")
                         && exists j :: 0 <= j < |MonitoredResources| && Contains(hcl, MonitoredResources[j])
    ensures r != [] ==> exists j :: 0 <= j < |MonitoredResources| && r[0] == MonitoringFinding(MonitoredResources[j])
                           && Contains(hcl, MonitoredResources[j])
                           && forall i :: 0 <= i < j ==> !Contains(hcl, MonitoredResources[i])
  {
    var k := FirstPresent(MonitoredResources, hcl);
    if k >= 0 && !Contains(hcl, "azurerm_monitor_diagnostic_setting") then [MonitoringFinding(MonitoredResources[k])]
    else []
  }

  /** `_check_monitoring`'s loop, which stops at the first report. */
  method CheckMonitoring(hcl: string) returns (findings: seq<Finding>)
    ensures findings == MonitoringFindings(hcl)
  {
    findings := [];
    var resources := MonitoredResources;
    var i := 0;
    while i < |resources|
      invariant 0 <= i <= |resources| && findings == []
      invariant forall j :: 0 <= j < i ==> !Contains(hcl, resources[j]) || Contains(hcl, "azurerm_monitor_diagnostic_setting")
    {
      if Contains(hcl, resources[i]) && !Contains(hcl, "azurerm_monitor_diagnostic_setting") {
        findings := [MonitoringFinding(resources[i])];
        assert FirstPresent(resources, hcl) == i;
        return;
      }
      i := i + 1;
    }
  }

  /** The scan result. */
  datatype SecurityReport = SecurityReport(scanType: string, totalChecks: int, passedChecks: int, failedChecks: int,
                                           skippedChecks: int, findings: seq<Finding>, summary: string)

  /** The text the rules run on: the fenced HCL when there is any, otherwise the whole input. */
  function ScannedText(content: string): string {
    var extracted := Utils.ExtractedHcl(content);
    if extracted != "" then extracted else content
  }

  /** The findings of all five rules, in rule order. */
  function AllFindings(hcl: string): seq<Finding> {
    CheckEncryption(hcl) + CheckNetworkSecurity(hcl) + CheckAccessControl(hcl) + CheckStorageSecurity(hcl)
    + MonitoringFindings(hcl)
  }

  /** The rule numbers of a concatenation of single-rule lists increase. */
  predicate RulesIncrease(fs: seq<Finding>) {
    forall i, j :: 0 <= i < j < |fs| ==> fs[i].rule.Number() < fs[j].rule.Number()
  }

  lemma AppendRule(fs: seq<Finding>, g: seq<Finding>, rule: RuleKind)
    requires RulesIncrease(fs) && |g| <= 1 && AllOfRule(g, rule)
    requires forall i :: 0 <= i < |fs| ==> fs[i].rule.Number() < rule.Number()
    ensures RulesIncrease(fs + g)
    ensures forall i :: 0 <= i < |fs + g| ==> (fs + g)[i].rule.Number() <= rule.Number()
  {
  }

  /** Lists of at most one finding per rule, joined in rule order. */
  lemma JoinedInRuleOrder(a: seq<Finding>, b: seq<Finding>, c: seq<Finding>, d: seq<Finding>, e: seq<Finding>)
    requires |a| <= 1 && AllOfRule(a, Encryption) && |b| <= 1 && AllOfRule(b, NetworkSecurity)
    requires |c| <= 1 && AllOfRule(c, AccessControl) && |d| <= 1 && AllOfRule(d, PublicAccess)
    requires |e| <= 1 && AllOfRule(e, Diagnostics)
    ensures var fs := a + b + c + d + e;
      && |fs| <= 5
      && (forall i :: 0 <= i < |fs| ==> fs[i].rule != Tagging)
      && RulesIncrease(fs)
  {
    AppendRule([], a, Encryption);
    assert [] + a == a;
    AppendRule(a, b, NetworkSecurity);
    AppendRule(a + b, c, AccessControl);
    AppendRule(a + b + c, d, PublicAccess);
    AppendRule(a + b + c + d, e, Diagnostics);
    var fs: seq<Finding> := a + b + c + d + e;
    forall i | 0 <= i < |fs| ensures fs[i].rule != Tagging {
      if i < |a + b + c + d| {
        assert fs[i] == (a + b + c + d)[i];
      } else {
        assert fs[i] == e[i - |a + b + c + d|];
      }
    }
  }

  /** Five rules of at most one finding each, in rule order, never the tagging rule. */
  lemma AllFindingsOrdered(hcl: string)
    ensures var fs := AllFindings(hcl);
      && |fs| <= 5
      && (forall i :: 0 <= i < |fs| ==> fs[i].rule != Tagging)
      && RulesIncrease(fs)
  {
    var a, b, c, d, e := CheckEncryption(hcl), CheckNetworkSecurity(hcl), CheckAccessControl(hcl),
                         CheckStorageSecurity(hcl), MonitoringFindings(hcl);
    assert |a| <= 1 && AllOfRule(a, Encryption) && |b| <= 1 && AllOfRule(b, NetworkSecurity);
    assert |c| <= 1 && AllOfRule(c, AccessControl) && |d| <= 1 && AllOfRule(d, PublicAccess);
    assert |e| <= 1 && AllOfRule(e, Diagnostics);
    JoinedInRuleOrder(a, b, c, d, e);
  }

  /** `validate_security` */
  function ValidateSecurity(content: string): (r: SecurityReport)
    ensures r.totalChecks == |SecurityRules| == 6 && r.skippedChecks == 0
    ensures r.failedChecks == |r.findings| && r.passedChecks == r.totalChecks - r.failedChecks
    ensures r.findings == AllFindings(ScannedText(content))
    ensures r.summary == "Security scan completed: " + IntToString(r.passedChecks) + " passed, "
                         + IntToString(r.failedChecks) + " failed"
  {
    var findings := AllFindings(ScannedText(content));
    var total := |SecurityRules|;
    var failed := |findings|;
    var passed := total - failed;
    SecurityReport("Azure Security Best Practices", total, passed, failed, 0, findings,
                   "Security scan completed: " + IntToString(passed) + " passed, " + IntToString(failed) + " failed")
  }

  /** At least one check always passes, and no finding carries the tagging rule's identifier. */
  lemma ScanBounds(content: string)
    ensures var r := ValidateSecurity(content);
      && 1 <= r.passedChecks <= 6 && 0 <= r.failedChecks <= 5
      && forall i :: 0 <= i < |r.findings| ==> r.findings[i].rule.Id() != Tagging.Id()
  {
    var r := ValidateSecurity(content);
    AllFindingsOrdered(ScannedText(content));
    forall i | 0 <= i < |r.findings| ensures r.findings[i].rule.Id() != Tagging.Id() {
      RuleIdsDistinct(r.findings[i].rule, Tagging);
    }
  }
}

=== FILE: support_checker.dfy ===
/**
 * The AzureRM support checker: the support table (one entry per API path, each with its
 * properties and their provider mappings) is normalised once, then a resource type is
 * looked up case-insensitively and a property path is searched for in the matching
 * entries.
 */
module SupportChecker {
  import opened Wrappers
  import opened Text

  const ProvidersMarker := "/PROVIDERS/"

  /** `[part for part in parts if part]` */
  function NonEmptyParts(parts: seq<string>): (r: seq<string>)
    ensures |r| <= |parts|
    ensures forall i :: 0 <= i < |r| ==> r[i] != "" && r[i] in parts
    ensures forall p :: p in parts && p != "" ==> p in r
    decreases |parts|
  {
    if parts == [] then []
    else
      var last := parts[|parts| - 1];
      NonEmptyParts(parts[..|parts| - 1]) + (if last != "" then [last] else [])
  }

  function LowerAll(parts: seq<string>): (r: seq<string>)
    ensures |r| == |parts| && forall i :: 0 <= i < |r| ==> r[i] == Lower(parts[i])
  {
    seq(|parts|, i requires 0 <= i < |parts| => Lower(parts[i]))
  }

  lemma LowerKeepsSlash(s: string)
    requires '/' !in s
    ensures '/' !in Lower(s) && (s != "" ==> Lower(s) != "")
  {
    forall i | 0 <= i < |s|
      ensures Lower(s)[i] != '/'
    {
      assert LowerChar(s[i]) == s[i] || IsLetter(s[i]);
    }
  }

  /**
   * `_format_resource_type_from_api_path`: the text after the last `/PROVIDERS/`
   * (case-insensitively), without `{}` placeholders and empty segments, lower-cased.
   */
  function FormatResourceType(apiPath: string): (r: string)
    ensures RFind(Upper(apiPath), ProvidersMarker).None? ==> r == ""
    ensures forall i :: 0 <= i < |r| ==> !IsUpper(r[i])
    ensures r != "" ==> |Split(r, '/')| >= 1 && forall p :: p in Split(r, '/') ==> p != ""
  {
    FormatUpper(Upper(apiPath))
  }

  /** The formatting of an upper-cased path: all of it after the marker is found. */
  function FormatUpper(upper: string): (r: string)
    ensures RFind(upper, ProvidersMarker).None? ==> r == ""
    ensures forall i :: 0 <= i < |r| ==> !IsUpper(r[i])
    ensures r != "" ==> |Split(r, '/')| >= 1 && forall p :: p in Split(r, '/') ==> p != ""
  {
    match RFind(upper, ProvidersMarker)
    case None => ""
    case Some(k) =>
      var rest := upper[k + |ProvidersMarker|..];
      var cleaned := StripLeft(StripRight(Replace(rest, "{}", ""), {'/'}), {'/'});
      SplitPartsFree(cleaned, '/');
      var parts := NonEmptyParts(Split(cleaned, '/'));
      if parts == [] then ""
      else
        var lowered := LowerAll(parts);
        FormattedParts(parts);
        Join(lowered, "/")
  }

  lemma FormattedParts(parts: seq<string>)
    requires parts != [] && forall i :: 0 <= i < |parts| ==> parts[i] != "" && '/' !in parts[i]
    ensures var r := Join(LowerAll(parts), "/");
      && (forall i :: 0 <= i < |r| ==> !IsUpper(r[i]))
      && Split(r, '/') == LowerAll(parts)
      && forall p :: p in Split(r, '/') ==> p != ""
  {
    var lowered := LowerAll(parts);
    forall i | 0 <= i < |parts|
      ensures '/' !in lowered[i] && lowered[i] != ""
    {
      LowerKeepsSlash(parts[i]);
    }
    SplitJoin(lowered, '/');
    JoinMembers(lowered, "/");
    var r := Join(lowered, "/");
    forall i | 0 <= i < |r|
      ensures !IsUpper(r[i])
    {
      var c := r[i];
      assert c in r;
      if c !in "/" {
        var k :| 0 <= k < |lowered| && c in lowered[k];
        var j :| 0 <= j < |lowered[k]| && lowered[k][j] == c;
        assert c == LowerChar(parts[k][j]);
      }
    }
  }

  /** The marker is found regardless of the case of the path. */
  lemma FormatIgnoresCase(apiPath: string)
    ensures FormatResourceType(Lower(apiPath)) == FormatResourceType(apiPath)
  {
    UpperLower(apiPath);
  }

  // ---------------------------------------------------------------------------
  // Support table
  // ---------------------------------------------------------------------------

  /** One `app_property_maps` item: a provider resource name and its property address. */
  datatype AppMap = AppMap(name: Option<string>, addr: Option<string>)

  datatype Property = Property(addr: Option<string>, appPropertyMaps: Option<seq<AppMap>>)

  datatype Entry = Entry(apiPath: Option<string>, properties: Option<seq<Property>>)

  function FormatProperty(p: Property): (r: Property)
    ensures r.appPropertyMaps == p.appPropertyMaps && (r.addr.Some? <==> p.addr.Some?)
    ensures r.addr.Some? ==> '/' !in r.addr.value && |r.addr.value| == |p.addr.value|
  {
    match p.addr
    case Some(a) => p.(addr := Some(ReplaceChar(a, '/', '.')))
    case None => p
  }

  function FormatProperties(ps: seq<Property>): (r: seq<Property>)
    ensures |r| == |ps| && forall i :: 0 <= i < |r| ==> r[i] == FormatProperty(ps[i])
  {
    seq(|ps|, i requires 0 <= i < |ps| => FormatProperty(ps[i]))
  }

  /** One entry as `_load_support_data` leaves it. */
  function FormatEntry(e: Entry): (r: Entry)
    ensures r.apiPath.Some? <==> e.apiPath.Some?
    ensures r.apiPath.Some? ==> forall i :: 0 <= i < |r.apiPath.value| ==> !IsUpper(r.apiPath.value[i])
    ensures r.properties.Some? <==> e.properties.Some?
    ensures r.properties.Some? ==> forall p :: (p in r.properties.value && p.addr.Some? ==> '/' !in p.addr.value)
  {
    Entry(
      match e.apiPath case Some(a) => Some(FormatResourceType(a)) case None => None,
      match e.properties case Some(ps) => Some(FormatProperties(ps)) case None => None)
  }

  /** `_load_support_data`: every entry's API path and property addresses rewritten in place. */
  method LoadSupportData(data: array<Entry>)
    modifies data
    ensures forall i :: 0 <= i < data.Length ==> data[i] == FormatEntry(old(data[i]))
  {
    for i := 0 to data.Length
      invariant forall j :: 0 <= j < i ==> data[j] == FormatEntry(old(data[j]))
      invariant forall j :: i <= j < data.Length ==> data[j] == old(data[j])
    {
      var e := data[i];
      var apiPath := e.apiPath;
      if apiPath.Some? {
        apiPath := Some(FormatResourceType(apiPath.value));
      }
      var properties := e.properties;
      if properties.Some? {
        var formatted := FormatPropertyList(properties.value);
        properties := Some(formatted);
      }
      assert Entry(apiPath, properties) == FormatEntry(e);
      data[i] := Entry(apiPath, properties);
    }
  }

  /** The inner loop of `_load_support_data`: each property address has its `/` turned into `.`. */
  method FormatPropertyList(ps: seq<Property>) returns (formatted: seq<Property>)
    ensures formatted == FormatProperties(ps)
  {
    formatted := [];
    for k := 0 to |ps|
      invariant formatted == FormatProperties(ps[..k])
    {
      var p := ps[k];
      if p.addr.Some? {
        p := p.(addr := Some(ReplaceChar(p.addr.value, '/', '.')));
      }
      formatted := formatted + [p];
    }
    assert ps[..|ps|] == ps;
  }

  // ---------------------------------------------------------------------------
  // Resource type lookup
  // ---------------------------------------------------------------------------

  predicate EntryMatches(e: Entry, resourceType: string) {
    e.apiPath.Some? && Lower(e.apiPath.value) == Lower(resourceType)
  }

  function MatchingEntries(data: seq<Entry>, resourceType: string): seq<Entry>
    decreases |data|
  {
    if data == [] then []
    else
      var e := data[|data| - 1];
      MatchingEntries(data[..|data| - 1], resourceType) + (if EntryMatches(e, resourceType) then [e] else [])
  }

  /** The matching entries are exactly the entries whose path equals the type, ignoring case. */
  lemma {:induction false} MatchingEntriesExact(data: seq<Entry>, resourceType: string)
    ensures forall e :: e in MatchingEntries(data, resourceType) <==> e in data && EntryMatches(e, resourceType)
    ensures multiset(MatchingEntries(data, resourceType)) <= multiset(data)
    decreases |data|
  {
    if data != [] {
      var prefix := data[..|data| - 1];
      MatchingEntriesExact(prefix, resourceType);
      assert data == prefix + [data[|data| - 1]];
    }
  }

  /** `_find_matching_entries` */
  method FindMatchingEntries(data: seq<Entry>, resourceType: string) returns (matching: seq<Entry>)
    ensures matching == MatchingEntries(data, resourceType)
  {
    matching := [];
    var wanted := Lower(resourceType);
    for i := 0 to |data|
      invariant matching == MatchingEntries(data[..i], resourceType)
    {
      assert data[..i + 1][..i] == data[..i];
      var e := data[i];
      if e.apiPath.Some? && Lower(e.apiPath.value) == wanted {
        matching := matching + [e];
      }
    }
    assert data[..|data|] == data;
  }

  // ---------------------------------------------------------------------------
  // Provider mappings of one property
  // ---------------------------------------------------------------------------

  datatype Mapping = Mapping(azurermResource: string, azurermProperty: string, apiProperty: string)

  /** The mapped address without one leading `/`. */
  function CleanAddr(addr: string): (r: string)
    ensures IsPrefix("/", addr) ==> "/" + r == addr
    ensures !IsPrefix("/", addr) ==> r == addr
  {
    if IsPrefix("/", addr) then addr[1..] else addr
  }

  predicate IsAzurerm(m: AppMap) {
    m.name.Some? && IsPrefix("azurerm_", m.name.value)
  }

  predicate HasPair(ms: seq<Mapping>, resource: string, property: string) {
    exists i :: 0 <= i < |ms| && ms[i].azurermResource == resource && ms[i].azurermProperty == property
  }

  /** The provider mappings of `maps`, first occurrence of each pair kept. */
  function MappingsOf(maps: seq<AppMap>, apiProperty: string): seq<Mapping>
    decreases |maps|
  {
    if maps == [] then []
    else
      var acc := MappingsOf(maps[..|maps| - 1], apiProperty);
      var m := maps[|maps| - 1];
      if IsAzurerm(m) && !HasPair(acc, m.name.value, CleanAddr(m.addr.GetOr(""))) then
        acc + [Mapping(m.name.value, CleanAddr(m.addr.GetOr("")), apiProperty)]
      else acc
  }

  /**
   * Every mapping names an `azurerm_` resource and the property's API address, no pair
   * occurs twice, and every `azurerm_` item's pair is present.
   */
  lemma {:induction false} MappingsOfSound(maps: seq<AppMap>, apiProperty: string)
    ensures var ms := MappingsOf(maps, apiProperty);
      && (forall i :: 0 <= i < |ms| ==> IsPrefix("azurerm_", ms[i].azurermResource) && ms[i].apiProperty == apiProperty)
      && (forall i, j :: 0 <= i < j < |ms| ==>
            (ms[i].azurermResource, ms[i].azurermProperty) != (ms[j].azurermResource, ms[j].azurermProperty))
      && (forall m :: m in maps && IsAzurerm(m) ==> HasPair(ms, m.name.value, CleanAddr(m.addr.GetOr(""))))
      && |ms| <= |maps|
    decreases |maps|
  {
    if maps != [] {
      var prefix := maps[..|maps| - 1];
      var acc := MappingsOf(prefix, apiProperty);
      MappingsOfSound(prefix, apiProperty);
      var ms := MappingsOf(maps, apiProperty);
      forall m | m in maps && IsAzurerm(m)
        ensures HasPair(ms, m.name.value, CleanAddr(m.addr.GetOr("")))
      {
        if m in prefix {
          var i :| 0 <= i < |acc| && acc[i].azurermResource == m.name.value
            && acc[i].azurermProperty == CleanAddr(m.addr.GetOr(""));
          assert ms[i] == acc[i];
        } else {
          assert m == maps[|maps| - 1];
          if !HasPair(acc, m.name.value, CleanAddr(m.addr.GetOr(""))) {
            assert ms[|acc|].azurermResource == m.name.value;
          }
        }
      }
    }
  }

  /** `_extract_azurerm_mappings` */
  method ExtractMappings(maps: Option<seq<AppMap>>, apiProperty: string) returns (ms: seq<Mapping>)
    ensures ms == MappingsOf(maps.GetOr([]), apiProperty)
  {
    ms := [];
    if maps.None? {
      return;
    }
    var items := maps.value;
    for i := 0 to |items|
      invariant ms == MappingsOf(items[..i], apiProperty)
    {
      assert items[..i + 1][..i] == items[..i];
      var m := items[i];
      if m.name.Some? && IsPrefix("azurerm_", m.name.value) {
        var property := m.addr.GetOr("");
        if IsPrefix("/", property) {
          property := property[1..];
        }
        var exists_ := false;
        for j := 0 to |ms|
          invariant exists_ <==> HasPair(ms[..j], m.name.value, property)
        {
          if ms[j].azurermResource == m.name.value && ms[j].azurermProperty == property {
            exists_ := true;
          }
        }
        assert ms[..|ms|] == ms;
        if !exists_ {
          ms := ms + [Mapping(m.name.value, property, apiProperty)];
        }
      }
    }
    assert items[..|items|] == items;
  }

  // ---------------------------------------------------------------------------
  // Property lookup
  // ---------------------------------------------------------------------------

  /** The user's path in dot notation, lower-cased. */
  function PropertyKey(propertyPath: string): string {
    Lower(ReplaceChar(propertyPath, '/', '.'))
  }

  predicate PropMatches(p: Property, key: string) {
    p.addr.Some? && Lower(p.addr.value) == key
  }

  /** The first property of `ps` whose address equals `key` ignoring case. */
  function FirstProp(ps: seq<Property>, key: string): (r: Option<Property>)
    ensures r.Some? ==> r.value in ps && PropMatches(r.value, key)
    ensures r.None? <==> forall p :: p in ps ==> !PropMatches(p, key)
  {
    if ps == [] then None
    else if PropMatches(ps[0], key) then Some(ps[0])
    else FirstProp(ps[1..], key)
  }

  /** The property found is preceded by no other that matches. */
  lemma {:induction false} FirstPropIsFirst(ps: seq<Property>, key: string)
    ensures FirstProp(ps, key).Some? ==>
      exists k :: 0 <= k < |ps| && ps[k] == FirstProp(ps, key).value && forall j :: 0 <= j < k ==> !PropMatches(ps[j], key)
  {
    if ps != [] && !PropMatches(ps[0], key) && FirstProp(ps, key).Some? {
      FirstPropIsFirst(ps[1..], key);
      var k :| 0 <= k < |ps[1..]| && ps[1..][k] == FirstProp(ps, key).value
        && forall j :: 0 <= j < k ==> !PropMatches(ps[1..][j], key);
      assert ps[k + 1] == ps[1..][k];
      assert forall j :: 0 <= j < k + 1 ==> !PropMatches(ps[j], key) by {
        forall j | 0 <= j < k + 1 ensures !PropMatches(ps[j], key) {
          if j > 0 { assert ps[j] == ps[1..][j - 1]; }
        }
      }
    }
  }

  /** An entry with properties, one of which matches `key`. */
  predicate Matching(e: Entry, key: string) {
    e.properties.Some? && FirstProp(e.properties.value, key).Some?
  }

  /** The first matching property of the first entry that has one. */
  function FirstEntryProp(entries: seq<Entry>, key: string): (r: Option<Property>)
    ensures r.None? <==> forall e :: e in entries && e.properties.Some? ==> FirstProp(e.properties.value, key).None?
    ensures r.Some? ==> PropMatches(r.value, key)
  {
    if entries == [] then None
    else if entries[0].properties.Some? && FirstProp(entries[0].properties.value, key).Some? then
      FirstProp(entries[0].properties.value, key)
    else FirstEntryProp(entries[1..], key)
  }

  /** The property found is the first match of an entry preceded by no other matching entry. */
  lemma {:induction false} FirstEntryPropIsFirst(entries: seq<Entry>, key: string)
    ensures FirstEntryProp(entries, key).Some? ==>
      exists i :: 0 <= i < |entries| && Matching(entries[i], key)
        && FirstEntryProp(entries, key) == FirstProp(entries[i].properties.value, key)
        && forall j :: 0 <= j < i ==> !Matching(entries[j], key)
  {
    if entries != [] && !Matching(entries[0], key) && FirstEntryProp(entries, key).Some? {
      FirstEntryPropIsFirst(entries[1..], key);
      var i :| 0 <= i < |entries[1..]| && Matching(entries[1..][i], key)
        && FirstEntryProp(entries, key) == FirstProp(entries[1..][i].properties.value, key)
        && forall j :: 0 <= j < i ==> !Matching(entries[1..][j], key);
      assert entries[i + 1] == entries[1..][i];
      assert forall j :: 0 <= j < i + 1 ==> !Matching(entries[j], key) by {
        forall j | 0 <= j < i + 1 ensures !Matching(entries[j], key) {
          if j > 0 { assert entries[j] == entries[1..][j - 1]; }
        }
      }
    }
  }

  function PropertySupport(entries: seq<Entry>, propertyPath: string): (bool, seq<Mapping>) {
    match FirstEntryProp(entries, PropertyKey(propertyPath))
    case Some(p) => (true, MappingsOf(p.appPropertyMaps.GetOr([]), p.addr.value))
    case None => (false, [])
  }

  /**
   * A property is found iff some matching entry lists a property whose address equals the
   * path in dot notation, ignoring case; its mappings all name `azurerm_` resources.
   */
  lemma PropertySupportFound(entries: seq<Entry>, propertyPath: string)
    ensures var (found, ms) := PropertySupport(entries, propertyPath);
      && (found <==> exists e, p :: e in entries && e.properties.Some? && p in e.properties.value
                                    && PropMatches(p, PropertyKey(propertyPath)))
      && (forall m :: m in ms ==> IsPrefix("azurerm_", m.azurermResource))
  {
    var key := PropertyKey(propertyPath);
    var r := FirstEntryProp(entries, key);
    if r.Some? {
      MappingsOfSound(r.value.appPropertyMaps.GetOr([]), r.value.addr.value);
    }
    if exists e, p :: e in entries && e.properties.Some? && p in e.properties.value && PropMatches(p, key) {
      var e, p :| e in entries && e.properties.Some? && p in e.properties.value && PropMatches(p, key);
      assert FirstProp(e.properties.value, key).Some?;
    }
  }

  /** `_check_property_support`: stop at the first matching property of the first entry that has one. */
  method CheckPropertySupport(entries: seq<Entry>, propertyPath: string) returns (found: bool, mappings: seq<Mapping>)
    ensures (found, mappings) == PropertySupport(entries, propertyPath)
  {
    found, mappings := false, [];
    var key := Lower(ReplaceChar(propertyPath, '/', '.'));
    var i := 0;
    while i < |entries|
      invariant 0 <= i <= |entries|
      invariant FirstEntryProp(entries[i..], key) == FirstEntryProp(entries, key)
      invariant !found && mappings == []
    {
      var e := entries[i];
      if e.properties.Some? {
        var ps := e.properties.value;
        var k := 0;
        while k < |ps|
          invariant 0 <= k <= |ps|
          invariant FirstProp(ps[k..], key) == FirstProp(ps, key)
          invariant !found && mappings == []
        {
          var p := ps[k];
          if p.addr.Some? && Lower(p.addr.value) == key {
            assert FirstProp(ps, key) == Some(p);
            assert FirstEntryProp(entries[i..], key) == Some(p);
            found := true;
            mappings := ExtractMappings(p.appPropertyMaps, p.addr.value);
            return;
          }
          assert ps[k..][1..] == ps[k + 1..];
          k := k + 1;
        }
        assert FirstProp(ps, key).None?;
      }
      assert entries[i..][1..] == entries[i + 1..];
      i := i + 1;
    }
  }

  // ---------------------------------------------------------------------------
  // check_azurerm_resource_support
  // ---------------------------------------------------------------------------

  /** What reading `tf.json` gave. */
  datatype Load = Loaded(data: seq<Entry>) | FileMissing | InvalidJson

  datatype SupportResult = SupportResult(
    resourceType: string,
    propertyPath: string,
    isSupported: bool,
    status: string,
    message: string,
    azurermMappings: Option<seq<Mapping>>,
    apiEntriesFound: Option<nat>,
    error: Option<string>)

  function FoundMessage(propertyPath: string, mappings: seq<Mapping>): string {
    "Property path '" + propertyPath + "' found in API definition"
      + (if mappings != [] then " with " + NatToString(|mappings|) + " azurerm mapping(s)"
         else " but no azurerm mappings available")
  }

  function SupportOf(resourceType: string, propertyPath: string, load: Load): SupportResult {
    match load
    case FileMissing =>
      SupportResult(resourceType, propertyPath, false, "error", "", None, None, Some("tf.json support data file not found"))
    case InvalidJson =>
      SupportResult(resourceType, propertyPath, false, "error", "", None, None,
        Some("Failed to check resource support: Invalid JSON in tf.json support data file"))
    case Loaded(raw) =>
      var data := seq(|raw|, i requires 0 <= i < |raw| => FormatEntry(raw[i]));
      var matching := MatchingEntries(data, resourceType);
      if matching == [] then
        SupportResult(resourceType, propertyPath, false, "resource_not_found",
          "No Terraform AzureRM provider support found for resource type " + resourceType, None, None, None)
      else
        var (found, mappings) := PropertySupport(matching, propertyPath);
        SupportResult(resourceType, propertyPath, found && |mappings| > 0, "success",
          if found then FoundMessage(propertyPath, mappings)
          else "Property path '" + propertyPath + "' not found in " + resourceType + " API definition",
          if found && mappings != [] then Some(mappings) else None,
          Some(|matching|), None)
  }

  /**
   * The verdict: no matching entry means `resource_not_found` and unsupported; otherwise
   * supported iff the property is found with at least one mapping, with the number of
   * matching entries reported.
   */
  lemma SupportVerdict(resourceType: string, propertyPath: string, raw: seq<Entry>)
    ensures var data := seq(|raw|, i requires 0 <= i < |raw| => FormatEntry(raw[i]));
      var matching := MatchingEntries(data, resourceType);
      var r := SupportOf(resourceType, propertyPath, Loaded(raw));
      && (matching == [] ==> !r.isSupported && r.status == "resource_not_found" && r.apiEntriesFound.None?)
      && (matching != [] ==>
            && r.status == "success" && r.apiEntriesFound == Some(|matching|)
            && (r.isSupported <==> PropertySupport(matching, propertyPath).0 && PropertySupport(matching, propertyPath).1 != []))
      && (r.isSupported ==> r.azurermMappings.Some? && r.azurermMappings.value != [])
  {
  }

  /** `check_azurerm_resource_support`: load and normalise the table, then look up. */
  method CheckAzurermResourceSupport(resourceType: string, propertyPath: string, load: Load) returns (r: SupportResult)
    ensures r == SupportOf(resourceType, propertyPath, load)
  {
    if load.FileMissing? || load.InvalidJson? {
      return SupportOf(resourceType, propertyPath, load);
    }
    var raw := load.data;
    var data := new Entry[|raw|](i requires 0 <= i < |raw| => raw[i]);
    LoadSupportData(data);
    assert data[..] == seq(|raw|, i requires 0 <= i < |raw| => FormatEntry(raw[i]));
    var matching := FindMatchingEntries(data[..], resourceType);
    if matching == [] {
      return SupportResult(resourceType, propertyPath, false, "resource_not_found",
        "No Terraform AzureRM provider support found for resource type " + resourceType, None, None, None);
    }
    var found, mappings := CheckPropertySupport(matching, propertyPath);
    var message := if found then FoundMessage(propertyPath, mappings)
      else "Property path '" + propertyPath + "' not found in " + resourceType + " API definition";
    r := SupportResult(resourceType, propertyPath, found && |mappings| > 0, "success", message,
      if found && mappings != [] then Some(mappings) else None, Some(|matching|), None);
  }
}

=== FILE: terraform_executor.dfy ===
/**
 * The pure parts of the Terraform executor: cleaning command output, parsing
 * Terraform's error output, building the argument lists of each command, shaping a
 * command's result, dispatching a command run on HCL content, and unwrapping
 * `terraform output -json`. Running Terraform itself is a parameter.
 */
module TerraformExecutor {
  import opened Wrappers
  import opened Text
  import opened Json
  import Utils
  import Assoc

  // ---------------------------------------------------------------------------
  // Output cleaning
  // ---------------------------------------------------------------------------

  /** The characters of `[\x00-\x08\x0B-\x0C\x0E-\x1F\x7F-\x9F]`: C0 and C1 controls but TAB, LF and CR. */
  predicate IsControl(c: char) {
    || c <= '\U{0008}'
    || ('\U{000B}' <= c <= '\U{000C}')
    || ('\U{000E}' <= c <= '\U{001F}')
    || ('\U{007F}' <= c <= '\U{009F}')
  }

  /** `control_chars.sub('', s)` */
  function RemoveControls(s: string): (r: string)
    ensures forall c :: c in r ==> c in s && !IsControl(c)
    ensures (forall c :: c in s ==> !IsControl(c)) ==> r == s
  {
    if s == [] then []
    else
      assert forall c :: c in s[1..] ==> c in s;
      (if IsControl(s[0]) then [] else [s[0]]) + RemoveControls(s[1..])
  }

  /** The HTML entities, in the order they are replaced. */
  const HtmlEntities: seq<(string, string)> :=
    [("-&gt;", "->"), ("&lt;", "<"), ("&gt;", ">"), ("&amp;", "&")]

  /** The box-drawing and other characters given ASCII stand-ins, in the order they are replaced. */
  const BoxDrawing: seq<(char, char)> :=
    [('─', '-'), ('│', '|'), ('└', '+'), ('┘', '+'), ('║', '|'),
     ('═', '-'), ('╔', '+'), ('╗', '+'), ('╚', '+'), ('╝', '+'),
     ('╬', '+'), ('█', '#'), ('●', '*'), ('╴', '-'), ('╶', '-'),
     ('╷', '|'), ('╵', '|')]

  predicate NonEmptyPatterns(table: seq<(string, string)>) {
    forall i :: 0 <= i < |table| ==> |table[i].0| > 0
  }

  /** `text = text.replace(a, b)` for each pair of `table` in turn. */
  function ReplaceAll(s: string, table: seq<(string, string)>): string
    requires NonEmptyPatterns(table)
  {
    if table == [] then s
    else Replace(ReplaceAll(s, table[..|table| - 1]), table[|table| - 1].0, table[|table| - 1].1)
  }

  /** Every character left after the replacements was in the text or in a replacement. */
  lemma {:induction false} ReplaceAllChars(s: string, table: seq<(string, string)>)
    requires NonEmptyPatterns(table)
    ensures forall c :: c in ReplaceAll(s, table) ==> c in s || exists i :: 0 <= i < |table| && c in table[i].1
  {
    if table != [] {
      var init := table[..|table| - 1];
      assert forall i :: 0 <= i < |init| ==> init[i] == table[i];
      ReplaceAllChars(s, init);
      var last := table[|table| - 1];
      ReplaceChars(ReplaceAll(s, init), last.0, last.1);
    }
  }

  /** `text = text.replace(a, b)` for each one-character pair of `table` in turn. */
  function MapChars(s: string, table: seq<(char, char)>): (r: string)
    ensures |r| == |s|
    ensures forall c :: c in r ==> c in s || exists i :: 0 <= i < |table| && c == table[i].1
  {
    if table == [] then s
    else
      var init := table[..|table| - 1];
      var mid := MapChars(s, init);
      var last := table[|table| - 1];
      var r := ReplaceChar(mid, last.0, last.1);
      assert forall c :: c in r ==> c in mid || c == last.1 by {
        forall c | c in r
          ensures c in mid || c == last.1
        {
          var k :| 0 <= k < |r| && r[k] == c;
        }
      }
      assert forall i :: 0 <= i < |init| ==> init[i] == table[i];
      r
  }

  /** `_clean_output_text`: ANSI sequences, then control characters, then entities, then box drawing. */
  function CleanOutputText(text: string): string {
    if text == "" then text
    else MapChars(ReplaceAll(RemoveControls(Utils.StripAnsi(text)), HtmlEntities), BoxDrawing)
  }

  method CleanOutput(text: string) returns (cleaned: string)
    ensures cleaned == CleanOutputText(text)
  {
    if text == "" {
      return text;
    }
    cleaned := RemoveControls(Utils.StripAnsi(text));
    var i := 0;
    while i < |HtmlEntities|
      invariant 0 <= i <= |HtmlEntities|
      invariant cleaned == ReplaceAll(RemoveControls(Utils.StripAnsi(text)), HtmlEntities[..i])
    {
      assert HtmlEntities[..i + 1][..i] == HtmlEntities[..i];
      cleaned := Replace(cleaned, HtmlEntities[i].0, HtmlEntities[i].1);
      i := i + 1;
    }
    assert HtmlEntities[..|HtmlEntities|] == HtmlEntities;
    ghost var entitiesDone := cleaned;
    var j := 0;
    while j < |BoxDrawing|
      invariant 0 <= j <= |BoxDrawing|
      invariant cleaned == MapChars(entitiesDone, BoxDrawing[..j])
    {
      assert BoxDrawing[..j + 1][..j] == BoxDrawing[..j];
      cleaned := ReplaceChar(cleaned, BoxDrawing[j].0, BoxDrawing[j].1);
      j := j + 1;
    }
    assert BoxDrawing[..|BoxDrawing|] == BoxDrawing;
  }

  /**
   * After the replacements no pattern character is left, when every replacement lies
   * below `bound` and every pattern at or above it.
   */
  lemma {:induction false} MapCharsRemoves(s: string, table: seq<(char, char)>, bound: char)
    requires forall i :: 0 <= i < |table| ==> table[i].1 < bound <= table[i].0
    ensures forall i :: 0 <= i < |table| ==> table[i].0 !in MapChars(s, table)
  {
    if table != [] {
      var init := table[..|table| - 1];
      assert forall i :: 0 <= i < |init| ==> init[i] == table[i];
      MapCharsRemoves(s, init, bound);
      var mid := MapChars(s, init);
      var last := table[|table| - 1];
      var r := MapChars(s, table);
      forall i | 0 <= i < |table|
        ensures table[i].0 !in r
      {
        forall k | 0 <= k < |r|
          ensures r[k] != table[i].0
        {
          if i < |init| {
            assert mid[k] in mid;
          }
        }
      }
    }
  }

  /** Cleaned output holds no control character but TAB, LF and CR, and none of the box-drawing characters. */
  lemma CleanOutputIsPlain(text: string)
    ensures forall c :: c in CleanOutputText(text) ==> !IsControl(c)
    ensures forall i :: 0 <= i < |BoxDrawing| ==> BoxDrawing[i].0 !in CleanOutputText(text)
  {
    if text != "" {
      var controlsGone := RemoveControls(Utils.StripAnsi(text));
      var entities := ReplaceAll(controlsGone, HtmlEntities);
      assert forall c :: c in entities ==> !IsControl(c) by {
        ReplaceAllChars(controlsGone, HtmlEntities);
        forall c | c in entities
          ensures !IsControl(c)
        {
          if c !in controlsGone {
            var i :| 0 <= i < |HtmlEntities| && c in HtmlEntities[i].1;
          }
        }
      }
      assert forall c :: c in MapChars(entities, BoxDrawing) ==> !IsControl(c) by {
        forall c | c in MapChars(entities, BoxDrawing)
          ensures !IsControl(c)
        {
          if c !in entities {
            var i :| 0 <= i < |BoxDrawing| && c == BoxDrawing[i].1;
          }
        }
      }
      BoxDrawingIsAboveAscii();
      MapCharsRemoves(entities, BoxDrawing, '\U{0080}');
    }
  }

  /** Every box-drawing character lies above ASCII and every stand-in within it. */
  lemma BoxDrawingIsAboveAscii()
    ensures forall i :: 0 <= i < |BoxDrawing| ==> BoxDrawing[i].1 < '\U{0080}' <= BoxDrawing[i].0
  {
  }

  lemma ReplaceAllStep(s: string, table: seq<(string, string)>, k: nat)
    requires NonEmptyPatterns(table) && k < |table|
    ensures ReplaceAll(s, table[..k + 1]) == Replace(ReplaceAll(s, table[..k]), table[k].0, table[k].1)
  {
    assert table[..k + 1][..k] == table[..k];
  }

  /** A pattern holding a character the text lacks is never replaced. */
  lemma {:induction false} ReplaceAbsent(s: string, a: string, b: string, c: char)
    requires |a| > 0 && c in a && c !in s
    ensures Replace(s, a, b) == s
    decreases |s|
  {
    if |s| >= |a| {
      assert !IsPrefix(a, s) by {
        assert forall x :: x in s[..|a|] ==> x in s;
      }
      assert c !in s[1..] by {
        assert forall x :: x in s[1..] ==> x in s;
      }
      ReplaceAbsent(s[1..], a, b, c);
      assert [s[0]] + s[1..] == s;
    }
  }

  /** `&amp;lt;` holds no `&lt;`: its only `&` is followed by `a`. */
  lemma NoLtEntity(s: string)
    requires s == "&amp;lt;"
    ensures Replace(s, "&lt;", "<") == s
  {
    assert !IsPrefix("&lt;", s) by { assert s[1] == 'a'; }
    ReplaceAbsent(s[1..], "&lt;", "<", '&');
    assert [s[0]] + s[1..] == s;
  }

  lemma AmpEntity(s: string)
    requires s == "&amp;lt;"
    ensures Replace(s, "&amp;", "&") == "&lt;"
  {
    assert IsPrefix("&amp;", s) && s[5..] == "lt;";
  }

  /** None of the first three entities occurs in `&amp;lt;`. */
  lemma {:induction false} FirstEntitiesAbsent(s: string, k: nat)
    requires s == "&amp;lt;" && k <= 3
    ensures ReplaceAll(s, HtmlEntities[..k]) == s
  {
    if k == 0 {
      assert HtmlEntities[..0] == [];
    } else {
      FirstEntitiesAbsent(s, k - 1);
      ReplaceAllStep(s, HtmlEntities, k - 1);
      if k == 1 {
        ReplaceAbsent(s, "-&gt;", "->", '-');
      } else if k == 2 {
        NoLtEntity(s);
      } else {
        ReplaceAbsent(s, "&gt;", ">", 'g');
      }
    }
  }

  /** The entities are replaced in one pass in a fixed order, so `&amp;lt;` ends as `&lt;`. */
  lemma EntitiesReplacedOnce(s: string)
    requires s == "&amp;lt;"
    ensures ReplaceAll(s, HtmlEntities) == "&lt;"
  {
    FirstEntitiesAbsent(s, 3);
    ReplaceAllStep(s, HtmlEntities, 3);
    AmpEntity(s);
    assert HtmlEntities[..4] == HtmlEntities;
  }

  // ---------------------------------------------------------------------------
  // Error parsing
  // ---------------------------------------------------------------------------

  /**
   * `json.loads` on one stderr line: the members of the decoded object, or `None` when
   * the line is not valid JSON. A line starting with `{` that decodes is an object.
   */
  type ObjectDecoder = string -> Option<seq<(string, Json)>>

  /** The JSON pass: the messages collected, and whether some line failed to decode. */
  datatype JsonScan = JsonScan(errors: seq<string>, failed: bool)

  /** `error_data.get('@message', 'Unknown error')`, as the string it is appended as. */
  function MessageOf(fields: seq<(string, Json)>): string {
    Str(Assoc.Lookup(fields, "@message").GetOr(JStr("Unknown error")))
  }

  predicate IsErrorRecord(fields: seq<(string, Json)>) {
    Assoc.Lookup(fields, "@level") == Some(JStr("error"))
  }

  /** One line of the JSON pass; after a decoding failure nothing more is read. */
  function JsonStep(acc: JsonScan, line: string, decode: ObjectDecoder): JsonScan {
    if acc.failed || !IsPrefix("{", line) then acc
    else match decode(line)
      case None => JsonScan(acc.errors, true)
      case Some(fields) => if IsErrorRecord(fields) then JsonScan(acc.errors + [MessageOf(fields)], false) else acc
  }

  function JsonPass(lines: seq<string>, decode: ObjectDecoder): (r: JsonScan)
    ensures |r.errors| <= |lines|
    ensures r.failed <==> exists i :: 0 <= i < |lines| && IsPrefix("{", lines[i]) && decode(lines[i]).None?
  {
    if lines == [] then JsonScan([], false)
    else
      var init := lines[..|lines| - 1];
      var r := JsonStep(JsonPass(init, decode), lines[|lines| - 1], decode);
      assert forall i :: 0 <= i < |init| ==> init[i] == lines[i];
      r
  }

  /** Lines that do not start with `{` contribute nothing to the JSON pass. */
  lemma {:induction false} JsonPassPlainText(lines: seq<string>, decode: ObjectDecoder)
    requires forall i :: 0 <= i < |lines| ==> !IsPrefix("{", lines[i])
    ensures JsonPass(lines, decode) == JsonScan([], false)
  {
    if lines != [] {
      var init := lines[..|lines| - 1];
      assert forall i :: 0 <= i < |init| ==> init[i] == lines[i];
      JsonPassPlainText(init, decode);
    }
  }

  const OpenMarker: string := "╷"
  const CloseMarker: string := "╵"

  /** The text pass: the finished error blocks and the block being collected. */
  datatype TextScan = TextScan(blocks: seq<seq<string>>, current: seq<string>)

  function Flush(acc: TextScan): seq<seq<string>> {
    if acc.current != [] then acc.blocks + [acc.current] else acc.blocks
  }

  predicate StartsBlock(line: string) {
    IsPrefix("Error:", line) || IsPrefix(OpenMarker, line)
  }

  /**
   * One stripped line of the text pass, as written: the closing-marker branch comes
   * after the branch that appends every other non-empty line, so it never fires.
   */
  function TextStepAsWritten(acc: TextScan, line: string): TextScan {
    if StartsBlock(line) then TextScan(Flush(acc), if IsPrefix(OpenMarker, line) then [] else [line])
    else if line != "" && acc.current != [] then TextScan(acc.blocks, acc.current + [line])
    else if IsPrefix(CloseMarker, line) && acc.current != [] then TextScan(acc.blocks + [acc.current], [])
    else acc
  }

  /** One stripped line of the text pass, with the closing marker ending the block. */
  function TextStep(acc: TextScan, line: string): TextScan {
    if StartsBlock(line) then TextScan(Flush(acc), if IsPrefix(OpenMarker, line) then [] else [line])
    else if IsPrefix(CloseMarker, line) && acc.current != [] then TextScan(acc.blocks + [acc.current], [])
    else if line != "" && acc.current != [] then TextScan(acc.blocks, acc.current + [line])
    else acc
  }

  /** A block opens with an `Error:` line and holds no closing marker. */
  predicate WellFormedBlock(block: seq<string>) {
    && block != []
    && IsPrefix("Error:", block[0])
    && forall k :: 0 <= k < |block| ==> !IsPrefix(CloseMarker, block[k])
  }

  predicate WellFormedScan(acc: TextScan) {
    && (forall b :: b in acc.blocks ==> WellFormedBlock(b))
    && (acc.current == [] || WellFormedBlock(acc.current))
  }

  /** "Error:" and the closing marker differ in their first character. */
  lemma ErrorLineIsNotClosing(line: string)
    requires IsPrefix("Error:", line)
    ensures !IsPrefix(CloseMarker, line)
  {
    assert line[0] == 'E';
  }

  function TextPassAsWritten(lines: seq<string>): TextScan {
    if lines == [] then TextScan([], [])
    else TextStepAsWritten(TextPassAsWritten(lines[..|lines| - 1]), Strip(lines[|lines| - 1]))
  }

  function TextPass(lines: seq<string>): (r: TextScan)
    ensures WellFormedScan(r)
  {
    if lines == [] then TextScan([], [])
    else
      var acc := TextPass(lines[..|lines| - 1]);
      var line := Strip(lines[|lines| - 1]);
      if IsPrefix("Error:", line) then
        ErrorLineIsNotClosing(line);
        TextStep(acc, line)
      else TextStep(acc, line)
  }

  /** Every error block of the text pass opens with `Error:` and holds no closing marker. */
  function TextBlocks(lines: seq<string>): (blocks: seq<seq<string>>)
    ensures forall b :: b in blocks ==> WellFormedBlock(b)
  {
    Flush(TextPass(lines))
  }

  function TextBlocksAsWritten(lines: seq<string>): seq<seq<string>> {
    Flush(TextPassAsWritten(lines))
  }

  /** A lone `Error:` line opens a block holding just that line, in both versions of the pass. */
  lemma ErrorLineOpensBlock(err: string)
    requires IsPrefix("Error:", err) && Strip(err) == err
    ensures TextPassAsWritten([err]) == TextPass([err]) == TextScan([], [err])
  {
    assert [err][..0] == [];
    assert !IsPrefix(OpenMarker, err) by {
      assert err[0] == 'E';
    }
  }

  /** The closing marker survives stripping and does not open a block. */
  lemma CloseMarkerLine(close: string)
    requires close == CloseMarker
    ensures Strip(close) == close && !StartsBlock(close) && IsPrefix(CloseMarker, close) && close != ""
  {
    assert Strip(close) == close by {
      assert close[0] == close[|close| - 1] == '╵';
    }
    assert !IsPrefix("Error:", close) by {
      assert close[0] != 'E';
    }
    assert !IsPrefix(OpenMarker, close) by {
      assert close[0] != '╷';
    }
  }

  /** As written, the closing marker is kept as the last line of its error block. */
  lemma ClosingMarkerKeptAsWritten(err: string, close: string)
    requires IsPrefix("Error:", err) && Strip(err) == err && close == CloseMarker
    ensures TextBlocksAsWritten([err, close]) == [[err, close]]
  {
    ErrorLineOpensBlock(err);
    CloseMarkerLine(close);
    assert [err, close][..1] == [err];
    assert TextPassAsWritten([err, close]) == TextScan([], [err, close]);
  }

  /** With the closing branch tested first, the marker ends the block and is not part of it. */
  lemma ClosingMarkerEndsBlock(err: string, close: string)
    requires IsPrefix("Error:", err) && Strip(err) == err && close == CloseMarker
    ensures TextBlocks([err, close]) == [[err]]
  {
    ErrorLineOpensBlock(err);
    CloseMarkerLine(close);
    assert [err, close][..1] == [err];
    assert TextPass([err, close]) == TextScan([[err]], []);
  }

  function JoinBlocks(blocks: seq<seq<string>>): (r: seq<string>)
    ensures |r| == |blocks|
  {
    seq(|blocks|, i requires 0 <= i < |blocks| => Join(blocks[i], "\n"))
  }

  /**
   * `_parse_terraform_errors`: the messages of the error records; when a `{` line fails
   * to decode, the messages found before it followed by the text pass over all lines;
   * when nothing was found, the stripped stderr itself.
   */
  function TerraformErrors(stderr: string, decode: ObjectDecoder): (errors: seq<string>)
    ensures stderr == "" ==> errors == []
    ensures Strip(stderr) != "" ==> errors != []
  {
    if stderr == "" then []
    else
      var lines := Split(Strip(stderr), '\n');
      var scan := JsonPass(lines, decode);
      var found := if scan.failed then scan.errors + JoinBlocks(TextBlocks(lines)) else scan.errors;
      if found == [] && Strip(stderr) != "" then [Strip(stderr)] else found
  }

  /** With no line starting with `{`, the result is exactly the stripped stderr. */
  lemma PlainStderrIsOneError(stderr: string, decode: ObjectDecoder)
    requires Strip(stderr) != ""
    requires forall l :: l in Split(Strip(stderr), '\n') ==> !IsPrefix("{", l)
    ensures TerraformErrors(stderr, decode) == [Strip(stderr)]
  {
    JsonPassPlainText(Split(Strip(stderr), '\n'), decode);
  }

  /** When every `{` line decodes, the text pass never runs: the errors are the records' messages. */
  lemma DecodedLinesGiveMessages(stderr: string, decode: ObjectDecoder)
    requires Strip(stderr) != ""
    requires forall l :: l in Split(Strip(stderr), '\n') && IsPrefix("{", l) ==> decode(l).Some?
    ensures var scan := JsonPass(Split(Strip(stderr), '\n'), decode);
      !scan.failed && TerraformErrors(stderr, decode) == (if scan.errors == [] then [Strip(stderr)] else scan.errors)
  {
    var lines := Split(Strip(stderr), '\n');
    forall i | 0 <= i < |lines| && IsPrefix("{", lines[i])
      ensures decode(lines[i]).Some?
    {
      assert lines[i] in lines;
    }
  }

  /** The JSON pass of `_parse_terraform_errors`: the loop that the first decoding failure leaves. */
  method ScanJsonLines(lines: seq<string>, decode: ObjectDecoder) returns (scan: JsonScan)
    ensures scan == JsonPass(lines, decode)
  {
    scan := JsonScan([], false);
    var i := 0;
    while i < |lines| && !scan.failed
      invariant 0 <= i <= |lines|
      invariant scan == JsonPass(lines[..i], decode)
    {
      assert lines[..i + 1][..i] == lines[..i];
      scan := JsonStep(scan, lines[i], decode);
      i := i + 1;
    }
    if scan.failed {
      JsonPassStaysFailed(lines, i, decode);
    } else {
      assert lines[..i] == lines;
    }
  }

  /** `_parse_terraform_errors`, proved equal to its specification. */
  method ParseTerraformErrors(stderr: string, decode: ObjectDecoder) returns (errors: seq<string>)
    ensures errors == TerraformErrors(stderr, decode)
  {
    if stderr == "" {
      return [];
    }
    var lines := Split(Strip(stderr), '\n');
    var scan := ScanJsonLines(lines, decode);
    errors := scan.errors;
    if scan.failed {
      var blocks := ParseTextBlocks(lines);
      errors := AppendJoined(errors, blocks);
    }
    if errors == [] && Strip(stderr) != "" {
      errors := [Strip(stderr)];
    }
  }

  /** Appends each error block, its lines joined by newlines. */
  method AppendJoined(errors: seq<string>, blocks: seq<seq<string>>) returns (r: seq<string>)
    ensures r == errors + JoinBlocks(blocks)
  {
    r := errors;
    var k := 0;
    while k < |blocks|
      invariant 0 <= k <= |blocks|
      invariant r == errors + JoinBlocks(blocks)[..k]
    {
      assert JoinBlocks(blocks)[..k + 1] == JoinBlocks(blocks)[..k] + [Join(blocks[k], "\n")];
      r := r + [Join(blocks[k], "\n")];
      k := k + 1;
    }
    assert JoinBlocks(blocks)[..|blocks|] == JoinBlocks(blocks);
  }

  /** Once a line has failed to decode, the JSON pass over the remaining lines changes nothing. */
  lemma {:induction false} JsonPassStaysFailed(lines: seq<string>, i: nat, decode: ObjectDecoder)
    requires i <= |lines| && JsonPass(lines[..i], decode).failed
    ensures JsonPass(lines, decode) == JsonPass(lines[..i], decode)
    decreases |lines| - i
  {
    if i < |lines| {
      assert lines[..i + 1][..i] == lines[..i];
      JsonPassStaysFailed(lines, i + 1, decode);
    } else {
      assert lines[..i] == lines;
    }
  }

  /** The text pass: a loop with the `current_error` accumulator. */
  method ParseTextBlocks(lines: seq<string>) returns (blocks: seq<seq<string>>)
    ensures blocks == TextBlocks(lines)
  {
    var acc := TextScan([], []);
    var i := 0;
    while i < |lines|
      invariant 0 <= i <= |lines|
      invariant acc == TextPass(lines[..i])
    {
      assert lines[..i + 1][..i] == lines[..i];
      var line := Strip(lines[i]);
      if StartsBlock(line) {
        if acc.current != [] {
          acc := TextScan(acc.blocks + [acc.current], []);
        }
        if !IsPrefix(OpenMarker, line) {
          acc := acc.(current := [line]);
        }
      } else if IsPrefix(CloseMarker, line) && acc.current != [] {
        acc := TextScan(acc.blocks + [acc.current], []);
      } else if line != "" && acc.current != [] {
        acc := acc.(current := acc.current + [line]);
      }
      i := i + 1;
    }
    assert lines[..|lines|] == lines;
    blocks := Flush(acc);
  }

  // ---------------------------------------------------------------------------
  // Argument lists
  // ---------------------------------------------------------------------------
  // An optional argument that Python tests for truthiness is a string here, with ""
  // standing for both `None` and the empty string.

  /** `plan_terraform`'s arguments: fixed flags, then the `-var-file` pair iff a file is given. */
  function PlanArgs(varFile: string): (cmd: seq<string>)
    ensures |cmd| == if varFile != "" then 5 else 3
    ensures cmd[..3] == ["plan", "-no-color", "-detailed-exitcode"]
    ensures varFile != "" ==> cmd[3..] == ["-var-file", varFile]
  {
    ["plan", "-no-color", "-detailed-exitcode"] + (if varFile != "" then ["-var-file", varFile] else [])
  }

  /** `init_terraform`'s arguments: `-upgrade` is present iff requested. */
  function InitArgs(upgrade: bool): (cmd: seq<string>)
    ensures |cmd| == if upgrade then 3 else 2
    ensures cmd[..2] == ["init", "-no-color"]
    ensures "-upgrade" in cmd <==> upgrade
  {
    ["init", "-no-color"] + (if upgrade then ["-upgrade"] else [])
  }

  /**
   * `apply_terraform` and `destroy_terraform`, which differ only in the verb: the third
   * argument is `-auto-approve` iff the flag is set, and the `-var-file` pair closes the
   * list iff a file is given.
   */
  function ApprovingArgs(verb: string, autoApprove: bool, varFile: string): (cmd: seq<string>)
    ensures |cmd| == 2 + (if autoApprove then 1 else 0) + (if varFile != "" then 2 else 0)
    ensures cmd[..2] == [verb, "-no-color"]
    ensures autoApprove <==> |cmd| > 2 && cmd[2] == "-auto-approve"
    ensures varFile != "" ==> cmd[|cmd| - 2..] == ["-var-file", varFile]
  {
    [verb, "-no-color"] + (if autoApprove then ["-auto-approve"] else [])
    + (if varFile != "" then ["-var-file", varFile] else [])
  }

  /** `refresh_terraform`'s arguments. */
  function RefreshArgs(varFile: string): (cmd: seq<string>)
    ensures |cmd| == if varFile != "" then 4 else 2
    ensures cmd[..2] == ["refresh", "-no-color"]
    ensures varFile != "" ==> cmd[2..] == ["-var-file", varFile]
  {
    ["refresh", "-no-color"] + (if varFile != "" then ["-var-file", varFile] else [])
  }

  /** `show_terraform`'s arguments: the state file, when given, comes last. */
  function ShowArgs(stateFile: string): (cmd: seq<string>)
    ensures |cmd| == if stateFile != "" then 3 else 2
    ensures cmd[..2] == ["show", "-no-color"]
    ensures stateFile != "" ==> cmd[2] == stateFile
  {
    ["show", "-no-color"] + (if stateFile != "" then [stateFile] else [])
  }

  /** `output_terraform`'s arguments: `-json` when asked for, then the output's name. */
  function OutputArgs(jsonFormat: bool, outputName: string): (cmd: seq<string>)
    ensures |cmd| == 2 + (if jsonFormat then 1 else 0) + (if outputName != "" then 1 else 0)
    ensures cmd[..2] == ["output", "-no-color"]
    ensures jsonFormat ==> cmd[2] == "-json"
    ensures outputName != "" ==> cmd[|cmd| - 1] == outputName
  {
    ["output", "-no-color"] + (if jsonFormat then ["-json"] else []) + (if outputName != "" then [outputName] else [])
  }

  /** `plan_terraform` builds its list by extending a fixed prefix. */
  method BuildPlanArgs(varFile: string) returns (cmd: seq<string>)
    ensures cmd == PlanArgs(varFile)
  {
    cmd := ["plan", "-no-color", "-detailed-exitcode"];
    if varFile != "" {
      cmd := cmd + ["-var-file", varFile];
    }
  }

  /** `init_terraform` appends `-upgrade`. */
  method BuildInitArgs(upgrade: bool) returns (cmd: seq<string>)
    ensures cmd == InitArgs(upgrade)
  {
    cmd := ["init", "-no-color"];
    if upgrade {
      cmd := cmd + ["-upgrade"];
    }
  }

  /** `apply_terraform` and `destroy_terraform` append their flags in order. */
  method BuildApprovingArgs(verb: string, autoApprove: bool, varFile: string) returns (cmd: seq<string>)
    ensures cmd == ApprovingArgs(verb, autoApprove, varFile)
  {
    cmd := [verb, "-no-color"];
    if autoApprove {
      cmd := cmd + ["-auto-approve"];
    }
    if varFile != "" {
      cmd := cmd + ["-var-file", varFile];
    }
  }

  method BuildRefreshArgs(varFile: string) returns (cmd: seq<string>)
    ensures cmd == RefreshArgs(varFile)
  {
    cmd := ["refresh", "-no-color"];
    if varFile != "" {
      cmd := cmd + ["-var-file", varFile];
    }
  }

  method BuildShowArgs(stateFile: string) returns (cmd: seq<string>)
    ensures cmd == ShowArgs(stateFile)
  {
    cmd := ["show", "-no-color"];
    if stateFile != "" {
      cmd := cmd + [stateFile];
    }
  }

  method BuildOutputArgs(jsonFormat: bool, outputName: string) returns (cmd: seq<string>)
    ensures cmd == OutputArgs(jsonFormat, outputName)
  {
    cmd := ["output", "-no-color"];
    if jsonFormat {
      cmd := cmd + ["-json"];
    }
    if outputName != "" {
      cmd := cmd + [outputName];
    }
  }

  // ---------------------------------------------------------------------------
  // Running a command
  // ---------------------------------------------------------------------------

  /** What the Terraform process gave back, or the message of the exception that starting it raised. */
  datatype ProcessOutcome = Exited(code: int, out: string, err: string) | Raised(message: string)

  /**
   * Running Terraform: the files written to the working directory (name and content) and
   * the arguments after `terraform` decide the outcome.
   */
  type Runner = (seq<(string, string)>, seq<string>) -> ProcessOutcome

  /** The `outputs` entry that `output_terraform` may add: absent, `None`, or the unwrapped outputs. */
  datatype Outputs = NotRequested | Unparsed | Parsed(values: seq<(string, Json)>)

  /** The result dictionary of a command run. */
  datatype CommandResult = CommandResult(
    exitCode: int, stdout: string, stderr: string, command: string, status: string, outputs: Outputs)

  /** The result of a run that never reached Terraform. */
  function ErrorResult(stderr: string, command: string): CommandResult {
    CommandResult(-1, "", stderr, command, "error", NotRequested)
  }

  /** `status` is `success` exactly when the exit code is 0. */
  predicate StatusAgrees(r: CommandResult) {
    r.status == "success" <==> r.exitCode == 0
  }

  /** `_run_terraform_command` on the process outcome. */
  function RunResult(cmd: seq<string>, outcome: ProcessOutcome, stripAnsi: bool): (r: CommandResult)
    ensures StatusAgrees(r)
    ensures r.command == Join(["terraform"] + cmd, " ")
    ensures r.outputs == NotRequested
    ensures outcome.Raised? ==> r.exitCode == -1 && r.stdout == "" && r.stderr == outcome.message
    ensures outcome.Exited? ==> r.exitCode == outcome.code
  {
    var command := Join(["terraform"] + cmd, " ");
    match outcome
    case Raised(message) => ErrorResult(message, command)
    case Exited(code, out, err) =>
      CommandResult(code,
        if stripAnsi then CleanOutputText(out) else out,
        if stripAnsi then CleanOutputText(err) else err,
        command, if code == 0 then "success" else "error", NotRequested)
  }

  /** A character that survives cleaning. */
  predicate Plain(c: char) {
    !IsControl(c) && forall i :: 0 <= i < |BoxDrawing| ==> c != BoxDrawing[i].0
  }

  /**
   * With cleaning requested, neither stream of a finished process holds a control or
   * box-drawing character (the message of an exception is passed through as it is).
   */
  lemma CleanedResultIsPlain(cmd: seq<string>, outcome: ProcessOutcome)
    requires outcome.Exited?
    ensures var r := RunResult(cmd, outcome, true);
      (forall c :: c in r.stdout ==> Plain(c)) && (forall c :: c in r.stderr ==> Plain(c))
  {
    CleanOutputIsPlain(outcome.out);
    CleanOutputIsPlain(outcome.err);
  }

  /** `_run_terraform_command`, cleaning both streams with the output cleaner. */
  method RunTerraformCommand(run: Runner, files: seq<(string, string)>, cmd: seq<string>, stripAnsi: bool)
    returns (r: CommandResult)
    ensures r == RunResult(cmd, run(files, cmd), stripAnsi)
  {
    var outcome := run(files, cmd);
    var command := Join(["terraform"] + cmd, " ");
    if outcome.Raised? {
      return ErrorResult(outcome.message, command);
    }
    var out, err := outcome.out, outcome.err;
    if stripAnsi {
      out := CleanOutput(out);
      err := CleanOutput(err);
    }
    r := CommandResult(outcome.code, out, err, command, if outcome.code == 0 then "success" else "error", NotRequested);
  }

  // ---------------------------------------------------------------------------
  // Output values
  // ---------------------------------------------------------------------------

  /** A `{"value": v, ...}` entry of `terraform output -json` becomes `v`; anything else stays. */
  function UnwrapOutput(v: Json): (r: Json)
    ensures v.JObj? && "value" in Assoc.Keys(v.fields) ==> Assoc.Lookup(v.fields, "value") == Some(r)
    ensures !(v.JObj? && "value" in Assoc.Keys(v.fields)) ==> r == v
  {
    if v.JObj? then
      match Assoc.Lookup(v.fields, "value")
      case Some(inner) => inner
      case None => v
    else v
  }

  /** `processed_outputs`, filled key by key in the order of the decoded outputs. */
  function UnwrapAll(raw: seq<(string, Json)>): seq<(string, Json)> {
    if raw == [] then []
    else Assoc.Upsert(UnwrapAll(raw[..|raw| - 1]), raw[|raw| - 1].0, UnwrapOutput(raw[|raw| - 1].1))
  }

  /** Decoded outputs keep their names and order; each value is unwrapped on its own. */
  lemma {:induction false} UnwrapAllPointwise(raw: seq<(string, Json)>)
    requires Assoc.UniqueKeys(raw)
    ensures |UnwrapAll(raw)| == |raw|
    ensures forall i :: 0 <= i < |raw| ==> UnwrapAll(raw)[i] == (raw[i].0, UnwrapOutput(raw[i].1))
  {
    if raw != [] {
      var init := raw[..|raw| - 1];
      var last := raw[|raw| - 1];
      assert Assoc.UniqueKeys(init);
      UnwrapAllPointwise(init);
      var prev := UnwrapAll(init);
      assert last.0 !in Assoc.Keys(prev) by {
        forall k | 0 <= k < |prev|
          ensures prev[k].0 != last.0
        {
          assert prev[k].0 == raw[k].0;
        }
      }
      assert UnwrapAll(raw) == prev + [(last.0, UnwrapOutput(last.1))];
    }
  }

  /** `output_terraform`'s loop over `raw_outputs.items()`. */
  method UnwrapOutputs(raw: seq<(string, Json)>) returns (processed: seq<(string, Json)>)
    ensures processed == UnwrapAll(raw)
  {
    processed := [];
    var i := 0;
    while i < |raw|
      invariant 0 <= i <= |raw|
      invariant processed == UnwrapAll(raw[..i])
    {
      assert raw[..i + 1][..i] == raw[..i];
      var value := raw[i].1;
      if value.JObj? && "value" in Assoc.Keys(value.fields) {
        processed := Assoc.Upsert(processed, raw[i].0, Assoc.Lookup(value.fields, "value").value);
      } else {
        processed := Assoc.Upsert(processed, raw[i].0, value);
      }
      i := i + 1;
    }
    assert raw[..|raw|] == raw;
  }

  /**
   * The `outputs` entry: added only for a successful `-json` run with output; `None` when
   * the output does not decode.
   */
  function WithOutputs(r: CommandResult, jsonFormat: bool, decode: ObjectDecoder): (res: CommandResult)
    ensures res.(outputs := r.outputs) == r
    ensures res.outputs != r.outputs ==> jsonFormat && r.exitCode == 0 && r.stdout != ""
    ensures jsonFormat && r.exitCode == 0 && r.stdout != "" ==>
      res.outputs == (if decode(r.stdout).Some? then Parsed(UnwrapAll(decode(r.stdout).value)) else Unparsed)
  {
    if jsonFormat && r.exitCode == 0 && r.stdout != "" then
      match decode(r.stdout)
      case None => r.(outputs := Unparsed)
      case Some(raw) => r.(outputs := Parsed(UnwrapAll(raw)))
    else r
  }

  /** `output_terraform` */
  method OutputTerraform(run: Runner, files: seq<(string, string)>, outputName: string, jsonFormat: bool,
                         stripAnsi: bool, decode: ObjectDecoder) returns (r: CommandResult)
    ensures var cmd := OutputArgs(jsonFormat, outputName);
      r == WithOutputs(RunResult(cmd, run(files, cmd), stripAnsi), jsonFormat, decode)
  {
    var cmd := BuildOutputArgs(jsonFormat, outputName);
    r := RunTerraformCommand(run, files, cmd, stripAnsi);
    if jsonFormat && r.exitCode == 0 && r.stdout != "" {
      var decoded := decode(r.stdout);
      if decoded.None? {
        r := r.(outputs := Unparsed);
      } else {
        var processed := UnwrapOutputs(decoded.value);
        r := r.(outputs := Parsed(processed));
      }
    }
  }

  // ---------------------------------------------------------------------------
  // Running a command on HCL content
  // ---------------------------------------------------------------------------

  /** The keyword arguments that `execute_with_hcl_content` passes on. */
  datatype HclOptions = HclOptions(upgrade: bool, autoApprove: bool, jsonFormat: bool, outputName: string)

  const SupportedCommands: set<string> := {"init", "plan", "apply", "destroy", "validate", "fmt", "show", "output"}

  /** The HCL written to disk: the fenced HCL of a Markdown answer when there is one, else the content. */
  function HclToWrite(hcl: string): (r: string)
    ensures r == hcl || r == Utils.ExtractedHcl(hcl)
    ensures Utils.ExtractedHcl(hcl) == "" ==> r == hcl
  {
    var extracted := Utils.ExtractedHcl(hcl);
    if extracted != "" then extracted else hcl
  }

  /** The working directory's files: `main.tf`, and `terraform.tfvars` iff variables were given. */
  function WorkFiles(hcl: string, varContent: string): (files: seq<(string, string)>)
    ensures |files| == if varContent != "" then 2 else 1
    ensures files[0] == ("main.tf", HclToWrite(hcl))
    ensures varContent != "" ==> files[1] == ("terraform.tfvars", varContent)
  {
    [("main.tf", HclToWrite(hcl))] + (if varContent != "" then [("terraform.tfvars", varContent)] else [])
  }

  /** The `-var-file` argument: the written variables file, or none. */
  function VarFileFor(varContent: string): string {
    if varContent != "" then "terraform.tfvars" else ""
  }

  /** `execute_with_hcl_content` */
  function ExecuteResult(command: string, hcl: string, varContent: string, stripAnsi: bool, opts: HclOptions,
                         run: Runner, decode: ObjectDecoder): (r: CommandResult)
    ensures StatusAgrees(r)
    ensures command !in SupportedCommands ==> r == ErrorResult("Unsupported command: " + command, "terraform " + command)
  {
    var files := WorkFiles(hcl, varContent);
    var varFile := VarFileFor(varContent);
    if command == "init" then RunResult(InitArgs(opts.upgrade), run(files, InitArgs(opts.upgrade)), stripAnsi)
    else if command == "plan" then RunResult(PlanArgs(varFile), run(files, PlanArgs(varFile)), stripAnsi)
    else if command == "apply" || command == "destroy" then
      var cmd := ApprovingArgs(command, opts.autoApprove, varFile);
      RunResult(cmd, run(files, cmd), stripAnsi)
    else if command == "validate" then
      var init := RunResult(InitArgs(false), run(files, InitArgs(false)), stripAnsi);
      if init.exitCode != 0 then init else RunResult(["validate"], run(files, ["validate"]), stripAnsi)
    else if command == "fmt" then RunResult(["fmt", "-check"], run(files, ["fmt", "-check"]), stripAnsi)
    else if command == "show" then RunResult(ShowArgs(""), run(files, ShowArgs("")), stripAnsi)
    else if command == "output" then
      var cmd := OutputArgs(opts.jsonFormat, opts.outputName);
      WithOutputs(RunResult(cmd, run(files, cmd), stripAnsi), opts.jsonFormat, decode)
    else ErrorResult("Unsupported command: " + command, "terraform " + command)
  }

  /** `validate` runs `init` first and stops with its result when it fails. */
  lemma ValidateInitsFirst(hcl: string, varContent: string, stripAnsi: bool, opts: HclOptions,
                           run: Runner, decode: ObjectDecoder)
    ensures var files := WorkFiles(hcl, varContent);
      var init := RunResult(InitArgs(false), run(files, InitArgs(false)), stripAnsi);
      var r := ExecuteResult("validate", hcl, varContent, stripAnsi, opts, run, decode);
      if init.exitCode != 0 then r == init
      else r.command == Join(["terraform", "validate"], " ")
  {
    assert ["terraform"] + ["validate"] == ["terraform", "validate"];
  }

  /** `plan`, `apply` and `destroy` pass `-var-file terraform.tfvars` iff variables were given. */
  lemma VarFileIffVariables(command: string, hcl: string, varContent: string, stripAnsi: bool, opts: HclOptions,
                            run: Runner, decode: ObjectDecoder)
    requires command in {"plan", "apply", "destroy"}
    ensures var r := ExecuteResult(command, hcl, varContent, stripAnsi, opts, run, decode);
      var cmd := if command == "plan" then PlanArgs(VarFileFor(varContent))
                 else ApprovingArgs(command, opts.autoApprove, VarFileFor(varContent));
      && r.command == Join(["terraform"] + cmd, " ")
      && (varContent != "" <==> cmd[|cmd| - 2..] == ["-var-file", "terraform.tfvars"])
  {
    var cmd := if command == "plan" then PlanArgs(VarFileFor(varContent))
               else ApprovingArgs(command, opts.autoApprove, VarFileFor(varContent));
    if varContent == "" {
      assert cmd[|cmd| - 2] != "-var-file" by {
        if command == "plan" {
          assert cmd[|cmd| - 2] == "-no-color";
        } else if opts.autoApprove {
          assert cmd[|cmd| - 2] == "-no-color";
        } else {
          assert cmd[|cmd| - 2] == command;
        }
      }
    }
  }

  /** `execute_with_hcl_content`, through the command runner and the argument builders. */
  method ExecuteWithHclContent(command: string, hcl: string, varContent: string, stripAnsi: bool, opts: HclOptions,
                               run: Runner, decode: ObjectDecoder) returns (r: CommandResult)
    ensures r == ExecuteResult(command, hcl, varContent, stripAnsi, opts, run, decode)
  {
    var hclContent := hcl;
    var extracted := Utils.ExtractHclFromMarkdown(hcl);
    if extracted != "" {
      hclContent := extracted;
    }
    var files := [("main.tf", hclContent)];
    var varFile := "";
    if varContent != "" {
      files := files + [("terraform.tfvars", varContent)];
      varFile := "terraform.tfvars";
    }
    assert files == WorkFiles(hcl, varContent) && varFile == VarFileFor(varContent);
    if command == "init" {
      var cmd := BuildInitArgs(opts.upgrade);
      r := RunTerraformCommand(run, files, cmd, stripAnsi);
    } else if command == "plan" {
      var cmd := BuildPlanArgs(varFile);
      r := RunTerraformCommand(run, files, cmd, stripAnsi);
    } else if command == "apply" || command == "destroy" {
      var cmd := BuildApprovingArgs(command, opts.autoApprove, varFile);
      r := RunTerraformCommand(run, files, cmd, stripAnsi);
    } else if command == "validate" {
      var cmd := BuildInitArgs(false);
      r := RunTerraformCommand(run, files, cmd, stripAnsi);
      if r.exitCode == 0 {
        r := RunTerraformCommand(run, files, ["validate"], stripAnsi);
      }
    } else if command == "fmt" {
      r := RunTerraformCommand(run, files, ["fmt", "-check"], stripAnsi);
    } else if command == "show" {
      var cmd := BuildShowArgs("");
      r := RunTerraformCommand(run, files, cmd, stripAnsi);
    } else if command == "output" {
      r := OutputTerraform(run, files, opts.outputName, opts.jsonFormat, stripAnsi, decode);
    } else {
      r := ErrorResult("Unsupported command: " + command, "terraform " + command);
    }
  }

  // ---------------------------------------------------------------------------
  // Validation
  // ---------------------------------------------------------------------------

  datatype ValidationResult = ValidationResult(isValid: bool, errors: seq<string>, filePath: string)

  /**
   * `validate_hcl`: blank content is refused without running Terraform; otherwise the
   * HCL is written to `fileName` in `tempDir` and `terraform validate` decides, its stderr
   * parsed into errors. `stripAnsi` says whether the runner cleans the output.
   */
  function Validation(hcl: string, fileName: string, tempDir: string, stripAnsi: bool,
                      run: Runner, decode: ObjectDecoder): (v: ValidationResult)
    ensures Strip(hcl) == "" ==> v == ValidationResult(false, ["Empty HCL content provided"], fileName)
    ensures Strip(hcl) != "" ==>
      var r := RunResult(["validate"], run([(fileName, HclToWrite(hcl))], ["validate"]), stripAnsi);
      && v.filePath == tempDir + "/" + fileName
      && (v.isValid <==> r.exitCode == 0)
      && v.errors == (if v.isValid then [] else TerraformErrors(r.stderr, decode))
  {
    if Strip(hcl) == "" then ValidationResult(false, ["Empty HCL content provided"], fileName)
    else
      var r := RunResult(["validate"], run([(fileName, HclToWrite(hcl))], ["validate"]), stripAnsi);
      var path := tempDir + "/" + fileName;
      if r.exitCode == 0 then ValidationResult(true, [], path)
      else ValidationResult(false, TerraformErrors(r.stderr, decode), path)
  }

  /** A blank answer is never valid, whatever Terraform would say. */
  lemma BlankHclNeverRuns(hcl: string, fileName: string, tempDir: string, stripAnsi: bool,
                          run1: Runner, run2: Runner, decode: ObjectDecoder)
    requires Strip(hcl) == ""
    ensures Validation(hcl, fileName, tempDir, stripAnsi, run1, decode)
         == Validation(hcl, fileName, tempDir, stripAnsi, run2, decode)
    ensures !Validation(hcl, fileName, tempDir, stripAnsi, run1, decode).isValid
  {
  }
}

=== FILE: terraform_schema_provider.dfy ===
/**
 * Querying Terraform provider schemas: the provider name guessed from a resource type,
 * the throw-away configuration written before `terraform providers schema -json`, and
 * the extraction of one schema, one dotted path inside it, or the names of a category.
 * Running Terraform and decoding its output are a parameter.
 */
module TerraformSchemaProvider {
  import opened Wrappers
  import opened Text
  import opened Json
  import Assoc

  /** `_infer_provider_name`: the text before the first `_`, or "unknown" without one. */
  function InferProviderName(resourceType: string): (name: string)
    ensures '_' in resourceType ==> IsPrefix(name + "_", resourceType) && '_' !in name
    ensures '_' !in resourceType ==> name == "unknown"
  {
    if '_' in resourceType then
      var first := Split(resourceType, '_')[0];
      SplitFirst(resourceType, '_');
      assert |first| < |resourceType|;
      assert resourceType[..|first| + 1] == first + "_";
      first
    else "unknown"
  }

  /** A provider name followed by `_` and anything is read back. */
  lemma InferProviderNameOf(provider: string, rest: string)
    requires '_' !in provider
    ensures InferProviderName(provider + "_" + rest) == provider
  {
    SplitCons(provider, rest, '_');
  }

  /** `version = "<v>"`, or nothing without a version. */
  function VersionConstraint(version: string): string {
    if version != "" then "version = \"" + version + "\"" else ""
  }

  const FeaturesLine: string := "  features {}"

  /**
   * The lines of `_generate_terraform_config` (the text is these lines joined by newlines,
   * starting and ending with an empty line): source `ns/name`, the version line, and a
   * `features {}` block iff the provider is `azurerm`.
   */
  function ConfigLines(namespace: string, name: string, version: string): (lines: seq<string>)
    ensures |lines| == if name == "azurerm" then 14 else 12
    ensures lines[4] == "      source = \"" + namespace + "/" + name + "\""
    ensures lines[5] == "      " + VersionConstraint(version)
    ensures FeaturesLine in lines <==> name == "azurerm"
  {
    var head := ["", "terraform {", "  required_providers {", "    " + name + " = {",
                 "      source = \"" + namespace + "/" + name + "\"", "      " + VersionConstraint(version),
                 "    }", "  }", "}", ""];
    var lines := if name == "azurerm" then head + ["provider \"" + name + "\" {", FeaturesLine, "}", ""]
                 else head + ["provider \"" + name + "\" {}", ""];
    assert FeaturesLine !in head by {
      forall k | 0 <= k < |head|
        ensures head[k] != FeaturesLine
      {
        if 3 <= k <= 6 {
          assert head[k][2] == ' ';
        }
      }
    }
    assert name != "azurerm" ==> lines[10][0] == 'p';
    lines
  }

  function ConfigText(namespace: string, name: string, version: string): string {
    Join(ConfigLines(namespace, name, version), "\n")
  }

  // ---------------------------------------------------------------------------
  // Looking values up the way Python does
  // ---------------------------------------------------------------------------

  /**
   * `key in c` followed by `c[key]`: a dict member is found; a string containing the key,
   * or a list holding it, passes the test but cannot be indexed by it; a number, a
   * boolean or `None` cannot be tested at all.
   */
  datatype Probe = Hit(value: Json) | Miss | Raises

  function ProbeKey(c: Json, key: string): (p: Probe)
    ensures p.Hit? <==> c.JObj? && Assoc.Lookup(c.fields, key).Some?
    ensures p.Hit? ==> Some(p.value) == Assoc.Lookup(c.fields, key)
  {
    match c
    case JObj(fields) => (match Assoc.Lookup(fields, key) case Some(v) => Hit(v) case None => Miss)
    case JStr(s) => if Contains(s, key) then Raises else Miss
    case JArr(items) => if JStr(key) in items then Raises else Miss
    case _ => Raises
  }

  /** `d.get(key, {})`; `None` when `d` is not a dict. */
  function GetOrEmpty(d: Json, key: string): (r: Option<Json>)
    ensures r.Some? <==> d.JObj?
    ensures d.JObj? && Assoc.Lookup(d.fields, key).None? ==> r == Some(JObj([]))
  {
    if d.JObj? then Some(Assoc.Lookup(d.fields, key).GetOr(JObj([]))) else None
  }

  /** `part in block.get(section, {})` followed by `block[section][part]`. */
  function SectionProbe(block: Json, section: string, part: string): Probe {
    match GetOrEmpty(block, section)
    case None => Raises
    case Some(members) => ProbeKey(members, part)
  }

  // ---------------------------------------------------------------------------
  // Walking a dotted path
  // ---------------------------------------------------------------------------

  /**
   * The outcome of a lookup: a value, an `{"error": message}` dict, or an exception caught
   * further up (the wording of its text is not modelled).
   */
  datatype Outcome = Value(value: Json) | Error(message: string) | Raised

  /**
   * One segment of `_query_schema_path`: a member of `block.attributes`, else of
   * `block.block_types`, else a direct member.
   */
  function Step(current: Json, part: string): Outcome {
    if !current.JObj? then Error("Cannot navigate further at '" + part + "'")
    else
      var direct := match Assoc.Lookup(current.fields, part)
        case Some(v) => Value(v)
        case None => Error("Path '" + part + "' not found in schema");
      match Assoc.Lookup(current.fields, "block")
      case None => direct
      case Some(block) =>
        match SectionProbe(block, "attributes", part)
        case Hit(v) => Value(v)
        case Raises => Raised
        case Miss =>
          match SectionProbe(block, "block_types", part)
          case Hit(v) => Value(v)
          case Raises => Raised
          case Miss => direct
  }

  /** An attribute of the block shadows a block type and a direct member of the same name. */
  lemma AttributesComeFirst(current: Json, part: string, block: Json, attributes: Json, v: Json)
    requires current.JObj? && Assoc.Lookup(current.fields, "block") == Some(block)
    requires block.JObj? && Assoc.Lookup(block.fields, "attributes") == Some(attributes)
    requires attributes.JObj? && Assoc.Lookup(attributes.fields, part) == Some(v)
    ensures Step(current, part) == Value(v)
  {
  }

  function Walk(current: Json, parts: seq<string>): Outcome {
    if parts == [] then Value(current)
    else match Step(current, parts[0])
      case Value(next) => Walk(next, parts[1..])
      case other => other
  }

  /** Walking `p + q` is walking `p` and then walking `q` from where it ended. */
  lemma {:induction false} WalkAppend(current: Json, p: seq<string>, q: seq<string>)
    ensures Walk(current, p + q) == match Walk(current, p) case Value(v) => Walk(v, q) case other => other
  {
    if p != [] {
      assert p + q != [] && (p + q)[0] == p[0] && (p + q)[1..] == p[1..] + q;
      var step := Step(current, p[0]);
      if step.Value? {
        WalkAppend(step.value, p[1..], q);
      }
    } else {
      assert p + q == q;
    }
  }

  /** `_query_schema_path`: the loop over the dot-separated parts. */
  method QuerySchemaPath(schema: Json, path: string) returns (r: Outcome)
    ensures r == Walk(schema, Split(path, '.'))
  {
    var parts := Split(path, '.');
    var current := schema;
    var i := 0;
    while i < |parts|
      invariant 0 <= i <= |parts|
      invariant Walk(current, parts[i..]) == Walk(schema, parts)
    {
      var step := Step(current, parts[i]);
      assert parts[i..][1..] == parts[i + 1..];
      if !step.Value? {
        return step;
      }
      current := step.value;
      i := i + 1;
    }
    return Value(current);
  }

  // ---------------------------------------------------------------------------
  // Extracting schemas
  // ---------------------------------------------------------------------------

  /** The categories `query_schema` accepts, and those `list_provider_items` accepts. */
  const QueryCategories: set<string> := {"resource", "data", "ephemeral", "function", "provider"}
  const ListCategories: set<string> := {"resource", "data", "ephemeral", "function"}

  /** The member of the provider schema that holds a category's schemas. */
  function SectionOf(category: string): string {
    if category == "resource" then "resource_schemas"
    else if category == "data" then "data_source_schemas"
    else "functions"
  }

  /** `schema_data["provider_schemas"][provider_key]`, once it is known to be there. */
  function ProviderSchema(data: Json, providerKey: string): (r: Option<Probe>)
    ensures r.Some? <==> data.JObj?
  {
    match GetOrEmpty(data, "provider_schemas")
    case None => None
    case Some(schemas) => Some(ProbeKey(schemas, providerKey))
  }

  /** The schema `_extract_schema` selects for a category, before the path is applied. */
  function SelectedSchema(provider: Json, category: string, resourceType: string): Option<Json> {
    if category == "provider" then GetOrEmpty(provider, "provider")
    else if category in {"resource", "data", "function"} then
      match GetOrEmpty(provider, SectionOf(category))
      case None => None
      case Some(members) => GetOrEmpty(members, resourceType)
    else Some(JObj([("error", JStr("Unsupported category: " + category))]))
  }

  /**
   * `_extract_schema`: an error when the provider `ns/name` is missing or the selected
   * schema is empty; the path applies only when given and the category is not `function`.
   */
  function ExtractSchema(data: Json, category: string, resourceType: string, namespace: string,
                         name: string, path: string): (r: Outcome)
    ensures (data.JObj? && Assoc.Lookup(data.fields, "provider_schemas").None?)
            ==> r == Error("Provider " + (namespace + "/" + name) + " not found in schema")
    ensures r.Value? && (path == "" || category == "function") ==> Truthy(r.value)
  {
    var providerKey := namespace + "/" + name;
    match ProviderSchema(data, providerKey)
    case None => Raised
    case Some(Raises) => Raised
    case Some(Miss) => Error("Provider " + providerKey + " not found in schema")
    case Some(Hit(provider)) =>
      match SelectedSchema(provider, category, resourceType)
      case None => Raised
      case Some(result) =>
        if !Truthy(result) then Error("Schema for " + category + " '" + resourceType + "' not found")
        else if path != "" && category != "function" then Walk(result, Split(path, '.'))
        else Value(result)
  }

  /** A provider, category section and resource that are all present yield that resource's schema, walked. */
  lemma ExtractPresentSchema(data: Json, category: string, resourceType: string, namespace: string,
                             name: string, path: string, schemas: Json, provider: Json, members: Json, schema: Json)
    requires category in {"resource", "data"}
    requires data.JObj? && Assoc.Lookup(data.fields, "provider_schemas") == Some(schemas)
    requires schemas.JObj? && Assoc.Lookup(schemas.fields, namespace + "/" + name) == Some(provider)
    requires provider.JObj? && Assoc.Lookup(provider.fields, SectionOf(category)) == Some(members)
    requires members.JObj? && Assoc.Lookup(members.fields, resourceType) == Some(schema) && Truthy(schema)
    ensures ExtractSchema(data, category, resourceType, namespace, name, path)
         == if path != "" then Walk(schema, Split(path, '.')) else Value(schema)
  {
  }

  /**
   * `_extract_items_list`: the names in the category's section, in order; `[]` for any
   * other category, a missing provider, or a failure along the way.
   */
  function ExtractItemsList(data: Json, category: string, namespace: string, name: string): (items: seq<string>)
    ensures category !in {"resource", "data", "function"} ==> items == []
    ensures !data.JObj? ==> items == []
    ensures var p := ProviderSchema(data, namespace + "/" + name); !(p.Some? && p.value.Hit?) ==> items == []
  {
    match ProviderSchema(data, namespace + "/" + name)
    case Some(Hit(provider)) =>
      if category in {"resource", "data", "function"} then
        match GetOrEmpty(provider, SectionOf(category))
        case Some(JObj(members)) => Assoc.Keys(members)
        case _ => []
      else []
    case _ => []
  }

  /**
   * With the provider present, a known category lists exactly the keys of its section,
   * in order, and nothing when the provider has no such section.
   */
  lemma ItemsListExact(data: Json, category: string, namespace: string, name: string,
                       schemas: Json, provider: Json)
    requires category in {"resource", "data", "function"}
    requires data.JObj? && Assoc.Lookup(data.fields, "provider_schemas") == Some(schemas)
    requires schemas.JObj? && Assoc.Lookup(schemas.fields, namespace + "/" + name) == Some(provider)
    requires provider.JObj?
    ensures match Assoc.Lookup(provider.fields, SectionOf(category))
      case None => ExtractItemsList(data, category, namespace, name) == []
      case Some(members) =>
        members.JObj? ==> ExtractItemsList(data, category, namespace, name) == Assoc.Keys(members.fields)
  {
  }

  /** Every listed name has a schema in the category's section. */
  lemma ItemsHaveSchemas(data: Json, category: string, namespace: string, name: string, i: nat)
    requires i < |ExtractItemsList(data, category, namespace, name)|
    ensures var provider := ProviderSchema(data, namespace + "/" + name).value.value;
      var members := GetOrEmpty(provider, SectionOf(category)).value;
      && category in {"resource", "data", "function"}
      && members.JObj? && Assoc.Lookup(members.fields, ExtractItemsList(data, category, namespace, name)[i]).Some?
  {
    var provider := ProviderSchema(data, namespace + "/" + name).value.value;
    var members := GetOrEmpty(provider, SectionOf(category)).value;
    assert Assoc.Keys(members.fields)[i] in Assoc.Keys(members.fields);
  }

  // ---------------------------------------------------------------------------
  // The two entry points
  // ---------------------------------------------------------------------------

  /** What running `terraform providers schema -json` on a configuration gave. */
  datatype SchemaFetch = Fetched(data: Json) | FetchFailed(stderr: string) | Undecodable

  /** `str(provider_name)` in an f-string: `None` prints as "None". */
  function NameText(name: Option<string>): string {
    match name case None => "None" case Some(s) => s
  }

  /**
   * `query_schema`: an invalid category is reported before anything runs; a missing
   * provider name is guessed from the resource type except for the `provider` category.
   */
  function QuerySchema(category: string, resourceType: string, path: string, namespace: string,
                       providerName: Option<string>, version: string, fetch: string -> SchemaFetch): (r: Outcome)
    ensures category !in QueryCategories ==>
      r == Error("Failed to query schema: Invalid category: " + category
                 + ". Must be one of: resource, data, ephemeral, function, provider")
  {
    var name := if (providerName == None || providerName == Some("")) && category != "provider"
                then Some(InferProviderName(resourceType)) else providerName;
    if category !in QueryCategories then
      Error("Failed to query schema: Invalid category: " + category
            + ". Must be one of: resource, data, ephemeral, function, provider")
    else
      match fetch(ConfigText(namespace, NameText(name), version))
      case FetchFailed(stderr) => Error("Failed to get schema: " + stderr)
      case Undecodable => Raised
      case Fetched(data) => ExtractSchema(data, category, resourceType, namespace, NameText(name), path)
  }

  /** `list_provider_items`: `[]` for an invalid category, a failed run or undecodable output. */
  function ListProviderItems(category: string, namespace: string, name: string, version: string,
                             fetch: string -> SchemaFetch): (items: seq<string>)
    ensures category !in ListCategories ==> items == []
    ensures !fetch(ConfigText(namespace, name, version)).Fetched? ==> items == []
  {
    if category !in ListCategories then []
    else match fetch(ConfigText(namespace, name, version))
      case Fetched(data) => ExtractItemsList(data, category, namespace, name)
      case _ => []
  }

  /** `ephemeral` passes both category guards but never lists anything. */
  lemma EphemeralListsNothing(namespace: string, name: string, version: string, fetch: string -> SchemaFetch)
    ensures ListProviderItems("ephemeral", namespace, name, version, fetch) == []
  {
  }
}

=== FILE: terraform_validator.dfy ===
/**
 * The older Terraform validator. Its error parser, argument lists and HCL check are
 * copies of the executor's; what differs is the command runner, which neither cleans
 * the output nor reports a `status`.
 */
module TerraformValidator {
  import opened Text
  import TerraformExecutor

  /** The validator's result dictionary of a command run. */
  datatype RunOutput = RunOutput(exitCode: int, stdout: string, stderr: string, command: string)

  /** `_run_terraform_command`: the executor's runner with cleaning switched off and no `status`. */
  function RunOutputOf(cmd: seq<string>, outcome: TerraformExecutor.ProcessOutcome): (r: RunOutput)
    ensures var e := TerraformExecutor.RunResult(cmd, outcome, false);
      r == RunOutput(e.exitCode, e.stdout, e.stderr, e.command)
  {
    var command := Join(["terraform"] + cmd, " ");
    match outcome
    case Raised(message) => RunOutput(-1, "", message, command)
    case Exited(code, out, err) => RunOutput(code, out, err, command)
  }

  /**
   * `validate_hcl`: blank content is refused without running Terraform; otherwise
   * `terraform validate` decides, and a failure's errors are its raw stderr parsed.
   */
  function ValidateHcl(hcl: string, fileName: string, tempDir: string,
                       run: TerraformExecutor.Runner, decode: TerraformExecutor.ObjectDecoder)
    : (v: TerraformExecutor.ValidationResult)
    ensures Strip(hcl) == "" ==> v == TerraformExecutor.ValidationResult(false, ["Empty HCL content provided"], fileName)
    ensures Strip(hcl) != "" ==>
      var o := RunOutputOf(["validate"], run([(fileName, TerraformExecutor.HclToWrite(hcl))], ["validate"]));
      && v.filePath == tempDir + "/" + fileName
      && (v.isValid <==> o.exitCode == 0)
      && v.errors == (if v.isValid then [] else TerraformExecutor.TerraformErrors(o.stderr, decode))
  {
    TerraformExecutor.Validation(hcl, fileName, tempDir, false, run, decode)
  }

  /** A failed validation whose stderr is not blank reports at least one error. */
  lemma FailureWithStderrHasErrors(hcl: string, fileName: string, tempDir: string,
                                   run: TerraformExecutor.Runner, decode: TerraformExecutor.ObjectDecoder)
    requires Strip(hcl) != ""
    requires Strip(RunOutputOf(["validate"], run([(fileName, TerraformExecutor.HclToWrite(hcl))], ["validate"])).stderr) != ""
    ensures var v := ValidateHcl(hcl, fileName, tempDir, run, decode);
      v.isValid || v.errors != []
  {
  }
}

=== FILE: text.dfy ===
/**
 * Python string operations used throughout the server, with the semantics of
 * `str.lower`, `str.split`, `str.join`, `str.strip`, `str.replace`, `in` and
 * integer formatting. Case mapping covers ASCII letters only.
 */
module Text {
  import opened Wrappers

  predicate IsUpper(c: char) { 'A' <= c <= 'Z' }
  predicate IsLower(c: char) { 'a' <= c <= 'z' }
  predicate IsDigit(c: char) { '0' <= c <= '9' }
  predicate IsLetter(c: char) { IsUpper(c) || IsLower(c) }
  predicate IsAlnum(c: char) { IsLetter(c) || IsDigit(c) }

  /** The characters Python's `str.isspace` accepts, which `strip()` removes. */
  const Whitespace: set<char> :=
    {' ', '\t', '\n', '\r', '\U{000B}', '\U{000C}', '\U{001C}', '\U{001D}', '\U{001E}',
     '\U{001F}', '\U{0085}', '\U{00A0}', '\U{1680}', '\U{2000}', '\U{2001}', '\U{2002}',
     '\U{2003}', '\U{2004}', '\U{2005}', '\U{2006}', '\U{2007}', '\U{2008}', '\U{2009}',
     '\U{200A}', '\U{2028}', '\U{2029}', '\U{202F}', '\U{205F}', '\U{3000}'}

  function LowerChar(c: char): (r: char)
    ensures !IsUpper(r) && (IsLetter(c) <==> IsLetter(r))
    ensures IsLower(r) ==> (c == r || c as int == r as int - 32)
    ensures !IsLetter(c) ==> r == c
  {
    if IsUpper(c) then (c as int + 32) as char else c
  }

  function UpperChar(c: char): (r: char)
    ensures !IsLower(r) && (IsLetter(c) <==> IsLetter(r))
    ensures !IsLetter(c) ==> r == c
  {
    if IsLower(c) then (c as int - 32) as char else c
  }

  /** `s.lower()` */
  function Lower(s: string): (r: string)
    ensures |r| == |s| && forall i :: 0 <= i < |s| ==> r[i] == LowerChar(s[i])
  {
    seq(|s|, i requires 0 <= i < |s| => LowerChar(s[i]))
  }

  /** `s.upper()` */
  function Upper(s: string): (r: string)
    ensures |r| == |s| && forall i :: 0 <= i < |s| ==> r[i] == UpperChar(s[i])
  {
    seq(|s|, i requires 0 <= i < |s| => UpperChar(s[i]))
  }

  lemma LowerUpper(s: string)
    ensures Lower(Upper(s)) == Lower(s)
  {
  }

  lemma UpperLower(s: string)
    ensures Upper(Lower(s)) == Upper(s)
  {
  }

  lemma LowerIdempotent(s: string)
    ensures Lower(Lower(s)) == Lower(s)
  {
  }

  lemma LowerConcat(a: string, b: string)
    ensures Lower(a + b) == Lower(a) + Lower(b)
  {
  }

  /** `s.title()`: a letter is upper-cased when the character before it is not a letter. */
  function Title(s: string): (r: string)
    ensures |r| == |s|
  {
    seq(|s|, i requires 0 <= i < |s| =>
      if i == 0 || !IsLetter(s[i - 1]) then UpperChar(s[i]) else LowerChar(s[i]))
  }

  /** `s.startswith(p)` */
  predicate IsPrefix(p: string, s: string) { |p| <= |s| && s[..|p|] == p }

  /** `s.endswith(p)` */
  predicate IsSuffix(p: string, s: string) { |p| <= |s| && s[|s| - |p|..] == p }

  /** `sub in s` */
  predicate Contains(s: string, sub: string)
    decreases |s|
  {
    IsPrefix(sub, s) || (|s| > 0 && Contains(s[1..], sub))
  }

  lemma {:induction false} ContainsAt(s: string, sub: string, i: nat)
    requires i + |sub| <= |s| && s[i..i + |sub|] == sub
    ensures Contains(s, sub)
    decreases i
  {
    if i > 0 {
      assert s[1..][i - 1..i - 1 + |sub|] == sub;
      ContainsAt(s[1..], sub, i - 1);
    }
  }

  lemma {:induction false} ContainsWitness(s: string, sub: string) returns (i: nat)
    requires Contains(s, sub)
    ensures i + |sub| <= |s| && s[i..i + |sub|] == sub
    decreases |s|
  {
    if IsPrefix(sub, s) {
      i := 0;
    } else {
      var j := ContainsWitness(s[1..], sub);
      assert s[1..][j..j + |sub|] == s[j + 1..j + 1 + |sub|];
      i := j + 1;
    }
  }

  /** `sub` occurs in `s` at position `k`. */
  predicate OccursAt(s: string, sub: string, k: nat) {
    k + |sub| <= |s| && s[k..k + |sub|] == sub
  }

  /** `s.rfind(sub)` restricted to start positions up to `k`. */
  function RFindUpTo(s: string, sub: string, k: int): (r: Option<nat>)
    requires k + |sub| <= |s|
    ensures r.Some? ==> r.value <= k && OccursAt(s, sub, r.value)
    ensures forall j: nat :: (if r.Some? then r.value < j else true) && j <= k ==> !OccursAt(s, sub, j)
    decreases k + 1
  {
    if k < 0 then None
    else if s[k..k + |sub|] == sub then Some(k)
    else RFindUpTo(s, sub, k - 1)
  }

  /** `s.rfind(sub)`, with `None` for -1: the last position where `sub` occurs. */
  function RFind(s: string, sub: string): (r: Option<nat>)
    ensures r.Some? ==> OccursAt(s, sub, r.value)
    ensures forall j: nat :: (if r.Some? then r.value < j else true) ==> !OccursAt(s, sub, j)
  {
    if |sub| > |s| then None else RFindUpTo(s, sub, |s| - |sub|)
  }

  lemma ContainsLength(s: string, sub: string)
    requires Contains(s, sub)
    ensures |sub| <= |s|
  {
    var i := ContainsWitness(s, sub);
  }

  /** Whatever occurs in a substring occurs in the whole. */
  lemma ContainsTransitive(s: string, t: string, u: string)
    requires Contains(s, t) && Contains(t, u)
    ensures Contains(s, u)
  {
    var i := ContainsWitness(s, t);
    var j := ContainsWitness(t, u);
    forall k | 0 <= k < |u| ensures s[i + j..i + j + |u|][k] == u[k] {
      assert s[i..i + |t|][j + k] == t[j + k] == t[j..j + |u|][k];
    }
    assert s[i + j..i + j + |u|] == u;
    ContainsAt(s, u, i + j);
  }

  lemma ContainsInLeft(a: string, b: string, sub: string)
    requires Contains(a, sub)
    ensures Contains(a + b, sub)
  {
    var i := ContainsWitness(a, sub);
    assert (a + b)[i..i + |sub|] == a[i..i + |sub|];
    ContainsAt(a + b, sub, i);
  }

  lemma ContainsInRight(a: string, b: string, sub: string)
    requires Contains(b, sub)
    ensures Contains(a + b, sub)
  {
    var i := ContainsWitness(b, sub);
    assert (a + b)[|a| + i..|a| + i + |sub|] == b[i..i + |sub|];
    ContainsAt(a + b, sub, |a| + i);
  }

  lemma ContainsChar(s: string, c: char)
    ensures Contains(s, [c]) <==> c in s
  {
    if c in s {
      var i :| 0 <= i < |s| && s[i] == c;
      assert s[i..i + 1] == [c];
      ContainsAt(s, [c], i);
    }
    if Contains(s, [c]) {
      var i := ContainsWitness(s, [c]);
      assert s[i] == s[i..i + 1][0];
    }
  }

  /** `s.replace(a, b)` for a one-character `a`. */
  function ReplaceChar(s: string, a: char, b: char): (r: string)
    ensures |r| == |s| && (a != b ==> a !in r)
    ensures forall i :: 0 <= i < |s| ==> r[i] == (if s[i] == a then b else s[i])
  {
    seq(|s|, i requires 0 <= i < |s| => if s[i] == a then b else s[i])
  }

  /** `s.replace(a, b)`: scan left to right, replacing non-overlapping occurrences. */
  function Replace(s: string, a: string, b: string): (r: string)
    requires |a| > 0
    ensures !Contains(s, a) ==> r == s
    decreases |s|
  {
    if |s| < |a| then s
    else if IsPrefix(a, s) then b + Replace(s[|a|..], a, b)
    else [s[0]] + Replace(s[1..], a, b)
  }

  /** Every character of a replacement comes from the input or from the replacement text. */
  lemma {:induction false} ReplaceChars(s: string, a: string, b: string)
    requires |a| > 0
    ensures forall c :: c in Replace(s, a, b) ==> c in s || c in b
    decreases |s|
  {
    if |s| >= |a| {
      if IsPrefix(a, s) {
        ReplaceChars(s[|a|..], a, b);
        assert forall c :: c in s[|a|..] ==> c in s;
      } else {
        ReplaceChars(s[1..], a, b);
        assert forall c :: c in s[1..] ==> c in s;
      }
    }
  }

  /** A character of a contained text is a character of the container. */
  lemma ContainsChars(s: string, sub: string)
    requires Contains(s, sub)
    ensures forall c :: c in sub ==> c in s
  {
    var i := ContainsWitness(s, sub);
    forall c | c in sub
      ensures c in s
    {
      var k :| 0 <= k < |sub| && sub[k] == c;
      assert s[i + k] == c;
    }
  }

  /** `s.split(c)`: always at least one part; no part contains `c`. */
  function Split(s: string, c: char): (parts: seq<string>)
    ensures |parts| >= 1
  {
    if s == [] then [[]]
    else if s[0] == c then [[]] + Split(s[1..], c)
    else
      var rest := Split(s[1..], c);
      [[s[0]] + rest[0]] + rest[1..]
  }

  /** No part of `s.split(c)` holds `c`. */
  lemma {:induction false} SplitPartsFree(s: string, c: char)
    ensures forall k :: 0 <= k < |Split(s, c)| ==> c !in Split(s, c)[k]
  {
    if s != [] {
      SplitPartsFree(s[1..], c);
      var rest := Split(s[1..], c);
      if s[0] != c {
        assert c !in [s[0]] + rest[0];
      }
    }
  }

  /** Text without `c` splits into itself alone. */
  lemma {:induction false} SplitWithout(s: string, c: char)
    requires c !in s
    ensures Split(s, c) == [s]
  {
    if s != [] {
      SplitWithout(s[1..], c);
      HeadTail(s);
    }
  }

  /** `sep.join(parts)` */
  function Join(parts: seq<string>, sep: string): (r: string)
  {
    if |parts| == 0 then []
    else if |parts| == 1 then parts[0]
    else parts[0] + sep + Join(parts[1..], sep)
  }

  lemma {:induction false} JoinSplit(s: string, c: char)
    ensures Join(Split(s, c), [c]) == s
  {
    if s == [] {
    } else if s[0] == c {
      JoinSplit(s[1..], c);
      var rest := Split(s[1..], c);
      if |rest| == 1 {
        assert rest == [rest[0]];
      } else {
        assert ([[]] + rest)[1..] == rest;
      }
    } else {
      JoinSplit(s[1..], c);
      var rest := Split(s[1..], c);
      var parts := [[s[0]] + rest[0]] + rest[1..];
      if |rest| > 1 {
        assert parts[1..] == rest[1..];
        assert Join(rest, [c]) == rest[0] + [c] + Join(rest[1..], [c]);
      }
    }
  }

  lemma {:induction false} SplitHasSeparator(s: string, c: char)
    ensures |Split(s, c)| >= 2 <==> c in s
  {
    if s != [] && s[0] != c {
      SplitHasSeparator(s[1..], c);
    }
  }

  /** The last part of `s.split(c)` is the text after the last `c`, or all of `s`. */
  lemma SplitLast(s: string, c: char)
    ensures var r := LastPart(s, c);
      IsSuffix(r, s) && c !in r && (|r| < |s| ==> s[|s| - |r| - 1] == c)
  {
    SplitLastSuffix(s, c);
    SplitPartsFree(s, c);
  }

  lemma {:induction false} SplitLastSuffix(s: string, c: char)
    ensures var r := LastPart(s, c); IsSuffix(r, s) && (|r| < |s| ==> s[|s| - |r| - 1] == c)
  {
    if s != [] {
      var r := LastPart(s[1..], c);
      SplitLastSuffix(s[1..], c);
      SuffixOfTail(r, s);
      if s[0] == c || |Split(s[1..], c)| > 1 {
        SplitLastOfTail(s, c);
        if |r| < |s| - 1 {
          assert s[1..][|s| - |r| - 2] == c;
        } else if |r| == |s| - 1 && s[0] != c {
          assert r == s[1..];
          SplitHasSeparator(s[1..], c);
          SplitPartsFree(s[1..], c);
          assert false;
        }
      } else {
        SplitHasSeparator(s[1..], c);
        SplitWithout(s[1..], c);
        HeadTail(s);
      }
    }
  }

  /** A non-empty sequence is its head followed by its tail. */
  lemma HeadTail<T>(s: seq<T>)
    requires s != []
    ensures [s[0]] + s[1..] == s
  {
  }

  /** The last part of `s.split(c)`. */
  function LastPart(s: string, c: char): string {
    Split(s, c)[|Split(s, c)| - 1]
  }

  /** After a separator, or before a later one, the last part of `s` is the last part of its tail. */
  lemma SplitLastOfTail(s: string, c: char)
    requires s != [] && (s[0] == c || |Split(s[1..], c)| > 1)
    ensures LastPart(s, c) == LastPart(s[1..], c)
  {
    var rest := Split(s[1..], c);
    if s[0] == c {
      LastOfConcat([[]], rest);
    } else {
      LastOfConcat([[s[0]] + rest[0]], rest[1..]);
      assert rest[1..][|rest[1..]| - 1] == rest[|rest| - 1];
    }
  }

  /** A suffix of the tail is a suffix of the whole, and the character before it is in the tail. */
  lemma SuffixOfTail(r: string, s: string)
    requires s != [] && IsSuffix(r, s[1..])
    ensures IsSuffix(r, s)
    ensures |r| < |s| - 1 ==> s[|s| - |r| - 1] == s[1..][|s| - |r| - 2]
  {
    assert s[|s| - |r|..] == s[1..][|s| - 1 - |r|..];
  }

  /** The last element of a concatenation with a non-empty right side is that side's last. */
  lemma LastOfConcat<T>(xs: seq<T>, ys: seq<T>)
    requires ys != []
    ensures (xs + ys)[|xs + ys| - 1] == ys[|ys| - 1]
  {
  }

  /** The first part of `s.split(c)` is the text before the first `c`, or all of `s`. */
  lemma {:induction false} SplitFirst(s: string, c: char)
    ensures var p := Split(s, c)[0];
      IsPrefix(p, s) && c !in p && (|p| < |s| ==> s[|p|] == c)
  {
    if s != [] && s[0] != c {
      var q := Split(s[1..], c)[0];
      SplitFirst(s[1..], c);
      assert Split(s, c)[0] == [s[0]] + q;
      assert s[..|q| + 1] == [s[0]] + s[1..][..|q|];
      assert c !in [s[0]] + q;
    }
  }

  lemma {:induction false} SplitFreePrefix(p: string, t: string, c: char)
    requires c !in p
    ensures Split(p + t, c) == [p + Split(t, c)[0]] + Split(t, c)[1..]
  {
    if p != [] {
      assert (p + t)[1..] == p[1..] + t;
      SplitFreePrefix(p[1..], t, c);
      assert [p[0]] + (p[1..] + Split(t, c)[0]) == p + Split(t, c)[0];
    } else {
      assert p + t == t && p + Split(t, c)[0] == Split(t, c)[0];
      assert Split(t, c) == [Split(t, c)[0]] + Split(t, c)[1..];
    }
  }

  lemma SplitCons(p: string, t: string, c: char)
    requires c !in p
    ensures Split(p + [c] + t, c) == [p] + Split(t, c)
  {
    assert p + [c] + t == p + ([c] + t);
    SplitFreePrefix(p, [c] + t, c);
    assert ([c] + t)[1..] == t;
    assert Split([c] + t, c) == [[]] + Split(t, c);
    assert p + [] == p;
  }

  /** Splitting around one separator splits each side on its own. */
  lemma {:induction false} SplitConcat(p: string, t: string, c: char)
    ensures Split(p + [c] + t, c) == Split(p, c) + Split(t, c)
    decreases |p|
  {
    if p == [] {
      SplitSeparator(t, c);
      assert p + [c] + t == [c] + t;
    } else {
      SplitConcat(p[1..], t, c);
      SplitConcatStep(p[0], p[1..], t, c);
      HeadTail(p);
    }
  }

  /** The inductive step of `SplitConcat`: a first character `x` is handled by one step of `split`. */
  lemma SplitConcatStep(x: char, q: string, t: string, c: char)
    requires Split(q + [c] + t, c) == Split(q, c) + Split(t, c)
    ensures Split([x] + q + [c] + t, c) == Split([x] + q, c) + Split(t, c)
  {
    assert [x] + q + [c] + t == [x] + (q + [c] + t);
    if x == c {
      SplitSeparator(q + [c] + t, c);
      SplitSeparator(q, c);
    } else {
      SplitOther(x, q + [c] + t, c);
      SplitOther(x, q, c);
      JoinFirstPart([x], Split(q, c), Split(t, c));
    }
  }

  /** Growing the first part of a concatenation grows the first part of its left side. */
  lemma JoinFirstPart(x: string, rest: seq<string>, tail: seq<string>)
    requires rest != []
    ensures [x + (rest + tail)[0]] + (rest + tail)[1..] == ([x + rest[0]] + rest[1..]) + tail
  {
    assert (rest + tail)[0] == rest[0] && (rest + tail)[1..] == rest[1..] + tail;
  }

  /** A leading separator starts a new, empty part. */
  lemma SplitSeparator(s: string, c: char)
    ensures Split([c] + s, c) == [[]] + Split(s, c)
  {
    assert ([c] + s)[1..] == s;
  }

  /** Any other leading character joins the first part. */
  lemma SplitOther(x: char, s: string, c: char)
    requires x != c
    ensures Split([x] + s, c) == [[x] + Split(s, c)[0]] + Split(s, c)[1..]
  {
    assert ([x] + s)[1..] == s;
  }

  /** Joining parts free of `c` with `c` and splitting again gives the parts back. */
  lemma {:induction false} SplitJoin(parts: seq<string>, c: char)
    requires |parts| >= 1 && forall k :: 0 <= k < |parts| ==> c !in parts[k]
    ensures Split(Join(parts, [c]), c) == parts
  {
    if |parts| > 1 {
      var tail := Join(parts[1..], [c]);
      SplitJoin(parts[1..], c);
      assert Join(parts, [c]) == parts[0] + ([c] + tail);
      SplitFreePrefix(parts[0], [c] + tail, c);
      assert ([c] + tail)[1..] == tail;
      assert Split([c] + tail, c) == [[]] + Split(tail, c);
      assert parts[0] + [] == parts[0];
      HeadTail(parts);
    } else {
      SplitWithout(parts[0], c);
    }
  }

  /** Every character of a join comes from the separator or from one of the parts. */
  lemma {:induction false} JoinMembers(parts: seq<string>, sep: string)
    ensures forall c :: c in Join(parts, sep) ==> c in sep || exists k :: 0 <= k < |parts| && c in parts[k]
  {
    if |parts| > 1 {
      JoinMembers(parts[1..], sep);
      forall c | c in Join(parts, sep)
        ensures c in sep || exists k :: 0 <= k < |parts| && c in parts[k]
      {
        if c !in parts[0] && c !in sep {
          assert c in Join(parts[1..], sep);
          var k :| 0 <= k < |parts[1..]| && c in parts[1..][k];
          assert c in parts[k + 1];
        }
      }
    }
  }

  /** `xs.index(x)`, with `None` for the `ValueError` case. */
  function IndexOf<T(==)>(xs: seq<T>, x: T): (r: Option<nat>)
    ensures r.None? <==> x !in xs
    ensures r.Some? ==> r.value < |xs| && xs[r.value] == x
    ensures r.Some? ==> forall j :: 0 <= j < r.value ==> xs[j] != x
  {
    if xs == [] then None
    else if xs[0] == x then Some(0)
    else match IndexOf(xs[1..], x)
      case None => None
      case Some(k) => Some(k + 1)
  }

  /** Python's `str.lstrip(chars)` */
  function StripLeft(s: string, cs: set<char>): (r: string)
    ensures IsSuffix(r, s) && (r == [] || r[0] !in cs)
    ensures forall i :: 0 <= i < |s| - |r| ==> s[i] in cs
  {
    if s == [] || s[0] !in cs then s else StripLeft(s[1..], cs)
  }

  /** Python's `str.rstrip(chars)` */
  function StripRight(s: string, cs: set<char>): (r: string)
    ensures IsPrefix(r, s) && (r == [] || r[|r| - 1] !in cs)
    ensures forall i :: |r| <= i < |s| ==> s[i] in cs
  {
    if s == [] || s[|s| - 1] !in cs then s else StripRight(s[..|s| - 1], cs)
  }

  /** Python's `str.strip()` (no argument: whitespace) */
  function Strip(s: string): (r: string)
    ensures r == [] || (r[0] !in Whitespace && r[|r| - 1] !in Whitespace)
    ensures (s == [] || (s[0] !in Whitespace && s[|s| - 1] !in Whitespace)) ==> r == s
  {
    StripRight(StripLeft(s, Whitespace), Whitespace)
  }

  /** Stripping keeps a prefix that starts and ends with non-whitespace. */
  lemma StripKeepsPrefix(p: string, q: string)
    requires p != [] && p[0] !in Whitespace && p[|p| - 1] !in Whitespace
    ensures IsPrefix(p, Strip(p + q))
  {
    var s := p + q;
    assert s[0] == p[0] && s[|p| - 1] == p[|p| - 1];
    assert StripLeft(s, Whitespace) == s;
    var r := StripRight(s, Whitespace);
    var last := s[|p| - 1];
    assert |r| <= |p| - 1 ==> last in Whitespace;
    assert r[..|p|] == s[..|p|];
  }

  lemma StripIdempotent(s: string)
    ensures Strip(Strip(s)) == Strip(s)
  {
  }

  function DigitChar(d: nat): (c: char)
    requires d < 10
    ensures IsDigit(c)
  {
    ['0', '1', '2', '3', '4', '5', '6', '7', '8', '9'][d]
  }

  /** `str(n)` for a natural number. */
  function NatToString(n: nat): (r: string)
    ensures |r| >= 1 && forall i :: 0 <= i < |r| ==> IsDigit(r[i])
  {
    if n < 10 then [DigitChar(n)] else NatToString(n / 10) + [DigitChar(n % 10)]
  }

  /** `str(i)` for any integer. */
  function IntToString(i: int): (r: string)
    ensures |r| >= 1
  {
    if i < 0 then "-" + NatToString(-i) else NatToString(i)
  }

  function DigitValue(c: char): (d: nat)
    requires IsDigit(c)
    ensures d < 10
  {
    c as int - '0' as int
  }

  lemma DigitRoundTrip(d: nat)
    requires d < 10
    ensures DigitValue(DigitChar(d)) == d
  {
  }

  predicate AllDigits(s: string) {
    forall i :: 0 <= i < |s| ==> IsDigit(s[i])
  }

  /** The decimal value of a run of ASCII digits, most significant first. */
  function DigitsValue(s: string): nat
    requires AllDigits(s)
  {
    if s == [] then 0 else 10 * DigitsValue(s[..|s| - 1]) + DigitValue(s[|s| - 1])
  }

  /** The longest run of ASCII digits at the start of `s` (what `\d+` consumes greedily). */
  function LeadingDigits(s: string): (d: string)
    ensures IsPrefix(d, s) && AllDigits(d)
    ensures |d| == |s| || !IsDigit(s[|d|])
  {
    if s != [] && IsDigit(s[0]) then [s[0]] + LeadingDigits(s[1..]) else []
  }

  lemma {:induction false} LeadingDigitsOf(d: string, rest: string)
    requires AllDigits(d) && (rest == [] || !IsDigit(rest[0]))
    ensures LeadingDigits(d + rest) == d
  {
    if d != [] {
      assert (d + rest)[1..] == d[1..] + rest;
      LeadingDigitsOf(d[1..], rest);
    } else {
      assert d + rest == rest;
    }
  }

  /** `int(s)` on a string of digits with no sign; `None` where Python raises. */
  function ParseNat(s: string): (r: Option<nat>)
    ensures r.Some? <==> s != [] && AllDigits(s)
  {
    if s != [] && AllDigits(s) then Some(DigitsValue(s)) else None
  }

  lemma {:induction false} ParseNatRoundTrip(n: nat)
    ensures ParseNat(NatToString(n)) == Some(n)
  {
    var s := NatToString(n);
    if n < 10 {
      DigitRoundTrip(n);
      assert s[..|s| - 1] == [];
      assert DigitsValue(s) == 10 * DigitsValue([]) + DigitValue(DigitChar(n));
    } else {
      ParseNatRoundTrip(n / 10);
      DigitRoundTrip(n % 10);
      assert s[..|s| - 1] == NatToString(n / 10);
    }
  }

  /**
   * `int(s)` for a string: surrounding whitespace is ignored and one leading sign
   * is accepted; `None` where Python raises `ValueError`.
   */
  function ParseInt(s: string): (r: Option<int>)
  {
    var t := Strip(s);
    var signed := t != [] && (t[0] == '-' || t[0] == '+');
    var sign: int := if t != [] && t[0] == '-' then -1 else 1;
    match ParseNat(if signed then t[1..] else t)
    case Some(n) => Option<int>.Some(sign * n)
    case None => None
  }

  /** Printable ASCII characters other than the space are not whitespace. */
  lemma PrintableNotWhitespace(c: char)
    requires '!' <= c <= '~'
    ensures c !in Whitespace
  {
  }

  lemma ParseIntRoundTrip(i: int)
    ensures ParseInt(IntToString(i)) == Some(i)
  {
    var s := IntToString(i);
    var n: nat := if i < 0 then -i else i;
    var digits := NatToString(n);
    ParseNatRoundTrip(n);
    assert Strip(s) == s by {
      assert s[|s| - 1] == digits[|digits| - 1];
      PrintableNotWhitespace(s[|s| - 1]);
      PrintableNotWhitespace(s[0]);
    }
    if i < 0 {
      assert s[1..] == digits;
    } else {
      assert s == digits;
    }
  }

}

=== FILE: tflint_runner.dfy ===
/**
 * Linting with TFLint: the generated `.tflint.hcl`, the command line, the input
 * guards and the reading of TFLint's JSON report. Running TFLint is an input.
 */
module TflintRunner {
  import opened Wrappers
  import opened Text
  import opened Json

  // ---------------------------------------------------------------------------
  // Configuration
  // ---------------------------------------------------------------------------

  const TerraformPlugin := "plugin \"terraform\" {\n  enabled = true\n  preset  = \"recommended\"\n}\n"

  const AzurermPlugin :=
    "\nplugin \"azurerm\" {\n  enabled = true\n  version = \"0.26.0\"\n  source  = \"github.com/terraform-linters/tflint-ruleset-azurerm\"\n}\n"

  /** `_create_tflint_config` */
  function TflintConfig(enableAzurePlugin: bool): (config: string)
    ensures IsPrefix(TerraformPlugin, config)
    ensures Contains(config, AzurermPlugin) <==> enableAzurePlugin
  {
    var config := if enableAzurePlugin then TerraformPlugin + AzurermPlugin else TerraformPlugin;
    assert config[..|TerraformPlugin|] == TerraformPlugin;
    if enableAzurePlugin then
      ContainsAt(config, AzurermPlugin, |TerraformPlugin|);
      config
    else
      assert !Contains(config, AzurermPlugin) by {
        if Contains(config, AzurermPlugin) {
          ContainsLength(config, AzurermPlugin);
        }
      }
      config
  }

  // ---------------------------------------------------------------------------
  // Command line
  // ---------------------------------------------------------------------------

  function RuleFlags(flag: string, rules: seq<string>): (flags: seq<string>)
    ensures |flags| == 2 * |rules|
    ensures forall k :: 0 <= k < |rules| ==> flags[2 * k] == flag && flags[2 * k + 1] == rules[k]
    decreases |rules|
  {
    if rules == [] then []
    else RuleFlags(flag, rules[..|rules| - 1]) + [flag, rules[|rules| - 1]]
  }

  /**
   * The command of both lint operations; `tail` is `--var-file terraform.tfvars` when
   * linting content with variables, `--recursive` for a recursive workspace lint.
   */
  function TflintCommand(executable: string, outputFormat: string, enableRules: seq<string>,
                         disableRules: seq<string>, tail: seq<string>): (cmd: seq<string>)
    ensures |cmd| == 3 + 2 * |enableRules| + 2 * |disableRules| + |tail|
    ensures cmd[..3] == [executable, "--format", outputFormat]
    ensures forall k :: 0 <= k < |enableRules| ==> cmd[3 + 2 * k] == "--enable-rule" && cmd[4 + 2 * k] == enableRules[k]
    ensures forall k :: 0 <= k < |disableRules| ==>
      cmd[3 + 2 * |enableRules| + 2 * k] == "--disable-rule" && cmd[4 + 2 * |enableRules| + 2 * k] == disableRules[k]
    ensures cmd[|cmd| - |tail|..] == tail
  {
    var head := [executable, "--format", outputFormat];
    var enable := RuleFlags("--enable-rule", enableRules);
    var disable := RuleFlags("--disable-rule", disableRules);
    var cmd := head + enable + disable + tail;
    forall k | 0 <= k < |enableRules|
      ensures cmd[3 + 2 * k] == "--enable-rule" && cmd[4 + 2 * k] == enableRules[k]
    {
      assert cmd[3 + 2 * k] == enable[2 * k] && cmd[4 + 2 * k] == enable[2 * k + 1];
    }
    forall k | 0 <= k < |disableRules|
      ensures cmd[3 + 2 * |enableRules| + 2 * k] == "--disable-rule"
      ensures cmd[4 + 2 * |enableRules| + 2 * k] == disableRules[k]
    {
      assert cmd[3 + |enable| + 2 * k] == disable[2 * k] && cmd[4 + |enable| + 2 * k] == disable[2 * k + 1];
    }
    assert cmd[|cmd| - |tail|..] == tail;
    cmd
  }

  function HclTail(varFileContent: Option<string>): seq<string> {
    if varFileContent.Some? && varFileContent.value != "" then ["--var-file", "terraform.tfvars"] else []
  }

  function WorkspaceTail(recursive: bool): seq<string> {
    if recursive then ["--recursive"] else []
  }

  /** The command building of `lint_terraform_configuration` and `lint_terraform_workspace_folder`. */
  method BuildTflintCommand(executable: string, outputFormat: string, enableRules: seq<string>,
                            disableRules: seq<string>, tail: seq<string>) returns (cmd: seq<string>)
    ensures cmd == TflintCommand(executable, outputFormat, enableRules, disableRules, tail)
  {
    cmd := [executable, "--format", outputFormat];
    for i := 0 to |enableRules|
      invariant cmd == [executable, "--format", outputFormat] + RuleFlags("--enable-rule", enableRules[..i])
    {
      assert enableRules[..i + 1][..i] == enableRules[..i];
      cmd := cmd + ["--enable-rule", enableRules[i]];
    }
    assert enableRules[..|enableRules|] == enableRules;
    var afterEnable := cmd;
    for i := 0 to |disableRules|
      invariant cmd == afterEnable + RuleFlags("--disable-rule", disableRules[..i])
    {
      assert disableRules[..i + 1][..i] == disableRules[..i];
      cmd := cmd + ["--disable-rule", disableRules[i]];
    }
    assert disableRules[..|disableRules|] == disableRules;
    cmd := cmd + tail;
  }

  // ---------------------------------------------------------------------------
  // Report
  // ---------------------------------------------------------------------------

  datatype Summary = Summary(totalIssues: nat, errors: nat, warnings: nat, notices: nat)

  const ZeroSummary := Summary(0, 0, 0, 0)

  /** `issue.get('rule', {}).get('severity', 'notice').lower()` */
  function IssueSeverity(issue: Json): string {
    match Get(Get(issue, "rule").GetOr(JObj([])), "severity")
    case Some(JStr(s)) => Lower(s)
    case _ => "notice"
  }

  function Tally(s: Summary, issue: Json): Summary {
    var sev := IssueSeverity(issue);
    if sev == "error" then s.(totalIssues := s.totalIssues + 1, errors := s.errors + 1)
    else if sev == "warning" then s.(totalIssues := s.totalIssues + 1, warnings := s.warnings + 1)
    else s.(totalIssues := s.totalIssues + 1, notices := s.notices + 1)
  }

  /** The counters after reading `issues`: every issue is counted once, under exactly one severity. */
  function SummaryOf(issues: seq<Json>): (s: Summary)
    ensures s.totalIssues == s.errors + s.warnings + s.notices == |issues|
    decreases |issues|
  {
    if issues == [] then ZeroSummary
    else Tally(SummaryOf(issues[..|issues| - 1]), issues[|issues| - 1])
  }

  function Count(issues: seq<Json>, severity: string): nat
    decreases |issues|
  {
    if issues == [] then 0
    else Count(issues[..|issues| - 1], severity) + (if IssueSeverity(issues[|issues| - 1]) == severity then 1 else 0)
  }

  /** Errors and warnings are counted by severity; everything else is a notice. */
  lemma {:induction false} SummaryCounts(issues: seq<Json>)
    ensures SummaryOf(issues).errors == Count(issues, "error")
    ensures SummaryOf(issues).warnings == Count(issues, "warning")
    ensures SummaryOf(issues).notices == |issues| - Count(issues, "error") - Count(issues, "warning")
    decreases |issues|
  {
    if issues != [] {
      SummaryCounts(issues[..|issues| - 1]);
    }
  }

  /** The issue list of the decoded report: a dict's `issues` or a top-level list. */
  function IssuesOf(decoded: Json): seq<Json> {
    match decoded
    case JObj(_) => (match Get(decoded, "issues") case Some(JArr(items)) => items case _ => [])
    case JArr(items) => items
    case _ => []
  }

  datatype LintResult = LintResult(success: bool, error: Option<string>, issues: seq<Json>, summary: Summary)

  function Failed(error: string): LintResult { LintResult(false, Some(error), [], ZeroSummary) }

  /** What one TFLint run produced; `decoded` is `json.loads(stdout)` when it succeeds. */
  datatype RunOutput = RunOutput(returnCode: int, stdout: string, stderr: string, decoded: Option<Json>)

  function LintResultOf(run: RunOutput, outputFormat: string): LintResult {
    if run.returnCode != 0 && run.returnCode != 2 then
      Failed(if run.stderr != "" then run.stderr else "TFLint execution failed")
    else if outputFormat == "json" && run.stdout != "" && run.decoded.Some? then
      var issues := IssuesOf(run.decoded.value);
      LintResult(true, None, issues, SummaryOf(issues))
    else LintResult(true, None, [], ZeroSummary)
  }

  /** `_parse_tflint_output` */
  method ParseTflintOutput(run: RunOutput, outputFormat: string) returns (r: LintResult)
    ensures r == LintResultOf(run, outputFormat)
  {
    if run.returnCode != 0 && run.returnCode != 2 {
      return Failed(if run.stderr != "" then run.stderr else "TFLint execution failed");
    }
    var issues: seq<Json> := [];
    var summary := ZeroSummary;
    if outputFormat == "json" && run.stdout != "" && run.decoded.Some? {
      issues := IssuesOf(run.decoded.value);
      summary := CountIssues(issues);
    }
    r := LintResult(true, None, issues, summary);
  }

  /** The counting loop of `_parse_tflint_output`: one total and one severity count per issue. */
  method CountIssues(issues: seq<Json>) returns (summary: Summary)
    ensures summary == SummaryOf(issues)
  {
    summary := ZeroSummary;
    for i := 0 to |issues|
      invariant summary == SummaryOf(issues[..i])
    {
      assert issues[..i + 1][..i] == issues[..i];
      assert SummaryOf(issues[..i + 1]) == Tally(summary, issues[i]);
      var severity := IssueSeverity(issues[i]);
      summary := summary.(totalIssues := summary.totalIssues + 1);
      if severity == "error" {
        summary := summary.(errors := summary.errors + 1);
      } else if severity == "warning" {
        summary := summary.(warnings := summary.warnings + 1);
      } else {
        summary := summary.(notices := summary.notices + 1);
      }
    }
    assert issues[..|issues|] == issues;
  }

  /** A run succeeds exactly on exit codes 0 and 2; a failed run reports nothing. */
  lemma LintOutcome(run: RunOutput, outputFormat: string)
    ensures var r := LintResultOf(run, outputFormat);
      (r.success <==> run.returnCode == 0 || run.returnCode == 2)
      && (!r.success ==> r.issues == [] && r.summary == ZeroSummary && r.error.Some? && r.error.value != "")
      && r.summary.totalIssues == |r.issues|
  {
  }

  /** The blank-argument guard both lint entry points apply before anything runs. */
  function BlankGuard(value: string, message: string): (r: Option<LintResult>)
    ensures r.Some? <==> Strip(value) == ""
    ensures r.Some? ==> r.value == Failed(message)
  {
    if Strip(value) == "" then Some(Failed(message)) else None
  }

  /** The guard of `lint_terraform_configuration`: blank content is refused before anything runs. */
  function LintContentGuard(hclContent: string): (r: Option<LintResult>)
    ensures r.Some? <==> Strip(hclContent) == ""
    ensures r.Some? ==> r.value == Failed("No HCL content provided")
  {
    BlankGuard(hclContent, "No HCL content provided")
  }

  /** The guard of `lint_terraform_workspace_folder`. */
  function LintWorkspaceGuard(workspaceFolder: string): (r: Option<LintResult>)
    ensures r.Some? <==> Strip(workspaceFolder) == ""
    ensures r.Some? ==> r.value == Failed("No workspace folder provided")
  {
    BlankGuard(workspaceFolder, "No workspace folder provided")
  }
}

=== FILE: utils.dfy ===
/**
 * Text utilities of the server core: ANSI escape removal, fenced HCL extraction,
 * validation-error extraction, resource-type normalisation, Azure name validation,
 * Terraform block and variables/outputs rendering, and safe file names.
 */
module Utils {
  import opened Wrappers
  import opened Text
  import opened Json

  // ---------------------------------------------------------------------------
  // ANSI escape sequences (ECMA-48 section 5.3, the ESC Fe form, and section 5.4,
  // control sequences introduced by ESC [)
  // ---------------------------------------------------------------------------

  const Esc: char := '\U{1B}'

  /** The byte after ESC in the two-character form: 0x40-0x5F except `[`. */
  predicate IsFeFinal(c: char) { ('@' <= c <= 'Z') || ('\\' <= c <= '_') }

  /** Parameter bytes 0x30-0x3F. */
  predicate IsParameter(c: char) { '0' <= c <= '?' }

  /** Intermediate bytes 0x20-0x2F. */
  predicate IsIntermediate(c: char) { ' ' <= c <= '/' }

  /** Final bytes 0x40-0x7E. */
  predicate IsFinal(c: char) { '@' <= c <= '~' }

  function SkipParameters(s: string, i: nat): (j: nat)
    requires i <= |s|
    ensures i <= j <= |s| && (j == |s| || !IsParameter(s[j]))
    ensures forall k :: i <= k < j ==> IsParameter(s[k])
    decreases |s| - i
  {
    if i < |s| && IsParameter(s[i]) then SkipParameters(s, i + 1) else i
  }

  function SkipIntermediates(s: string, i: nat): (j: nat)
    requires i <= |s|
    ensures i <= j <= |s| && (j == |s| || !IsIntermediate(s[j]))
    ensures forall k :: i <= k < j ==> IsIntermediate(s[k])
    decreases |s| - i
  {
    if i < |s| && IsIntermediate(s[i]) then SkipIntermediates(s, i + 1) else i
  }

  /** The length of the escape sequence the pattern matches at the start of `s`, if any. */
  function EscapeLength(s: string): (n: Option<nat>)
    ensures n.Some? ==> 2 <= n.value <= |s| && s[0] == Esc
  {
    if |s| < 2 || s[0] != Esc then None
    else if IsFeFinal(s[1]) then Some(2)
    else if s[1] == '[' then
      var j := SkipIntermediates(s, SkipParameters(s, 2));
      if j < |s| && IsFinal(s[j]) then Some(j + 1) else None
    else None
  }

  /** `ansi_escape.sub('', s)`: scan left to right, dropping every match. */
  function StripAnsi(s: string): (r: string)
    ensures |r| <= |s|
    ensures Esc !in s ==> r == s
    decreases |s|
  {
    if s == [] then []
    else match EscapeLength(s)
      case Some(n) => StripAnsi(s[n..])
      case None => [s[0]] + StripAnsi(s[1..])
  }

  /** `strip_ansi_escape_sequences`: `None` and "" come back unchanged. */
  function StripAnsiEscapeSequences(text: Option<string>): (r: Option<string>)
    ensures text.None? ==> r.None?
    ensures text.Some? ==> r.Some? && |r.value| <= |text.value|
    ensures text.Some? && Esc !in text.value ==> r == text
  {
    match text
    case None => None
    case Some(s) => if s == "" then text else Some(StripAnsi(s))
  }

  /** Text without ESC is kept as it is. */
  lemma {:induction false} AnsiKeepsPlainText(t: string, u: string)
    requires Esc !in t
    ensures StripAnsi(t + u) == t + StripAnsi(u)
    decreases |t|
  {
    if t != [] {
      var s := t + u;
      var rest := StripAnsi(u);
      assert s[1..] == t[1..] + u;
      assert StripAnsi(s) == [t[0]] + StripAnsi(s[1..]) by {
        assert s[0] == t[0] && t[0] in t;
        assert EscapeLength(s).None?;
      }
      assert StripAnsi(t[1..] + u) == t[1..] + rest by {
        assert forall c :: c in t[1..] ==> c in t;
        AnsiKeepsPlainText(t[1..], u);
      }
      assert [t[0]] + (t[1..] + rest) == ([t[0]] + t[1..]) + rest;
      assert [t[0]] + t[1..] == t;
    } else {
      assert t + u == u;
    }
  }

  /** An ESC Fe pair is removed. */
  lemma AnsiRemovesFe(f: char, u: string)
    requires IsFeFinal(f)
    ensures StripAnsi([Esc, f] + u) == StripAnsi(u)
  {
    assert ([Esc, f] + u)[2..] == u;
  }

  /** A control sequence ESC [ parameters intermediates final is removed. */
  lemma AnsiRemovesControlSequence(params: string, inters: string, f: char, u: string)
    requires forall i :: 0 <= i < |params| ==> IsParameter(params[i])
    requires forall i :: 0 <= i < |inters| ==> IsIntermediate(inters[i])
    requires IsFinal(f)
    ensures StripAnsi([Esc, '['] + params + inters + [f] + u) == StripAnsi(u)
  {
    var s := [Esc, '['] + params + inters + [f] + u;
    var p := 2 + |params|;
    var q := p + |inters|;
    assert forall k :: 2 <= k < p ==> s[k] == params[k - 2];
    assert forall k :: p <= k < q ==> s[k] == inters[k - p];
    assert s[q] == f;
    assert forall k :: 2 <= k < p ==> IsParameter(s[k]);
    assert !IsParameter(s[p]) by {
      if |inters| > 0 { assert s[p] == inters[0]; } else { assert s[p] == f; }
    }
    assert SkipParameters(s, 2) == p;
    assert forall k :: p <= k < q ==> IsIntermediate(s[k]);
    assert !IsIntermediate(s[q]);
    assert SkipIntermediates(s, p) == q;
    assert EscapeLength(s) == Some(q + 1);
    assert s[q + 1..] == u;
  }

  /** Removal can bring an ESC next to a final byte, so a second pass removes more. */
  lemma AnsiNotIdempotent()
    ensures var s := [Esc, Esc, 'A', 'B'];
      StripAnsi(s) == [Esc, 'B'] && StripAnsi(StripAnsi(s)) == []
  {
    var s := [Esc, Esc, 'A', 'B'];
    assert EscapeLength(s).None?;
    assert s[1..] == [Esc, 'A'] + ['B'];
    AnsiRemovesFe('A', ['B']);
    assert StripAnsi(['B']) == ['B'];
    AnsiRemovesFe('B', []);
  }

  // ---------------------------------------------------------------------------
  // Fenced HCL in markdown
  // ---------------------------------------------------------------------------

  predicate OpensHcl(line: string) {
    IsPrefix("```hcl", Strip(line)) || IsPrefix("```terraform", Strip(line))
  }

  predicate ClosesFence(line: string) { Strip(line) == "```" }

  lemma FenceLines()
    ensures OpensHcl("```hcl") && !ClosesFence("```hcl")
    ensures ClosesFence("```") && !OpensHcl("```")
  {
    assert '`' !in Whitespace && 'l' !in Whitespace;
    assert Strip("```hcl") == "```hcl";
    assert Strip("```") == "```";
  }

  /** One line of the scan: the new fence flag and collected lines. */
  function HclStep(inBlock: bool, acc: seq<string>, line: string): (bool, seq<string>) {
    if OpensHcl(line) then (true, acc)
    else if ClosesFence(line) && inBlock then (false, acc)
    else if inBlock then (true, acc + [line])
    else (false, acc)
  }

  /** The fence flag and the collected lines after scanning `lines`. */
  function HclScan(lines: seq<string>): (bool, seq<string>)
    decreases |lines|
  {
    if lines == [] then (false, [])
    else
      var st := HclScan(lines[..|lines| - 1]);
      HclStep(st.0, st.1, lines[|lines| - 1])
  }

  function ExtractedHcl(content: string): string {
    if content == "" then "" else Join(HclScan(Split(content, '\n')).1, "\n")
  }

  /** `extract_hcl_from_markdown` */
  method ExtractHclFromMarkdown(content: string) returns (hcl: string)
    ensures hcl == ExtractedHcl(content)
  {
    if content == "" {
      return "";
    }
    var lines := Split(content, '\n');
    var collected: seq<string> := [];
    var inBlock := false;
    for i := 0 to |lines|
      invariant (inBlock, collected) == HclScan(lines[..i])
    {
      assert lines[..i + 1][..i] == lines[..i];
      var line := lines[i];
      assert HclScan(lines[..i + 1]) == HclStep(inBlock, collected, line);
      var stripped := Strip(line);
      if IsPrefix("```hcl", stripped) || IsPrefix("```terraform", stripped) {
        inBlock := true;
      } else if stripped == "```" && inBlock {
        inBlock := false;
      } else if inBlock {
        collected := collected + [line];
      }
    }
    assert lines[..|lines|] == lines;
    hcl := Join(collected, "\n");
  }

  /** Collected lines are input lines, never a fence line, and nothing is collected before a fence opens. */
  lemma {:induction false} HclScanSound(lines: seq<string>)
    ensures forall l :: l in HclScan(lines).1 ==> l in lines && !OpensHcl(l) && !ClosesFence(l)
    ensures (forall l :: l in lines ==> !OpensHcl(l)) ==> HclScan(lines) == (false, [])
    decreases |lines|
  {
    if lines != [] {
      var prefix := lines[..|lines| - 1];
      var last := lines[|lines| - 1];
      HclScanSound(prefix);
      var st := HclScan(prefix);
      assert HclScan(lines) == HclStep(st.0, st.1, last);
      HclStepSound(st.0, st.1, last);
      forall l | l in HclScan(lines).1
        ensures l in lines && !OpensHcl(l) && !ClosesFence(l)
      {
        if l in st.1 {
          assert l in prefix;
          var k :| 0 <= k < |prefix| && prefix[k] == l;
          assert lines[k] == l;
        }
      }
    }
  }

  /** A step collects at most its own line, and only a line that is no fence. */
  lemma HclStepSound(inBlock: bool, acc: seq<string>, line: string)
    ensures var st := HclStep(inBlock, acc, line);
      forall l :: l in st.1 ==> l in acc || (l == line && !OpensHcl(l) && !ClosesFence(l))
    ensures !inBlock && !OpensHcl(line) ==> HclStep(inBlock, acc, line) == (false, acc)
  {
  }

  /** Inside one `hcl` fence, every body line is collected in order. */
  lemma {:induction false} HclScanBody(body: seq<string>)
    requires forall k :: 0 <= k < |body| ==> !OpensHcl(body[k]) && !ClosesFence(body[k])
    ensures HclScan(["```hcl"] + body) == (true, body)
    decreases |body|
  {
    var lines := ["```hcl"] + body;
    if body == [] {
      FenceLines();
      assert lines[..0] == [];
      assert HclScan(lines) == HclStep(false, [], "```hcl");
    } else {
      var n := |body|;
      var prefix := body[..n - 1];
      HclScanBody(prefix);
      assert lines[..n] == ["```hcl"] + prefix;
      assert lines[n] == body[n - 1];
      assert prefix + [body[n - 1]] == body;
      assert HclScan(lines) == HclStep(true, prefix, body[n - 1]);
    }
  }

  /** A fenced block is extracted exactly. */
  lemma HclRoundTrip(body: seq<string>)
    requires forall k :: 0 <= k < |body| ==> '\n' !in body[k] && !OpensHcl(body[k]) && !ClosesFence(body[k])
    ensures ExtractedHcl(Join(["```hcl"] + body + ["```"], "\n")) == Join(body, "\n")
  {
    var lines := ["```hcl"] + body + ["```"];
    var content := Join(lines, "\n");
    assert Split(content, '\n') == lines by {
      forall k | 0 <= k < |lines|
        ensures '\n' !in lines[k]
      {
        if 0 < k < |lines| - 1 {
          assert lines[k] == body[k - 1];
        }
      }
      SplitJoin(lines, '\n');
    }
    assert content != "" by {
      JoinEnds(lines, "\n");
    }
    assert HclScan(lines) == (false, body) by {
      HclScanBody(body);
      FenceLines();
      assert lines[..|lines| - 1] == ["```hcl"] + body;
      assert HclScan(lines) == HclStep(true, body, "```");
    }
  }

  // ---------------------------------------------------------------------------
  // Validation errors
  // ---------------------------------------------------------------------------

  predicate IsErrorDiagnostic(d: Json) { Get(d, "severity") == Some(JStr("error")) }

  /** The message for one error diagnostic. */
  function DiagnosticMessage(d: Json): (m: string)
    ensures IsPrefix("Error: ", m)
  {
    var summary := Get(d, "summary").GetOr(JStr("Unknown error"));
    var detail := Get(d, "detail").GetOr(JStr(""));
    var range := Get(d, "range").GetOr(JObj([]));
    var start := Get(range, "start").GetOr(JObj([]));
    var m := "Error: " + Str(summary)
      + (if Truthy(detail) then "\nDetail: " + Str(detail) else "")
      + (if Truthy(range) then
           "\nLocation: " + Str(Get(range, "filename").GetOr(JStr("unknown")))
           + ":" + Str(Get(start, "line").GetOr(JStr("unknown")))
           + ":" + Str(Get(start, "column").GetOr(JStr("unknown")))
         else "");
    assert m[..7] == "Error: ";
    m
  }

  function DiagnosticMessages(ds: seq<Json>): seq<string>
    decreases |ds|
  {
    if ds == [] then []
    else
      var d := ds[|ds| - 1];
      DiagnosticMessages(ds[..|ds| - 1]) + (if IsErrorDiagnostic(d) then [DiagnosticMessage(d)] else [])
  }

  /** One message per error diagnostic, each starting with `Error: `, none otherwise. */
  lemma {:induction false} DiagnosticMessagesExact(ds: seq<Json>)
    ensures |DiagnosticMessages(ds)| <= |ds|
    ensures forall m :: m in DiagnosticMessages(ds) ==> IsPrefix("Error: ", m)
    ensures DiagnosticMessages(ds) == [] <==> forall d :: d in ds ==> !IsErrorDiagnostic(d)
    ensures forall d :: d in ds && IsErrorDiagnostic(d) ==> DiagnosticMessage(d) in DiagnosticMessages(ds)
    decreases |ds|
  {
    if ds != [] {
      var prefix := ds[..|ds| - 1];
      DiagnosticMessagesExact(prefix);
      assert ds == prefix + [ds[|ds| - 1]];
    }
  }

  function ErrorMessagesOf(result: Json): (r: seq<string>)
    ensures !result.JObj? ==> r == []
    ensures Get(result, "diagnostics").None? && Get(result, "error").Some? ==>
      r == ["Validation error: " + Str(Get(result, "error").value)]
  {
    if !result.JObj? then []
    else match Get(result, "diagnostics")
      case Some(ds) => if ds.JArr? then DiagnosticMessages(ds.items) else []
      case None =>
        match Get(result, "error")
        case Some(e) => ["Validation error: " + Str(e)]
        case None => []
  }

  /** `extract_error_messages` */
  method ExtractErrorMessages(result: Json) returns (messages: seq<string>)
    ensures messages == ErrorMessagesOf(result)
  {
    messages := [];
    if !result.JObj? {
      return;
    }
    var diagnostics := Get(result, "diagnostics");
    if diagnostics.Some? {
      if diagnostics.value.JArr? {
        var ds := diagnostics.value.items;
        for i := 0 to |ds|
          invariant messages == DiagnosticMessages(ds[..i])
        {
          assert ds[..i + 1][..i] == ds[..i];
          if Get(ds[i], "severity") == Some(JStr("error")) {
            messages := messages + [DiagnosticMessage(ds[i])];
          }
        }
        assert ds[..|ds|] == ds;
      }
    } else {
      var error := Get(result, "error");
      if error.Some? {
        messages := messages + ["Validation error: " + Str(error.value)];
      }
    }
  }

  // ---------------------------------------------------------------------------
  // Resource type normalisation
  // ---------------------------------------------------------------------------

  /** `normalize_resource_type`: lower-case, drop every `azurerm_`, `_` to `-`. */
  function NormalizeResourceType(resourceType: string): (r: string)
    ensures '_' !in r
    ensures forall i :: 0 <= i < |r| ==> !IsUpper(r[i])
  {
    var lowered := Lower(resourceType);
    var dropped := Replace(lowered, "azurerm_", "");
    ReplaceChars(lowered, "azurerm_", "");
    assert forall c :: c in lowered ==> !IsUpper(c);
    assert forall c :: c in dropped ==> !IsUpper(c);
    var r := ReplaceChar(dropped, '_', '-');
    assert forall i :: 0 <= i < |r| ==> dropped[i] in dropped;
    assert forall i :: 0 <= i < |r| ==> r[i] == dropped[i] || r[i] == '-';
    r
  }

  lemma NormalizeResourceTypeIdempotent(resourceType: string)
    ensures NormalizeResourceType(NormalizeResourceType(resourceType)) == NormalizeResourceType(resourceType)
  {
    var r := NormalizeResourceType(resourceType);
    assert Lower(r) == r;
    assert "azurerm_"[7] == '_';
    assert !Contains(r, "azurerm_") by {
      if Contains(r, "azurerm_") {
        ContainsChars(r, "azurerm_");
      }
    }
    assert ReplaceChar(r, '_', '-') == r;
  }

  // ---------------------------------------------------------------------------
  // Azure name validation
  // ---------------------------------------------------------------------------

  datatype CharClass = NameChars | StorageChars | KeyVaultChars

  predicate InClass(c: char, cls: CharClass) {
    match cls
    case NameChars => IsAlnum(c) || c == '-' || c == '_'
    case StorageChars => IsLower(c) || IsDigit(c)
    case KeyVaultChars => IsAlnum(c) || c == '-'
  }

  predicate AllInClass(s: string, cls: CharClass) {
    forall i :: 0 <= i < |s| ==> InClass(s[i], cls)
  }

  /**
   * `re.match(r'^[...]+$', s)`: in Python `$` also matches just before a final newline,
   * so one trailing `\n` is accepted.
   */
  predicate ReMatchesAll(s: string, cls: CharClass) {
    (|s| >= 1 && AllInClass(s, cls))
    || (|s| >= 2 && s[|s| - 1] == '\n' && AllInClass(s[..|s| - 1], cls))
  }

  /** A whole-string match, with no newline allowance. */
  predicate FullMatches(s: string, cls: CharClass) {
    |s| >= 1 && AllInClass(s, cls)
  }

  const EmptyNameError := "Resource name cannot be empty"

  predicate Matches(s: string, cls: CharClass, strict: bool) {
    if strict then FullMatches(s, cls) else ReMatchesAll(s, cls)
  }

  /** The rules of `validate_azure_name`; `strict` selects whole-string matching. */
  function NameErrors(name: string, resourceType: string, strict: bool): seq<string> {
    if name == "" then [EmptyNameError]
    else
      (if |name| > 80 then ["Resource name cannot exceed 80 characters"] else [])
      + (if !Matches(name, NameChars, strict) then ["Resource name can only contain letters, numbers, hyphens, and underscores"] else [])
      + (if resourceType == "storage_account" || resourceType == "azurerm_storage_account" then
           (if |name| > 24 then ["Storage account name cannot exceed 24 characters"] else [])
           + (if !Matches(name, StorageChars, strict) then ["Storage account name can only contain lowercase letters and numbers"] else [])
         else if resourceType == "key_vault" || resourceType == "azurerm_key_vault" then
           (if |name| > 24 then ["Key Vault name cannot exceed 24 characters"] else [])
           + (if !Matches(name, KeyVaultChars, strict) then ["Key Vault name can only contain letters, numbers, and hyphens"] else [])
         else [])
  }

  /** `validate_azure_name` as written, with Python's `$`. */
  function ValidateAzureNameAsWritten(name: string, resourceType: string): (errors: seq<string>)
    ensures name == "" ==> errors == [EmptyNameError]
  {
    NameErrors(name, resourceType, false)
  }

  /** The as-written check accepts a name with a trailing newline. */
  lemma TrailingNewlineAccepted()
    ensures ValidateAzureNameAsWritten("web\n", "resource_group") == []
    ensures ValidateAzureNameAsWritten("data\n", "storage_account") == []
  {
    assert "web\n"[..3] == "web";
    assert "data\n"[..4] == "data";
  }

  /** `validate_azure_name` with whole-string matching. */
  function ValidateAzureName(name: string, resourceType: string): (errors: seq<string>)
    ensures name == "" ==> errors == [EmptyNameError]
  {
    NameErrors(name, resourceType, true)
  }

  /**
   * A name passes iff it has 1 to 80 name characters and, for a storage account or a
   * Key Vault, at most 24 characters of that kind's class.
   */
  lemma ValidNames(name: string, resourceType: string)
    ensures ValidateAzureName(name, resourceType) == [] <==>
      (1 <= |name| <= 80 && AllInClass(name, NameChars)
       && ((resourceType == "storage_account" || resourceType == "azurerm_storage_account") ==>
             |name| <= 24 && AllInClass(name, StorageChars))
       && ((resourceType == "key_vault" || resourceType == "azurerm_key_vault") ==>
             |name| <= 24 && AllInClass(name, KeyVaultChars)))
  {
  }

  lemma MatchesAgree(s: string, cls: CharClass)
    requires '\n' !in s
    ensures Matches(s, cls, true) == Matches(s, cls, false)
  {
    if |s| >= 2 {
      assert s[|s| - 1] in s;
    }
  }

  /** On names without a newline the two checks agree. */
  lemma ValidationAgreesWithoutNewline(name: string, resourceType: string)
    requires '\n' !in name
    ensures ValidateAzureName(name, resourceType) == ValidateAzureNameAsWritten(name, resourceType)
  {
    MatchesAgree(name, NameChars);
    MatchesAgree(name, StorageChars);
    MatchesAgree(name, KeyVaultChars);
  }

  // ---------------------------------------------------------------------------
  // Terraform block rendering
  // ---------------------------------------------------------------------------

  function Repeat(s: string, n: nat): (r: string)
    ensures |r| == n * |s|
  {
    if n == 0 then "" else s + Repeat(s, n - 1)
  }

  function Quote(s: string): string { "\"" + s + "\"" }

  predicate AllStrings(items: seq<Json>) {
    forall k :: 0 <= k < |items| ==> items[k].JStr?
  }

  /** The lines of one attribute of `format_terraform_block`. */
  function AttributeLines(indent: string, key: string, value: Json): (lines: seq<string>)
    ensures |lines| >= 1 && IsPrefix(indent + "  " + key + " = ", lines[0])
    ensures !value.JObj? ==> |lines| == 1
    ensures value.JBool? ==> lines == [indent + "  " + key + " = " + (if value.b then "true" else "false")]
  {
    var head := indent + "  " + key + " = ";
    var lines := match value
      case JStr(s) => [head + Quote(s)]
      case JBool(b) => [head + (if b then "true" else "false")]
      case JInt(i) => [head + IntToString(i)]
      case JArr(items) =>
        if AllStrings(items) then
          [head + "[" + Join(seq(|items|, k requires 0 <= k < |items| => Quote(items[k].s)), ", ") + "]"]
        else [head + Repr(value)]
      case JObj(fields) =>
        [head + "{"]
        + seq(|fields|, k requires 0 <= k < |fields| =>
            indent + "    " + fields[k].0 + " = " + (if fields[k].1.JStr? then Quote(fields[k].1.s) else Str(fields[k].1)))
        + [indent + "  }"]
      case JNull => [head + "None"];
    assert lines[0][..|head|] == head;
    lines
  }

  function AttributesLines(indent: string, attributes: seq<(string, Json)>): seq<string>
    decreases |attributes|
  {
    if attributes == [] then []
    else
      var (key, value) := attributes[|attributes| - 1];
      AttributesLines(indent, attributes[..|attributes| - 1]) + AttributeLines(indent, key, value)
  }

  lemma AttributesLinesStep(indent: string, attributes: seq<(string, Json)>, i: nat)
    requires i < |attributes|
    ensures AttributesLines(indent, attributes[..i + 1])
      == AttributesLines(indent, attributes[..i]) + AttributeLines(indent, attributes[i].0, attributes[i].1)
  {
    assert attributes[..i + 1][..i] == attributes[..i];
  }

  function BlockHeader(indent: string, resourceType: string, resourceName: string): string {
    indent + "resource " + Quote(resourceType) + " " + Quote(resourceName) + " {"
  }

  function BlockLines(resourceType: string, resourceName: string, attributes: seq<(string, Json)>, indent: nat): seq<string> {
    var pad := Repeat("  ", indent);
    [BlockHeader(pad, resourceType, resourceName)] + AttributesLines(pad, attributes) + [pad + "}"]
  }

  /** The block opens with its header and closes with `}`, both at the indent. */
  lemma BlockShape(resourceType: string, resourceName: string, attributes: seq<(string, Json)>, indent: nat)
    ensures var text := Join(BlockLines(resourceType, resourceName, attributes, indent), "\n");
      var pad := Repeat("  ", indent);
      IsPrefix(BlockHeader(pad, resourceType, resourceName), text) && IsSuffix(pad + "}", text)
  {
    var pad := Repeat("  ", indent);
    var lines := BlockLines(resourceType, resourceName, attributes, indent);
    JoinEnds(lines, "\n");
  }

  /** A join starts with its first part and ends with its last. */
  lemma {:induction false} JoinEnds(parts: seq<string>, sep: string)
    requires |parts| >= 1
    ensures IsPrefix(parts[0], Join(parts, sep)) && IsSuffix(parts[|parts| - 1], Join(parts, sep))
  {
    if |parts| > 1 {
      JoinEnds(parts[1..], sep);
      var rest := Join(parts[1..], sep);
      assert Join(parts, sep) == parts[0] + sep + rest;
      assert (parts[0] + sep + rest)[..|parts[0]|] == parts[0];
      assert (parts[0] + sep + rest)[|parts[0] + sep + rest| - |parts[|parts| - 1]|..]
          == rest[|rest| - |parts[|parts| - 1]|..];
    }
  }

  /** `format_terraform_block` */
  method FormatTerraformBlock(resourceType: string, resourceName: string, attributes: seq<(string, Json)>, indent: nat)
    returns (text: string)
    ensures text == Join(BlockLines(resourceType, resourceName, attributes, indent), "\n")
  {
    var pad := Repeat("  ", indent);
    var body: seq<string> := [];
    for i := 0 to |attributes|
      invariant body == AttributesLines(pad, attributes[..i])
    {
      AttributesLinesStep(pad, attributes, i);
      body := body + AttributeLines(pad, attributes[i].0, attributes[i].1);
    }
    assert attributes[..|attributes|] == attributes;
    text := Join([BlockHeader(pad, resourceType, resourceName)] + body + [pad + "}"], "\n");
  }

  // ---------------------------------------------------------------------------
  // variables.tf and outputs.tf
  // ---------------------------------------------------------------------------

  datatype ValidationRule = ValidationRule(condition: Json, errorMessage: Json)

  datatype VariableConfig = VariableConfig(
    description: Option<Json>,
    vtype: Option<Json>,
    default: Option<Json>,
    validation: Option<seq<ValidationRule>>)

  function RuleLines(rules: seq<ValidationRule>): (lines: seq<string>)
    ensures |lines| == 2 * |rules|
    decreases |rules|
  {
    if rules == [] then []
    else
      var r := rules[|rules| - 1];
      RuleLines(rules[..|rules| - 1])
      + ["    condition     = " + Str(r.condition), "    error_message = " + Quote(Str(r.errorMessage))]
  }

  function DefaultLine(d: Json): string {
    if d.JStr? then "  default     = " + Quote(d.s) else "  default     = " + Str(d)
  }

  function Count(present: bool): nat { if present then 1 else 0 }

  /** One `variable` block followed by a blank line. */
  function VariableLines(name: string, c: VariableConfig): (lines: seq<string>)
    ensures |lines| >= 3 && lines[|lines| - 2..] == ["}", ""]
    ensures lines[0] == "variable " + Quote(name) + " {"
    ensures |lines| == 3 + Count(c.description.Some?) + Count(c.vtype.Some?) + Count(c.default.Some?)
      + (if c.validation.Some? then 2 + 2 * |c.validation.value| else 0)
  {
    ["variable " + Quote(name) + " {"]
    + (match c.description case Some(d) => ["  description = " + Quote(Str(d))] case None => [])
    + (match c.vtype case Some(t) => ["  type        = " + Str(t)] case None => [])
    + (match c.default case Some(d) => [DefaultLine(d)] case None => [])
    + (match c.validation case Some(rules) => ["  validation {"] + RuleLines(rules) + ["  }"] case None => [])
    + ["}", ""]
  }

  function VariablesLines(variables: seq<(string, VariableConfig)>): seq<string>
    decreases |variables|
  {
    if variables == [] then []
    else
      var (name, c) := variables[|variables| - 1];
      VariablesLines(variables[..|variables| - 1]) + VariableLines(name, c)
  }

  /** `generate_terraform_variables` */
  method GenerateTerraformVariables(variables: seq<(string, VariableConfig)>) returns (text: string)
    ensures text == Join(VariablesLines(variables), "\n")
  {
    var lines := [];
    for i := 0 to |variables|
      invariant lines == VariablesLines(variables[..i])
    {
      assert variables[..i + 1][..i] == variables[..i];
      var (name, c) := variables[i];
      lines := lines + VariableLines(name, c);
    }
    assert variables[..|variables|] == variables;
    text := Join(lines, "\n");
  }

  datatype OutputConfig = OutputConfig(description: Option<Json>, value: Option<Json>, sensitive: Option<Json>)

  /** One `output` block followed by a blank line. */
  function OutputLines(name: string, c: OutputConfig): (lines: seq<string>)
    ensures |lines| >= 3 && lines[|lines| - 2..] == ["}", ""]
    ensures lines[0] == "output " + Quote(name) + " {"
    ensures |lines| == 3 + Count(c.description.Some?) + Count(c.value.Some?) + Count(c.sensitive.Some?)
  {
    ["output " + Quote(name) + " {"]
    + (match c.description case Some(d) => ["  description = " + Quote(Str(d))] case None => [])
    + (match c.value case Some(v) => ["  value       = " + Str(v)] case None => [])
    + (match c.sensitive case Some(s) => ["  sensitive   = " + Lower(Str(s))] case None => [])
    + ["}", ""]
  }

  function OutputsLines(outputs: seq<(string, OutputConfig)>): seq<string>
    decreases |outputs|
  {
    if outputs == [] then []
    else
      var (name, c) := outputs[|outputs| - 1];
      OutputsLines(outputs[..|outputs| - 1]) + OutputLines(name, c)
  }

  /** Each block contributes at least three lines, so the rendering has at least 3 lines per entry. */
  lemma {:induction false} RenderedLineCounts(variables: seq<(string, VariableConfig)>, outputs: seq<(string, OutputConfig)>)
    ensures |VariablesLines(variables)| >= 3 * |variables|
    ensures |OutputsLines(outputs)| >= 3 * |outputs|
    decreases |variables| + |outputs|
  {
    if variables != [] {
      RenderedLineCounts(variables[..|variables| - 1], outputs);
    } else if outputs != [] {
      RenderedLineCounts(variables, outputs[..|outputs| - 1]);
    }
  }

  /** `generate_terraform_outputs` */
  method GenerateTerraformOutputs(outputs: seq<(string, OutputConfig)>) returns (text: string)
    ensures text == Join(OutputsLines(outputs), "\n")
  {
    var lines := [];
    for i := 0 to |outputs|
      invariant lines == OutputsLines(outputs[..i])
    {
      assert outputs[..i + 1][..i] == outputs[..i];
      var (name, c) := outputs[i];
      lines := lines + OutputLines(name, c);
    }
    assert outputs[..|outputs|] == outputs;
    text := Join(lines, "\n");
  }

  // ---------------------------------------------------------------------------
  // Safe file names
  // ---------------------------------------------------------------------------

  const UnsafeChars: set<char> := {'<', '>', ':', '"', '/', '\\', '|', '?', '*'}

  function ReplaceUnsafe(s: string): (r: string)
    ensures |r| == |s| && forall i :: 0 <= i < |r| ==> r[i] !in UnsafeChars
    ensures (forall i :: 0 <= i < |s| ==> s[i] !in UnsafeChars) ==> r == s
  {
    seq(|s|, i requires 0 <= i < |s| => if s[i] in UnsafeChars then '_' else s[i])
  }

  /** `safe_filename` */
  function SafeFilename(filename: string): (r: string)
    ensures r != ""
    ensures forall i :: 0 <= i < |r| ==> r[i] !in UnsafeChars
    ensures r[|r| - 1] != '.' && r[|r| - 1] != ' '
  {
    var s := StripRight(ReplaceUnsafe(filename), {'.', ' '});
    if s == "" then "unnamed" else s
  }

  lemma SafeFilenameIdempotent(filename: string)
    ensures SafeFilename(SafeFilename(filename)) == SafeFilename(filename)
  {
  }
}

=== FILE: wrappers.dfy ===
/** Option and Result: the absent value and the error return of the modelled code. */
module Wrappers {

  datatype Option<+T> = None | Some(value: T) {
    function GetOr(default: T): T {
      match this
      case Some(v) => v
      case None => default
    }
  }

  datatype Result<+T, +E> = Ok(value: T) | Err(error: E)
}
